=== FILE: README.md ===
# ac-examples samples, modelled in Dafny

This project models the CPU-side logic of three samples of the ac graphics
library: the glTF 2.0 viewer with physically based shading (`05_pbr`), the
textured OBJ model viewer (`02_model`) and the spinning cube (`01_cube`).
GPU work is not computed. What the samples record or upload is modelled
as data: a sequence of commands, the bytes of a mapped buffer, or the
records of a uniform block. The glTF viewer's vertex and index upload is
the exception: the loader's arrays are modelled, but the model does not
keep what is copied from them into the device buffers.

The modules follow the program's structure:

- `Wrappers`, `Ac`: the optional value that stands for a nullable pointer.
  Also the ac result codes, and the "return on the first failure" pattern
  behind `AC_RIF`/`RIF`.
- `LinAlg`, `Bounds`: vectors over reals, 4x4 matrices as formal products
  of elementary factors, and `BoundingBox::get_aabb`.
- `Document`: the decoded glTF 2.0 document the loader reads.
- `Scene`: nodes in an arena, with local and world matrices, the skinning
  update of `Node::update`, and `find_node`/`node_from_index`.
- `Loading`, `ModelClass`:
  - `Model::load_node` with its staging cursors and mesh slots;
  - the `get_node_props` pre-pass;
  - `load_from_file`.
  These are methods of a `Model` class, proved against the functional
  specification in `Loading`.
- `Textures`, `Materials`, `Skins`, `Animations`, `SceneBounds`:
  - the sampler tables;
  - the RGB to RGBA expansion;
  - `load_materials` and `load_skins`;
  - `load_animations` and `update_animation`;
  - `calculate_bounding_box` and `get_scene_dimensions`.
- `Render`: the material buffer packing, the image descriptor table, the
  looping animation timer, and the command recording of `stage_cmd` and
  `render_node` in `05_pbr/main.cpp`: the setup commands, then three
  passes whose every draw binds its pipeline and sets and pushes its
  constants before it is issued. The recorded draws push each material's `index`
  field, as the source does; the intended frame, which pushes each
  material's position in the material buffer, is modelled beside it and
  related to it (see Findings).
- `Staging`, `Ibl`:
  - the row-pitch staging copy;
  - the image-based-lighting precompute: its mip schedule and descriptor
    sets, and the command stream it records, checked against an
    image-layout state machine.
- `ObjModel`: `load_model`'s vertex deduplication, `hash_combine`, and
  `create_texture`.
- `Cube`: the fill of the per-frame `ShaderData` buffers, the per-frame
  matrix write, and the draw.

Floats are reals throughout. Integer widths are written out where the
source relies on them: `uint32_t` index rebasing and `size_t` hashing.

## Model

| member | source | states |
|---|---|---|
| Scene.Path | 05_pbr/model.cpp:236-247 | the chain of ancestors get_matrix walks: it ends at the node, starts at a node without parent, and each element is the parent of the next |
| Scene.WorldIsPathProduct | 05_pbr/model.cpp:230-247 | a node's world matrix is the product of the local matrices T·R·S·matrix of every node on the path from its root down to it, root first |
| Scene.GetMatrix | 05_pbr/model.cpp:236-247 | the parent-walking loop returns exactly the world matrix of the node |
| Scene.PreOrder | 05_pbr/model.cpp:1604-1624 | a subtree's pre-order starts at its root and holds only nodes of the arena with larger positions |
| Scene.Forest | 05_pbr/model.cpp:1626-1641 | the concatenated pre-orders of a list of subtrees hold only arena nodes after the parent |
| Scene.ForestSnoc | 05_pbr/model.cpp:1630-1638 | one more root appends its own subtree's pre-order to the forest's |
| Scene.ToU32 | 05_pbr/model.cpp:729-738 | the int-to-uint32_t conversion at the call sites of node_from_index: below 2^32, and the identity on values already in range |
| Scene.FirstWithIndexAppend | 05_pbr/model.cpp:1613-1620 | searching a concatenation finds the first part's match if it has one, otherwise the second part's |
| Scene.FirstWithIndexNone | 05_pbr/model.cpp:1613-1620 | the search finds nothing exactly when no node in the list carries the glTF index, and a found node is in the list |
| Scene.FindNode | 05_pbr/model.cpp:1604-1624 | a node find_node returns exists and carries the requested glTF index |
| Scene.FindIn | 05_pbr/model.cpp:1613-1620 | the loop over the children returns only a node that carries the requested index |
| Scene.NodeFromIndex | 05_pbr/model.cpp:1626-1641 | a node node_from_index returns exists and carries the requested index |
| Scene.FindNodeIsPreOrderSearch | 05_pbr/model.cpp:1604-1624 | find_node returns the first node of the subtree's pre-order with that index: a pre-order depth-first search |
| Scene.FindInIsPreOrderSearch | 05_pbr/model.cpp:1613-1620 | the loop over the children is the first match in the children's concatenated pre-orders |
| Scene.NodeFromIndexComplete | 05_pbr/model.cpp:1626-1641 | node_from_index is the first match in the roots' pre-order, and returns null exactly when no reachable node has the index |
| Scene.NumJoints | 05_pbr/model.cpp:260-261 | the joint count is min(number of joints, MAX_NUM_JOINTS = 128): at most both, equal to one of them |
| Scene.JointsUpTo | 05_pbr/model.cpp:262-269 | after k iterations joint slots 0..k-1 hold the joint matrices and slots k..127 their previous contents |
| Scene.WriteNode | 05_pbr/model.cpp:252-276 | one node's update keeps the number and the shape of the uniform blocks |
| Scene.WriteAll | 05_pbr/model.cpp:278-281 | updating a sequence of nodes keeps the number and the shape of the uniform blocks |
| Scene.WriteAllAppend | 05_pbr/model.cpp:278-281 | updating a concatenation is updating the first part and then the second |
| Scene.WriteNodeSkinned | 05_pbr/model.cpp:256-271 | a skinned mesh node writes the world matrix, joint slots 0..n-1 with inverse(world)·world(joint)·inverse_bind[i], joint_count = n = min(joints, 128); slots ≥ n and every other block are untouched |
| Scene.WriteNodeUnskinned | 05_pbr/model.cpp:252-276 | an unskinned mesh node writes only the matrix of its block; a mesh-less node writes nothing |
| Scene.WriteAllFrame | 05_pbr/model.cpp:249-282 | a block that no updated node owns is unchanged |
| Scene.WriteAllOwnSlot | 05_pbr/model.cpp:249-282 | with distinct mesh slots, a mesh node's block ends as that node's own update leaves it |
| Scene.WriteSkinned | 05_pbr/model.cpp:256-271 | the skinned branch's loop leaves in the node's block the world matrix, the first n joint matrices, the old remaining slots and the joint count n, and no other block changes |
| Scene.Update | 05_pbr/model.cpp:249-282 | Node::update leaves the blocks as the node-by-node updates of its subtree in pre-order |
| Scene.UpdateRoots | 05_pbr/model.cpp:1595-1600 | updating each root in turn leaves the blocks as the updates of the whole forest in pre-order |
| Scene.SameShapeSceneOk | 05_pbr/model.cpp:1557-1587 | changing only translations, rotations and scales keeps the tree, the mesh slots and the skins that update relies on |
| Scene.SameShapeValid | 05_pbr/model.cpp:1557-1587 | changing only transforms keeps the node arena a forest |
| LinAlg.Mul | 05_pbr/model.cpp:230-234 | a product of matrices written as the sequence of its factors: the factors of both operands, in order |
| LinAlg.Mix | 05_pbr/model.cpp:1561-1562 | glm::mix returns x at weight 0, y at weight 1, and x when both ends agree |
| LinAlg.Min | 05_pbr/model.cpp:23 | the smaller of two floats: below both and equal to one of them |
| LinAlg.Max | 05_pbr/model.cpp:24 | the larger of two floats: above both and equal to one of them |
| LinAlg.MinV | 05_pbr/model.cpp:1506 | glm::min on vec3 lies componentwise below both arguments |
| LinAlg.MaxV | 05_pbr/model.cpp:1507 | glm::max on vec3 lies componentwise above both arguments |
| Bounds.MakeBox | 05_pbr/model.cpp:9-11 | the two-argument BoundingBox constructor stores both corners and leaves valid false |
| Bounds.GetAabb | 05_pbr/model.cpp:14-39 | get_aabb returns an invalid box whose minimum lies componentwise below its maximum |
| Bounds.GetAabbIdentity | 05_pbr/model.cpp:14-39 | under the identity matrix an ordered box keeps its corners |
| Bounds.GetAabbTranslation | 05_pbr/model.cpp:14-39 | under a pure translation both corners move by the translation column |
| Bounds.ScaledBetween | 05_pbr/model.cpp:20-24 | scaling a coordinate between lo and hi by any factor lands between the two scaled ends |
| Bounds.BetweenInside | 05_pbr/model.cpp:23-24 | a point between two vectors on every axis lies in the box of their componentwise min and max |
| Bounds.ScaledBetweenX | 05_pbr/model.cpp:20-24 | the x column scaled by a point's coordinate lies between the column scaled by the box's two ends |
| Bounds.ScaledBetweenY | 05_pbr/model.cpp:26-30 | the same for the up column |
| Bounds.ScaledBetweenZ | 05_pbr/model.cpp:32-36 | the same for the back column |
| Bounds.AxisBetween | 05_pbr/model.cpp:20-36 | one axis' contribution to the transformed point lies within that axis' min and max terms |
| Bounds.AddInside | 05_pbr/model.cpp:23-36 | adding points of two boxes gives a point of the box of the added corners |
| Bounds.GetAabbContains | 05_pbr/model.cpp:14-39 | get_aabb is conservative: the image under m of every point of the box lies in the returned box |
| SceneBounds.NodeBoxes | 05_pbr/model.cpp:1466-1480 | calculate_bounding_box changes nothing of a node but its aabb and bvh |
| SceneBounds.NodeBoxesIdempotent | 05_pbr/model.cpp:1466-1480 | boxing a node twice against its matrix is boxing it once |
| SceneBounds.NodeBoxesBvh | 05_pbr/model.cpp:1466-1480 | a childless node with a valid mesh box gets a valid bvh holding the image of every mesh-box point; a node with children keeps its bvh; a node without a valid mesh box is unchanged |
| SceneBounds.DimensionsOfBounds | 05_pbr/model.cpp:1495-1510 | the folded extent contains the starting extent and every valid bvh, and is the starting extent when no bvh is valid |
| SceneBounds.SceneAabb | 05_pbr/model.cpp:1512-1521 | the scene aabb matrix maps (0,0,0) to the extent's minimum and (1,1,1) to its maximum |
| SceneBounds.FoldDimensions | 05_pbr/model.cpp:1503-1510 | the loop over the linear nodes computes the extent fold of their valid bvhs |
| SceneBounds.OnlyBoxesTrans | 05_pbr/model.cpp:1466-1486 | arenas that differ only in boxes, composed, differ only in boxes |
| SceneBounds.OnlyBoxesWorld | 05_pbr/model.cpp:1466-1486 | changing only boxes keeps the forest and every world matrix |
| SceneBounds.BoxedStable | 05_pbr/model.cpp:1466-1480 | boxing a node of a partly boxed arena gives the same box as against the original arena |
| SceneBounds.CalcBoxF | 05_pbr/model.cpp:1463-1487 | calculate_bounding_box changes only boxes and keeps the arena a forest |
| SceneBounds.CalcBoxUnfold | 05_pbr/model.cpp:1463-1487 | it boxes the node, then works through its children with the node still their parent |
| SceneBounds.CalcKidsStep | 05_pbr/model.cpp:1483-1486 | the children loop boxes the first child's subtree, then the rest |
| SceneBounds.CalcKidsF | 05_pbr/model.cpp:1483-1486 | the children loop changes only boxes and keeps the forest |
| SceneBounds.BoxAllF | 05_pbr/model.cpp:1494-1498 | the pass over the linear nodes changes only boxes and keeps the forest |
| SceneBounds.CalcBoxEffect | 05_pbr/model.cpp:1463-1487 | the node ends boxed against its own world matrix, and every node ends either untouched or boxed against its own world matrix |
| SceneBounds.CalcKidsEffect | 05_pbr/model.cpp:1483-1486 | after the children loop every node is untouched or boxed against its own world matrix |
| SceneBounds.BoxAllEffect | 05_pbr/model.cpp:1494-1498 | after the pass every linear node is boxed against its world matrix, and every other node is untouched or boxed the same way |
| Document.PrimitiveCounts | 05_pbr/model.cpp:702-715 | the vertex and index totals of a mesh's primitives count no mesh node of their own |
| Document.ForestCountsStep | 05_pbr/model.cpp:691-701 | the totals of a list of subtrees are the first subtree's totals plus the rest's |
| Animations.Decimal | 05_pbr/model.cpp:1010 | std::to_string of a count is a non-empty digit string |
| Animations.DigitCharValue | 05_pbr/model.cpp:1010 | each digit character reads back as its digit |
| Animations.DecimalRoundTrip | 05_pbr/model.cpp:1008-1011 | the name given to an unnamed animation is all digits and reads back as the number of animations before it |
| Animations.OutputsOf | 05_pbr/model.cpp:1074-1099 | VEC3 outputs become vec4 with w = 0 element by element, VEC4 outputs are kept, other accessor types give no outputs |
| Animations.FoldMinBound | 05_pbr/model.cpp:1049-1054 | the running start is at most its initial value and every input, and is one of them |
| Animations.FoldMaxBound | 05_pbr/model.cpp:1055-1058 | the running end is at least its initial value and every input, and is one of them |
| Animations.FoldRange | 05_pbr/model.cpp:1049-1059 | the loop over one sampler's inputs computes both folds at once |
| Animations.ChannelsFromDoc | 05_pbr/model.cpp:1106-1135 | the channel loop keeps at most as many channels as the glTF animation has |
| Animations.ChannelsFromDocSound | 05_pbr/model.cpp:1106-1135 | every kept channel comes from a non-"weights" glTF channel, targets the node node_from_index finds for its target and keeps its sampler index |
| Animations.ChannelsFromDocAllKept | 05_pbr/model.cpp:1122-1132 | when no channel is "weights" and every target node is found, every channel is kept |
| Animations.WeightsDropped | 05_pbr/model.cpp:1122-1132 | a "weights" channel is always skipped, and any other channel whose target is found is kept |
| Animations.RangeOfBounds | 05_pbr/model.cpp:1014-1060 | over all samplers, start ends at most its initial value, end at least its own, and every input lies in [start, end] |
| Animations.AnimationFromDocRange | 05_pbr/model.cpp:1004-1137 | one loaded animation: start ≤ FLT_MAX and end ≥ FLT_MIN > 0, every input in [start, end], one sampler per glTF sampler, named by its position when unnamed and by its own name otherwise |
| Animations.AnimationsFromDoc | 05_pbr/model.cpp:1004-1138 | load_animations appends one animation per glTF animation |
| Animations.AnimationsFromDocSnoc | 05_pbr/model.cpp:1137 | pushing the next animation extends the appended list by the animation for the next glTF animation |
| Animations.AnimationsFromDocLast | 05_pbr/model.cpp:1137 | the list for one more glTF animation ends with that animation, loaded at its position |
| Animations.AnimationsFromDocAt | 05_pbr/model.cpp:1004-1138 | the k-th appended animation is the k-th glTF animation loaded at position base + k |
| Animations.LoadChannels | 05_pbr/model.cpp:1106-1135 | the channel loop produces exactly the kept channels |
| Animations.LoadAnimation | 05_pbr/model.cpp:1006-1135 | the loop body for one glTF animation produces its loaded animation |
| Animations.FiresU | 05_pbr/model.cpp:1550-1555 | a bracket of positive width containing t fires; a firing bracket has u in [0, 1], 0 at its start and 1 at its end |
| Animations.DivUnit | 05_pbr/model.cpp:1552-1553 | the interpolation factor of a point inside a bracket is in [0, 1] |
| Animations.LastFired | 05_pbr/model.cpp:1548-1591 | the bracket whose write survives is one that fires and no later bracket fires; none is found only when no bracket fires |
| Animations.Animated | 05_pbr/model.cpp:1557-1588 | interpolating changes only the node's transform, never its parent, children, mesh or skin |
| Animations.ApplyChannel | 05_pbr/model.cpp:1540-1592 | one channel changes only transforms, and changes nothing when no bracket fires |
| Animations.ApplyChannels | 05_pbr/model.cpp:1540-1593 | the channels in order change only transforms, and nothing when none fires |
| Animations.AtKeyframe | 05_pbr/model.cpp:1548-1591 | with increasing inputs, at keyframe i with a later keyframe the surviving bracket is i, with u = 0 |
| Animations.AtLastKeyframe | 05_pbr/model.cpp:1548-1591 | at the last keyframe the surviving bracket is the last one, with u = 1 |
| Animations.OutsideRange | 05_pbr/model.cpp:1550 | before the first or after the last keyframe no bracket fires: no wrap-around |
| Animations.TranslationAtKeyframe | 05_pbr/model.cpp:1559-1565 | a translation channel at keyframe time i sets the translation to exactly output i and counts as an update |
| Animations.NoChangeOutside | 05_pbr/model.cpp:1548-1592 | outside the keyframes a channel changes nothing and does not count as an update |
| Animations.LastFiredSkips | 05_pbr/model.cpp:1548-1550 | with increasing inputs, brackets from lo on do not fire before inputs[lo] |
| Animations.EvaluateChannel | 05_pbr/model.cpp:1548-1592 | the bracket loop for one channel computes the channel's effect and whether it fired |
| Animations.AnimateScene | 05_pbr/model.cpp:1525-1602 | update_animation keeps the tree, mesh slots and skins, and the number and shape of the uniform blocks |
| Animations.ApplyChannelsIdle | 05_pbr/model.cpp:1540-1593 | at a time outside every used sampler's keyframes, no channel changes anything |
| Animations.AnimateOutsideIsIdle | 05_pbr/model.cpp:1525-1602 | at such a time update_animation changes neither the nodes nor the uniform blocks |
| Materials.U8 | 05_pbr/model.cpp:859-860 | assigning an int texture index to a uint8_t slot reduces it modulo 256: below 256, the identity in range, congruent to the index |
| Materials.OverlayComponents | 05_pbr/model.cpp:969-990 | the factor loop leaves the vector overlaid by the factor array |
| Materials.OverlayComponentsExact | 05_pbr/model.cpp:972-978 | the overlay replaces exactly the first \|factor\| components and keeps the rest and the length |
| Materials.LoadPbrValues | 05_pbr/model.cpp:855-883 | the metallic-roughness block of the loop body computes its part of the loaded material |
| Materials.LoadAdditionalValues | 05_pbr/model.cpp:884-935 | the additional-values block computes its part of the loaded material |
| Materials.LoadExtensions | 05_pbr/model.cpp:937-991 | the extensions block computes its part of the loaded material |
| Materials.LoadMaterial | 05_pbr/model.cpp:853-993 | the loop body for one glTF material computes its loaded material |
| Materials.MaterialOfTextures | 05_pbr/model.cpp:855-993 | a loaded material has its position as index, a texture pointer exactly for each texture the glTF material names, and that texture's index truncated to uint8_t in the matching tex_coord_sets slot |
| Materials.MaterialOfAlpha | 05_pbr/model.cpp:910-927 | mask exactly for "MASK", blend exactly for "BLEND"; an explicit alphaCutoff wins, otherwise "MASK" gives 0.5 and anything else keeps 1.0 |
| Materials.MaterialOfWorkflows | 05_pbr/model.cpp:954-963 | metallic_roughness stays set on every material; specular_glossiness is set exactly when the extension names its texture, and its slot then holds the texCoord truncated to uint8_t |
| Materials.MaterialOfFactorFields | 05_pbr/model.cpp:969-990 | diffuse and specular factors are the extension's arrays overlaid on the defaults (1,1,1,1) and (0,0,0) |
| Materials.MaterialOfFactors | 05_pbr/model.cpp:969-990 | component i of each factor is the array's value i when present and the default otherwise |
| Materials.MaterialOfEmpty | 05_pbr/model.cpp:853-993 | a material with no properties loads as the defaults at its own index |
| Materials.MaterialsOf | 05_pbr/model.cpp:851-995 | one material per glTF material |
| Materials.MaterialsOfSnoc | 05_pbr/model.cpp:994 | pushing one more material appends the next glTF material, with index base + k |
| Materials.MaterialsOfAt | 05_pbr/model.cpp:851-995 | the k-th material is the k-th glTF material loaded with index base + k |
| Textures.GetAddressModeExact | 05_pbr/model.cpp:791-807 | clamp-to-edge exactly for 33071, mirrored-repeat exactly for 33648, repeat for everything else |
| Textures.GetAcFilterExact | 05_pbr/model.cpp:810-831 | linear exactly for 9729, 9986 and 9987; 9985 gives nearest and 9986 linear; -1 gives nearest |
| Textures.SamplerOfWrapW | 05_pbr/model.cpp:836-845 | a converted sampler takes min/mag filters from get_ac_filter, u from wrapS, and v and w both from wrapT |
| Textures.DefaultSamplerIsNotAbsentFilters | 05_pbr/model.cpp:771-831 | a texture without a sampler filters linearly with repeat, while a sampler whose filters are -1 filters with nearest |
| Textures.ChannelAt | 05_pbr/model.cpp:65-73 | byte 4i+j of the RGBA buffer is RGB byte 3i+j for j < 3 and the uninitialised byte for j = 3 |
| Textures.ExpandedRgb | 05_pbr/model.cpp:61-73 | the expanded buffer holds width·height·4 bytes |
| Textures.ExpandedRgbBytes | 05_pbr/model.cpp:59-75 | every pixel's three colour bytes are copied in order and its alpha byte keeps what the fresh allocation held |
| Textures.ExpandRgb | 05_pbr/model.cpp:63-73 | the pointer-advancing loop leaves exactly the expanded buffer |
| Textures.PrepareUpload | 05_pbr/model.cpp:56-90 | a 3-component image is expanded into a fresh 4-byte-per-pixel buffer, any other image is passed on as is, and the mip level count is 1 |
| Textures.SamplersOf | 05_pbr/model.cpp:836-845 | one sampler per glTF sampler |
| Textures.SamplersOfAt | 05_pbr/model.cpp:836-845 | the k-th sampler is the conversion of the k-th glTF sampler |
| Textures.TexturesOf | 05_pbr/model.cpp:767-787 | one texture per glTF texture |
| Textures.TexturesOfAt | 05_pbr/model.cpp:767-787 | the k-th texture keeps its image and uses its sampler, or the default one when it has none |
| Skins.JointsFromDoc | 05_pbr/model.cpp:733-740 | at most one kept joint per glTF joint index, each a loaded node |
| Skins.BindMatricesOf | 05_pbr/model.cpp:743-755 | no inverse bind matrices when the accessor is absent, otherwise one matrix per 16 floats, column-major |
| Skins.JointsFromDocSound | 05_pbr/model.cpp:733-740 | every kept joint is a loaded node whose glTF index is one of the skin's joints |
| Skins.JointsFromDocAllKept | 05_pbr/model.cpp:733-740 | when every joint index names a loaded node, every joint is kept |
| Skins.SkinFromDocOk | 05_pbr/model.cpp:721-757 | a loaded skin refers only to loaded nodes |
| Skins.LoadJoints | 05_pbr/model.cpp:733-740 | the joint loop produces exactly the kept joints |
| Skins.LoadSkin | 05_pbr/model.cpp:723-757 | the loop body for one glTF skin produces its loaded skin |
| Skins.AssignSkin | 05_pbr/model.cpp:1313-1316 | assigning a skin keeps the number of nodes |
| Skins.AssignSkinOk | 05_pbr/model.cpp:1313-1316 | assigning a skin keeps what the initial pose relies on |
| Skins.PoseF | 05_pbr/model.cpp:1310-1322 | the pose loop keeps the number of nodes and blocks and their shape |
| Skins.PoseStep | 05_pbr/model.cpp:1310-1322 | one step assigns the node's skin, then updates its subtree when it has a mesh |
| Skins.PoseAssignsSkins | 05_pbr/model.cpp:1310-1322 | the pose changes only skin pointers: a linear node with a skin index ends with skins[skin_index], every other node keeps its skin |
| Skins.PoseWithoutMeshes | 05_pbr/model.cpp:1318-1321 | without mesh nodes the pose writes no block |
| Skins.SkinsFromDoc | 05_pbr/model.cpp:721-758 | one skin per glTF skin |
| Skins.SkinsFromDocSnoc | 05_pbr/model.cpp:757 | pushing one more skin appends the next glTF skin's |
| Skins.SkinsFromDocAt | 05_pbr/model.cpp:721-758 | the k-th skin is built from the k-th glTF skin |
| Loading.Trunc32 | 05_pbr/model.cpp:388-389 | static_cast<uint32_t> of a cursor is below 2^32 and the identity on values already in range |
| Loading.NewNodeDefaults | 05_pbr/model.cpp:335-363 | a new node has the document's skin index (-1 when absent), translation 0, scale 1, identity matrix, the given parent and glTF index, no children, mesh or skin, and invalid boxes |
| Loading.VertexAtWeights | 05_pbr/model.cpp:535-593 | no written vertex has all-zero weights; skinned vertices keep non-zero weights, unskinned ones get joints 0 and weights (1,0,0,0); the position is the source position |
| Loading.WrittenVertices | 05_pbr/model.cpp:537-595 | writing a primitive's vertices keeps the vertex buffer's size |
| Loading.WrittenIndices | 05_pbr/model.cpp:610-644 | writing a primitive's indices keeps the index buffer's size |
| Loading.LoadPrimF | 05_pbr/model.cpp:385-659 | one primitive leaves the nodes and mesh count alone, keeps the buffer sizes, moves vertex_pos by its POSITION count, moves index_pos by its index count when the index type is u8/u16/u32, and yields a primitive exactly then |
| Loading.LoadPrimIndices | 05_pbr/model.cpp:598-656 | each written index is the source index plus the vertex cursor before the primitive, modulo 2^32, at the index cursor onward; other entries are unchanged; the primitive's first index is that cursor |
| Loading.LoadPrimMaterial | 05_pbr/model.cpp:395-657 | a primitive without material takes the last (default) material, otherwise its own; has_indices iff a non-zero index count; its box is the POSITION min/max, valid |
| Loading.PrimsOkSuffix | 05_pbr/model.cpp:385 | every suffix of a loadable primitive list is loadable |
| Loading.LoadPrimsF | 05_pbr/model.cpp:385-659 | the primitives loop grows the cursors within get_node_props' totals, accepts iff every index type is supported, and then moves them by exactly the totals |
| Loading.MeshBoxFromCovers | 05_pbr/model.cpp:661-670 | the folded mesh box is valid and contains every primitive's box and the starting box |
| Loading.MeshBoxCovers | 05_pbr/model.cpp:661-670 | a mesh's box, over at least one primitive, is valid and contains every primitive's box |
| Loading.Attach | 05_pbr/model.cpp:673-681 | attaching appends the node to the linear list and changes only the nodes and roots |
| Loading.LoadMeshF | 05_pbr/model.cpp:380-659 | a mesh takes one slot and grows the cursors by its primitives' totals, without changing the nodes |
| Loading.FinishNode | 05_pbr/model.cpp:380-681 | finishing a node grows the counters by at most the node's own totals and allocates no node |
| Loading.LoadNodeF | 05_pbr/model.cpp:327-682 | load_node grows the counters by at most the subtree's totals and allocates at least one node |
| Loading.LoadKidsF | 05_pbr/model.cpp:366-378 | the children loop grows the counters by at most the children's totals |
| Loading.KidsStep | 05_pbr/model.cpp:368-377 | the children loop loads the first child, then the rest from the state it leaves, with room left for them |
| Loading.SlotsSameMeshes | 05_pbr/model.cpp:383-384 | slot validity depends only on the meshes and the slot counter |
| Loading.ExtendsTrans | 05_pbr/model.cpp:327-682 | extending a loader state twice extends it |
| Loading.AttachLinked | 05_pbr/model.cpp:673-681 | attaching keeps the forest shape and appends only to the lists and the parent's children |
| Loading.AttachForest | 05_pbr/model.cpp:673-680 | the node joins its parent's children or the roots and the arena stays a forest |
| Loading.AttachOrder | 05_pbr/model.cpp:681 | a node appended after its children keeps the linear list a post-order |
| Loading.MoreSlotsLinked | 05_pbr/model.cpp:383-384 | handing out slots and writing buffers keeps the forest shape |
| Loading.SetMeshLinked | 05_pbr/model.cpp:671 | recording a mesh whose slot was handed out keeps the shape |
| Loading.FinishNodeLinked | 05_pbr/model.cpp:380-681 | finishing a node keeps the shape, and appends at most that node to the linear list |
| Loading.MeshCaseLinked | 05_pbr/model.cpp:645-681 | a rejected index type returns before the node is attached; an accepted mesh is recorded and the node attached |
| Loading.MeshAttachLinked | 05_pbr/model.cpp:671-681 | recording the mesh and attaching the node keeps the shape and appends the node |
| Loading.NewNodeLinked | 05_pbr/model.cpp:335-337 | allocating a fresh childless node keeps the shape and extends the state |
| Loading.LoadNodeLinked | 05_pbr/model.cpp:327-682 | load_node keeps a forest with children linked to parents, slots below the counter and the linear list a duplicate-free post-order; the new node has the glTF index and parent given |
| Loading.FinishExtends | 05_pbr/model.cpp:380-681 | finishing a node extends the state it was allocated in |
| Loading.StaysOut | 05_pbr/model.cpp:681 | an allocated node outside the linear list stays out as the state is extended |
| Loading.LoadKidsLinked | 05_pbr/model.cpp:366-378 | the children loop keeps the shape and extends the state |
| Loading.FinishNodeExact | 05_pbr/model.cpp:380-681 | with supported index types, finishing moves the cursors by exactly the node's totals and attaches it |
| Loading.LoadNodeExact | 05_pbr/model.cpp:327-716 | with supported index types, load_node moves vertex_pos and index_pos by exactly get_node_props' subtree totals and appends the node last |
| Loading.LoadKidsExact | 05_pbr/model.cpp:366-378 | the children loop moves the cursors by exactly the children's totals |
| Loading.LoadRootsF | 05_pbr/model.cpp:1299-1303 | loading the roots grows the counters by at most their totals |
| Loading.RootsStep | 05_pbr/model.cpp:1299-1303 | the roots loop loads the first root, then the rest |
| Loading.LoadRootsLinked | 05_pbr/model.cpp:1299-1303 | loading the roots keeps the shape and extends the state |
| Loading.LoadRootsExact | 05_pbr/model.cpp:1276-1303 | with supported index types the cursors end exactly at get_node_props' totals over the roots |
| Loading.FinishNodeSkins | 05_pbr/model.cpp:339-681 | finishing a node leaves skin pointers unset and writes only block matrices |
| Loading.LoadMeshBlocks | 05_pbr/model.cpp:205-211 | Mesh::Mesh writes only the matrix of its uniform block |
| Loading.BlocksOkSetMatrix | 05_pbr/model.cpp:205-211 | setting a block's matrix keeps the blocks well-shaped |
| Loading.SetMeshUnskinned | 05_pbr/model.cpp:671 | giving a node its mesh keeps skins and skin indices |
| Loading.AttachUnskinned | 05_pbr/model.cpp:673-681 | attaching changes neither skins nor blocks |
| Loading.LoadNodeSkins | 05_pbr/model.cpp:327-682 | load_node leaves every skin pointer unset, copies skin indices from the document and writes only block matrices |
| Loading.LoadKidsSkins | 05_pbr/model.cpp:366-378 | the same for the children loop |
| Loading.LoadRootsSkins | 05_pbr/model.cpp:1299-1303 | the same for the roots loop |
| ModelClass.LoaderInfo.constructor | 05_pbr/model.cpp:1284-1285 | the two buffers are freshly allocated with uninitialised contents and both cursors start at 0 |
| ModelClass.LoaderInfo.WriteVertices | 05_pbr/model.cpp:537-595 | the vertex loop writes the primitive's vertices from vertex_pos on, advances vertex_pos by the POSITION count and leaves index_pos alone |
| ModelClass.LoaderInfo.WriteIndices | 05_pbr/model.cpp:610-644 | the index loop writes each value plus vertexStart (uint32_t arithmetic) from index_pos on and advances index_pos by the count |
| ModelClass.ComputeMeshBox | 05_pbr/model.cpp:661-670 | the loop over the primitives computes the mesh box |
| ModelClass.LastDot | 05_pbr/model.cpp:1241 | rfind('.') returns the position of the last '.', or none when there is no '.' |
| ModelClass.IsGlbIff | 05_pbr/model.cpp:1240-1245 | the binary test holds exactly when the file name ends in ".glb", case-sensitively |
| ModelClass.SceneIndex | 05_pbr/model.cpp:1271-1273 | the loaded scene is the default scene when there is one, else scene 0 |
| ModelClass.Start | 05_pbr/model.cpp:1261-1297 | the loader state before the roots has room for exactly get_node_props' totals and well-shaped blocks |
| ModelClass.LoadedPoseOk | 05_pbr/model.cpp:1299-1322 | after the roots and the skins are loaded the pose loop may run: a forest with slots inside the matrix buffer, no skin set, skin indices naming loaded skins |
| ModelClass.LoadedOk | 05_pbr/model.cpp:1261-1303 | after loading the roots the nodes form a forest whose mesh slots fit a matrix buffer of one block per glTF mesh |
| ModelClass.FinishedOk | 05_pbr/model.cpp:1304-1421 | after animations, skins, pose and boxes the scene still meets update's demands, blocks keep their shape, roots stay in the arena, extensions and materials are recorded |
| ModelClass.FinishedFrom | 05_pbr/model.cpp:1304-1421 | the finished model is assembled from the results of those steps in source order |
| ModelClass.ImportFOk | 05_pbr/model.cpp:1265-1330 | an imported model meets update's demands, has one block per glTF mesh, records the extensions and ends its materials with the default material |
| ModelClass.Model.constructor | 05_pbr/model.hpp:220-242 | a new model has no nodes, resources or extensions, an empty matrix buffer and the extent (FLT_MAX, -FLT_MAX) |
| ModelClass.Model.LoadPrimitive | 05_pbr/model.cpp:385-658 | one primitive: vertices, indices rebased by the vertex cursor before it, then the Primitive, as the pure model of one primitive says |
| ModelClass.Model.LoadPrimitives | 05_pbr/model.cpp:385-659 | the primitives loop has the effect of the pure primitives loop, stopping at a rejected primitive |
| ModelClass.Model.CompleteNode | 05_pbr/model.cpp:380-681 | the end of load_node has the effect of the pure FinishNode |
| ModelClass.Model.LoadNodeMesh | 05_pbr/model.cpp:380-671 | the mesh part gives the node its mesh, box and slot exactly when every primitive was accepted |
| ModelClass.Model.LoadMesh | 05_pbr/model.cpp:382-659 | taking the next slot and loading the primitives has the effect of the pure mesh loader |
| ModelClass.Model.AttachNode | 05_pbr/model.cpp:673-681 | attaching has the effect of the pure Attach |
| ModelClass.Model.LoadNode | 05_pbr/model.cpp:327-682 | load_node has the effect of the pure LoadNodeF, whose shape and cursor properties the Loading lemmas prove |
| ModelClass.Model.LoadChildren | 05_pbr/model.cpp:366-378 | the children loop has the effect of the pure LoadKidsF |
| ModelClass.Model.LoadRoots | 05_pbr/model.cpp:1299-1303 | the roots loop has the effect of the pure LoadRootsF |
| ModelClass.Model.GetNodeProps | 05_pbr/model.cpp:685-716 | get_node_props adds exactly the subtree's vertex and index totals to the running counts |
| ModelClass.Model.LoadTextureSamplers | 05_pbr/model.cpp:834-846 | appends the converted glTF samplers in order |
| ModelClass.Model.LoadTextures | 05_pbr/model.cpp:762-788 | appends one texture per glTF texture in order |
| ModelClass.Model.LoadMaterials | 05_pbr/model.cpp:849-999 | appends one material per glTF material, then the default material |
| ModelClass.Model.LoadSkins | 05_pbr/model.cpp:719-759 | appends one skin per glTF skin in order |
| ModelClass.Model.InitialPose | 05_pbr/model.cpp:1310-1322 | the pose loop has the effect of the pure PoseF |
| ModelClass.Model.PoseNode | 05_pbr/model.cpp:1312-1321 | one iteration assigns the node's skin and then, for a mesh node, updates its subtree |
| ModelClass.Model.CalculateBoundingBox | 05_pbr/model.cpp:1463-1487 | calculate_bounding_box has the effect of the pure CalcBoxF |
| ModelClass.Model.BoxOwn | 05_pbr/model.cpp:1469-1480 | boxes only the node itself |
| ModelClass.Model.GetSceneDimensions | 05_pbr/model.cpp:1492-1522 | boxes every linear node, folds the valid bvhs into the extent from (FLT_MAX, -FLT_MAX), and sets aabb to map the unit cube onto the extent |
| ModelClass.Model.LoadAnimations | 05_pbr/model.cpp:1002-1139 | appends one animation per glTF animation in order |
| ModelClass.Model.Import | 05_pbr/model.cpp:1265-1425 | a failed creation or mapping of the matrix buffer (made only when there are glTF meshes) returns that failure with only the samplers, textures and materials loaded; a failed upload call returns its failure with everything but the boxes and the extent; otherwise success and the state of the pure ImportF |
| ModelClass.Model.CompleteImport | 05_pbr/model.cpp:1304-1421 | after the scene is loaded, the first failure of the upload's calls is returned with the unboxed state, and success gives the pure ImportFrom |
| ModelClass.ImportFromLoaded | 05_pbr/model.cpp:1271-1303 | the scene Loaded off an importable document meets what the rest of the import needs, and both import outcomes are the ones built on it |
| ModelClass.Model.ImportScene | 05_pbr/model.cpp:1271-1421 | the scene is loaded as Loaded says, then the upload's first failure is returned with the unboxed state and the earlier extent, and success gives the pure ImportFrom |
| ModelClass.Model.LoadResources | 05_pbr/model.cpp:1267-1269 | samplers, then textures, then materials |
| ModelClass.Model.FinishImport | 05_pbr/model.cpp:1304-1421 | the steps after the roots have the effect of the pure Finished when the upload succeeds, and of Unboxed (no boxes, extent unchanged) when it fails |
| ModelClass.Model.FinishScene | 05_pbr/model.cpp:1304-1421 | animations and skins read off the loaded nodes, the pose, the extensions, the upload's first failure, then, only on success, the boxes, extent and aabb |
| ModelClass.Model.PrepareScene | 05_pbr/model.cpp:1304-1327 | animations and skins read off the loaded nodes, the initial pose, then the extensions, leaving a valid arena with the linear nodes inside it |
| ModelClass.Model.UploadAndMeasure | 05_pbr/model.cpp:1329-1421 | the upload's first failure is returned with the nodes, extent and aabb unchanged; on success every linear node is boxed and the extent and aabb are measured |
| ModelClass.Model.LoadNodeData | 05_pbr/model.cpp:1304-1322 | animations when there are any, skins, then the initial pose |
| ModelClass.Model.SceneProps | 05_pbr/model.cpp:1276-1283 | the roots loop totals exactly get_node_props' counts over the scene |
| ModelClass.Model.LoadScene | 05_pbr/model.cpp:1271-1303 | choose the scene, total its counts, size the buffers, allocate the matrix buffer by the glTF mesh count and load every root |
| ModelClass.Model.LoadFromFile | 05_pbr/model.cpp:1142-1425 | a failed open or read returns that call's own result, a failed decode returns unknown_error, both changing nothing; otherwise the first failure of the matrix buffer's calls or of the upload's calls is returned with what was loaded so far, and success with the imported state |
| ModelClass.Model.UpdateAnimation | 05_pbr/model.cpp:1525-1602 | an index past the last animation changes nothing; otherwise the nodes and blocks end as the pure AnimateScene says |
| Render.TexIndex | 05_pbr/main.cpp:263-270 | a packed texture index is -1 exactly when the texture pointer is null, and otherwise the texture-coordinate set of that texture |
| Render.PackRecord | 05_pbr/main.cpp:262-303 | one iteration of the packing loop produces exactly the record PackMaterial computes from the slot's earlier contents and the material |
| Render.PackMaterials | 05_pbr/main.cpp:254-304 | after the loop every record i of the mapped buffer is the packing of materials[i] over its earlier contents |
| Render.PackedIndices | 05_pbr/main.cpp:263-300 | each texture index is -1 exactly for a null texture and otherwise its coordinate set; with specular-glossiness the base colour index follows the diffuse texture and the metallic-roughness index the specular-glossiness texture |
| Render.PackedAlpha | 05_pbr/main.cpp:271-274 | alpha_mask is 1 exactly for MASK materials and 0 for all others; cutoff, emissive factor and strength are copied |
| Render.PackedWorkflow | 05_pbr/main.cpp:276-303 | specular-glossiness wins over metallic-roughness: workflow 1, diffuse and specular factors from the extension with specular w = 1; metallic-roughness alone gives workflow 0 and copies its factors |
| Render.PackedLoaded | 05_pbr/main.cpp:276-303 | for a material built by load_materials the packed workflow, indices and factors do not depend on the buffer's stale contents, and the workflow is 1 exactly when the document names a specular-glossiness texture |
| Render.ImageDescriptors | 05_pbr/main.cpp:357-368 | slot i of the MAX_IMAGES-entry table holds the image of texture i and every later slot the stub image |
| Render.NextTimer | 05_pbr/main.cpp:706-710 | the timer advances by the frame time and, once past the animation's end, is reduced by the end exactly once |
| Render.TimerStaysInRange | 05_pbr/main.cpp:706-710 | a timer in [0, end] stays in [0, end] when the frame time is at most the animation's length |
| Render.TimerWrapsOnce | 05_pbr/main.cpp:706-710 | a frame time longer than twice the animation leaves the timer past the end: the wrap is a single subtraction, not a modulo |
| Render.App.constructor | 05_pbr/main.cpp:93-95 | animation index, frame time and timer start at zero |
| Render.App.StagePrepare | 05_pbr/main.cpp:704-712 | with an animation the timer takes its NextTimer step and the scene is animated at the new time; with none the timer and the scene are unchanged |
| Render.PipelineFor | 05_pbr/main.cpp:728-743 | the blending pipeline is used exactly in the BLEND pass, the double-sided one exactly for double-sided materials outside it |
| Render.CallOf | 05_pbr/main.cpp:761-774 | a primitive is drawn indexed exactly when it has indices, with its index count and first index, and otherwise by its vertex count |
| Render.RenderNodePreOrder | 05_pbr/main.cpp:718-783 | render_node's draws are the own draws of the subtree's nodes in pre-order, whichever material number is pushed (the source's `material.index` or the material's position) |
| Render.RenderNodesForest | 05_pbr/main.cpp:779-782 | rendering a list of nodes draws along the concatenation of their pre-orders, whichever material number is pushed |
| Render.DrawsAlongInPass | 05_pbr/main.cpp:720-776 | in the intended frame, which pushes each material's position, every draw of a pass names a material of the list with that pass's alpha mode, drawn with the pass's pipeline for its sidedness |
| Render.EveryPrimitiveOnce | 05_pbr/main.cpp:720-776 | every primitive of a mesh is drawn in exactly one of the three passes, whichever material number is pushed |
| Render.Recorded | 05_pbr/main.cpp:753-772 | each draw records six commands: its pipeline, the frame's set in space 0 and set 0 in spaces 1 and 2, the push data, then the indexed or plain draw |
| Render.DrawsInRecorded | 05_pbr/main.cpp:753-772 | the draws can be read back off the recorded commands: the per-draw command groups lose nothing |
| Render.RecordedAt | 05_pbr/main.cpp:753-772 | commands 6k to 6k+5 are draw k's pipeline bind, three set binds, push and draw |
| Render.RecordedAppend | 05_pbr/main.cpp:753-778 | recording two draw sequences one after the other records their commands one after the other |
| Render.Setup | 05_pbr/main.cpp:794-806 | viewport and scissor over the swapchain image, the pbr pipeline, the vertex buffer, and the index buffer exactly when the model has one |
| Render.RecordPass | 05_pbr/main.cpp:808-821 | one pass loop records the commands of render_node on each root in turn, each draw pushing its material's `index` field as line 751 does |
| Render.StageCmd | 05_pbr/main.cpp:786-825 | a frame records the setup commands, then the opaque pass over all roots, then the masked pass, then the blended pass, each draw pushing its material's `index` field |
| Render.StagedDraws | 05_pbr/main.cpp:786-825 | after the setup commands, the draws read back off stage_cmd's commands are exactly the as-written frame |
| Render.FramePasses | 05_pbr/main.cpp:786-825 | in the intended frame, which pushes each material's position, each pass draws the scene's nodes in pre-order, each draw belongs to its pass and names a material of the list, and every opaque draw precedes every masked one, which precedes every blended one |
| Render.LoadedMaterialIndices | 05_pbr/model.cpp:993-998 | each loaded material's index is its position in the list, except the appended default material, whose index is 0 |
| Render.AsWrittenAgreesOnLoaded | 05_pbr/main.cpp:750-751 | for a primitive with a document material the draw that pushes `material.index` equals the one that pushes the material's position |
| Render.FrameRemapped | 05_pbr/main.cpp:786-825 | over a loaded material list, the frame stage_cmd records is the intended frame with every default-material draw pushing 0 instead of the default material's position |
| Render.FrameAsIntended | 05_pbr/main.cpp:786-825 | over a loaded material list, when every primitive names a document material, the frame stage_cmd records is the intended frame |
| Render.DefaultMaterialPushesRecordZero | 05_pbr/main.cpp:750-751 | a material-less primitive pushes record 0, which can belong to another material with a different alpha mode |
| Staging.AlignUp | 05_pbr/pbr_maps.cpp:463-465 | the aligned size is the least multiple of the alignment that is at least the size: a multiple, not below the size and less than one alignment above it |
| Staging.LayoutOf | 05_pbr/pbr_maps.cpp:459-465 | source rows are width times pixel bytes, buffer rows that rounded up to the row alignment, and the buffer size the height's worth of buffer rows rounded up to the image alignment |
| Staging.StagedRow | 05_pbr/pbr_maps.cpp:479-484 | row i of the source lands at offset i times the buffer row size, byte for byte, inside the buffer |
| Staging.StagedPadding | 05_pbr/pbr_maps.cpp:479-484 | the padding at the end of each buffer row and everything past the last row keep their earlier contents |
| Staging.StagedStep | 05_pbr/pbr_maps.cpp:481-483 | copying row i at the advanced cursors turns the buffer with i rows staged into the buffer with i + 1 rows staged |
| Staging.Memcpy | 05_pbr/pbr_maps.cpp:481 | memcpy replaces exactly n bytes at the destination cursor by the source's bytes and leaves the rest of the buffer unchanged |
| Staging.CopyRow | 05_pbr/pbr_maps.cpp:481-483 | one iteration copies row i from the source cursor to the buffer cursor |
| Staging.CopyRows | 05_pbr/pbr_maps.cpp:479-484 | the loop leaves the buffer exactly as Staged: every source row at its padded offset, nothing else changed |
| Staging.StageImage | 02_model/main.cpp:702-727 | a buffer of the layout's size receives the image's rows at their padded offsets, and every write stays inside the buffer |
| Ibl.Log2 | 05_pbr/pbr_maps.cpp:16 | the truncated base-2 logarithm is the exponent of the largest power of two not above its argument |
| Ibl.Log2Pow2 | 05_pbr/pbr_maps.cpp:16-19 | on a power of two the truncated logarithm is exact |
| Ibl.MipCounts | 05_pbr/pbr_maps.cpp:14-19 | the skybox chain has log2(1024) + 1 = 11 mips and the specular chain log2(512) + 1 = 10, each ending at a one-texel mip |
| Ibl.MipNonEmpty | 05_pbr/pbr_maps.cpp:303-304 | every mip of a chain of power-of-two size 2^k is 2^(k-i) texels wide, never zero |
| Ibl.MipGroups | 05_pbr/pbr_maps.cpp:303-304 | a mip dispatch has at least one workgroup per axis |
| Ibl.MipGroupsCover | 05_pbr/pbr_maps.cpp:354-355 | when the workgroup size divides the mip's extent or exceeds it, the dispatch's groups cover every texel of the mip on that axis |
| Ibl.RoughnessRange | 05_pbr/pbr_maps.cpp:343 | the roughness pushed per specular mip is 0 at the first mip, 1 at the last and strictly increasing between |
| Ibl.UpdateSets | 05_pbr/pbr_maps.cpp:160-226 | the descriptor updates are the BRDF set, one environment set per skybox mip, the irradiance set and one specular set per specular mip, in that order |
| Ibl.SetsInBounds | 05_pbr/pbr_maps.cpp:131-143 | every set written lies below its descriptor buffer's set count and targets a mip level its image has |
| Ibl.UpdatedSetsSuffice | 05_pbr/pbr_maps.cpp:160-226 | the sets written are all the sets the four kernels bind while recording |
| Ibl.RunAppend | 05_pbr/pbr_maps.cpp:239-373 | executing two recorded streams in turn is executing their concatenation |
| Ibl.MipRuns | 05_pbr/pbr_maps.cpp:291-306 | one mip iteration, with its pipeline bound and its set written, runs and leaves that mip's set bound |
| Ibl.EqToCubeLoopRuns | 05_pbr/pbr_maps.cpp:291-318 | the environment loop runs from a state with its pipeline bound, the equirect readable and the environment writable |
| Ibl.SpecularLoopRuns | 05_pbr/pbr_maps.cpp:341-357 | the specular loop runs from a state with its pipeline bound and the specular map writable |
| Ibl.MapsStreamRuns | 05_pbr/pbr_maps.cpp:239-373 | from the equirect readable and every other image undefined, every dispatch writes an image in a writable layout through a written set, and the stream ends with all four maps shader-readable |
| Ibl.UploadThenMapsRuns | 05_pbr/pbr_maps.cpp:500-548 | the upload stream followed by the maps stream runs from every image undefined and ends with all of them shader-readable |
| Ibl.RecordEnvironmentMips | 05_pbr/pbr_maps.cpp:291-318 | the environment loop records one push, set binding and dispatch per mip, or stops with the workgroup query's failure before the first dispatch |
| Ibl.RecordSpecularMips | 05_pbr/pbr_maps.cpp:341-373 | the specular loop records each mip with its roughness and size, or stops with the workgroup query's failure before the first dispatch |
| Ibl.MapsStreamPieces | 05_pbr/pbr_maps.cpp:239-373 | the pieces appended in recording order make up the maps stream |
| Ibl.RecordMaps | 05_pbr/pbr_maps.cpp:239-373 | the recording returns the first failing workgroup query and, when none fails, the whole maps stream |
| Ibl.ComputePbrMaps2 | 05_pbr/pbr_maps.cpp:12-406 | the result is the first failing creation call or workgroup query; the command buffer is submitted exactly on success, and then every bound set was written and the full maps stream recorded |
| Ibl.ComputePbrMaps | 05_pbr/pbr_maps.cpp:409-559 | the result is the first failure among file, read, staging buffer, pool and command creation; the staging buffer receives the decoded rows at their padded offsets; on success the upload is recorded and the maps computed, whose own result is discarded |
| ObjModel.VertexOf | 02_model/main.cpp:861-875 | a corner's vertex takes three position floats from the vertex index and the texture coordinate from the texcoord index, with v flipped to 1 - v |
| ObjModel.CornersCount | 02_model/main.cpp:858-885 | the loops visit one corner per index of every shape |
| ObjModel.PositionFirst | 02_model/main.cpp:877-880 | the index assigned to a vertex is its first occurrence in the vertex list |
| ObjModel.UniqueElements | 02_model/main.cpp:877-880 | the appended vertices are exactly the vertices of the corners, no more and no fewer |
| ObjModel.UniqueNoDuplicates | 02_model/main.cpp:877-880 | no vertex is appended twice |
| ObjModel.UniqueFirstOccurrence | 02_model/main.cpp:877-880 | the appended vertices are in the order of their first occurrence among the corners |
| ObjModel.IndicesRoundTrip | 02_model/main.cpp:877-883 | the index pushed for corner k addresses, among the appended vertices, exactly the vertex of corner k |
| ObjModel.MeshData.constructor | 02_model/main.cpp:281-282 | the vertex and index lists start empty |
| ObjModel.TextureData.constructor | 02_model/main.cpp:15-19 | width, height and data start value-initialised |
| ObjModel.MapOfIndexMap | 02_model/main.cpp:856 | the map built over a list without repeats maps exactly the list's vertices, each to its position after the earlier vertices |
| ObjModel.NewCorner | 02_model/main.cpp:877-883 | a new vertex is appended, mapped to the next position, and that position is pushed as the index |
| ObjModel.SeenCorner | 02_model/main.cpp:877-883 | a vertex already seen leaves the vertex list and the map alone and pushes its earlier position |
| ObjModel.AddCorner | 02_model/main.cpp:877-883 | one corner extends the vertex list, the index list and the map exactly as the deduplication of the corners seen so far plus this one |
| ObjModel.DedupShape | 02_model/main.cpp:860-884 | the inner loop over a shape's corners extends the lists by the deduplication of that shape's corners |
| ObjModel.DedupCorners | 02_model/main.cpp:856-885 | the loops append the distinct corner vertices in first-occurrence order and one index per corner, the position of its vertex after the earlier vertices |
| ObjModel.LoadModel | 02_model/main.cpp:791-888 | a failing file open or read ends it with that failure; otherwise the texture takes the decoded image in front of its data, an unparsable file gives the unknown error with the mesh lists untouched, and a parsed one has its corners deduplicated onto the lists |
| ObjModel.LoadedIndicesRoundTrip | 02_model/main.cpp:856-885 | every index pushed for a parsed file addresses, in the final vertex list, the vertex of its corner |
| ObjModel.LoadedVerticesDistinct | 02_model/main.cpp:856-885 | the appended vertices are pairwise distinct and are exactly the corners' vertices |
| ObjModel.StageTexture | 02_model/main.cpp:685-729 | image, staging buffer and mapping are created in turn, each failure ending it; only when all succeed are the texture's rows copied to their padded offsets |
| ObjModel.SubmitUpload | 02_model/main.cpp:731-787 | command pool, command buffer, submission and the wait are made in turn, the first failure ending it |
| ObjModel.CreateTexture | 02_model/main.cpp:685-787 | the result is the first failure among image, buffer, mapping, pool, command buffer, submit and wait, and the mapped buffer holds the texture's rows at their padded offsets exactly when the first three succeeded |
| Ac.FirstFailureOk | 01_cube/main.cpp:104-113 | checking results in turn yields success exactly when every result succeeds, and otherwise a failing result preceded only by successes |
| Ac.FirstFailureAppend | 01_cube/main.cpp:104-113 | checking two groups of calls in order: the second group's failure counts only when the first had none |
| Cube.CubeDataOk | 01_cube/main.cpp:8-94 | the position array holds 108 floats and the texture-coordinate array 72, three and two per cube vertex |
| Cube.Filled | 01_cube/main.cpp:98-102 | a filled ShaderData keeps its size of 16 + 144 + 144 floats |
| Cube.RowValues | 01_cube/main.cpp:284-294 | row r of the position block is (x, y, z, 1) and row r of the attr block (u, v, 0, 0), taken from vertex r of the two arrays |
| Cube.FilledPositionRow | 01_cube/main.cpp:286-289 | in the filled buffer position[r] is floats 3r to 3r + 2 of the vertex array followed by 1 |
| Cube.FilledAttrRow | 01_cube/main.cpp:290-293 | in the filled buffer attr[r] is floats 2r and 2r + 1 of the texture-coordinate array followed by two zeros |
| Cube.FilledOnlyVertices | 01_cube/main.cpp:284-294 | the fill leaves the matrix untouched and writes every other float whatever it held before |
| Cube.PositionStep | 01_cube/main.cpp:286-289 | writing position[i] float by float moves the written block from i rows to i + 1 and changes nothing else |
| Cube.AttrStep | 01_cube/main.cpp:290-293 | writing attr[i] float by float moves the written block from i rows to i + 1 and changes nothing else |
| Cube.FillShaderData | 01_cube/main.cpp:282-294 | after the loop the mapped buffer is exactly the fill of its earlier contents |
| Cube.FramesDoneExact | 01_cube/main.cpp:272-280 | n frames get through exactly when the first n creations and mappings succeed and frame n, if there is one, fails |
| Cube.CreateFrameBuffers | 01_cube/main.cpp:272-303 | the loop writes set f for each frame that got through, fills each of those buffers and leaves the frames after the first failure untouched |
| Cube.FramesFilledAlike | 01_cube/main.cpp:272-303 | all filled frame buffers hold the same vertices and differ at most in their matrices |
| Cube.StagePrepare | 01_cube/main.cpp:505-508 | the memcpy replaces the first sizeof(mat4) bytes of the frame's buffer by the matrix and nothing more |
| Cube.PrepareKeepsFill | 01_cube/main.cpp:505-508 | writing the matrix into a filled buffer leaves it the fill of a buffer holding that matrix, so positions and attributes survive every frame |
| Cube.StageCmd | 01_cube/main.cpp:514-531 | a frame records five commands ending in the draw |
| Cube.DrawMatchesFill | 01_cube/main.cpp:524-529 | the draw issues one instance of 36 vertices, exactly the rows the fill wrote and the vertices in the two arrays, and binds the frame's own set |

## Left out

- GPU device calls are not modelled: creating buffers, images, pipelines and descriptor buffers, mapping memory, submitting and waiting. A call that can fail is a result parameter; a created object is an opaque handle; a recorded command buffer is the sequence of commands it holds.
- tinygltf, stb_image and tinyobj parsing, and the file system, are not modelled. The loaders take the decoded document, image or OBJ attributes as parameters. Reinterpreting accessor bytes through offsets and strides is also outside the model.
- Floating-point rounding is not modelled: every float is a real.
  - glm's matrix inverse, quaternion slerp, quaternion normalisation, `glm::normalize`, `perspective`, `lookAt` and `rotate` stay symbolic factors.
  - The floating-point evaluation of a matrix product is a parameter `eval`.
  - NaN and signed zero are not modelled, so `Vertex::operator==` is plain equality of values.
- Uninitialised memory is modelled as given contents: freshly allocated staging buffers, the matrix buffer, and mapped GPU memory are parameters or blank values. The corners of a default `BoundingBox` are fixed at the origin.
- Only `static_cast<uint32_t>` truncation and the 64-bit `hash_combine` wrap-around are modelled. Other `size_t` and `uint32_t` overflow is not: buffer sizes and cursor sums are unbounded naturals.
- `std::unordered_map` is a Dafny map. `std::hash<float>` is a function parameter.
- How well `hash_combine` and the vertex hash separate distinct vertices is not modelled. The map needs only that equal vertices hash alike, which holds because the hash is a function of the vertex.
- Ownership and destruction (`Node::~Node`, `Mesh::~Mesh`, `Model::destroy`) are not modelled, nor is window, swapchain or render-graph plumbing.
- ModelClass.Model.LoadFromFile: requires that a parsed document is importable. The conditions are:
  - the scene list is not empty;
  - child, mesh, material, texture and sampler indices are in range;
  - the node graph below the scene's roots is acyclic;
  - every skin has enough inverse bind matrices for its capped joint count;
  - the scene has no more mesh-bearing nodes than the document has meshes, because the matrix buffer is sized by the mesh count;
  - a specular-glossiness material's diffuse factor has at most four components and its specular factor at most three, because load_materials copies them into fixed-size vectors.
  The source indexes out of range in each of these cases.
- ModelClass.Model.LoadFromFile: the debug assertion that the scene has vertices (05_pbr/model.cpp:1335) is not modelled. A scene without vertices is imported like any other, and its upload's results are whatever the caller passes.
- ModelClass.Model.LoadFromFile: the vertex and index buffers are not part of the model's state. The loader's arrays (05_pbr/model.cpp:1284-1303) are modelled and sized exactly by get_node_props' totals (Loading.LoadRootsExact), but their copy into the staging and device buffers (05_pbr/model.cpp:1347-1382) is not kept, and neither is whether an index buffer was made. The `hasIndexBuffer` flag of Render.StageCmd stands for `model.indices != NULL` and is not tied to the loaded scene.
- ModelClass.Model.LoadFromFile: the upload's checked calls (staging buffers, device buffers, command pool, command buffer, submit) are one sequence of results in the order they are made. The model does not tie the length of that sequence to whether the scene has indices.
- Render.ImageDescriptors: requires at most MAX_IMAGES textures, since the source writes slot i for every texture and would write past its table.
- Render.App.StagePrepare: requires, when there are animations, that the animation index names one, since the source reads that animation's end before update_animation's own range check.
- Animations.ApplyChannel: requires an evaluable sampler, one that is either skipped or has a non-empty input list, since the bracket loop's `inputs.size() - 1` underflows for an empty list.
- Animations.EvaluateChannel: requires an evaluable sampler for the same reason. ModelClass.Model.UpdateAnimation and Render.App.StagePrepare inherit this requirement through their channel conditions.
- Scene.WriteNodeSkinned: requires that the skin has at least as many inverse bind matrices as the joints it writes, since the source indexes them by joint position without a check. The same condition is in the scene invariant that every Node::update member assumes.
- ObjModel.LoadModel: requires every corner's vertex and texture-coordinate index to be in range. A texcoord index of -1 (no texture coordinates) is excluded, since the source then reads before the array.
- ObjModel.CreateTexture: the upload commands (barriers, buffer-to-image copy) are not modelled. Only the result and the staging buffer contents are.
- Ibl.RecordEnvironmentMips: the workgroup query inside the mip loop is one result for every mip, since the kernel's workgroup size does not depend on the mip. A failure can therefore only be returned in the first iteration.
- Ibl.RecordSpecularMips: the same single query result for every mip as Ibl.RecordEnvironmentMips.
- Render.FramePasses: its ordering and pass membership are stated for the intended frame, which pushes each material's position. For the frame the source records (Render.StageCmd, pushing `material.index`) they follow only when every primitive names a document material (Render.FrameAsIntended); see Findings.
- Render.DrawsAlongInPass: stated for the intended frame, like Render.FramePasses.
- Ibl.ComputePbrMaps: the result of the equirect `ac_create_image` is not checked by the source, so it does not appear. The result of compute_pbr_maps2 is discarded, as in the source.
- Cube.StageCmd: viewport and scissor record the swapchain size. The depth range is not modelled.
- Render.StageCmd: the viewport and scissor record the swapchain size; their origin (0, 0) and the depth range [0, 1] are implied by the command and not stored. The index type of the index buffer bind (32-bit) is not stored either.
- ModelClass.Model.constructor: the value-initialised `aabb` is taken to be the identity matrix, as under GLM_FORCE_CTOR_INIT. A GLM built without it value-initialises a matrix to zero. Nothing reads `aabb` before get_scene_dimensions sets it.
- Cube.StagePrepare: the model matrix's rotation by glm is not modelled. The new matrix arrives as sixteen values.
- Cube.CreateFrameBuffers: the number of frames in flight is the number of buffers given. The descriptor written by `ac_update_set` is represented by the set index.
- The pbr sample's per-frame camera buffer write in stage_prepare is not modelled; it is a plain memcpy of a struct computed by glm.

## Findings

| source | as written | input that shows it | evidently intended | confidence | as-written member | corrected member |
|---|---|---|---|---|---|---|
| 05_pbr/main.cpp:750-751 | render_node pushes `primitive->material.index`. The default material appended by load_materials (05_pbr/model.cpp:998) keeps index 0, so a primitive without a material pushes record 0 of the material buffer. | a document with one MASK material and a primitive without a material | a material-less primitive pushes the position of its own material, the default one at the end of the list, so the shader reads the default material's record | not executed | Render.DefaultMaterialPushesRecordZero | Render.FramePasses |

=== FILE: ac.dfy ===
/** The result codes of the ac graphics library that the samples return and check. */
module Ac {

  /**
   * An ac_result: success, the two errors the samples return themselves,
   * or any other code a library call reports.
   */
  datatype AcResult = Success | UnknownError | FileError | Failure(code: nat)

  /** The first failure in a sequence of results checked in order, or success. */
  function FirstFailure(rs: seq<AcResult>): AcResult {
    if rs == [] then Success
    else if !rs[0].Success? then rs[0]
    else FirstFailure(rs[1..])
  }

  /** The first failure is success exactly when every result is, and otherwise one of the results, preceded only by successes. */
  lemma {:induction false} FirstFailureOk(rs: seq<AcResult>)
    ensures FirstFailure(rs).Success? <==> forall i :: 0 <= i < |rs| ==> rs[i].Success?
    ensures !FirstFailure(rs).Success? ==>
      exists k :: 0 <= k < |rs| && rs[k] == FirstFailure(rs) && (forall i :: 0 <= i < k ==> rs[i].Success?)
  {
    if rs != [] && rs[0].Success? {
      FirstFailureOk(rs[1..]);
      if !FirstFailure(rs).Success? {
        var k :| 0 <= k < |rs[1..]| && rs[1..][k] == FirstFailure(rs[1..]) && forall i :: 0 <= i < k ==> rs[1..][i].Success?;
        assert rs[k + 1] == FirstFailure(rs) && forall i :: 0 <= i < k + 1 ==> rs[i].Success?;
      }
    } else if rs != [] {
      assert rs[0] == FirstFailure(rs);
    }
  }

  /** Checking a then b in order: b's first failure counts only when a had none. */
  lemma {:induction false} FirstFailureAppend(a: seq<AcResult>, b: seq<AcResult>)
    ensures FirstFailure(a + b) == if FirstFailure(a).Success? then FirstFailure(b) else FirstFailure(a)
  {
    if a != [] {
      assert (a + b)[1..] == a[1..] + b;
      FirstFailureAppend(a[1..], b);
    } else {
      assert a + b == b;
    }
  }
}

=== FILE: animation.dfy ===
/**
 * Animations (model.hpp, model.cpp): how load_animations turns glTF 2.0
 * animations (section 3.11 of the glTF 2.0 specification) into samplers
 * and channels bound to loaded nodes, and how update_animation applies
 * them to node translation, rotation and scale at a given time.
 *
 * Times and values are reals; slerp and quaternion normalisation stay
 * uninterpreted (LinAlg.Quat). Every sampler is evaluated linearly, whatever
 * interpolation it records.
 */
module Animations {
  import opened Wrappers
  import opened LinAlg
  import opened Document
  import opened Scene

  datatype PathType = Translation | Rotation | Scale

  datatype Interpolation = Linear | Step | CubicSpline

  /** AnimationChannel: the target path, the target node and the sampler position. */
  datatype AnimationChannel = AnimationChannel(path: PathType, node: nat, samplerIndex: nat)

  /** AnimationSampler: keyframe times and keyframe values widened to vec4. */
  datatype AnimationSampler = AnimationSampler(interpolation: Interpolation, inputs: seq<real>, outputs: seq<Vec4>)

  datatype Animation = Animation(
    name: string,
    samplers: seq<AnimationSampler>,
    channels: seq<AnimationChannel>,
    start: real,
    end: real)

  /** The digit character of d. */
  function DigitChar(d: nat): char
    requires d < 10
  {
    ['0', '1', '2', '3', '4', '5', '6', '7', '8', '9'][d]
  }

  /** std::to_string of an unsigned number: its decimal digits, most significant first. */
  function Decimal(n: nat): (r: string)
    ensures |r| > 0
  {
    if n < 10 then [DigitChar(n)] else Decimal(n / 10) + [DigitChar(n % 10)]
  }

  /** Every character of s is a decimal digit. */
  predicate Digits(s: string) {
    forall k :: 0 <= k < |s| ==> '0' <= s[k] <= '9'
  }

  /** The number a string of decimal digits denotes. */
  function ParseDecimal(s: string): nat
    requires Digits(s)
  {
    if s == [] then 0 else 10 * ParseDecimal(s[..|s| - 1]) + (s[|s| - 1] as int - '0' as int)
  }

  lemma DigitCharValue(d: nat)
    requires d < 10
    ensures DigitChar(d) as int - '0' as int == d
  {
  }

  /** The name given to an unnamed animation reads back as its position. */
  lemma {:induction false} DecimalRoundTrip(n: nat)
    ensures Digits(Decimal(n)) && ParseDecimal(Decimal(n)) == n
  {
    var s := Decimal(n);
    if n < 10 {
      DigitCharValue(n);
      assert s[..0] == [];
    } else {
      DecimalRoundTrip(n / 10);
      assert Digits(s);
      DigitCharValue(n % 10);
      assert s[..|s| - 1] == Decimal(n / 10);
    }
  }

  /** The interpolation a sampler records; anything else keeps the default, linear. */
  function InterpolationOf(s: string): Interpolation {
    if s == "CUBICSPLINE" then CubicSpline
    else if s == "STEP" then Step
    else Linear
  }

  /** The outputs as vec4: VEC3 values padded with w = 0, VEC4 values as they are, other types none. */
  function OutputsOf(o: DocOutputs): (r: seq<Vec4>)
    ensures o.Vec3Outputs? ==> |r| == |o.v3| && forall k :: 0 <= k < |r| ==> r[k] == Extend(o.v3[k], 0.0)
    ensures o.Vec4Outputs? ==> r == o.v4
    ensures o.OtherOutputs? ==> r == []
  {
    match o
    case Vec3Outputs(v3) => seq(|v3|, k requires 0 <= k < |v3| => Extend(v3[k], 0.0))
    case Vec4Outputs(v4) => v4
    case OtherOutputs => []
  }

  /** The smallest of acc and the values xs, folded left to right with strict <. */
  function FoldMin(acc: real, xs: seq<real>): real
    decreases |xs|
  {
    if xs == [] then acc else FoldMin(if xs[0] < acc then xs[0] else acc, xs[1..])
  }

  /** The largest of acc and the values xs, folded left to right with strict >. */
  function FoldMax(acc: real, xs: seq<real>): real
    decreases |xs|
  {
    if xs == [] then acc else FoldMax(if xs[0] > acc then xs[0] else acc, xs[1..])
  }

  /** FoldMin is a lower bound of acc and of every value, and it is one of them. */
  lemma {:induction false} FoldMinBound(acc: real, xs: seq<real>)
    ensures FoldMin(acc, xs) <= acc
    ensures forall k :: 0 <= k < |xs| ==> FoldMin(acc, xs) <= xs[k]
    ensures FoldMin(acc, xs) == acc || exists k :: 0 <= k < |xs| && FoldMin(acc, xs) == xs[k]
    decreases |xs|
  {
    if xs != [] {
      var acc' := if xs[0] < acc then xs[0] else acc;
      FoldMinBound(acc', xs[1..]);
      forall k | 1 <= k < |xs| ensures FoldMin(acc, xs) <= xs[k] {
        assert xs[k] == xs[1..][k - 1];
      }
      if FoldMin(acc, xs) != acc && FoldMin(acc, xs) != xs[0] {
        var k :| 0 <= k < |xs[1..]| && FoldMin(acc', xs[1..]) == xs[1..][k];
        assert FoldMin(acc, xs) == xs[k + 1];
      }
    }
  }

  /** FoldMax is an upper bound of acc and of every value, and it is one of them. */
  lemma {:induction false} FoldMaxBound(acc: real, xs: seq<real>)
    ensures FoldMax(acc, xs) >= acc
    ensures forall k :: 0 <= k < |xs| ==> FoldMax(acc, xs) >= xs[k]
    ensures FoldMax(acc, xs) == acc || exists k :: 0 <= k < |xs| && FoldMax(acc, xs) == xs[k]
    decreases |xs|
  {
    if xs != [] {
      var acc' := if xs[0] > acc then xs[0] else acc;
      FoldMaxBound(acc', xs[1..]);
      forall k | 1 <= k < |xs| ensures FoldMax(acc, xs) >= xs[k] {
        assert xs[k] == xs[1..][k - 1];
      }
      if FoldMax(acc, xs) != acc && FoldMax(acc, xs) != xs[0] {
        var k :| 0 <= k < |xs[1..]| && FoldMax(acc', xs[1..]) == xs[1..][k];
        assert FoldMax(acc, xs) == xs[k + 1];
      }
    }
  }

  /** The loop over one sampler's inputs that widens the animation's [start, end]. */
  method FoldRange(start0: real, end0: real, inputs: seq<real>) returns (start: real, end: real)
    ensures start == FoldMin(start0, inputs) && end == FoldMax(end0, inputs)
  {
    start, end := start0, end0;
    var k := 0;
    while k < |inputs|
      invariant 0 <= k <= |inputs|
      invariant FoldMin(start, inputs[k..]) == FoldMin(start0, inputs)
      invariant FoldMax(end, inputs[k..]) == FoldMax(end0, inputs)
    {
      var input := inputs[k];
      assert inputs[k..][0] == input && inputs[k..][1..] == inputs[k + 1..];
      if input < start {
        start := input;
      }
      if input > end {
        end := input;
      }
      k := k + 1;
    }
    assert inputs[k..] == [];
  }

  /** The sampler load_animations builds from a glTF sampler. */
  function SamplerFromDoc(d: DocAnimSampler): AnimationSampler {
    AnimationSampler(InterpolationOf(d.interpolation), d.inputs, OutputsOf(d.outputs))
  }

  /** The samplers of an animation, in order. */
  function SamplersFromDoc(ds: seq<DocAnimSampler>): seq<AnimationSampler> {
    seq(|ds|, k requires 0 <= k < |ds| => SamplerFromDoc(ds[k]))
  }

  /** The start and end after folding the inputs of the samplers ds, in order. */
  function RangeOf(start: real, end: real, ds: seq<DocAnimSampler>): (real, real)
    decreases |ds|
  {
    if ds == [] then (start, end)
    else RangeOf(FoldMin(start, ds[0].inputs), FoldMax(end, ds[0].inputs), ds[1..])
  }

  /**
   * The target path of a channel: "rotation", "translation" and "scale" map
   * to their path, "weights" drops the channel, and any other path keeps
   * the default, translation.
   */
  function PathOf(p: string): Option<PathType> {
    if p == "weights" then None
    else if p == "scale" then Some(PathType.Scale)
    else if p == "translation" then Some(PathType.Translation)
    else if p == "rotation" then Some(PathType.Rotation)
    else Some(PathType.Translation)
  }

  /** The channel load_animations keeps for c, if any: not "weights", and its target node found among the loaded nodes. */
  function ChannelFromDoc(a: seq<Node>, roots: seq<nat>, c: DocChannel): Option<AnimationChannel>
    requires ValidArena(a) && Above(a, -1, roots)
  {
    match PathOf(c.targetPath)
    case None => None
    case Some(path) =>
      match NodeFromIndex(a, roots, ToU32(c.targetNode))
      case None => None
      case Some(n) => Some(AnimationChannel(path, n, ToU32(c.sampler)))
  }

  /** The channels kept from cs, in order. */
  function ChannelsFromDoc(a: seq<Node>, roots: seq<nat>, cs: seq<DocChannel>): (r: seq<AnimationChannel>)
    requires ValidArena(a) && Above(a, -1, roots)
    ensures |r| <= |cs|
  {
    if cs == [] then []
    else
      var init := ChannelsFromDoc(a, roots, cs[..|cs| - 1]);
      match ChannelFromDoc(a, roots, cs[|cs| - 1])
      case None => init
      case Some(c) => init + [c]
  }

  /**
   * Every kept channel targets the loaded node whose glTF index is the
   * channel's target node, and comes from a channel that is not "weights".
   */
  lemma {:induction false} ChannelsFromDocSound(a: seq<Node>, roots: seq<nat>, cs: seq<DocChannel>)
    requires ValidArena(a) && Above(a, -1, roots)
    ensures forall k :: 0 <= k < |ChannelsFromDoc(a, roots, cs)| ==>
      var c := ChannelsFromDoc(a, roots, cs)[k];
      c.node < |a| &&
      exists j :: 0 <= j < |cs| && cs[j].targetPath != "weights" && a[c.node].index == ToU32(cs[j].targetNode) &&
        c.samplerIndex == ToU32(cs[j].sampler)
  {
    if cs != [] {
      var init := cs[..|cs| - 1];
      ChannelsFromDocSound(a, roots, init);
      var r := ChannelsFromDoc(a, roots, cs);
      forall k | 0 <= k < |r|
        ensures r[k].node < |a| &&
          exists j :: 0 <= j < |cs| && cs[j].targetPath != "weights" && a[r[k].node].index == ToU32(cs[j].targetNode) &&
            r[k].samplerIndex == ToU32(cs[j].sampler)
      {
        if k < |ChannelsFromDoc(a, roots, init)| {
          var j :| 0 <= j < |init| && init[j].targetPath != "weights" &&
            a[r[k].node].index == ToU32(init[j].targetNode) && r[k].samplerIndex == ToU32(init[j].sampler);
          assert cs[j] == init[j];
        } else {
          var j := |cs| - 1;
          assert cs[j].targetPath != "weights" && a[r[k].node].index == ToU32(cs[j].targetNode);
        }
      }
    }
  }

  /**
   * Channels are dropped exactly for "weights" or an unknown target: when
   * every channel resolves and none is "weights", all are kept.
   */
  lemma {:induction false} ChannelsFromDocAllKept(a: seq<Node>, roots: seq<nat>, cs: seq<DocChannel>)
    requires ValidArena(a) && Above(a, -1, roots)
    requires forall j :: 0 <= j < |cs| ==> ChannelFromDoc(a, roots, cs[j]).Some?
    ensures |ChannelsFromDoc(a, roots, cs)| == |cs|
  {
    if cs != [] {
      ChannelsFromDocAllKept(a, roots, cs[..|cs| - 1]);
    }
  }

  /** A "weights" channel is never kept. */
  lemma WeightsDropped(a: seq<Node>, roots: seq<nat>, c: DocChannel)
    requires ValidArena(a) && Above(a, -1, roots)
    ensures c.targetPath == "weights" ==> ChannelFromDoc(a, roots, c).None?
    ensures c.targetPath != "weights" && NodeFromIndex(a, roots, ToU32(c.targetNode)).Some? ==>
      ChannelFromDoc(a, roots, c).Some?
  {
  }

  /**
   * The animation load_animations builds from d as the animation at
   * position pos: named by pos when unnamed, with all samplers, the kept
   * channels, and start/end folded from the header defaults over every
   * sampler's inputs.
   */
  function AnimationFromDoc(a: seq<Node>, roots: seq<nat>, d: DocAnimation, pos: nat): Animation
    requires ValidArena(a) && Above(a, -1, roots)
  {
    var range := RangeOf(FLT_MAX, FLT_MIN, d.samplers);
    Animation(
      if d.name == "" then Decimal(pos) else d.name,
      SamplersFromDoc(d.samplers),
      ChannelsFromDoc(a, roots, d.channels),
      range.0, range.1)
  }

  lemma {:induction false} RangeOfBounds(start: real, end: real, ds: seq<DocAnimSampler>)
    ensures RangeOf(start, end, ds).0 <= start && RangeOf(start, end, ds).1 >= end
    ensures forall s, k :: 0 <= s < |ds| && 0 <= k < |ds[s].inputs| ==>
      RangeOf(start, end, ds).0 <= ds[s].inputs[k] <= RangeOf(start, end, ds).1
    decreases |ds|
  {
    if ds != [] {
      FoldMinBound(start, ds[0].inputs);
      FoldMaxBound(end, ds[0].inputs);
      RangeOfBounds(FoldMin(start, ds[0].inputs), FoldMax(end, ds[0].inputs), ds[1..]);
      forall s, k | 1 <= s < |ds| && 0 <= k < |ds[s].inputs|
        ensures RangeOf(start, end, ds).0 <= ds[s].inputs[k] <= RangeOf(start, end, ds).1
      {
        assert ds[s] == ds[1..][s - 1];
      }
    }
  }

  /**
   * The animation's range: start is at most FLT_MAX and end at least
   * FLT_MIN (so end is positive even when every input is zero or negative),
   * and every input of every sampler lies in [start, end]. An unnamed
   * animation is named by its position.
   */
  lemma AnimationFromDocRange(a: seq<Node>, roots: seq<nat>, d: DocAnimation, pos: nat)
    requires ValidArena(a) && Above(a, -1, roots)
    ensures var r := AnimationFromDoc(a, roots, d, pos);
      r.start <= FLT_MAX && r.end >= FLT_MIN && r.end > 0.0 &&
      (forall s, k :: 0 <= s < |d.samplers| && 0 <= k < |d.samplers[s].inputs| ==>
        r.start <= d.samplers[s].inputs[k] <= r.end) &&
      (d.name == "" ==> Digits(r.name) && ParseDecimal(r.name) == pos) &&
      (d.name != "" ==> r.name == d.name) &&
      |r.samplers| == |d.samplers|
  {
    RangeOfBounds(FLT_MAX, FLT_MIN, d.samplers);
    DecimalRoundTrip(pos);
  }

  /** The animations load_animations appends to a model already holding `base` animations. */
  function AnimationsFromDoc(a: seq<Node>, roots: seq<nat>, ds: seq<DocAnimation>, base: nat): (r: seq<Animation>)
    requires ValidArena(a) && Above(a, -1, roots)
    ensures |r| == |ds|
  {
    if ds == [] then []
    else AnimationsFromDoc(a, roots, ds[..|ds| - 1], base) + [AnimationFromDoc(a, roots, ds[|ds| - 1], base + |ds| - 1)]
  }

  /** One more glTF animation appends one more animation, at position base + k. */
  lemma AnimationsFromDocSnoc(a: seq<Node>, roots: seq<nat>, ds: seq<DocAnimation>, k: nat,
                              pre: seq<Animation>, cur: seq<Animation>, x: Animation)
    requires ValidArena(a) && Above(a, -1, roots) && k < |ds|
    requires cur == pre + AnimationsFromDoc(a, roots, ds[..k], |pre|)
    requires x == AnimationFromDoc(a, roots, ds[k], |cur|)
    ensures cur + [x] == pre + AnimationsFromDoc(a, roots, ds[..k + 1], |pre|)
  {
    AnimationsFromDocLast(a, roots, ds, |pre|, k, |cur|);
    AppendOne(pre, AnimationsFromDoc(a, roots, ds[..k], |pre|), x, cur);
  }

  lemma AnimationsFromDocLast(a: seq<Node>, roots: seq<nat>, ds: seq<DocAnimation>, base: nat, k: nat, pos: nat)
    requires ValidArena(a) && Above(a, -1, roots) && k < |ds| && pos == base + k
    ensures AnimationsFromDoc(a, roots, ds[..k + 1], base) ==
      AnimationsFromDoc(a, roots, ds[..k], base) + [AnimationFromDoc(a, roots, ds[k], pos)]
  {
    assert ds[..k + 1][..k] == ds[..k];
  }

  lemma AppendOne<T>(p: seq<T>, q: seq<T>, x: T, c: seq<T>)
    requires c == p + q
    ensures c + [x] == p + (q + [x])
  {
  }

  /** The k-th animation appended is the k-th glTF animation, at position base + k. */
  lemma {:induction false} AnimationsFromDocAt(a: seq<Node>, roots: seq<nat>, ds: seq<DocAnimation>, base: nat, k: nat)
    requires ValidArena(a) && Above(a, -1, roots) && k < |ds|
    ensures AnimationsFromDoc(a, roots, ds, base)[k] == AnimationFromDoc(a, roots, ds[k], base + k)
  {
    if k < |ds| - 1 {
      AnimationsFromDocAt(a, roots, ds[..|ds| - 1], base, k);
    }
  }

  /** The loop over an animation's channels that keeps the resolvable, non-"weights" ones. */
  method LoadChannels(a: seq<Node>, roots: seq<nat>, cs: seq<DocChannel>) returns (channels: seq<AnimationChannel>)
    requires ValidArena(a) && Above(a, -1, roots)
    ensures channels == ChannelsFromDoc(a, roots, cs)
  {
    channels := [];
    var k := 0;
    while k < |cs|
      invariant 0 <= k <= |cs|
      invariant channels == ChannelsFromDoc(a, roots, cs[..k])
    {
      assert cs[..k + 1][..k] == cs[..k];
      var source := cs[k];
      var path := PathOf(source.targetPath);
      if path.Some? {
        var node := NodeFromIndex(a, roots, ToU32(source.targetNode));
        if node.Some? {
          channels := channels + [AnimationChannel(path.value, node.value, ToU32(source.sampler))];
        }
      }
      k := k + 1;
    }
    assert cs[..k] == cs;
  }

  /** The body of load_animations for one animation at position pos. */
  method LoadAnimation(a: seq<Node>, roots: seq<nat>, d: DocAnimation, pos: nat) returns (r: Animation)
    requires ValidArena(a) && Above(a, -1, roots)
    ensures r == AnimationFromDoc(a, roots, d, pos)
  {
    var name := if d.name == "" then Decimal(pos) else d.name;
    var start, end := FLT_MAX, FLT_MIN;
    var samplers: seq<AnimationSampler> := [];
    var k := 0;
    while k < |d.samplers|
      invariant 0 <= k <= |d.samplers|
      invariant samplers == SamplersFromDoc(d.samplers[..k])
      invariant RangeOf(start, end, d.samplers[k..]) == RangeOf(FLT_MAX, FLT_MIN, d.samplers)
    {
      var samp := d.samplers[k];
      assert d.samplers[k..][0] == samp && d.samplers[k..][1..] == d.samplers[k + 1..];
      start, end := FoldRange(start, end, samp.inputs);
      samplers := samplers + [SamplerFromDoc(samp)];
      k := k + 1;
    }
    assert d.samplers[..k] == d.samplers && d.samplers[k..] == [];
    var channels := LoadChannels(a, roots, d.channels);
    r := Animation(name, samplers, channels, start, end);
  }

  /* update_animation */

  /** What update_animation needs of an animation: every channel's sampler exists, and its node is loaded. */
  predicate ChannelsOk(anim: Animation, n: nat) {
    forall c :: 0 <= c < |anim.channels| ==>
      anim.channels[c].samplerIndex < |anim.samplers| && anim.channels[c].node < n
  }

  /**
   * The sampler's inputs cannot be empty when the channel is evaluated:
   * the bracket loop runs up to inputs.size() - 1, which underflows for an
   * empty list.
   */
  predicate Evaluable(s: AnimationSampler) {
    |s.inputs| > |s.outputs| || |s.inputs| > 0
  }

  /** u for bracket i at time t: max(0, t - inputs[i]) / (inputs[i+1] - inputs[i]), for a non-zero width. */
  function U(s: AnimationSampler, t: real, i: nat): real
    requires i + 1 < |s.inputs| && s.inputs[i + 1] != s.inputs[i]
  {
    (if t - s.inputs[i] > 0.0 then t - s.inputs[i] else 0.0) / (s.inputs[i + 1] - s.inputs[i])
  }

  /**
   * Bracket i fires at time t: inputs[i] <= t <= inputs[i+1] and u <= 1.
   * For a zero-width bracket u is 0/0, a NaN, which fails u <= 1.
   */
  predicate Fires(s: AnimationSampler, t: real, i: nat)
    requires i + 1 < |s.inputs|
  {
    s.inputs[i] <= t <= s.inputs[i + 1] && s.inputs[i + 1] != s.inputs[i] && U(s, t, i) <= 1.0
  }

  /** u of a firing bracket lies in [0, 1]; a bracket containing t with positive width always fires. */
  lemma FiresU(s: AnimationSampler, t: real, i: nat)
    requires i + 1 < |s.inputs|
    ensures s.inputs[i] <= t <= s.inputs[i + 1] && s.inputs[i] < s.inputs[i + 1] ==> Fires(s, t, i)
    ensures Fires(s, t, i) ==> 0.0 <= U(s, t, i) <= 1.0
    ensures Fires(s, t, i) && t == s.inputs[i] ==> U(s, t, i) == 0.0
    ensures Fires(s, t, i) && t == s.inputs[i + 1] ==> U(s, t, i) == 1.0
  {
    if s.inputs[i] <= t <= s.inputs[i + 1] && s.inputs[i + 1] != s.inputs[i] {
      var w := s.inputs[i + 1] - s.inputs[i];
      var d := t - s.inputs[i];
      assert w > 0.0 && 0.0 <= d <= w;
      assert U(s, t, i) == d / w;
      DivUnit(d, w);
    }
  }

  lemma DivUnit(d: real, w: real)
    requires w > 0.0 && 0.0 <= d <= w
    ensures 0.0 <= d / w <= 1.0
    ensures d == 0.0 ==> d / w == 0.0
    ensures d == w ==> d / w == 1.0
  {
  }

  /** The last bracket below k that fires: later brackets overwrite earlier ones. */
  function LastFired(s: AnimationSampler, t: real, k: nat): (r: Option<nat>)
    requires k < |s.inputs|
    ensures r.Some? ==> r.value < k && Fires(s, t, r.value)
    ensures r.Some? ==> forall j :: r.value < j < k ==> !Fires(s, t, j)
    ensures r.None? ==> forall j :: 0 <= j < k ==> !Fires(s, t, j)
  {
    if k == 0 then None
    else if Fires(s, t, k - 1) then Some(k - 1)
    else LastFired(s, t, k - 1)
  }

  /** The value a firing bracket i gives a node: translation or scale from mix, rotation from slerp. */
  function Animated(n: Node, path: PathType, s: AnimationSampler, t: real, i: nat): (r: Node)
    requires i + 1 < |s.inputs| && i + 1 < |s.outputs| && Fires(s, t, i)
    ensures r.parent == n.parent && r.children == n.children && r.mesh == n.mesh && r.skin == n.skin
  {
    var u := U(s, t, i);
    var a, b := s.outputs[i], s.outputs[i + 1];
    match path
    case Translation => n.(translation := Xyz(Mix(a, b, u)))
    case Scale => n.(scale := Xyz(Mix(a, b, u)))
    case Rotation => n.(rotation := NormalizedSlerp(Quat(a.x, a.y, a.z, a.w), Quat(b.x, b.y, b.z, b.w), u))
  }

  /**
   * One channel at time t: skipped when its sampler has more inputs than
   * outputs; otherwise the last firing bracket sets the target's path.
   * The flag says whether any bracket fired.
   */
  function ApplyChannel(a: seq<Node>, c: AnimationChannel, s: AnimationSampler, t: real): (r: (seq<Node>, bool))
    requires c.node < |a| && Evaluable(s)
    ensures SameShape(a, r.0)
    ensures !r.1 ==> r.0 == a
  {
    if |s.inputs| > |s.outputs| then (a, false)
    else
      match LastFired(s, t, |s.inputs| - 1)
      case None => (a, false)
      case Some(i) => (a[c.node := Animated(a[c.node], c.path, s, t, i)], true)
  }

  /** Every channel of cs has its sampler, an evaluable one, and its node. */
  predicate ChannelsFit(a: seq<Node>, anim: Animation, cs: seq<AnimationChannel>) {
    forall c :: 0 <= c < |cs| ==>
      cs[c].samplerIndex < |anim.samplers| && cs[c].node < |a| && Evaluable(anim.samplers[cs[c].samplerIndex])
  }

  /** The channels cs applied in order; the flag says whether any fired. */
  function ApplyChannels(a: seq<Node>, anim: Animation, cs: seq<AnimationChannel>, t: real): (r: (seq<Node>, bool))
    requires ChannelsFit(a, anim, cs)
    ensures SameShape(a, r.0)
    ensures !r.1 ==> r.0 == a
    decreases |cs|
  {
    if cs == [] then (a, false)
    else
      var step := ApplyChannel(a, cs[0], anim.samplers[cs[0].samplerIndex], t);
      var rest := ApplyChannels(step.0, anim, cs[1..], t);
      (rest.0, step.1 || rest.1)
  }

  /** Strictly increasing keyframe times. */
  predicate Increasing(xs: seq<real>) {
    forall i, j :: 0 <= i < j < |xs| ==> xs[i] < xs[j]
  }

  /**
   * With strictly increasing inputs, at a keyframe time inputs[i] with a
   * later keyframe, the bracket starting at i is the last to fire, with
   * u = 0: a translation or scale channel yields outputs[i].
   */
  lemma AtKeyframe(s: AnimationSampler, i: nat)
    requires Increasing(s.inputs) && i + 1 < |s.inputs|
    ensures LastFired(s, s.inputs[i], |s.inputs| - 1) == Some(i)
    ensures U(s, s.inputs[i], i) == 0.0
  {
    var t := s.inputs[i];
    FiresU(s, t, i);
    LastFiredSkips(s, t, i + 1, |s.inputs| - 1);
  }

  /** With strictly increasing inputs, at the last keyframe time the last bracket fires with u = 1. */
  lemma AtLastKeyframe(s: AnimationSampler)
    requires Increasing(s.inputs) && |s.inputs| >= 2
    ensures var n := |s.inputs|;
      LastFired(s, s.inputs[n - 1], n - 1) == Some(n - 2) && U(s, s.inputs[n - 1], n - 2) == 1.0
  {
    FiresU(s, s.inputs[|s.inputs| - 1], |s.inputs| - 2);
  }

  /** With strictly increasing inputs, no bracket fires before the first or after the last keyframe: no wrapping. */
  lemma OutsideRange(s: AnimationSampler, t: real)
    requires Increasing(s.inputs) && |s.inputs| > 0
    requires t < s.inputs[0] || t > s.inputs[|s.inputs| - 1]
    ensures LastFired(s, t, |s.inputs| - 1).None?
  {
  }

  /**
   * A translation channel evaluated at keyframe time inputs[i] (with a
   * later keyframe) sets the node's translation to exactly outputs[i].
   */
  lemma TranslationAtKeyframe(a: seq<Node>, c: AnimationChannel, s: AnimationSampler, i: nat)
    requires c.node < |a| && c.path == PathType.Translation
    requires Increasing(s.inputs) && i + 1 < |s.inputs| && |s.inputs| <= |s.outputs|
    ensures ApplyChannel(a, c, s, s.inputs[i]).1
    ensures ApplyChannel(a, c, s, s.inputs[i]).0[c.node].translation == Xyz(s.outputs[i])
  {
    AtKeyframe(s, i);
  }

  /** Outside the first and last keyframe a channel changes nothing and does not count as an update. */
  lemma NoChangeOutside(a: seq<Node>, c: AnimationChannel, s: AnimationSampler, t: real)
    requires c.node < |a| && Evaluable(s) && Increasing(s.inputs) && |s.inputs| > 0
    requires t < s.inputs[0] || t > s.inputs[|s.inputs| - 1]
    ensures ApplyChannel(a, c, s, t) == (a, false)
  {
    OutsideRange(s, t);
  }

  /** With increasing inputs, no bracket from lo on fires before inputs[lo]: searching below k finds what searching below lo finds. */
  lemma {:induction false} LastFiredSkips(s: AnimationSampler, t: real, lo: nat, k: nat)
    requires Increasing(s.inputs) && lo <= k < |s.inputs| && t < s.inputs[lo]
    ensures LastFired(s, t, k) == LastFired(s, t, lo)
    decreases k
  {
    if k > lo {
      assert !Fires(s, t, k - 1) by {
        assert s.inputs[lo] <= s.inputs[k - 1];
      }
      LastFiredSkips(s, t, lo, k - 1);
    }
  }

  /**
   * The bracket loop of update_animation for one channel: every firing
   * bracket overwrites the channel's path on the target node, and the flag
   * records that one fired.
   */
  method EvaluateChannel(a: seq<Node>, c: AnimationChannel, s: AnimationSampler, t: real) returns (r: seq<Node>, fired: bool)
    requires c.node < |a| && Evaluable(s)
    ensures (r, fired) == ApplyChannel(a, c, s, t)
  {
    r, fired := a, false;
    if |s.inputs| > |s.outputs| {
      return;
    }
    var i := 0;
    while i < |s.inputs| - 1
      invariant 0 <= i <= |s.inputs| - 1 && |r| == |a|
      invariant match LastFired(s, t, i)
        case None => r == a && !fired
        case Some(j) => fired && r == a[c.node := Animated(a[c.node], c.path, s, t, j)]
    {
      if t >= s.inputs[i] && t <= s.inputs[i + 1] && s.inputs[i + 1] != s.inputs[i] {
        var u := (if t - s.inputs[i] > 0.0 then t - s.inputs[i] else 0.0) / (s.inputs[i + 1] - s.inputs[i]);
        if u <= 1.0 {
          var n := r[c.node];
          match c.path {
            case Translation =>
              n := n.(translation := Xyz(Mix(s.outputs[i], s.outputs[i + 1], u)));
            case Scale =>
              n := n.(scale := Xyz(Mix(s.outputs[i], s.outputs[i + 1], u)));
            case Rotation =>
              var q1 := Quat(s.outputs[i].x, s.outputs[i].y, s.outputs[i].z, s.outputs[i].w);
              var q2 := Quat(s.outputs[i + 1].x, s.outputs[i + 1].y, s.outputs[i + 1].z, s.outputs[i + 1].w);
              n := n.(rotation := NormalizedSlerp(q1, q2, u));
          }
          r := r[c.node := n];
          fired := true;
        }
      }
      i := i + 1;
    }
  }

  /**
   * update_animation's whole effect on the scene: the channels applied in
   * order and, when any fired, the uniform blocks rewritten by updating
   * every root's subtree.
   */
  function AnimateScene(a: seq<Node>, skins: seq<Skin>, b: seq<UniformBlock>, roots: seq<nat>, anim: Animation, t: real): (r: (seq<Node>, seq<UniformBlock>))
    requires SceneOk(a, skins, |b|) && BlocksOk(b) && Above(a, -1, roots) && ChannelsFit(a, anim, anim.channels)
    ensures SameShape(a, r.0) && SceneOk(r.0, skins, |b|) && |r.1| == |b| && BlocksOk(r.1)
  {
    var step := ApplyChannels(a, anim, anim.channels, t);
    SameShapeSceneOk(a, step.0, skins, |b|);
    (step.0, if step.1 then WriteAll(step.0, skins, b, Forest(step.0, -1, roots)) else b)
  }

  /** Every sampler a channel uses is non-empty, strictly increasing, and does not span t. */
  predicate AllOutside(anim: Animation, t: real) {
    forall c :: 0 <= c < |anim.channels| && anim.channels[c].samplerIndex < |anim.samplers| ==>
      var s := anim.samplers[anim.channels[c].samplerIndex];
      Increasing(s.inputs) && |s.inputs| > 0 && (t < s.inputs[0] || t > s.inputs[|s.inputs| - 1])
  }

  lemma {:induction false} ApplyChannelsIdle(a: seq<Node>, anim: Animation, cs: seq<AnimationChannel>, t: real)
    requires ChannelsFit(a, anim, cs)
    requires forall c :: 0 <= c < |cs| ==>
      var s := anim.samplers[cs[c].samplerIndex];
      Increasing(s.inputs) && |s.inputs| > 0 && (t < s.inputs[0] || t > s.inputs[|s.inputs| - 1])
    ensures ApplyChannels(a, anim, cs, t) == (a, false)
    decreases |cs|
  {
    if cs != [] {
      NoChangeOutside(a, cs[0], anim.samplers[cs[0].samplerIndex], t);
      ApplyChannelsIdle(a, anim, cs[1..], t);
    }
  }

  /**
   * Animations do not wrap: at a time outside every used sampler's
   * keyframes, update_animation changes neither the nodes nor the uniform
   * blocks.
   */
  lemma AnimateOutsideIsIdle(a: seq<Node>, skins: seq<Skin>, b: seq<UniformBlock>, roots: seq<nat>, anim: Animation, t: real)
    requires SceneOk(a, skins, |b|) && BlocksOk(b) && Above(a, -1, roots) && ChannelsFit(a, anim, anim.channels)
    requires AllOutside(anim, t)
    ensures AnimateScene(a, skins, b, roots, anim, t) == (a, b)
  {
    ApplyChannelsIdle(a, anim, anim.channels, t);
  }
}

=== FILE: bounds.dfy ===
/**
 * BoundingBox (model.hpp) and its transform under a 4x4 matrix (get_aabb in
 * model.cpp), over reals.
 */
module Bounds {
  import opened LinAlg

  /** An axis-aligned box; `valid` is false until a corner pair is assigned. */
  datatype BoundingBox = BoundingBox(min: Vec3, max: Vec3, valid: bool)

  /**
   * BoundingBox(): not valid. Its corners are left uninitialised by the
   * source; the model fixes them at the origin.
   */
  const DefaultBox: BoundingBox := BoundingBox(Zero3, Zero3, false)

  /** BoundingBox(min, max): the two-argument constructor leaves `valid` at its default. */
  function MakeBox(min: Vec3, max: Vec3): (b: BoundingBox)
    ensures !b.valid && b.min == min && b.max == max
  {
    BoundingBox(min, max, false)
  }

  /** A concrete column-major 4x4 matrix of reals (what get_aabb reads). */
  datatype Mat4 = Mat4(c0: Vec4, c1: Vec4, c2: Vec4, c3: Vec4)

  const IdentityMat4: Mat4 :=
    Mat4(Vec4(1.0, 0.0, 0.0, 0.0), Vec4(0.0, 1.0, 0.0, 0.0),
         Vec4(0.0, 0.0, 1.0, 0.0), Vec4(0.0, 0.0, 0.0, 1.0))

  function TranslationMat4(t: Vec3): Mat4 {
    IdentityMat4.(c3 := Vec4(t.x, t.y, t.z, 1.0))
  }

  /** The image of point p under m (homogeneous w = 1), first three components. */
  function Apply(m: Mat4, p: Vec3): Vec3 {
    Add3(Xyz(m.c3), Add3(Scale3(Xyz(m.c0), p.x), Add3(Scale3(Xyz(m.c1), p.y), Scale3(Xyz(m.c2), p.z))))
  }

  /** One axis of get_aabb: add the smaller and the larger image of the column. */
  function AxisLo(col: Vec3, lo: real, hi: real): Vec3 { MinV(Scale3(col, lo), Scale3(col, hi)) }
  function AxisHi(col: Vec3, lo: real, hi: real): Vec3 { MaxV(Scale3(col, lo), Scale3(col, hi)) }

  /**
   * BoundingBox::get_aabb: start both corners at the translation column, then
   * for each axis add the componentwise min (resp. max) of the column scaled by
   * the box's low and high coordinate on that axis. The result is not marked
   * valid (it is built with the two-argument constructor).
   */
  function GetAabb(b: BoundingBox, m: Mat4): (r: BoundingBox)
    ensures !r.valid
    ensures LessEq3(r.min, r.max)
  {
    var lo := Add3(Add3(Add3(Xyz(m.c3), AxisLo(Xyz(m.c0), b.min.x, b.max.x)),
                        AxisLo(Xyz(m.c1), b.min.y, b.max.y)),
                   AxisLo(Xyz(m.c2), b.min.z, b.max.z));
    var hi := Add3(Add3(Add3(Xyz(m.c3), AxisHi(Xyz(m.c0), b.min.x, b.max.x)),
                        AxisHi(Xyz(m.c1), b.min.y, b.max.y)),
                   AxisHi(Xyz(m.c2), b.min.z, b.max.z));
    MakeBox(lo, hi)
  }

  /** Transforming a well-ordered box by the identity gives the same corners. */
  lemma GetAabbIdentity(b: BoundingBox)
    requires LessEq3(b.min, b.max)
    ensures GetAabb(b, IdentityMat4).min == b.min
    ensures GetAabb(b, IdentityMat4).max == b.max
  {
  }

  /** Transforming a well-ordered box by a pure translation shifts both corners by it. */
  lemma GetAabbTranslation(b: BoundingBox, t: Vec3)
    requires LessEq3(b.min, b.max)
    ensures GetAabb(b, TranslationMat4(t)).min == Add3(t, b.min)
    ensures GetAabb(b, TranslationMat4(t)).max == Add3(t, b.max)
  {
  }

  /** Scaling by c maps [lo, hi] between the two scaled endpoints, whatever c's sign. */
  lemma ScaledBetween(c: real, lo: real, hi: real, p: real, a: real, b: real, s: real)
    requires lo <= p <= hi && a == c * lo && b == c * hi && s == c * p
    ensures Min(a, b) <= s <= Max(a, b)
  {
    if c >= 0.0 {
      assert c * (p - lo) >= 0.0;
      assert c * (hi - p) >= 0.0;
    } else {
      assert c * (p - lo) <= 0.0;
      assert c * (hi - p) <= 0.0;
    }
  }

  /** Componentwise lo <= p <= hi. */
  predicate Inside(p: Vec3, lo: Vec3, hi: Vec3) { LessEq3(lo, p) && LessEq3(p, hi) }

  /** A point between a and b on every axis lies in the box their componentwise min and max span. */
  lemma BetweenInside(s: Vec3, a: Vec3, b: Vec3)
    requires Min(a.x, b.x) <= s.x <= Max(a.x, b.x)
    requires Min(a.y, b.y) <= s.y <= Max(a.y, b.y)
    requires Min(a.z, b.z) <= s.z <= Max(a.z, b.z)
    ensures Inside(s, MinV(a, b), MaxV(a, b))
  {
  }

  /** ScaledBetween on the x, y and z axes of col. */
  lemma ScaledBetweenX(col: Vec3, lo: real, hi: real, p: real)
    requires lo <= p <= hi
    ensures Min(Scale3(col, lo).x, Scale3(col, hi).x) <= Scale3(col, p).x <= Max(Scale3(col, lo).x, Scale3(col, hi).x)
  {
    ScaledBetween(col.x, lo, hi, p, col.x * lo, col.x * hi, col.x * p);
  }

  lemma ScaledBetweenY(col: Vec3, lo: real, hi: real, p: real)
    requires lo <= p <= hi
    ensures Min(Scale3(col, lo).y, Scale3(col, hi).y) <= Scale3(col, p).y <= Max(Scale3(col, lo).y, Scale3(col, hi).y)
  {
    ScaledBetween(col.y, lo, hi, p, col.y * lo, col.y * hi, col.y * p);
  }

  lemma ScaledBetweenZ(col: Vec3, lo: real, hi: real, p: real)
    requires lo <= p <= hi
    ensures Min(Scale3(col, lo).z, Scale3(col, hi).z) <= Scale3(col, p).z <= Max(Scale3(col, lo).z, Scale3(col, hi).z)
  {
    ScaledBetween(col.z, lo, hi, p, col.z * lo, col.z * hi, col.z * p);
  }

  lemma AxisBetween(col: Vec3, lo: real, hi: real, p: real)
    requires lo <= p <= hi
    ensures Inside(Scale3(col, p), AxisLo(col, lo, hi), AxisHi(col, lo, hi))
  {
    ScaledBetweenX(col, lo, hi, p);
    ScaledBetweenY(col, lo, hi, p);
    ScaledBetweenZ(col, lo, hi, p);
    BetweenInside(Scale3(col, p), Scale3(col, lo), Scale3(col, hi));
  }

  lemma AddInside(p: Vec3, lo: Vec3, hi: Vec3, q: Vec3, lo': Vec3, hi': Vec3)
    requires Inside(p, lo, hi) && Inside(q, lo', hi')
    ensures Inside(Add3(p, q), Add3(lo, lo'), Add3(hi, hi'))
  {
  }

  /**
   * get_aabb is conservative: every point of the box is mapped into the
   * transformed box.
   */
  lemma GetAabbContains(b: BoundingBox, m: Mat4, p: Vec3)
    requires Inside(p, b.min, b.max)
    ensures Inside(Apply(m, p), GetAabb(b, m).min, GetAabb(b, m).max)
  {
    var t := Xyz(m.c3);
    AxisBetween(Xyz(m.c0), b.min.x, b.max.x, p.x);
    AxisBetween(Xyz(m.c1), b.min.y, b.max.y, p.y);
    AxisBetween(Xyz(m.c2), b.min.z, b.max.z, p.z);
    var x := Scale3(Xyz(m.c0), p.x);
    var y := Scale3(Xyz(m.c1), p.y);
    var z := Scale3(Xyz(m.c2), p.z);
    var lx, hx := AxisLo(Xyz(m.c0), b.min.x, b.max.x), AxisHi(Xyz(m.c0), b.min.x, b.max.x);
    var ly, hy := AxisLo(Xyz(m.c1), b.min.y, b.max.y), AxisHi(Xyz(m.c1), b.min.y, b.max.y);
    var lz, hz := AxisLo(Xyz(m.c2), b.min.z, b.max.z), AxisHi(Xyz(m.c2), b.min.z, b.max.z);
    AddInside(t, t, t, x, lx, hx);
    AddInside(Add3(t, x), Add3(t, lx), Add3(t, hx), y, ly, hy);
    AddInside(Add3(Add3(t, x), y), Add3(Add3(t, lx), ly), Add3(Add3(t, hx), hy), z, lz, hz);
    assert Apply(m, p) == Add3(Add3(Add3(t, x), y), z);
  }
}

=== FILE: cube.dfy ===
/**
 * The cube sample (01_cube/main.cpp): the per-frame uniform buffer
 * ShaderData holds the model-view-projection matrix followed by the 36
 * vertices of the cube, each a position (x, y, z, 1) and an attribute
 * (u, v, 0, 0). The vertex shader reads the vertices from that buffer, so
 * the draw issues 36 vertices and binds no vertex buffer.
 *
 * A mapped buffer is an array of floats in the struct's layout: the 16
 * floats of the matrix, then 36 rows of 4 position floats, then 36 rows of
 * 4 attribute floats. Floats are reals; the matrix itself is computed by
 * glm and arrives here as 16 values.
 */
module Cube {
  import opened Ac

  /** g_vertex_buffer_data: three floats per vertex, six vertices per face. */
  const VertexData: seq<real> := [
    -1.0, -1.0, -1.0,
    -1.0, -1.0,  1.0,
    -1.0,  1.0,  1.0,
    -1.0,  1.0,  1.0,
    -1.0,  1.0, -1.0,
    -1.0, -1.0, -1.0,
    -1.0, -1.0, -1.0,
     1.0,  1.0, -1.0,
     1.0, -1.0, -1.0,
    -1.0, -1.0, -1.0,
    -1.0,  1.0, -1.0,
     1.0,  1.0, -1.0,
    -1.0, -1.0, -1.0,
     1.0, -1.0, -1.0,
     1.0, -1.0,  1.0,
    -1.0, -1.0, -1.0,
     1.0, -1.0,  1.0,
    -1.0, -1.0,  1.0,
    -1.0,  1.0, -1.0,
    -1.0,  1.0,  1.0,
     1.0,  1.0,  1.0,
    -1.0,  1.0, -1.0,
     1.0,  1.0,  1.0,
     1.0,  1.0, -1.0,
     1.0,  1.0, -1.0,
     1.0,  1.0,  1.0,
     1.0, -1.0,  1.0,
     1.0, -1.0,  1.0,
     1.0, -1.0, -1.0,
     1.0,  1.0, -1.0,
    -1.0,  1.0,  1.0,
    -1.0, -1.0,  1.0,
     1.0,  1.0,  1.0,
    -1.0, -1.0,  1.0,
     1.0, -1.0,  1.0,
     1.0,  1.0,  1.0]

  /** g_uv_buffer_data: two floats per vertex, in the same order. */
  const UvData: seq<real> := [
     0.0,  1.0,
     1.0,  1.0,
     1.0,  0.0,
     1.0,  0.0,
     0.0,  0.0,
     0.0,  1.0,
     1.0,  1.0,
     0.0,  0.0,
     0.0,  1.0,
     1.0,  1.0,
     1.0,  0.0,
     0.0,  0.0,
     1.0,  0.0,
     1.0,  1.0,
     0.0,  1.0,
     1.0,  0.0,
     0.0,  1.0,
     0.0,  0.0,
     1.0,  0.0,
     0.0,  0.0,
     0.0,  1.0,
     1.0,  0.0,
     0.0,  1.0,
     1.0,  1.0,
     1.0,  0.0,
     0.0,  0.0,
     0.0,  1.0,
     0.0,  1.0,
     1.0,  1.0,
     1.0,  0.0,
     0.0,  0.0,
     0.0,  1.0,
     1.0,  0.0,
     0.0,  1.0,
     1.0,  1.0,
     1.0,  0.0]

  /** 12 * 3: twelve triangles of three vertices. */
  const CUBE_VERTICES: nat := 36

  /** Floats in the glm::mat4 at the start of ShaderData. */
  const MVP_FLOATS: nat := 16

  /** Offsets of the position and attr rows in ShaderData, in floats. */
  const POSITION_OFFSET: nat := 16
  const ATTR_OFFSET: nat := 160

  /** sizeof(ShaderData) / sizeof(float). */
  const SHADER_DATA_FLOATS: nat := 304

  /** Vertex arrays with three position floats and two texture-coordinate floats per cube vertex. */
  predicate DataOk(xyz: seq<real>, uv: seq<real>) {
    |xyz| == 3 * CUBE_VERTICES && |uv| == 2 * CUBE_VERTICES
  }

  /** The two arrays of the sample hold 108 and 72 floats, one entry per cube vertex. */
  lemma CubeDataOk()
    ensures DataOk(VertexData, UvData)
    ensures |VertexData| == 108 && |UvData| == 72
  {
  }

  /** position[r][c], for the float k = 4r + c of the position block. */
  function PositionValue(xyz: seq<real>, k: nat): real
    requires |xyz| == 3 * CUBE_VERTICES && k < 4 * CUBE_VERTICES
  {
    var r, c := k / 4, k % 4;
    if c < 3 then xyz[3 * r + c] else 1.0
  }

  /** attr[r][c], for the float k = 4r + c of the attr block. */
  function AttrValue(uv: seq<real>, k: nat): real
    requires |uv| == 2 * CUBE_VERTICES && k < 4 * CUBE_VERTICES
  {
    var r, c := k / 4, k % 4;
    if c < 2 then uv[2 * r + c] else 0.0
  }

  /** Float k of a buffer once the fill loop has written its first np position rows and na attr rows. */
  function FillStep(before: seq<real>, xyz: seq<real>, uv: seq<real>, np: nat, na: nat, k: nat): real
    requires |before| == SHADER_DATA_FLOATS && DataOk(xyz, uv) && np <= CUBE_VERTICES && na <= CUBE_VERTICES
    requires k < SHADER_DATA_FLOATS
  {
    if POSITION_OFFSET <= k < POSITION_OFFSET + 4 * np then PositionValue(xyz, k - POSITION_OFFSET)
    else if ATTR_OFFSET <= k < ATTR_OFFSET + 4 * na then AttrValue(uv, k - ATTR_OFFSET)
    else before[k]
  }

  /** A buffer after the whole fill loop. */
  function Filled(before: seq<real>, xyz: seq<real>, uv: seq<real>): (r: seq<real>)
    requires |before| == SHADER_DATA_FLOATS && DataOk(xyz, uv)
    ensures |r| == SHADER_DATA_FLOATS
  {
    seq(SHADER_DATA_FLOATS, k requires 0 <= k < SHADER_DATA_FLOATS => FillStep(before, xyz, uv, CUBE_VERTICES, CUBE_VERTICES, k))
  }

  /** Row r of the position block is (x, y, z, 1) and row r of the attr block (u, v, 0, 0), from vertex r of the two arrays. */
  lemma RowValues(xyz: seq<real>, uv: seq<real>, r: nat)
    requires DataOk(xyz, uv) && r < CUBE_VERTICES
    ensures PositionValue(xyz, 4 * r) == xyz[3 * r] && PositionValue(xyz, 4 * r + 1) == xyz[3 * r + 1]
    ensures PositionValue(xyz, 4 * r + 2) == xyz[3 * r + 2] && PositionValue(xyz, 4 * r + 3) == 1.0
    ensures AttrValue(uv, 4 * r) == uv[2 * r] && AttrValue(uv, 4 * r + 1) == uv[2 * r + 1]
    ensures AttrValue(uv, 4 * r + 2) == 0.0 && AttrValue(uv, 4 * r + 3) == 0.0
  {
    // Float 4r + c of a block of rows is column c of row r.
    assert (4 * r) / 4 == r && (4 * r) % 4 == 0 && (4 * r + 1) / 4 == r && (4 * r + 1) % 4 == 1;
    assert (4 * r + 2) / 4 == r && (4 * r + 2) % 4 == 2 && (4 * r + 3) / 4 == r && (4 * r + 3) % 4 == 3;
  }

  /** In the filled buffer position[r] = (x, y, z, 1), from floats 3r .. 3r + 2 of the vertex data. */
  lemma FilledPositionRow(before: seq<real>, xyz: seq<real>, uv: seq<real>, r: nat)
    requires |before| == SHADER_DATA_FLOATS && DataOk(xyz, uv) && r < CUBE_VERTICES
    ensures var m, p := Filled(before, xyz, uv), POSITION_OFFSET + 4 * r;
      m[p] == xyz[3 * r] && m[p + 1] == xyz[3 * r + 1] && m[p + 2] == xyz[3 * r + 2] && m[p + 3] == 1.0
  {
    RowValues(xyz, uv, r);
  }

  /** In the filled buffer attr[r] = (u, v, 0, 0), from floats 2r, 2r + 1 of the texture coordinates. */
  lemma FilledAttrRow(before: seq<real>, xyz: seq<real>, uv: seq<real>, r: nat)
    requires |before| == SHADER_DATA_FLOATS && DataOk(xyz, uv) && r < CUBE_VERTICES
    ensures var m, a := Filled(before, xyz, uv), ATTR_OFFSET + 4 * r;
      m[a] == uv[2 * r] && m[a + 1] == uv[2 * r + 1] && m[a + 2] == 0.0 && m[a + 3] == 0.0
  {
    RowValues(xyz, uv, r);
  }

  /**
   * The fill writes no float of the matrix, and writes every other float
   * whatever it held: any two buffers are filled alike.
   */
  lemma FilledOnlyVertices(a: seq<real>, b: seq<real>, xyz: seq<real>, uv: seq<real>)
    requires |a| == SHADER_DATA_FLOATS && |b| == SHADER_DATA_FLOATS && DataOk(xyz, uv)
    ensures Filled(a, xyz, uv)[..MVP_FLOATS] == a[..MVP_FLOATS]
    ensures Filled(a, xyz, uv)[MVP_FLOATS..] == Filled(b, xyz, uv)[MVP_FLOATS..]
  {
  }

  /** Writing position[i] float by float takes the position block from i written rows to i + 1. */
  lemma PositionStep(before: seq<real>, xyz: seq<real>, uv: seq<real>, i: nat, k: nat)
    requires |before| == SHADER_DATA_FLOATS && DataOk(xyz, uv) && i < CUBE_VERTICES && k < SHADER_DATA_FLOATS
    ensures var p := POSITION_OFFSET + 4 * i;
      FillStep(before, xyz, uv, i + 1, i, k) ==
        if k == p then xyz[3 * i] else if k == p + 1 then xyz[3 * i + 1]
        else if k == p + 2 then xyz[3 * i + 2] else if k == p + 3 then 1.0
        else FillStep(before, xyz, uv, i, i, k)
  {
    RowValues(xyz, uv, i);
  }

  /** Writing attr[i] float by float takes the attr block from i written rows to i + 1. */
  lemma AttrStep(before: seq<real>, xyz: seq<real>, uv: seq<real>, i: nat, k: nat)
    requires |before| == SHADER_DATA_FLOATS && DataOk(xyz, uv) && i < CUBE_VERTICES && k < SHADER_DATA_FLOATS
    ensures var a := ATTR_OFFSET + 4 * i;
      FillStep(before, xyz, uv, i + 1, i + 1, k) ==
        if k == a then uv[2 * i] else if k == a + 1 then uv[2 * i + 1]
        else if k == a + 2 || k == a + 3 then 0.0
        else FillStep(before, xyz, uv, i + 1, i, k)
  {
    RowValues(xyz, uv, i);
  }

  /**
   * The loop of App::App over the 36 vertices, writing position[i] and
   * attr[i] of a mapped ShaderData from the two vertex arrays.
   */
  method FillShaderData(mem: array<real>, xyz: seq<real>, uv: seq<real>)
    requires mem.Length == SHADER_DATA_FLOATS && DataOk(xyz, uv)
    modifies mem
    ensures mem[..] == Filled(old(mem[..]), xyz, uv)
  {
    ghost var before := mem[..];
    for i := 0 to CUBE_VERTICES
      invariant forall k | 0 <= k < SHADER_DATA_FLOATS :: mem[k] == FillStep(before, xyz, uv, i, i, k)
    {
      var p, a := POSITION_OFFSET + 4 * i, ATTR_OFFSET + 4 * i;
      mem[p] := xyz[i * 3];
      mem[p + 1] := xyz[i * 3 + 1];
      mem[p + 2] := xyz[i * 3 + 2];
      mem[p + 3] := 1.0;
      forall k | 0 <= k < SHADER_DATA_FLOATS
        ensures mem[k] == FillStep(before, xyz, uv, i + 1, i, k)
      {
        PositionStep(before, xyz, uv, i, k);
      }
      mem[a] := uv[2 * i];
      mem[a + 1] := uv[2 * i + 1];
      mem[a + 2] := 0.0;
      mem[a + 3] := 0.0;
      forall k | 0 <= k < SHADER_DATA_FLOATS
        ensures mem[k] == FillStep(before, xyz, uv, i + 1, i + 1, k)
      {
        AttrStep(before, xyz, uv, i, k);
      }
    }
    assert mem[..] == Filled(before, xyz, uv);
  }

  /** Frames whose buffer was created and mapped before the first failure: create then map, frame by frame. */
  function FramesDone(create: seq<AcResult>, mapping: seq<AcResult>): (n: nat)
    requires |create| == |mapping|
    ensures n <= |create|
  {
    if create == [] || !create[0].Success? || !mapping[0].Success? then 0
    else 1 + FramesDone(create[1..], mapping[1..])
  }

  /** n frames get through exactly when the first n creations and mappings all succeed and frame n, if any, fails one of them. */
  lemma {:induction false} FramesDoneExact(create: seq<AcResult>, mapping: seq<AcResult>, n: nat)
    requires |create| == |mapping| && n <= |create|
    ensures FramesDone(create, mapping) == n <==>
      (forall f | 0 <= f < n :: create[f].Success? && mapping[f].Success?) &&
      (n < |create| ==> !create[n].Success? || !mapping[n].Success?)
  {
    if create != [] && create[0].Success? && mapping[0].Success? && n > 0 {
      FramesDoneExact(create[1..], mapping[1..], n - 1);
      forall f | 0 <= f < n && create[f].Success? && mapping[f].Success?
        ensures f == 0 || (create[1..][f - 1].Success? && mapping[1..][f - 1].Success?)
      {
      }
    }
  }

  /** Distinct mapped buffers of ShaderData size, one per frame in flight. */
  predicate BuffersOk(mems: seq<array<real>>) {
    (forall f | 0 <= f < |mems| :: mems[f].Length == SHADER_DATA_FLOATS) &&
    (forall f, g | 0 <= f < g < |mems| :: mems[f] != mems[g])
  }

  /**
   * The per-frame loop of App::App: create the frame's uniform buffer, map
   * it, fill it and write it into descriptor set f. A failed creation or
   * mapping returns from the constructor, leaving later frames untouched.
   * The results of ac_create_buffer and ac_buffer_map_memory arrive as
   * create and mapping; sets lists the descriptor sets written.
   */
  method CreateFrameBuffers(mems: seq<array<real>>, create: seq<AcResult>, mapping: seq<AcResult>)
    returns (sets: seq<nat>)
    requires BuffersOk(mems) && |create| == |mems| && |mapping| == |mems|
    modifies set f | 0 <= f < |mems| :: mems[f]
    ensures |sets| == FramesDone(create, mapping)
    ensures forall f | 0 <= f < |sets| :: sets[f] == f
    ensures forall f | 0 <= f < |sets| :: mems[f][..] == Filled(old(mems[f][..]), VertexData, UvData)
    ensures forall f | |sets| <= f < |mems| :: mems[f][..] == old(mems[f][..])
  {
    CubeDataOk();
    sets := [];
    for f := 0 to |mems|
      invariant |sets| == f
      invariant forall g | 0 <= g < f :: sets[g] == g && create[g].Success? && mapping[g].Success?
      invariant forall g | 0 <= g < f :: mems[g][..] == Filled(old(mems[g][..]), VertexData, UvData)
      invariant forall g | f <= g < |mems| :: mems[g][..] == old(mems[g][..])
    {
      if !create[f].Success? || !mapping[f].Success? {
        FramesDoneExact(create, mapping, f);
        return;
      }
      FillShaderData(mems[f], VertexData, UvData);
      sets := sets + [f];
    }
    FramesDoneExact(create, mapping, |mems|);
  }

  /** Every filled frame buffer holds the same vertices: the buffers differ at most in their matrices. */
  lemma FramesFilledAlike(before: seq<seq<real>>, after: seq<seq<real>>, f: nat, g: nat)
    requires |before| == |after| && f < |after| && g < |after|
    requires forall h | 0 <= h < |before| :: |before[h]| == SHADER_DATA_FLOATS && |after[h]| == SHADER_DATA_FLOATS
    requires forall h | 0 <= h < |after| :: after[h] == Filled(before[h], VertexData, UvData)
    ensures after[f][MVP_FLOATS..] == after[g][MVP_FLOATS..]
  {
    CubeDataOk();
    FilledOnlyVertices(before[f], before[g], VertexData, UvData);
  }

  /**
   * App::stage_prepare's memcpy of the new model-view-projection matrix
   * into the frame's buffer: the first sizeof(mat4) bytes, nothing more.
   */
  method StagePrepare(mems: seq<array<real>>, frame: nat, mvp: seq<real>)
    requires BuffersOk(mems) && frame < |mems| && |mvp| == MVP_FLOATS
    modifies mems[frame]
    ensures mems[frame][..] == mvp + old(mems[frame][MVP_FLOATS..])
  {
    var mem := mems[frame];
    forall k | 0 <= k < MVP_FLOATS {
      mem[k] := mvp[k];
    }
    assert mem[..] == mvp + old(mem[MVP_FLOATS..]);
  }

  /** Writing the matrix into a filled buffer leaves it the fill of a buffer holding that matrix: positions and attributes survive. */
  lemma PrepareKeepsFill(before: seq<real>, mvp: seq<real>)
    requires |before| == SHADER_DATA_FLOATS && |mvp| == MVP_FLOATS
    ensures var filled := Filled(before, VertexData, UvData);
      mvp + filled[MVP_FLOATS..] == Filled(mvp + before[MVP_FLOATS..], VertexData, UvData)
  {
    CubeDataOk();
    var b' := mvp + before[MVP_FLOATS..];
    FilledOnlyVertices(b', before, VertexData, UvData);
    var l, r := Filled(before, VertexData, UvData), Filled(b', VertexData, UvData);
    assert r == r[..MVP_FLOATS] + r[MVP_FLOATS..];
    assert b'[..MVP_FLOATS] == mvp;
  }

  /** The commands App::stage_cmd records for one frame. */
  datatype CubeCommand =
    | SetViewport(x: nat, y: nat, width: nat, height: nat)
    | SetScissor(x: nat, y: nat, width: nat, height: nat)
    | BindPipeline
    | BindSet(setIndex: nat)
    | Draw(vertexCount: nat, instanceCount: nat, firstVertex: nat, firstInstance: nat)

  /** App::stage_cmd: full-image viewport and scissor, the pipeline, the frame's set and one draw of the cube. */
  function StageCmd(frame: nat, width: nat, height: nat): (cmds: seq<CubeCommand>)
    ensures |cmds| == 5 && cmds[4].Draw?
  {
    [SetViewport(0, 0, width, height), SetScissor(0, 0, width, height), BindPipeline, BindSet(frame), Draw(36, 1, 0, 0)]
  }

  /**
   * The draw issues one instance of exactly the vertices the fill wrote:
   * 36, the number of position and attr rows and of vertices in the two
   * arrays; the set bound is the frame's own, which the frame loop wrote.
   */
  lemma DrawMatchesFill(frame: nat, width: nat, height: nat)
    ensures var cmds := StageCmd(frame, width, height);
      cmds[4].vertexCount == CUBE_VERTICES && cmds[4].instanceCount == 1 && cmds[4].firstVertex == 0 &&
      3 * cmds[4].vertexCount == |VertexData| && 2 * cmds[4].vertexCount == |UvData| &&
      POSITION_OFFSET + 4 * cmds[4].vertexCount == ATTR_OFFSET && ATTR_OFFSET + 4 * cmds[4].vertexCount == SHADER_DATA_FLOATS
    ensures BindSet(frame) in StageCmd(frame, width, height)
  {
    CubeDataOk();
  }
}

=== FILE: dimensions.dfy ===
/**
 * Model::calculate_bounding_box and Model::get_scene_dimensions
 * (model.cpp): the per-node boxes, the scene extent folded over the linear
 * node list, and the matrix that maps the unit cube onto that extent.
 *
 * get_matrix() gives a node's world matrix as a product of factors; the
 * floating-point evaluation of such a product into a concrete 4x4 matrix is
 * a parameter `eval` of the operations that need it.
 */
module SceneBounds {
  import opened LinAlg
  import opened Bounds
  import opened Scene

  /** The scene extent: Model::dimensions. */
  datatype Dimensions = Dimensions(min: Vec3, max: Vec3)

  /** The extent get_scene_dimensions starts from: min at FLT_MAX, max at -FLT_MAX on every axis. */
  const InitialDimensions: Dimensions :=
    Dimensions(Vec3(FLT_MAX, FLT_MAX, FLT_MAX), Vec3(-FLT_MAX, -FLT_MAX, -FLT_MAX))

  /**
   * What calculate_bounding_box does to node n itself, w being its world
   * matrix: a mesh with a valid box gets the transformed box as its aabb,
   * and, when the node has no children, also as its bvh, marked valid.
   * Nothing is stored in the parent: the bounds it widens are a local copy.
   */
  function NodeBoxes(n: Node, w: Mat4): (r: Node)
    ensures r == n.(aabb := r.aabb, bvh := r.bvh)
  {
    if n.mesh.Some? && n.mesh.value.bb.valid then
      var box := GetAabb(n.mesh.value.bb, w);
      if n.children == [] then n.(aabb := box, bvh := BoundingBox(box.min, box.max, true))
      else n.(aabb := box)
    else n
  }

  /** Boxing a node twice is boxing it once: the result depends only on the mesh and children it keeps. */
  lemma NodeBoxesIdempotent(n: Node, w: Mat4)
    ensures NodeBoxes(NodeBoxes(n, w), w) == NodeBoxes(n, w)
  {
  }

  /**
   * A childless node whose mesh box is valid ends with a valid bvh that
   * holds the image of every point of the mesh box; a node with children
   * keeps the bvh it had, and a node without a valid mesh box is unchanged.
   */
  lemma NodeBoxesBvh(n: Node, w: Mat4, p: Vec3)
    ensures n.mesh.Some? && n.mesh.value.bb.valid && n.children == [] ==>
      NodeBoxes(n, w).bvh.valid &&
      (Inside(p, n.mesh.value.bb.min, n.mesh.value.bb.max) ==>
        Inside(Apply(w, p), NodeBoxes(n, w).bvh.min, NodeBoxes(n, w).bvh.max))
    ensures n.children != [] ==> NodeBoxes(n, w).bvh == n.bvh
    ensures !(n.mesh.Some? && n.mesh.value.bb.valid) ==> NodeBoxes(n, w) == n
  {
    if n.mesh.Some? && n.mesh.value.bb.valid && Inside(p, n.mesh.value.bb.min, n.mesh.value.bb.max) {
      GetAabbContains(n.mesh.value.bb, w, p);
    }
  }

  /** One step of the extent fold: widen d by a valid bvh, skip an invalid one. */
  function Widen(d: Dimensions, b: BoundingBox): Dimensions {
    if b.valid then Dimensions(MinV(d.min, b.min), MaxV(d.max, b.max)) else d
  }

  /** The extent after folding the bvh of each node of xs, in order, into d. */
  function DimensionsOf(a: seq<Node>, xs: seq<nat>, d: Dimensions): Dimensions
    requires forall k :: 0 <= k < |xs| ==> xs[k] < |a|
    decreases |xs|
  {
    if xs == [] then d else DimensionsOf(a, xs[1..], Widen(d, a[xs[0]].bvh))
  }

  /**
   * The extent bounds every valid bvh of xs and the starting extent; when
   * no bvh of xs is valid, it is the starting extent unchanged.
   */
  lemma {:induction false} DimensionsOfBounds(a: seq<Node>, xs: seq<nat>, d: Dimensions)
    requires forall k :: 0 <= k < |xs| ==> xs[k] < |a|
    ensures var r := DimensionsOf(a, xs, d);
      LessEq3(r.min, d.min) && LessEq3(d.max, r.max) &&
      forall k :: 0 <= k < |xs| && a[xs[k]].bvh.valid ==>
        LessEq3(r.min, a[xs[k]].bvh.min) && LessEq3(a[xs[k]].bvh.max, r.max)
    ensures (forall k :: 0 <= k < |xs| ==> !a[xs[k]].bvh.valid) ==> DimensionsOf(a, xs, d) == d
    decreases |xs|
  {
    if xs != [] {
      var d1 := Widen(d, a[xs[0]].bvh);
      DimensionsOfBounds(a, xs[1..], d1);
      forall k | 1 <= k < |xs| ensures xs[k] == xs[1..][k - 1] {
      }
    }
  }

  /**
   * The scene aabb: scale by the extent's size, with the extent's minimum
   * as translation.
   */
  function SceneAabb(d: Dimensions): (m: Mat4)
    ensures Apply(m, Zero3) == d.min
    ensures Apply(m, One3) == d.max
  {
    Mat4(
      Vec4(d.max.x - d.min.x, 0.0, 0.0, 0.0),
      Vec4(0.0, d.max.y - d.min.y, 0.0, 0.0),
      Vec4(0.0, 0.0, d.max.z - d.min.z, 0.0),
      Vec4(d.min.x, d.min.y, d.min.z, 1.0))
  }

  /** The loop of get_scene_dimensions that folds the valid bvhs of xs into d. */
  method FoldDimensions(a: seq<Node>, xs: seq<nat>, d0: Dimensions) returns (d: Dimensions)
    requires forall k :: 0 <= k < |xs| ==> xs[k] < |a|
    ensures d == DimensionsOf(a, xs, d0)
  {
    d := d0;
    var k := 0;
    while k < |xs|
      invariant 0 <= k <= |xs|
      invariant DimensionsOf(a, xs[k..], d) == DimensionsOf(a, xs, d0)
    {
      assert xs[k..][0] == xs[k] && xs[k..][1..] == xs[k + 1..];
      var node := a[xs[k]];
      if node.bvh.valid {
        d := Dimensions(MinV(d.min, node.bvh.min), MaxV(d.max, node.bvh.max));
      }
      k := k + 1;
    }
    assert xs[k..] == [];
  }

  /** Node i boxed against the world matrix it has in arena a. */
  function Boxed(a: seq<Node>, eval: Mat -> Mat4, i: nat): Node
    requires ParentsBelow(a) && i < |a|
  {
    NodeBoxes(a[i], eval(World(a, i)))
  }

  /** b differs from a in aabb and bvh at most. */
  predicate OnlyBoxes(a: seq<Node>, b: seq<Node>) {
    |a| == |b| && forall i :: 0 <= i < |a| ==> b[i] == a[i].(aabb := b[i].aabb, bvh := b[i].bvh)
  }

  lemma OnlyBoxesTrans(a: seq<Node>, b: seq<Node>, c: seq<Node>)
    requires OnlyBoxes(a, b) && OnlyBoxes(b, c)
    ensures OnlyBoxes(a, c)
  {
    forall i | 0 <= i < |a| ensures c[i] == a[i].(aabb := c[i].aabb, bvh := c[i].bvh) {
      assert c[i] == b[i].(aabb := c[i].aabb, bvh := c[i].bvh);
    }
  }

  /** Changing boxes keeps the forest and every world matrix. */
  lemma {:induction false} OnlyBoxesWorld(a: seq<Node>, b: seq<Node>, id: nat)
    requires OnlyBoxes(a, b) && ValidArena(a) && id < |a|
    ensures ValidArena(b) && World(b, id) == World(a, id)
    decreases id
  {
    SameShapeValid(a, b);
    assert b[id].parent == a[id].parent && Local(b[id]) == Local(a[id]);
    if a[id].parent.Some? {
      OnlyBoxesWorld(a, b, a[id].parent.value);
    }
  }

  /**
   * Boxing a node of an arena whose nodes are each either as in a or boxed
   * against a gives the node boxed against a: boxing twice is boxing once,
   * and boxes do not move world matrices.
   */
  lemma BoxedStable(a: seq<Node>, b: seq<Node>, eval: Mat -> Mat4, i: nat)
    requires OnlyBoxes(a, b) && ValidArena(a) && i < |a|
    requires b[i] == a[i] || b[i] == Boxed(a, eval, i)
    ensures ValidArena(b) && Boxed(b, eval, i) == Boxed(a, eval, i)
  {
    OnlyBoxesWorld(a, b, i);
    NodeBoxesIdempotent(a[i], eval(World(a, i)));
  }

  /**
   * The arena after calculate_bounding_box(id): node id boxed against its
   * world matrix, then the subtree of each child in order.
   */
  function CalcBoxF(a: seq<Node>, id: nat, eval: Mat -> Mat4): (r: seq<Node>)
    requires ValidArena(a) && id < |a|
    ensures OnlyBoxes(a, r) && ValidArena(r)
    decreases |a| - id, 1
  {
    var a1 := a[id := Boxed(a, eval, id)];
    SameShapeValid(a, a1);
    CalcKidsF(a1, id, a[id].children, eval)
  }

  /** CalcBoxF boxes node id, then works through its children. */
  lemma CalcBoxUnfold(a: seq<Node>, id: nat, eval: Mat -> Mat4)
    requires ValidArena(a) && id < |a|
    ensures var a1 := a[id := Boxed(a, eval, id)];
      ValidArena(a1) && Above(a1, id, a[id].children) && a1[id].children == a[id].children &&
      CalcBoxF(a, id, eval) == CalcKidsF(a1, id, a[id].children, eval)
  {
    var a1 := a[id := Boxed(a, eval, id)];
    SameShapeValid(a, a1);
  }

  /** CalcKidsF boxes the first child's subtree, then works through the rest. */
  lemma CalcKidsStep(a: seq<Node>, lo: nat, ks: seq<nat>, eval: Mat -> Mat4)
    requires ValidArena(a) && Above(a, lo, ks) && ks != []
    ensures var a1 := CalcBoxF(a, ks[0], eval);
      |a1| == |a| && ValidArena(a1) && Above(a1, lo, ks[1..]) &&
      CalcKidsF(a, lo, ks, eval) == CalcKidsF(a1, lo, ks[1..], eval)
  {
  }

  /** calculate_bounding_box on each of the children ks of node lo, in order. */
  function CalcKidsF(a: seq<Node>, lo: nat, ks: seq<nat>, eval: Mat -> Mat4): (r: seq<Node>)
    requires ValidArena(a) && Above(a, lo, ks)
    ensures OnlyBoxes(a, r) && ValidArena(r)
    decreases |a| - lo, 0, |ks|
  {
    if ks == [] then a
    else
      var a1 := CalcBoxF(a, ks[0], eval);
      var r := CalcKidsF(a1, lo, ks[1..], eval);
      OnlyBoxesTrans(a, a1, r);
      r
  }

  /** The arena after calculate_bounding_box(x, nullptr) for each x of xs, in order. */
  function BoxAllF(a: seq<Node>, xs: seq<nat>, eval: Mat -> Mat4): (r: seq<Node>)
    requires ValidArena(a) && forall k :: 0 <= k < |xs| ==> xs[k] < |a|
    ensures OnlyBoxes(a, r) && ValidArena(r)
    decreases |xs|
  {
    if xs == [] then a
    else
      var a1 := CalcBoxF(a, xs[0], eval);
      var r := BoxAllF(a1, xs[1..], eval);
      OnlyBoxesTrans(a, a1, r);
      r
  }

  /**
   * calculate_bounding_box(id) boxes node id, and every node it touches
   * ends boxed against its world matrix: no node is boxed against a matrix
   * other than its own, however often it is visited.
   */
  lemma {:induction false} CalcBoxEffect(a: seq<Node>, id: nat, eval: Mat -> Mat4)
    requires ValidArena(a) && id < |a|
    ensures var r := CalcBoxF(a, id, eval);
      r[id] == Boxed(a, eval, id) &&
      forall i :: 0 <= i < |a| ==> r[i] == a[i] || r[i] == Boxed(a, eval, i)
    decreases |a| - id, 1
  {
    var a1 := a[id := Boxed(a, eval, id)];
    SameShapeValid(a, a1);
    CalcKidsEffect(a1, id, a[id].children, eval);
    var r := CalcKidsF(a1, id, a[id].children, eval);
    forall i | 0 <= i < |a| ensures r[i] == a[i] || r[i] == Boxed(a, eval, i) {
      BoxedStable(a, a1, eval, i);
    }
    BoxedStable(a, a1, eval, id);
  }

  lemma {:induction false} CalcKidsEffect(a: seq<Node>, lo: nat, ks: seq<nat>, eval: Mat -> Mat4)
    requires ValidArena(a) && Above(a, lo, ks)
    ensures var r := CalcKidsF(a, lo, ks, eval);
      forall i :: 0 <= i < |a| ==> r[i] == a[i] || r[i] == Boxed(a, eval, i)
    decreases |a| - lo, 0, |ks|
  {
    if ks != [] {
      var a1 := CalcBoxF(a, ks[0], eval);
      CalcBoxEffect(a, ks[0], eval);
      CalcKidsEffect(a1, lo, ks[1..], eval);
      var r := CalcKidsF(a1, lo, ks[1..], eval);
      forall i | 0 <= i < |a| ensures r[i] == a[i] || r[i] == Boxed(a, eval, i) {
        BoxedStable(a, a1, eval, i);
      }
    }
  }

  /**
   * The bounding-box pass of get_scene_dimensions: every node of xs ends
   * boxed against its world matrix, and every other node either keeps its
   * boxes or is boxed the same way.
   */
  lemma {:induction false} BoxAllEffect(a: seq<Node>, xs: seq<nat>, eval: Mat -> Mat4)
    requires ValidArena(a) && forall k :: 0 <= k < |xs| ==> xs[k] < |a|
    ensures var r := BoxAllF(a, xs, eval);
      (forall k :: 0 <= k < |xs| ==> r[xs[k]] == Boxed(a, eval, xs[k])) &&
      (forall i :: 0 <= i < |a| ==> r[i] == a[i] || r[i] == Boxed(a, eval, i))
    decreases |xs|
  {
    if xs != [] {
      var a1 := CalcBoxF(a, xs[0], eval);
      CalcBoxEffect(a, xs[0], eval);
      BoxAllEffect(a1, xs[1..], eval);
      var r := BoxAllF(a1, xs[1..], eval);
      forall i | 0 <= i < |a| ensures r[i] == a[i] || r[i] == Boxed(a, eval, i) {
        BoxedStable(a, a1, eval, i);
      }
      forall k | 0 <= k < |xs| ensures r[xs[k]] == Boxed(a, eval, xs[k]) {
        BoxedStable(a, a1, eval, xs[k]);
        if k > 0 {
          assert xs[k] == xs[1..][k - 1];
        }
      }
    }
  }
}

=== FILE: document.dfy ===
/**
 * The decoded glTF 2.0 document, as far as the loader reads it.
 *
 * Accessor contents arrive already decoded into sequences: byte offsets,
 * strides and the reinterpretation of buffer bytes as floats or integers are
 * not part of this model. An absent attribute or an absent optional property
 * is `None`; a glTF index that may be -1 stays an `int`.
 */
module Document {
  import opened Wrappers
  import opened LinAlg

  /** Accessor component types (section 3.6.2 of the glTF 2.0 specification). */
  const UNSIGNED_BYTE: int := 5121
  const UNSIGNED_SHORT: int := 5123
  const UNSIGNED_INT: int := 5125

  /** JOINTS_0: its component type and the values widened to vec4. */
  datatype JointAccessor = JointAccessor(componentType: int, values: seq<Vec4>)

  /** The index accessor of a primitive: its component type and its values. */
  datatype IndexAccessor = IndexAccessor(componentType: int, values: seq<nat>)

  /** A mesh primitive: POSITION (with its accessor's min/max) and the optional attributes. */
  datatype DocPrimitive = DocPrimitive(
    positions: seq<Vec3>,
    posMin: Vec3,
    posMax: Vec3,
    normals: Option<seq<Vec3>>,
    uv0: Option<seq<Vec2>>,
    uv1: Option<seq<Vec2>>,
    colors: Option<seq<Vec4>>,
    joints: Option<JointAccessor>,
    weights: Option<seq<Vec4>>,
    indices: Option<IndexAccessor>,
    material: int)

  datatype DocMesh = DocMesh(primitives: seq<DocPrimitive>)

  /**
   * A node. `translation`, `rotation`, `scale` and `matrix` are the raw
   * number arrays; the loader only uses each when it has the right length.
   */
  datatype DocNode = DocNode(
    name: string,
    children: seq<nat>,
    mesh: int,
    skin: int,
    translation: seq<real>,
    rotation: seq<real>,
    scale: seq<real>,
    matrix: seq<real>)

  /** A skin; each inverse bind matrix is 16 column-major reals. */
  datatype DocSkin = DocSkin(
    name: string,
    skeleton: int,
    joints: seq<int>,
    inverseBindMatrices: Option<seq<seq<real>>>)

  datatype DocSampler = DocSampler(minFilter: int, magFilter: int, wrapS: int, wrapT: int)

  datatype DocImage = DocImage(width: nat, height: nat, component: nat, data: seq<bv8>)

  datatype DocTexture = DocTexture(source: nat, sampler: int)

  /** KHR_materials_pbrSpecularGlossiness, as far as it is read. */
  datatype SpecGloss = SpecGloss(
    sgTexture: Option<int>,
    sgTexCoord: int,
    diffuseTexture: Option<int>,
    diffuseFactor: Option<seq<real>>,
    specularFactor: Option<seq<real>>)

  /**
   * A material: every property the loader looks up, `None` when the key is
   * absent. A texture property carries its texture index.
   */
  datatype DocMaterial = DocMaterial(
    doubleSided: bool,
    baseColorTexture: Option<int>,
    metallicRoughnessTexture: Option<int>,
    roughnessFactor: Option<real>,
    metallicFactor: Option<real>,
    baseColorFactor: Option<Vec4>,
    normalTexture: Option<int>,
    emissiveTexture: Option<int>,
    occlusionTexture: Option<int>,
    alphaMode: Option<string>,
    alphaCutoff: Option<real>,
    emissiveFactor: Option<Vec3>,
    emissiveStrength: Option<real>,
    specGloss: Option<SpecGloss>)

  /** The output accessor of an animation sampler, by accessor type. */
  datatype DocOutputs = Vec3Outputs(v3: seq<Vec3>) | Vec4Outputs(v4: seq<Vec4>) | OtherOutputs

  datatype DocAnimSampler = DocAnimSampler(interpolation: string, inputs: seq<real>, outputs: DocOutputs)

  datatype DocChannel = DocChannel(sampler: int, targetNode: int, targetPath: string)

  datatype DocAnimation = DocAnimation(name: string, samplers: seq<DocAnimSampler>, channels: seq<DocChannel>)

  datatype DocScene = DocScene(nodes: seq<nat>)

  datatype Document = Document(
    scenes: seq<DocScene>,
    defaultScene: int,
    nodes: seq<DocNode>,
    meshes: seq<DocMesh>,
    skins: seq<DocSkin>,
    samplers: seq<DocSampler>,
    textures: seq<DocTexture>,
    images: seq<DocImage>,
    materials: seq<DocMaterial>,
    animations: seq<DocAnimation>,
    extensionsUsed: seq<string>)

  /**
   * What the loader relies on of a primitive: every attribute it reads has
   * an entry per position, and index values fit the 32-bit index type.
   */
  predicate PrimitiveOk(p: DocPrimitive) {
    var n := |p.positions|;
    (p.normals.Some? ==> |p.normals.value| >= n) &&
    (p.uv0.Some? ==> |p.uv0.value| >= n) &&
    (p.uv1.Some? ==> |p.uv1.value| >= n) &&
    (p.colors.Some? ==> |p.colors.value| >= n) &&
    (p.joints.Some? ==> |p.joints.value.values| >= n) &&
    (p.weights.Some? ==> |p.weights.value| >= n) &&
    (p.indices.Some? ==> forall k :: 0 <= k < |p.indices.value.values| ==> p.indices.value.values[k] < 0x1_0000_0000)
  }

  /** Node, mesh and child references point inside the document. */
  predicate WellFormed(doc: Document) {
    (forall i, k :: 0 <= i < |doc.nodes| && 0 <= k < |doc.nodes[i].children| ==> doc.nodes[i].children[k] < |doc.nodes|) &&
    (forall i :: 0 <= i < |doc.nodes| ==> doc.nodes[i].mesh < |doc.meshes|) &&
    (forall m, j :: 0 <= m < |doc.meshes| && 0 <= j < |doc.meshes[m].primitives| ==> PrimitiveOk(doc.meshes[m].primitives[j])) &&
    (forall s, k :: 0 <= s < |doc.scenes| && 0 <= k < |doc.scenes[s].nodes| ==> doc.scenes[s].nodes[k] < |doc.nodes|)
  }

  /**
   * Node `n` heads a subtree none of whose paths is `depth` nodes long or
   * longer. A node graph that is acyclic below `n` satisfies this for
   * depth = |nodes|; it is what makes the loader's recursion terminate.
   */
  ghost predicate Bounded(doc: Document, n: nat, depth: nat)
    decreases depth
  {
    depth > 0 && n < |doc.nodes| &&
    forall k :: 0 <= k < |doc.nodes[n].children| ==> Bounded(doc, doc.nodes[n].children[k], depth - 1)
  }

  /** Every node of `ns` is Bounded at `depth`. */
  ghost predicate AllBounded(doc: Document, ns: seq<nat>, depth: nat) {
    forall k :: 0 <= k < |ns| ==> Bounded(doc, ns[k], depth)
  }

  /** Vertex count, index count and number of mesh-bearing nodes of a subtree. */
  datatype Counts = Counts(vertices: nat, indices: nat, meshNodes: nat)

  function Plus(a: Counts, b: Counts): Counts {
    Counts(a.vertices + b.vertices, a.indices + b.indices, a.meshNodes + b.meshNodes)
  }

  /** The index entries a primitive contributes: its index accessor's count, or none. */
  function IndexCount(p: DocPrimitive): nat {
    if p.indices.Some? then |p.indices.value.values| else 0
  }

  /** The vertex and index totals of the primitives ps. */
  function PrimitiveCounts(ps: seq<DocPrimitive>): (r: Counts)
    ensures r.meshNodes == 0
  {
    if ps == [] then Counts(0, 0, 0)
    else Plus(Counts(|ps[0].positions|, IndexCount(ps[0]), 0), PrimitiveCounts(ps[1..]))
  }

  /** What a node adds itself: its mesh's primitive totals and one mesh node, or nothing. */
  function OwnCounts(doc: Document, node: DocNode): Counts
    requires node.mesh < |doc.meshes|
  {
    if node.mesh > -1 then Plus(PrimitiveCounts(doc.meshes[node.mesh].primitives), Counts(0, 0, 1))
    else Counts(0, 0, 0)
  }

  /** The totals get_node_props accumulates for the subtree of node n: its children's, then its own. */
  ghost function NodeCounts(doc: Document, n: nat, depth: nat): Counts
    requires WellFormed(doc) && Bounded(doc, n, depth)
    decreases depth, 0
  {
    var node := doc.nodes[n];
    Plus(ForestCounts(doc, node.children, depth - 1), OwnCounts(doc, node))
  }

  /** NodeCounts summed over the subtrees of ns, in order. */
  ghost function ForestCounts(doc: Document, ns: seq<nat>, depth: nat): Counts
    requires WellFormed(doc) && AllBounded(doc, ns, depth)
    decreases depth, 1, |ns|
  {
    if ns == [] then Counts(0, 0, 0)
    else Plus(NodeCounts(doc, ns[0], depth), ForestCounts(doc, ns[1..], depth))
  }

  /** The totals of a non-empty forest: its first subtree's, then the rest's. */
  lemma ForestCountsStep(doc: Document, ns: seq<nat>, depth: nat)
    requires WellFormed(doc) && AllBounded(doc, ns, depth) && ns != []
    ensures Bounded(doc, ns[0], depth) && AllBounded(doc, ns[1..], depth)
    ensures ForestCounts(doc, ns, depth) == Plus(NodeCounts(doc, ns[0], depth), ForestCounts(doc, ns[1..], depth))
  {
  }
}

=== FILE: ibl.dfy ===
/**
 * The image-based-lighting precompute of the PBR sample
 * (05_pbr/pbr_maps.cpp): the mip schedule, the descriptor sets, and the
 * command stream compute_pbr_maps and compute_pbr_maps2 record, with the
 * image layouts each command needs.
 *
 * GPU work is not modelled: a command buffer is the sequence of commands
 * recorded into it, and a device call that can fail is an `AcResult`
 * supplied by the caller.
 */
module Ibl {
  import opened Wrappers
  import opened Staging
  import opened Ac

  /* The mip schedule */

  const BRDF_INTEGRATION_SIZE: nat := 512
  const SKYBOX_SIZE: nat := 1024
  const IRRADIANCE_SIZE: nat := 64
  const SPECULAR_SIZE: nat := 512

  function Pow2(k: nat): (r: nat)
    ensures r >= 1
  {
    if k == 0 then 1 else 2 * Pow2(k - 1)
  }

  /** (uint32_t)log2(n): the exponent of the largest power of two not above n. */
  function Log2(n: nat): (r: nat)
    requires n >= 1
    ensures Pow2(r) <= n < 2 * Pow2(r)
  {
    if n == 1 then 0 else 1 + Log2(n / 2)
  }

  /** On a power of two the logarithm is exact. */
  lemma {:induction false} Log2Pow2(k: nat)
    ensures Log2(Pow2(k)) == k
  {
    if k > 0 {
      assert Pow2(k) / 2 == Pow2(k - 1);
      Log2Pow2(k - 1);
    }
  }

  /** SKYBOX_MIPS and SPECULAR_MIPS, (uint32_t)log2(size) + 1; MipCounts shows the values. */
  const SKYBOX_MIPS: nat := 11
  const SPECULAR_MIPS: nat := 10

  /** x >> i on uint32_t: i halvings, each rounding down. */
  function Shr(x: nat, i: nat): nat {
    if i == 0 then x else Shr(x, i - 1) / 2
  }

  /**
   * The skybox has 11 mips and the specular map 10: each chain halves its
   * size down to a last mip of one texel.
   */
  lemma MipCounts()
    ensures SKYBOX_MIPS == Log2(SKYBOX_SIZE) + 1 && SPECULAR_MIPS == Log2(SPECULAR_SIZE) + 1
    ensures Shr(SKYBOX_SIZE, SKYBOX_MIPS - 1) == 1 && Shr(SPECULAR_SIZE, SPECULAR_MIPS - 1) == 1
  {
    assert Pow2(10) == SKYBOX_SIZE && Pow2(9) == SPECULAR_SIZE;
    Log2Pow2(10);
    Log2Pow2(9);
  }

  /** Every mip of a chain of a power-of-two size has at least one texel. */
  lemma {:induction false} MipNonEmpty(k: nat, i: nat)
    requires i <= k
    ensures Shr(Pow2(k), i) == Pow2(k - i) && Shr(Pow2(k), i) >= 1
  {
    if i > 0 {
      MipNonEmpty(k, i - 1);
      assert Pow2(k - (i - 1)) == 2 * Pow2(k - i);
    }
  }

  /** A workgroup size as ac_shader_get_workgroup reports it: three uint8_t. */
  datatype Workgroup = Workgroup(x: nat, y: nat, z: nat)

  /** The sizes divide the dispatch extents, so none may be 0. */
  predicate WorkgroupOk(g: Workgroup) {
    0 < g.x < 256 && 0 < g.y < 256 && 0 < g.z < 256
  }

  function Max(a: nat, b: nat): nat {
    if a >= b then a else b
  }

  /** AC_MAX(1u, (size >> mip) / g): the group count of one axis of a mip dispatch. */
  function MipGroups(size: nat, mip: nat, g: nat): (r: nat)
    requires g > 0
    ensures r >= 1
  {
    Max(1, Shr(size, mip) / g)
  }

  /**
   * When the group size divides the mip's extent, or exceeds it, the
   * dispatch covers every texel of the mip on that axis.
   */
  lemma MipGroupsCover(size: nat, mip: nat, g: nat)
    requires g > 0 && (Shr(size, mip) % g == 0 || Shr(size, mip) < g)
    ensures MipGroups(size, mip, g) * g >= Shr(size, mip)
  {
    GroupsCover(Shr(size, mip), g);
  }

  /** Max(1, n / g) groups of g cover n when g divides n or exceeds it. */
  lemma GroupsCover(n: nat, g: nat)
    requires g > 0 && (n % g == 0 || n < g)
    ensures Max(1, n / g) * g >= n
  {
    var q, m := n / g, Max(1, n / g);
    if n < g {
      MulMono(1, m, g);
    } else {
      assert n == q * g;
      MulMono(q, m, g);
    }
  }

  /** The roughness pushed for specular mip i: i / (SPECULAR_MIPS - 1). */
  function Roughness(i: nat): real {
    (i as real) / ((SPECULAR_MIPS - 1) as real)
  }

  /** Roughness runs from 0 at the first mip to 1 at the last, strictly increasing. */
  lemma RoughnessRange(i: nat, j: nat)
    requires i < j < SPECULAR_MIPS
    ensures Roughness(0) == 0.0 && Roughness(SPECULAR_MIPS - 1) == 1.0
    ensures 0.0 <= Roughness(i) < Roughness(j) <= 1.0
  {
  }

  /* Images, descriptor sets and commands */

  datatype Image = Equirect | Brdf | Environment | Irradiance | Specular

  datatype Layout = Undefined | General | ShaderRead | TransferDst

  /** The four compute kernels; each has its own descriptor buffer. */
  datatype Kernel = BrdfIntegration | EqToCube | IrradianceKernel | SpecularKernel

  /** The mip levels each image is created with. */
  function Levels(img: Image): nat {
    match img
    case Environment => SKYBOX_MIPS
    case Specular => SPECULAR_MIPS
    case _ => 1
  }

  /** The sets each kernel's descriptor buffer is created with (max_sets of space 0). */
  function MaxSets(k: Kernel): nat {
    match k
    case EqToCube => SKYBOX_MIPS
    case SpecularKernel => SPECULAR_MIPS
    case _ => 1
  }

  /** What one ac_update_set writes: a kernel's set, the image it samples (if any), the image and level it stores to. */
  datatype SetWrite = SetWrite(kernel: Kernel, setIndex: nat, sampled: Option<Image>, target: Image, level: nat)

  /** The storage image a kernel writes. */
  function TargetOf(k: Kernel): Image {
    match k
    case BrdfIntegration => Brdf
    case EqToCube => Environment
    case IrradianceKernel => Irradiance
    case SpecularKernel => Specular
  }

  /** The image a kernel samples. */
  function SampledOf(k: Kernel): Option<Image> {
    match k
    case BrdfIntegration => None
    case EqToCube => Some(Equirect)
    case IrradianceKernel => Some(Environment)
    case SpecularKernel => Some(Environment)
  }

  /** The descriptor writes of compute_pbr_maps2, as they should be: set i of a mip kernel stores to level i. */
  function WriteFor(k: Kernel, setIndex: nat): SetWrite {
    SetWrite(k, setIndex, SampledOf(k), TargetOf(k), if k == EqToCube || k == SpecularKernel then setIndex else 0)
  }

  /**
   * The descriptor updates: the BRDF set, one environment set per skybox
   * mip, the irradiance set, one specular set per specular mip.
   */
  method UpdateSets() returns (writes: seq<SetWrite>)
    ensures |writes| == 2 + SKYBOX_MIPS + SPECULAR_MIPS
    ensures writes[0] == WriteFor(BrdfIntegration, 0) && writes[1 + SKYBOX_MIPS] == WriteFor(IrradianceKernel, 0)
    ensures forall i :: 0 <= i < SKYBOX_MIPS ==> writes[1 + i] == WriteFor(EqToCube, i)
    ensures forall i :: 0 <= i < SPECULAR_MIPS ==> writes[2 + SKYBOX_MIPS + i] == WriteFor(SpecularKernel, i)
  {
    writes := [SetWrite(BrdfIntegration, 0, None, Brdf, 0)];
    for i := 0 to SKYBOX_MIPS
      invariant |writes| == 1 + i && writes[0] == WriteFor(BrdfIntegration, 0)
      invariant forall j :: 0 <= j < i ==> writes[1 + j] == WriteFor(EqToCube, j)
    {
      writes := writes + [SetWrite(EqToCube, i, Some(Equirect), Environment, i)];
    }
    writes := writes + [SetWrite(IrradianceKernel, 0, Some(Environment), Irradiance, 0)];
    for i := 0 to SPECULAR_MIPS
      invariant |writes| == 2 + SKYBOX_MIPS + i && writes[0] == WriteFor(BrdfIntegration, 0)
      invariant writes[1 + SKYBOX_MIPS] == WriteFor(IrradianceKernel, 0)
      invariant forall j :: 0 <= j < SKYBOX_MIPS ==> writes[1 + j] == WriteFor(EqToCube, j)
      invariant forall j :: 0 <= j < i ==> writes[2 + SKYBOX_MIPS + j] == WriteFor(SpecularKernel, j)
    {
      writes := writes + [SetWrite(SpecularKernel, i, Some(Environment), Specular, i)];
    }
  }

  /** Every set of every descriptor buffer is written, at an index below the buffer's set count and a level the image has. */
  lemma SetsInBounds(k: Kernel, setIndex: nat)
    requires setIndex < MaxSets(k)
    ensures WriteFor(k, setIndex).level < Levels(WriteFor(k, setIndex).target)
  {
  }

  /** One recorded command. A barrier on several images is one Barrier per image, in order. */
  datatype Command =
    | Barrier(image: Image, from: Layout, to: Layout)
    | CopyToImage(image: Image)
    | BindPipeline(kernel: Kernel)
    | BindSet(kernel: Kernel, setIndex: nat)
    | PushMip(mip: nat, textureSize: nat)
    | PushSpecular(mipSize: nat, roughness: real)
    | Dispatch(x: nat, y: nat, z: nat)

  /** The layout of each image. */
  datatype Layouts = Layouts(equirect: Layout, brdf: Layout, environment: Layout, irradiance: Layout, specular: Layout) {
    function Get(img: Image): Layout {
      match img
      case Equirect => equirect
      case Brdf => brdf
      case Environment => environment
      case Irradiance => irradiance
      case Specular => specular
    }

    function Set(img: Image, l: Layout): (r: Layouts)
      ensures r.Get(img) == l
      ensures forall other :: other != img ==> r.Get(other) == Get(other)
    {
      match img
      case Equirect => this.(equirect := l)
      case Brdf => this.(brdf := l)
      case Environment => this.(environment := l)
      case Irradiance => this.(irradiance := l)
      case Specular => this.(specular := l)
    }
  }

  /** What the GPU tracks while a command buffer executes: the layouts and the bound pipeline and set. */
  datatype CmdState = CmdState(layouts: Layouts, pipeline: Option<Kernel>, bound: Option<nat>)

  /**
   * A dispatch is well formed when a pipeline and one of its written sets
   * are bound, the image it stores to is in the general layout at a level
   * it has, and the image it samples is shader-readable.
   */
  predicate DispatchOk(s: CmdState, written: seq<SetWrite>) {
    s.pipeline.Some? && s.bound.Some? &&
    var k, i := s.pipeline.value, s.bound.value;
    WriteFor(k, i) in written && i < MaxSets(k) &&
    s.layouts.Get(TargetOf(k)) == General && WriteFor(k, i).level < Levels(TargetOf(k)) &&
    (SampledOf(k).Some? ==> s.layouts.Get(SampledOf(k).value) == ShaderRead)
  }

  /**
   * One command: the new state, or None when the command is used wrongly
   * (a barrier from a layout the image is not in, a copy to an image that
   * is not a transfer destination, a set of another kernel, a push without
   * a pipeline, a dispatch that is not DispatchOk).
   */
  function Step(s: CmdState, c: Command, written: seq<SetWrite>): Option<CmdState> {
    match c
    case Barrier(img, from, to) =>
      if s.layouts.Get(img) == from then Some(s.(layouts := s.layouts.Set(img, to))) else None
    case CopyToImage(img) => if s.layouts.Get(img) == TransferDst then Some(s) else None
    case BindPipeline(k) => Some(CmdState(s.layouts, Some(k), None))
    case BindSet(k, i) => if s.pipeline == Some(k) && i < MaxSets(k) then Some(s.(bound := Some(i))) else None
    case PushMip(_, _) => if s.pipeline.Some? then Some(s) else None
    case PushSpecular(_, _) => if s.pipeline.Some? then Some(s) else None
    case Dispatch(_, _, _) => if DispatchOk(s, written) then Some(s) else None
  }

  /** A command stream run from s: the final state, or None at the first wrongly used command. */
  function Run(s: CmdState, cs: seq<Command>, written: seq<SetWrite>): Option<CmdState>
    decreases |cs|
  {
    if cs == [] then Some(s)
    else match Step(s, cs[0], written)
      case None => None
      case Some(s1) => Run(s1, cs[1..], written)
  }

  /** Running two streams one after the other is running their concatenation. */
  lemma {:induction false} RunAppend(s: CmdState, a: seq<Command>, b: seq<Command>, written: seq<SetWrite>)
    ensures Run(s, a + b, written) == match Run(s, a, written) case None => None case Some(s1) => Run(s1, b, written)
    decreases |a|
  {
    if a == [] {
      assert a + b == b;
    } else {
      assert (a + b)[0] == a[0] && (a + b)[1..] == a[1..] + b;
      match Step(s, a[0], written)
      case None =>
      case Some(s1) => RunAppend(s1, a[1..], b, written);
    }
  }

  /* The recorded streams */

  /** The dispatch of one mip of a cube map: the mip's extent in groups on x and y, the six faces over z. */
  function MipDispatch(size: nat, i: nat, g: Workgroup): Command
    requires WorkgroupOk(g)
  {
    Dispatch(MipGroups(size, i, g.x), MipGroups(size, i, g.y), 6 / g.z)
  }

  /** The per-mip commands of the environment loop: push the mip, bind its set, dispatch. */
  function EqToCubeMip(g: Workgroup, i: nat): seq<Command>
    requires WorkgroupOk(g)
  {
    [PushMip(i, SKYBOX_SIZE), BindSet(EqToCube, i),
     MipDispatch(SKYBOX_SIZE, i, g)]
  }

  /** The first n iterations of the environment loop. */
  function EqToCubeLoop(g: Workgroup, n: nat): seq<Command>
    requires WorkgroupOk(g)
  {
    if n == 0 then [] else EqToCubeLoop(g, n - 1) + EqToCubeMip(g, n - 1)
  }

  /** The per-mip commands of the specular loop: push size and roughness, bind the set, dispatch. */
  function SpecularMip(g: Workgroup, i: nat): seq<Command>
    requires WorkgroupOk(g)
  {
    [PushSpecular(Shr(SPECULAR_SIZE, i), Roughness(i)), BindSet(SpecularKernel, i),
     MipDispatch(SPECULAR_SIZE, i, g)]
  }

  function SpecularLoop(g: Workgroup, n: nat): seq<Command>
    requires WorkgroupOk(g)
  {
    if n == 0 then [] else SpecularLoop(g, n - 1) + SpecularMip(g, n - 1)
  }

  /** The workgroup sizes of the four kernels. */
  datatype Workgroups = Workgroups(brdf: Workgroup, eqToCube: Workgroup, irradiance: Workgroup, specular: Workgroup)

  predicate WorkgroupsOk(w: Workgroups) {
    WorkgroupOk(w.brdf) && WorkgroupOk(w.eqToCube) && WorkgroupOk(w.irradiance) && WorkgroupOk(w.specular)
  }

  /**
   * The command buffer of compute_pbr_maps2: all four maps to general; the
   * BRDF dispatch, whose z count is the workgroup's z size; BRDF to
   * shader-read; the environment mips; environment to shader-read; the
   * irradiance dispatch; the specular mips; irradiance and specular to
   * shader-read.
   */
  /** The BRDF part of the maps stream: every target to general, the BRDF dispatch, then the BRDF to shader-read and the environment pipeline bound. */
  function MapsPrologue(w: Workgroups): seq<Command>
    requires WorkgroupsOk(w)
  {
    BrdfHead + BrdfTail(w.brdf)
  }

  /** Between the two mip loops: the environment to shader-read, the irradiance dispatch, the specular pipeline bound. */
  function MapsMiddle(w: Workgroups): seq<Command>
    requires WorkgroupsOk(w)
  {
    IrradianceHead + IrradianceTail(w.irradiance)
  }

  /** The closing barriers: irradiance and specular to shader-read. */
  const MapsEpilogue: seq<Command> :=
    [Barrier(Irradiance, General, ShaderRead), Barrier(Specular, General, ShaderRead)]

  /** The command buffer compute_pbr_maps2 records when every workgroup query succeeds. */
  function MapsStream(w: Workgroups): seq<Command>
    requires WorkgroupsOk(w)
  {
    MapsPrologue(w) + EqToCubeLoop(w.eqToCube, SKYBOX_MIPS) + MapsMiddle(w) +
    SpecularLoop(w.specular, SPECULAR_MIPS) + MapsEpilogue
  }

  /** The upload command buffer of compute_pbr_maps: equirect to transfer destination, the copy, then to shader-read. */
  const UploadStream: seq<Command> :=
    [Barrier(Equirect, Undefined, TransferDst), CopyToImage(Equirect), Barrier(Equirect, TransferDst, ShaderRead)]

  /** Running a stream whose head command succeeds is running its tail from the new state. */
  lemma RunCons(s: CmdState, s1: CmdState, cs: seq<Command>, written: seq<SetWrite>)
    requires cs != [] && Step(s, cs[0], written) == Some(s1)
    ensures Run(s, cs, written) == Run(s1, cs[1..], written)
  {
  }

  /** Running a then b, when a ends in s1, is running b from s1. */
  lemma RunThen(s: CmdState, s1: CmdState, a: seq<Command>, b: seq<Command>, written: seq<SetWrite>)
    requires Run(s, a, written) == Some(s1)
    ensures Run(s, a + b, written) == Run(s1, b, written)
  {
    RunAppend(s, a, b, written);
  }

  /**
   * One mip iteration: with the kernel's pipeline bound, the push, the set
   * binding and a dispatch through a written set leave set i bound.
   */
  lemma MipRuns(s: CmdState, k: Kernel, i: nat, push: Command, d: Command, written: seq<SetWrite>)
    requires s.pipeline == Some(k) && i < MaxSets(k) && (push.PushMip? || push.PushSpecular?) && d.Dispatch?
    requires DispatchOk(s.(bound := Some(i)), written)
    ensures Run(s, [push, BindSet(k, i), d], written) == Some(s.(bound := Some(i)))
  {
    var s1 := s.(bound := Some(i));
    var cs := [push, BindSet(k, i), d];
    RunCons(s, s, cs, written);
    assert cs[1..] == [BindSet(k, i), d];
    RunCons(s, s1, cs[1..], written);
    assert cs[1..][1..] == [d];
    RunCons(s1, s1, [d], written);
    assert [d][1..] == [];
  }

  /** The environment loop from a state with its pipeline bound, the equirect readable and the environment writable. */
  lemma {:induction false} EqToCubeLoopRuns(s: CmdState, g: Workgroup, n: nat, written: seq<SetWrite>)
    requires WorkgroupOk(g) && 0 < n <= SKYBOX_MIPS
    requires s.pipeline == Some(EqToCube)
    requires s.layouts.equirect == ShaderRead && s.layouts.environment == General
    requires forall i :: 0 <= i < SKYBOX_MIPS ==> WriteFor(EqToCube, i) in written
    ensures Run(s, EqToCubeLoop(g, n), written) == Some(s.(bound := Some(n - 1)))
  {
    var m := EqToCubeMip(g, n - 1);
    if n == 1 {
      assert EqToCubeLoop(g, 1) == m;
      MipRuns(s, EqToCube, 0, m[0], m[2], written);
    } else {
      var s1 := s.(bound := Some(n - 2));
      EqToCubeLoopRuns(s, g, n - 1, written);
      RunThen(s, s1, EqToCubeLoop(g, n - 1), m, written);
      MipRuns(s1, EqToCube, n - 1, m[0], m[2], written);
    }
  }

  lemma {:induction false} SpecularLoopRuns(s: CmdState, g: Workgroup, n: nat, written: seq<SetWrite>)
    requires WorkgroupOk(g) && 0 < n <= SPECULAR_MIPS
    requires s.pipeline == Some(SpecularKernel)
    requires s.layouts.environment == ShaderRead && s.layouts.specular == General
    requires forall i :: 0 <= i < SPECULAR_MIPS ==> WriteFor(SpecularKernel, i) in written
    ensures Run(s, SpecularLoop(g, n), written) == Some(s.(bound := Some(n - 1)))
  {
    var m := SpecularMip(g, n - 1);
    if n == 1 {
      assert SpecularLoop(g, 1) == m;
      MipRuns(s, SpecularKernel, 0, m[0], m[2], written);
    } else {
      var s1 := s.(bound := Some(n - 2));
      SpecularLoopRuns(s, g, n - 1, written);
      RunThen(s, s1, SpecularLoop(g, n - 1), m, written);
      MipRuns(s1, SpecularKernel, n - 1, m[0], m[2], written);
    }
  }

  const AllUndefined: Layouts := Layouts(Undefined, Undefined, Undefined, Undefined, Undefined)
  const AllReadable: Layouts := Layouts(ShaderRead, ShaderRead, ShaderRead, ShaderRead, ShaderRead)

  /** Every set the kernels bind has been written. */
  predicate AllSetsWritten(written: seq<SetWrite>) {
    WriteFor(BrdfIntegration, 0) in written && WriteFor(IrradianceKernel, 0) in written &&
    (forall i :: 0 <= i < SKYBOX_MIPS ==> WriteFor(EqToCube, i) in written) &&
    (forall i :: 0 <= i < SPECULAR_MIPS ==> WriteFor(SpecularKernel, i) in written)
  }

  /** The sets UpdateSets writes are all the sets the kernels bind. */
  lemma UpdatedSetsSuffice(writes: seq<SetWrite>)
    requires |writes| == 2 + SKYBOX_MIPS + SPECULAR_MIPS
    requires writes[0] == WriteFor(BrdfIntegration, 0) && writes[1 + SKYBOX_MIPS] == WriteFor(IrradianceKernel, 0)
    requires forall i :: 0 <= i < SKYBOX_MIPS ==> writes[1 + i] == WriteFor(EqToCube, i)
    requires forall i :: 0 <= i < SPECULAR_MIPS ==> writes[2 + SKYBOX_MIPS + i] == WriteFor(SpecularKernel, i)
    ensures AllSetsWritten(writes)
  {
    forall i | 0 <= i < SKYBOX_MIPS
      ensures WriteFor(EqToCube, i) in writes
    {
      assert writes[1 + i] == WriteFor(EqToCube, i);
    }
    forall i | 0 <= i < SPECULAR_MIPS
      ensures WriteFor(SpecularKernel, i) in writes
    {
      assert writes[2 + SKYBOX_MIPS + i] == WriteFor(SpecularKernel, i);
    }
  }

  /**
   * The maps stream is well formed from the state the upload leaves (the
   * equirect readable, the maps undefined): every barrier starts from the
   * image's current layout, every dispatch finds its images in the layouts
   * it needs, and all images end shader-readable.
   */
  /** The layouts once the BRDF is done and both cube maps are being written. */
  const AfterBrdf: Layouts := Layouts(ShaderRead, ShaderRead, General, General, General)

  /** Running the suffix of a stream from position j: one step, then the suffix from j + 1. */
  lemma RunAt(s: CmdState, s1: CmdState, cs: seq<Command>, j: nat, written: seq<SetWrite>)
    requires j < |cs| && Step(s, cs[j], written) == Some(s1)
    ensures Run(s, cs[j..], written) == Run(s1, cs[j + 1..], written)
  {
    assert cs[j..][1..] == cs[j + 1..];
  }

  lemma PrologueRuns(w: Workgroups, written: seq<SetWrite>)
    requires WorkgroupsOk(w) && AllSetsWritten(written)
    ensures Run(CmdState(AllUndefined.(equirect := ShaderRead), None, None), MapsPrologue(w), written) ==
      Some(CmdState(AfterBrdf, Some(EqToCube), None))
  {
    var cs := MapsPrologue(w);
    var l1 := Layouts(ShaderRead, General, General, General, General);
    RunAt(CmdState(Layouts(ShaderRead, Undefined, Undefined, Undefined, Undefined), None, None),
      CmdState(Layouts(ShaderRead, General, Undefined, Undefined, Undefined), None, None), cs, 0, written);
    RunAt(CmdState(Layouts(ShaderRead, General, Undefined, Undefined, Undefined), None, None),
      CmdState(Layouts(ShaderRead, General, General, Undefined, Undefined), None, None), cs, 1, written);
    RunAt(CmdState(Layouts(ShaderRead, General, General, Undefined, Undefined), None, None),
      CmdState(Layouts(ShaderRead, General, General, General, Undefined), None, None), cs, 2, written);
    RunAt(CmdState(Layouts(ShaderRead, General, General, General, Undefined), None, None),
      CmdState(l1, None, None), cs, 3, written);
    RunAt(CmdState(l1, None, None), CmdState(l1, Some(BrdfIntegration), None), cs, 4, written);
    RunAt(CmdState(l1, Some(BrdfIntegration), None), CmdState(l1, Some(BrdfIntegration), Some(0)), cs, 5, written);
    RunAt(CmdState(l1, Some(BrdfIntegration), Some(0)), CmdState(l1, Some(BrdfIntegration), Some(0)), cs, 6, written);
    RunAt(CmdState(l1, Some(BrdfIntegration), Some(0)), CmdState(AfterBrdf, Some(BrdfIntegration), Some(0)), cs, 7, written);
    RunAt(CmdState(AfterBrdf, Some(BrdfIntegration), Some(0)), CmdState(AfterBrdf, Some(EqToCube), None), cs, 8, written);
    assert cs[0..] == cs && cs[9..] == [];
  }

  lemma MiddleRuns(w: Workgroups, written: seq<SetWrite>)
    requires WorkgroupsOk(w) && AllSetsWritten(written)
    ensures Run(CmdState(AfterBrdf, Some(EqToCube), Some(SKYBOX_MIPS - 1)), MapsMiddle(w), written) ==
      Some(CmdState(AfterBrdf.(environment := ShaderRead), Some(SpecularKernel), None))
  {
    var cs := MapsMiddle(w);
    var l := AfterBrdf.(environment := ShaderRead);
    RunAt(CmdState(AfterBrdf, Some(EqToCube), Some(SKYBOX_MIPS - 1)), CmdState(l, Some(EqToCube), Some(SKYBOX_MIPS - 1)), cs, 0, written);
    RunAt(CmdState(l, Some(EqToCube), Some(SKYBOX_MIPS - 1)), CmdState(l, Some(IrradianceKernel), None), cs, 1, written);
    RunAt(CmdState(l, Some(IrradianceKernel), None), CmdState(l, Some(IrradianceKernel), Some(0)), cs, 2, written);
    RunAt(CmdState(l, Some(IrradianceKernel), Some(0)), CmdState(l, Some(IrradianceKernel), Some(0)), cs, 3, written);
    RunAt(CmdState(l, Some(IrradianceKernel), Some(0)), CmdState(l, Some(SpecularKernel), None), cs, 4, written);
    assert cs[0..] == cs && cs[5..] == [];
  }

  lemma EpilogueRuns(s: CmdState, written: seq<SetWrite>)
    requires s.layouts == AfterBrdf.(environment := ShaderRead)
    ensures Run(s, MapsEpilogue, written) == Some(s.(layouts := AllReadable))
  {
    var cs := MapsEpilogue;
    assert cs[1..][1..] == [];
  }

  /** From the equirect uploaded and every other image undefined, the maps stream runs and leaves every image shader-readable. */
  lemma {:induction false} MapsStreamRuns(w: Workgroups, written: seq<SetWrite>)
    requires WorkgroupsOk(w) && AllSetsWritten(written)
    ensures Run(CmdState(AllUndefined.(equirect := ShaderRead), None, None), MapsStream(w), written).Some?
    ensures Run(CmdState(AllUndefined.(equirect := ShaderRead), None, None), MapsStream(w), written).value.layouts == AllReadable
  {
    var s0 := CmdState(AllUndefined.(equirect := ShaderRead), None, None);
    var p1, p2, p3 := MapsPrologue(w), EqToCubeLoop(w.eqToCube, SKYBOX_MIPS), MapsMiddle(w);
    var p4, p5 := SpecularLoop(w.specular, SPECULAR_MIPS), MapsEpilogue;
    var s1 := CmdState(AfterBrdf, Some(EqToCube), None);
    PrologueRuns(w, written);
    RunThen(s0, s1, p1, p2, written);
    var s2 := s1.(bound := Some(SKYBOX_MIPS - 1));
    EqToCubeLoopRuns(s1, w.eqToCube, SKYBOX_MIPS, written);
    RunThen(s0, s2, p1 + p2, p3, written);
    var s3 := CmdState(AfterBrdf.(environment := ShaderRead), Some(SpecularKernel), None);
    MiddleRuns(w, written);
    RunThen(s0, s3, p1 + p2 + p3, p4, written);
    var s4 := s3.(bound := Some(SPECULAR_MIPS - 1));
    SpecularLoopRuns(s3, w.specular, SPECULAR_MIPS, written);
    RunThen(s0, s4, p1 + p2 + p3 + p4, p5, written);
    EpilogueRuns(s4, written);
  }

  /** The upload then the maps: from every image undefined, everything ends shader-readable. */
  lemma UploadThenMapsRuns(w: Workgroups, written: seq<SetWrite>)
    requires WorkgroupsOk(w) && AllSetsWritten(written)
    ensures var r := Run(CmdState(AllUndefined, None, None), UploadStream + MapsStream(w), written);
      r.Some? && r.value.layouts == AllReadable
  {
    var s0 := CmdState(AllUndefined, None, None);
    assert Run(s0, UploadStream, written) == Some(CmdState(AllUndefined.(equirect := ShaderRead), None, None));
    RunAppend(s0, UploadStream, MapsStream(w), written);
    MapsStreamRuns(w, written);
  }

  /* compute_pbr_maps2 and compute_pbr_maps */

  /** What ac_shader_get_workgroup reports for a shader. */
  datatype Query = Found(wg: Workgroup) | QueryFailed(error: AcResult)

  /** The workgroup queries of the four kernels. */
  datatype Queries = Queries(brdf: Query, eqToCube: Query, irradiance: Query, specular: Query)

  predicate QueriesOk(q: Queries) {
    (q.brdf.Found? ==> WorkgroupOk(q.brdf.wg)) && (q.eqToCube.Found? ==> WorkgroupOk(q.eqToCube.wg)) &&
    (q.irradiance.Found? ==> WorkgroupOk(q.irradiance.wg)) && (q.specular.Found? ==> WorkgroupOk(q.specular.wg)) &&
    (q.brdf.QueryFailed? ==> !q.brdf.error.Success?) && (q.eqToCube.QueryFailed? ==> !q.eqToCube.error.Success?) &&
    (q.irradiance.QueryFailed? ==> !q.irradiance.error.Success?) && (q.specular.QueryFailed? ==> !q.specular.error.Success?)
  }

  predicate AllFound(q: Queries) {
    q.brdf.Found? && q.eqToCube.Found? && q.irradiance.Found? && q.specular.Found?
  }

  function SizesOf(q: Queries): Workgroups
    requires AllFound(q)
  {
    Workgroups(q.brdf.wg, q.eqToCube.wg, q.irradiance.wg, q.specular.wg)
  }

  /**
   * The first failure of the workgroup queries in the order they are made:
   * BRDF, environment, irradiance, specular.
   */
  function FirstQueryFailure(q: Queries): AcResult {
    if q.brdf.QueryFailed? then q.brdf.error
    else if q.eqToCube.QueryFailed? then q.eqToCube.error
    else if q.irradiance.QueryFailed? then q.irradiance.error
    else if q.specular.QueryFailed? then q.specular.error
    else Success
  }

  /** One more recorded environment iteration extends the loop's stream by that mip's commands. */
  lemma EqToCubeLoopStep(g: Workgroup, i: nat, xs: seq<Command>, ys: seq<Command>)
    requires WorkgroupOk(g) && xs == EqToCubeLoop(g, i)
    requires ys == xs + [PushMip(i, SKYBOX_SIZE), BindSet(EqToCube, i)] +
      [MipDispatch(SKYBOX_SIZE, i, g)]
    ensures ys == EqToCubeLoop(g, i + 1)
  {
    assert EqToCubeLoop(g, i + 1) == xs + EqToCubeMip(g, i);
  }

  lemma SpecularLoopStep(g: Workgroup, i: nat, xs: seq<Command>, ys: seq<Command>)
    requires WorkgroupOk(g) && xs == SpecularLoop(g, i)
    requires ys == xs + [PushSpecular(Shr(SPECULAR_SIZE, i), Roughness(i)), BindSet(SpecularKernel, i)] +
      [MipDispatch(SPECULAR_SIZE, i, g)]
    ensures ys == SpecularLoop(g, i + 1)
  {
    assert SpecularLoop(g, i + 1) == xs + SpecularMip(g, i);
  }

  /**
   * The environment mip loop of compute_pbr_maps2: each iteration pushes the
   * mip and binds its set, then asks for the kernel's workgroup; a failed
   * query ends the loop with its result before the first dispatch.
   */
  method RecordEnvironmentMips(e: Query) returns (cmds: seq<Command>, r: AcResult)
    requires e.Found? ==> WorkgroupOk(e.wg)
    ensures r == if e.Found? then Success else e.error
    ensures e.Found? ==> cmds == EqToCubeLoop(e.wg, SKYBOX_MIPS)
    ensures e.QueryFailed? ==> cmds == [PushMip(0, SKYBOX_SIZE), BindSet(EqToCube, 0)]
  {
    cmds := [];
    for i := 0 to SKYBOX_MIPS
      invariant e.Found? || i == 0
      invariant e.Found? ==> cmds == EqToCubeLoop(e.wg, i)
      invariant e.QueryFailed? ==> cmds == []
    {
      ghost var prev := cmds;
      cmds := cmds + [PushMip(i, SKYBOX_SIZE), BindSet(EqToCube, i)];
      if e.QueryFailed? {
        return cmds, e.error;
      }
      var g := e.wg;
      cmds := cmds + [MipDispatch(SKYBOX_SIZE, i, g)];
      EqToCubeLoopStep(g, i, prev, cmds);
    }
    r := Success;
  }

  /** The specular mip loop, shaped like the environment loop with the roughness pushed per mip. */
  method RecordSpecularMips(e: Query) returns (cmds: seq<Command>, r: AcResult)
    requires e.Found? ==> WorkgroupOk(e.wg)
    ensures r == if e.Found? then Success else e.error
    ensures e.Found? ==> cmds == SpecularLoop(e.wg, SPECULAR_MIPS)
    ensures e.QueryFailed? ==> cmds == [PushSpecular(SPECULAR_SIZE, 0.0), BindSet(SpecularKernel, 0)]
  {
    cmds := [];
    for i := 0 to SPECULAR_MIPS
      invariant e.Found? || i == 0
      invariant e.Found? ==> cmds == SpecularLoop(e.wg, i)
      invariant e.QueryFailed? ==> cmds == []
    {
      ghost var prev := cmds;
      cmds := cmds + [PushSpecular(Shr(SPECULAR_SIZE, i), Roughness(i)), BindSet(SpecularKernel, i)];
      if e.QueryFailed? {
        return cmds, e.error;
      }
      var g := e.wg;
      cmds := cmds + [MipDispatch(SPECULAR_SIZE, i, g)];
      SpecularLoopStep(g, i, prev, cmds);
    }
    r := Success;
  }

  /** The commands before the BRDF query, and those after it up to the environment loop. */
  const BrdfHead: seq<Command> := [Barrier(Brdf, Undefined, General), Barrier(Environment, Undefined, General),
    Barrier(Irradiance, Undefined, General), Barrier(Specular, Undefined, General),
    BindPipeline(BrdfIntegration), BindSet(BrdfIntegration, 0)]

  function BrdfTail(g: Workgroup): seq<Command>
    requires WorkgroupOk(g)
  {
    [Dispatch(BRDF_INTEGRATION_SIZE / g.x, BRDF_INTEGRATION_SIZE / g.y, g.z), Barrier(Brdf, General, ShaderRead), BindPipeline(EqToCube)]
  }

  /** The commands before the irradiance query, and those after it up to the specular loop. */
  const IrradianceHead: seq<Command> := [Barrier(Environment, General, ShaderRead), BindPipeline(IrradianceKernel), BindSet(IrradianceKernel, 0)]

  function IrradianceTail(g: Workgroup): seq<Command>
    requires WorkgroupOk(g)
  {
    [Dispatch(IRRADIANCE_SIZE / g.x, IRRADIANCE_SIZE / g.y, 6 / g.z), BindPipeline(SpecularKernel)]
  }

  /** The pieces compute_pbr_maps2 appends, in recording order, make up the maps stream. */
  lemma MapsStreamPieces(w: Workgroups)
    requires WorkgroupsOk(w)
    ensures BrdfHead + BrdfTail(w.brdf) + EqToCubeLoop(w.eqToCube, SKYBOX_MIPS) + IrradianceHead +
      IrradianceTail(w.irradiance) + SpecularLoop(w.specular, SPECULAR_MIPS) + MapsEpilogue == MapsStream(w)
  {
    var m1 := EqToCubeLoop(w.eqToCube, SKYBOX_MIPS);
    assert BrdfHead + BrdfTail(w.brdf) + m1 + IrradianceHead + IrradianceTail(w.irradiance) ==
      MapsPrologue(w) + m1 + MapsMiddle(w);
  }

  /**
   * The recording of compute_pbr_maps2 after its descriptor updates: each
   * workgroup query is made where the source makes it, and a failed one
   * ends the recording with its result.
   */
  method RecordMaps(q: Queries) returns (cmds: seq<Command>, r: AcResult)
    requires QueriesOk(q)
    ensures r == FirstQueryFailure(q)
    ensures r.Success? ==> cmds == MapsStream(SizesOf(q))
  {
    cmds := BrdfHead;
    if q.brdf.QueryFailed? {
      return cmds, q.brdf.error;
    }
    cmds := cmds + BrdfTail(q.brdf.wg);
    var mips, res := RecordEnvironmentMips(q.eqToCube);
    cmds := cmds + mips;
    if !res.Success? {
      return cmds, res;
    }
    cmds := cmds + IrradianceHead;
    if q.irradiance.QueryFailed? {
      return cmds, q.irradiance.error;
    }
    cmds := cmds + IrradianceTail(q.irradiance.wg);
    mips, res := RecordSpecularMips(q.specular);
    cmds := cmds + mips;
    if !res.Success? {
      return cmds, res;
    }
    MapsStreamPieces(SizesOf(q));
    cmds := cmds + MapsEpilogue;
    r := Success;
  }

  /**
   * compute_pbr_maps2 once its images are created: the descriptor sets are
   * written, the command buffer is recorded and, if every workgroup query
   * succeeded, submitted. `setup` is the first failing result of the
   * checked creation calls (sampler, images, shaders, layouts, descriptor
   * buffers, pipelines, pool, command buffer), or success; the function
   * returns it at once. A failing workgroup query ends the recording and
   * the function returns its result; the partly recorded buffer is never
   * submitted.
   */
  method ComputePbrMaps2(setup: AcResult, q: Queries) returns (written: seq<SetWrite>, cmds: seq<Command>, submitted: bool, r: AcResult)
    requires QueriesOk(q)
    ensures r.Success? <==> setup.Success? && AllFound(q)
    ensures r == if !setup.Success? then setup else FirstQueryFailure(q)
    ensures submitted <==> r.Success?
    ensures r.Success? ==> AllSetsWritten(written) && cmds == MapsStream(SizesOf(q))
  {
    written, cmds, submitted := [], [], false;
    if !setup.Success? {
      return written, cmds, submitted, setup;
    }
    written := UpdateSets();
    UpdatedSetsSuffice(written);
    cmds, r := RecordMaps(q);
    submitted := r.Success?;
  }

  /** The size in bytes of one RGBA32F texel, the equirect's format. */
  const RGBA32F_BYTES: nat := 16

  /**
   * compute_pbr_maps: the file is opened and read, the decoded equirect is
   * copied row by row into the mapped staging buffer, and the upload
   * commands are recorded and submitted; then compute_pbr_maps2 runs.
   * Each checked call ends the function with its failure. The result of
   * compute_pbr_maps2 is discarded, so success here says nothing about the
   * maps.
   */
  method ComputePbrMaps(file: AcResult, read: AcResult, pixels: seq<bv8>, w: nat, h: nat,
                        rowAlign: nat, imageAlign: nat, buffer: AcResult, mapped: array<bv8>,
                        pool: AcResult, cmd: AcResult, setup: AcResult, q: Queries)
    returns (upload: seq<Command>, maps: seq<Command>, r: AcResult)
    requires rowAlign > 0 && imageAlign > 0 && QueriesOk(q)
    requires mapped.Length == LayoutOf(w, h, RGBA32F_BYTES, rowAlign, imageAlign).size
    requires h * (w * RGBA32F_BYTES) <= |pixels|
    modifies mapped
    ensures r == FirstFailure([file, read, buffer, pool, cmd])
    ensures var l := LayoutOf(w, h, RGBA32F_BYTES, rowAlign, imageAlign);
      mapped[..] == if file.Success? && read.Success? && buffer.Success?
        then Staged(old(mapped[..]), pixels, h, l.srcRow, l.dstRow) else old(mapped[..])
    ensures r.Success? ==> upload == UploadStream
    ensures r.Success? && setup.Success? && AllFound(q) ==> maps == MapsStream(SizesOf(q))
    ensures !r.Success? ==> upload == [] && maps == []
  {
    upload, maps := [], [];
    ghost var rs := [file, read, buffer, pool, cmd];
    assert rs[1..] == [read, buffer, pool, cmd] && rs[1..][1..] == [buffer, pool, cmd];
    assert rs[1..][1..][1..] == [pool, cmd] && rs[1..][1..][1..][1..] == [cmd];
    if !file.Success? {
      return upload, maps, file;
    }
    if !read.Success? {
      return upload, maps, read;
    }
    assert FirstFailure(rs) == FirstFailure(rs[1..][1..]);
    if !buffer.Success? {
      return upload, maps, buffer;
    }
    StageImage(mapped, pixels, w, h, RGBA32F_BYTES, rowAlign, imageAlign);
    assert FirstFailure(rs) == FirstFailure(rs[1..][1..][1..]);
    if !pool.Success? {
      return upload, maps, pool;
    }
    assert FirstFailure(rs) == FirstFailure(rs[1..][1..][1..][1..]);
    if !cmd.Success? {
      return upload, maps, cmd;
    }
    upload := UploadStream;
    var written, submitted, mapsResult;
    written, maps, submitted, mapsResult := ComputePbrMaps2(setup, q);
    r := Success;
  }
}

=== FILE: linalg.dfy ===
/**
 * The small slice of glm the scene runtime relies on.
 *
 * Vectors are records of reals. A 4x4 matrix is kept as a FORMAL PRODUCT: the
 * sequence of the elementary matrices (translation, rotation, scale, a raw
 * column-major matrix, an inverse) whose product it is, so that `Mul` is
 * concatenation. Every real 4x4 matrix product is associative, so whatever is
 * proved here about the order of factors holds of the evaluated matrices; the
 * floating-point evaluation itself (including quaternion slerp and
 * normalisation, and matrix inversion) is deliberately left symbolic.
 */
module LinAlg {

  datatype Vec2 = Vec2(x: real, y: real)
  datatype Vec3 = Vec3(x: real, y: real, z: real)
  datatype Vec4 = Vec4(x: real, y: real, z: real, w: real)

  /** std::numeric_limits<float>::max() (FLT_MAX), exactly. */
  const FLT_MAX: real := 340282346638528859811704183484516925440.0

  /** std::numeric_limits<float>::min(): the smallest positive normal float, 2^-126. */
  const FLT_MIN: real := 1.0 / 85070591730234615865843651857942052864.0

  const Zero3: Vec3 := Vec3(0.0, 0.0, 0.0)
  const One3: Vec3 := Vec3(1.0, 1.0, 1.0)
  const Zero4: Vec4 := Vec4(0.0, 0.0, 0.0, 0.0)
  const One4: Vec4 := Vec4(1.0, 1.0, 1.0, 1.0)

  /** glm::vec3(v4): drop the fourth component. */
  function Xyz(v: Vec4): Vec3 { Vec3(v.x, v.y, v.z) }

  /** glm::vec4(v3, w). */
  function Extend(v: Vec3, w: real): Vec4 { Vec4(v.x, v.y, v.z, w) }

  /**
   * A quaternion: literal components (x, y, z, w); the normalised spherical
   * interpolation of two quaternions at parameter `u`; or a quaternion
   * converted to a rotation matrix and back (glm::quat(glm::mat4(q))). The
   * last two are kept as uninterpreted terms.
   */
  datatype Quat =
    | Quat(x: real, y: real, z: real, w: real)
    | NormalizedSlerp(from: Quat, to: Quat, u: real)
    | ViaMat4(of: Quat)

  /** glm::normalize of a normal vector, kept as an uninterpreted term. */
  datatype Dir = Normalized(v: Vec3)

  /** An elementary 4x4 matrix. */
  datatype Factor =
    | Translation(t: Vec3)
    | Rotation(q: Quat)
    | Scaling(s: Vec3)
    | Columns(m: seq<real>)          // glm::make_mat4x4 of 16 column-major reals
    | Inverse(of: seq<Factor>)       // glm::inverse of a product

  /** A 4x4 matrix as the product of its factors, left to right. */
  type Mat = seq<Factor>

  /** glm::mat4(1.0f): the empty product. */
  const Identity: Mat := []

  function Mul(a: Mat, b: Mat): (r: Mat)
    ensures |r| == |a| + |b|
  {
    a + b
  }

  /** Matrix multiplication is associative. */
  lemma MulAssociative(a: Mat, b: Mat, c: Mat)
    ensures Mul(Mul(a, b), c) == Mul(a, Mul(b, c))
  {
  }

  /** mat4(1.0f) is a two-sided unit. */
  lemma MulIdentity(a: Mat)
    ensures Mul(Identity, a) == a && Mul(a, Identity) == a
  {
  }

  /**
   * glm::mix(x, y, a) == x * (1 - a) + y * a, componentwise.
   */
  function Mix(x: Vec4, y: Vec4, a: real): (r: Vec4)
    ensures a == 0.0 ==> r == x
    ensures a == 1.0 ==> r == y
    ensures x == y ==> r == x
  {
    Vec4(x.x * (1.0 - a) + y.x * a,
         x.y * (1.0 - a) + y.y * a,
         x.z * (1.0 - a) + y.z * a,
         x.w * (1.0 - a) + y.w * a)
  }

  function Min(a: real, b: real): (r: real)
    ensures r <= a && r <= b && (r == a || r == b)
  {
    if b < a then b else a
  }

  function Max(a: real, b: real): (r: real)
    ensures r >= a && r >= b && (r == a || r == b)
  {
    if a < b then b else a
  }

  /** glm::min on vec3, componentwise. */
  function MinV(a: Vec3, b: Vec3): (r: Vec3)
    ensures r.x <= a.x && r.y <= a.y && r.z <= a.z
    ensures r.x <= b.x && r.y <= b.y && r.z <= b.z
  {
    Vec3(Min(a.x, b.x), Min(a.y, b.y), Min(a.z, b.z))
  }

  /** glm::max on vec3, componentwise. */
  function MaxV(a: Vec3, b: Vec3): (r: Vec3)
    ensures r.x >= a.x && r.y >= a.y && r.z >= a.z
    ensures r.x >= b.x && r.y >= b.y && r.z >= b.z
  {
    Vec3(Max(a.x, b.x), Max(a.y, b.y), Max(a.z, b.z))
  }

  function Add3(a: Vec3, b: Vec3): Vec3 { Vec3(a.x + b.x, a.y + b.y, a.z + b.z) }

  function Scale3(v: Vec3, k: real): Vec3 { Vec3(v.x * k, v.y * k, v.z * k) }

  /** Componentwise a <= b. */
  predicate LessEq3(a: Vec3, b: Vec3) { a.x <= b.x && a.y <= b.y && a.z <= b.z }
}

=== FILE: loading.dfy ===
/**
 * What Model::load_node does to the loader's state, as functions of that
 * state (model.cpp). The class in model.dfy carries the same state in fields
 * and arrays and is proved to follow these functions step by step.
 *
 * The state is the node arena with the root and linear lists, the mesh slot
 * counter, the two staging cursors and the contents of the vertex, index and
 * uniform-block buffers.
 */
module Loading {
  import opened Wrappers
  import opened LinAlg
  import opened Bounds
  import opened Document
  import opened Scene

  const U32: nat := 0x1_0000_0000

  /** static_cast<uint32_t> of a size_t: reduction modulo 2^32. */
  function Trunc32(n: nat): (r: nat)
    ensures r < U32
    ensures n < U32 ==> r == n
  {
    n % U32
  }

  /** Model::Vertex. */
  datatype Vertex = Vertex(
    pos: Vec3,
    normal: Dir,
    uv0: Vec2,
    uv1: Vec2,
    joint0: Vec4,
    weight0: Vec4,
    color: Vec4)

  datatype LoadState = LoadState(
    arena: seq<Node>,
    roots: seq<nat>,
    linear: seq<nat>,
    meshCount: nat,
    vertexPos: nat,
    indexPos: nat,
    vertices: seq<Vertex>,
    indices: seq<nat>,
    blocks: seq<UniformBlock>)

  /** The buffers have room for c more vertices, indices and mesh slots. */
  predicate Room(st: LoadState, c: Counts) {
    st.vertexPos + c.vertices <= |st.vertices| &&
    st.indexPos + c.indices <= |st.indices| &&
    st.meshCount + c.meshNodes <= |st.blocks|
  }

  /**
   * r extends st by at most c: the arena only grows, buffer sizes are kept,
   * the cursors advance by at most c and the mesh counter by exactly c's
   * mesh-node count.
   */
  predicate Grows(st: LoadState, r: LoadState, c: Counts) {
    |r.arena| >= |st.arena| &&
    |r.vertices| == |st.vertices| && |r.indices| == |st.indices| && |r.blocks| == |st.blocks| &&
    st.vertexPos <= r.vertexPos <= st.vertexPos + c.vertices &&
    st.indexPos <= r.indexPos <= st.indexPos + c.indices &&
    r.meshCount == st.meshCount + c.meshNodes
  }

  /** Every primitive names a material below nm, and nm counts at least the default material. */
  predicate Loadable(doc: Document, nm: nat) {
    WellFormed(doc) && nm > 0 &&
    forall m, j :: 0 <= m < |doc.meshes| && 0 <= j < |doc.meshes[m].primitives| ==>
      doc.meshes[m].primitives[j].material < nm
  }

  /**
   * The node load_node allocates for glTF node gi: the node matrix when it
   * has 16 numbers, else the identity; translation, rotation and scale when
   * they have 3, 4 and 3 numbers, else 0, the zero quaternion and 1. It has
   * no children, mesh or skin yet.
   */
  function NewNode(n: DocNode, gi: nat, parent: Option<nat>): Node {
    Node(
      parent, gi, [],
      if |n.matrix| == 16 then [Columns(n.matrix)] else Identity,
      n.name, None, None, n.skin,
      if |n.translation| == 3 then Vec3(n.translation[0], n.translation[1], n.translation[2]) else Zero3,
      if |n.scale| == 3 then Vec3(n.scale[0], n.scale[1], n.scale[2]) else One3,
      if |n.rotation| == 4 then ViaMat4(Quat(n.rotation[0], n.rotation[1], n.rotation[2], n.rotation[3]))
      else Quat(0.0, 0.0, 0.0, 0.0),
      DefaultBox, DefaultBox)
  }

  /** Node defaults: skin index from the document (-1 when absent), translation 0, scale 1, identity matrix. */
  lemma NewNodeDefaults(n: DocNode, gi: nat, parent: Option<nat>)
    requires |n.translation| != 3 && |n.scale| != 3 && |n.matrix| != 16
    ensures var r := NewNode(n, gi, parent);
      r.skinIndex == n.skin && r.translation == Zero3 && r.scale == One3 && r.matrix == Identity &&
      r.parent == parent && r.index == gi && r.children == [] && r.mesh.None? && r.skin.None? &&
      !r.bvh.valid && !r.aabb.valid
  {
  }

  /**
   * The vertex load_node writes for position v of primitive p over the
   * slot's previous contents `prev`. Missing attributes get their defaults;
   * joints are read only when both JOINTS_0 and WEIGHTS_0 are present, and
   * an unsupported joint component type leaves the slot's joints as they
   * were; an all-zero weight becomes (1, 0, 0, 0).
   */
  function VertexAt(p: DocPrimitive, v: nat, prev: Vertex): Vertex
    requires PrimitiveOk(p) && v < |p.positions|
  {
    var hasSkin := p.joints.Some? && p.weights.Some?;
    var joint :=
      if !hasSkin then Zero4
      else if p.joints.value.componentType == UNSIGNED_SHORT || p.joints.value.componentType == UNSIGNED_BYTE
      then p.joints.value.values[v]
      else prev.joint0;
    var weight := if hasSkin then p.weights.value[v] else Zero4;
    Vertex(
      p.positions[v],
      Normalized(if p.normals.Some? then p.normals.value[v] else Zero3),
      if p.uv0.Some? then p.uv0.value[v] else Vec2(0.0, 0.0),
      if p.uv1.Some? then p.uv1.value[v] else Vec2(0.0, 0.0),
      joint,
      if weight == Zero4 then Vec4(1.0, 0.0, 0.0, 0.0) else weight,
      if p.colors.Some? then p.colors.value[v] else One4)
  }

  /**
   * The weight fix: no written vertex has all-zero weights; skinned
   * vertices keep their non-zero weights, and unskinned ones get
   * (1, 0, 0, 0).
   */
  lemma VertexAtWeights(p: DocPrimitive, v: nat, prev: Vertex)
    requires PrimitiveOk(p) && v < |p.positions|
    ensures VertexAt(p, v, prev).weight0 != Zero4
    ensures p.joints.Some? && p.weights.Some? && p.weights.value[v] != Zero4 ==>
      VertexAt(p, v, prev).weight0 == p.weights.value[v]
    ensures !(p.joints.Some? && p.weights.Some?) ==>
      VertexAt(p, v, prev).weight0 == Vec4(1.0, 0.0, 0.0, 0.0) && VertexAt(p, v, prev).joint0 == Zero4
    ensures VertexAt(p, v, prev).pos == p.positions[v]
  {
  }

  /** The vertex buffer after the first `count` vertices of p are written from position pos on. */
  function WrittenVertices(vs: seq<Vertex>, pos: nat, p: DocPrimitive, count: nat): (r: seq<Vertex>)
    requires PrimitiveOk(p) && count <= |p.positions| && pos + count <= |vs|
    ensures |r| == |vs|
  {
    seq(|vs|, k requires 0 <= k < |vs| =>
      if pos <= k < pos + count then VertexAt(p, k - pos, vs[k]) else vs[k])
  }

  /**
   * The index buffer after the first `count` index values are written from
   * position pos on, each rebased by `base` in 32-bit unsigned arithmetic.
   */
  function WrittenIndices(buf: seq<nat>, pos: nat, values: seq<nat>, count: nat, base: nat): (r: seq<nat>)
    requires count <= |values| && pos + count <= |buf|
    ensures |r| == |buf|
  {
    seq(|buf|, k requires 0 <= k < |buf| =>
      if pos <= k < pos + count then (values[k - pos] + base) % U32 else buf[k])
  }

  /** Index data of a supported component type: unsigned int, short or byte. */
  predicate IndexTypeOk(p: DocPrimitive) {
    p.indices.None? ||
    p.indices.value.componentType in {UNSIGNED_INT, UNSIGNED_SHORT, UNSIGNED_BYTE}
  }

  /** The counts a primitive needs room for. */
  function PrimNeeds(p: DocPrimitive): Counts {
    Counts(|p.positions|, IndexCount(p), 0)
  }

  /** The position of a primitive's material: its own, or the last one (the default) for -1. */
  function MaterialSlot(p: DocPrimitive, nm: nat): nat
    requires 0 < nm && p.material < nm
  {
    if p.material > -1 then p.material else nm - 1
  }

  datatype PrimStep = PrimStep(st: LoadState, prim: Option<Primitive>)

  /**
   * One primitive of load_node: write its vertices, then its rebased
   * indices, and build the Primitive. An unsupported index component type
   * stops after the vertices, with no primitive.
   */
  function LoadPrimF(st: LoadState, p: DocPrimitive, nm: nat): (r: PrimStep)
    requires PrimitiveOk(p) && 0 < nm && p.material < nm && Room(st, PrimNeeds(p))
    ensures r.st.arena == st.arena && r.st.roots == st.roots && r.st.linear == st.linear
    ensures r.st.meshCount == st.meshCount && r.st.blocks == st.blocks
    ensures |r.st.vertices| == |st.vertices| && |r.st.indices| == |st.indices|
    ensures r.st.vertexPos == st.vertexPos + |p.positions|
    ensures r.prim.Some? <==> IndexTypeOk(p)
    ensures r.st.indexPos == st.indexPos + if r.prim.Some? then IndexCount(p) else 0
  {
    var n := |p.positions|;
    var vertexStart := Trunc32(st.vertexPos);
    var st1 := st.(vertices := WrittenVertices(st.vertices, st.vertexPos, p, n), vertexPos := st.vertexPos + n);
    var bb := BoundingBox(p.posMin, p.posMax, true);
    match p.indices
    case None =>
      PrimStep(st1, Some(Primitive(Trunc32(st.indexPos), 0, Trunc32(n), MaterialSlot(p, nm), false, bb)))
    case Some(acc) =>
      if acc.componentType in {UNSIGNED_INT, UNSIGNED_SHORT, UNSIGNED_BYTE} then
        var c := |acc.values|;
        var st2 := st1.(indices := WrittenIndices(st1.indices, st1.indexPos, acc.values, c, vertexStart),
                        indexPos := st1.indexPos + c);
        PrimStep(st2, Some(Primitive(Trunc32(st.indexPos), Trunc32(c), Trunc32(n), MaterialSlot(p, nm), Trunc32(c) > 0, bb)))
      else
        PrimStep(st1, None)
  }

  /**
   * Index rebasing: each written index is the source index plus the vertex
   * cursor before the primitive, modulo 2^32, at the index cursor before the
   * primitive; nothing else in the index buffer changes. The primitive's
   * first index is that cursor, and its vertices occupy the next
   * |positions| vertex slots.
   */
  lemma LoadPrimIndices(st: LoadState, p: DocPrimitive, nm: nat)
    requires PrimitiveOk(p) && 0 < nm && p.material < nm && Room(st, PrimNeeds(p))
    requires p.indices.Some? && IndexTypeOk(p)
    requires st.vertexPos < U32 && st.indexPos < U32
    ensures var r := LoadPrimF(st, p, nm); var vals := p.indices.value.values;
      (forall k :: 0 <= k < |vals| ==> r.st.indices[st.indexPos + k] == (vals[k] + st.vertexPos) % U32) &&
      (forall k :: 0 <= k < |st.indices| && !(st.indexPos <= k < st.indexPos + |vals|) ==> r.st.indices[k] == st.indices[k]) &&
      r.prim.value.firstIndex == st.indexPos &&
      (forall k :: st.vertexPos <= k < st.vertexPos + |p.positions| ==>
        r.st.vertices[k] == VertexAt(p, k - st.vertexPos, st.vertices[k]))
  {
  }

  /**
   * The material fallback and the primitive's flags: a primitive without a
   * material (-1) refers to the last material, the default one; has_indices
   * holds exactly when it has a non-zero index count.
   */
  lemma LoadPrimMaterial(st: LoadState, p: DocPrimitive, nm: nat)
    requires PrimitiveOk(p) && 0 < nm && p.material < nm && Room(st, PrimNeeds(p)) && IndexTypeOk(p)
    ensures var q := LoadPrimF(st, p, nm).prim.value;
      (p.material == -1 ==> q.material == nm - 1) &&
      (p.material >= 0 ==> q.material == p.material) &&
      (q.hasIndices <==> q.indexCount > 0) &&
      (p.indices.None? ==> !q.hasIndices) &&
      q.bb == BoundingBox(p.posMin, p.posMax, true)
  {
  }

  datatype PrimsResult = PrimsResult(st: LoadState, prims: seq<Primitive>, accepted: bool)

  /** Every primitive of ps has a supported index type. */
  predicate AllIndexTypesOk(ps: seq<DocPrimitive>) {
    forall k :: 0 <= k < |ps| ==> IndexTypeOk(ps[k])
  }

  /** Every primitive of ps is well formed and names a material below nm. */
  predicate PrimsOk(ps: seq<DocPrimitive>, nm: nat) {
    0 < nm && forall k :: 0 <= k < |ps| ==> PrimitiveOk(ps[k]) && ps[k].material < nm
  }

  /** Every suffix of a list of loadable primitives is loadable. */
  lemma PrimsOkSuffix(ps: seq<DocPrimitive>, nm: nat, j: nat)
    requires PrimsOk(ps, nm) && j <= |ps|
    ensures PrimsOk(ps[j..], nm)
  {
    forall k | 0 <= k < |ps| - j ensures PrimitiveOk(ps[j..][k]) && ps[j..][k].material < nm {
      assert ps[j..][k] == ps[j + k];
    }
  }

  /**
   * The primitives loop of load_node, appending to `acc`; it stops at the
   * first primitive whose index type is unsupported.
   */
  function LoadPrimsF(st: LoadState, ps: seq<DocPrimitive>, acc: seq<Primitive>, nm: nat): (r: PrimsResult)
    requires PrimsOk(ps, nm) && Room(st, PrimitiveCounts(ps))
    ensures r.st.arena == st.arena && r.st.roots == st.roots && r.st.linear == st.linear
    ensures r.st.meshCount == st.meshCount && r.st.blocks == st.blocks
    ensures Grows(st, r.st, PrimitiveCounts(ps))
    ensures r.accepted <==> AllIndexTypesOk(ps)
    ensures r.accepted ==> r.st.vertexPos == st.vertexPos + PrimitiveCounts(ps).vertices
    ensures r.accepted ==> r.st.indexPos == st.indexPos + PrimitiveCounts(ps).indices
    ensures r.accepted ==> |r.prims| == |acc| + |ps| && r.prims[..|acc|] == acc
    decreases |ps|
  {
    if ps == [] then PrimsResult(st, acc, true)
    else
      var step := LoadPrimF(st, ps[0], nm);
      if step.prim.None? then PrimsResult(step.st, acc, false)
      else
        assert PrimsOk(ps[1..], nm) by {
          forall k | 0 <= k < |ps[1..]| ensures PrimitiveOk(ps[1..][k]) && ps[1..][k].material < nm {
            assert ps[1..][k] == ps[k + 1];
          }
        }
        var r := LoadPrimsF(step.st, ps[1..], acc + [step.prim.value], nm);
        assert AllIndexTypesOk(ps) <==> IndexTypeOk(ps[0]) && AllIndexTypesOk(ps[1..]) by {
          if IndexTypeOk(ps[0]) && AllIndexTypesOk(ps[1..]) {
            forall k | 0 <= k < |ps| ensures IndexTypeOk(ps[k]) {
              if k > 0 { assert ps[k] == ps[1..][k - 1]; }
            }
          }
        }
        assert r.accepted ==> r.prims[..|acc|] == (acc + [step.prim.value])[..|acc|];
        r
  }

  /** One step of the mesh bounding-box loop over the primitives' boxes. */
  function MeshBoxStep(b: BoundingBox, p: Primitive): BoundingBox {
    var b1 := if p.bb.valid && !b.valid then p.bb.(valid := true) else b;
    b1.(min := MinV(b1.min, p.bb.min), max := MaxV(b1.max, p.bb.max))
  }

  function MeshBoxFrom(b: BoundingBox, ps: seq<Primitive>): BoundingBox
    decreases |ps|
  {
    if ps == [] then b else MeshBoxFrom(MeshBoxStep(b, ps[0]), ps[1..])
  }

  /** The mesh box: the loop started from a default (invalid) box. */
  function MeshBox(ps: seq<Primitive>): BoundingBox {
    MeshBoxFrom(DefaultBox, ps)
  }

  lemma {:induction false} MeshBoxFromCovers(b: BoundingBox, ps: seq<Primitive>)
    requires b.valid || (ps != [] && ps[0].bb.valid)
    ensures MeshBoxFrom(b, ps).valid
    ensures forall k :: 0 <= k < |ps| ==>
      LessEq3(MeshBoxFrom(b, ps).min, ps[k].bb.min) && LessEq3(ps[k].bb.max, MeshBoxFrom(b, ps).max)
    ensures b.valid ==> LessEq3(MeshBoxFrom(b, ps).min, b.min) && LessEq3(b.max, MeshBoxFrom(b, ps).max)
    decreases |ps|
  {
    if ps != [] {
      var b1 := MeshBoxStep(b, ps[0]);
      MeshBoxFromCovers(b1, ps[1..]);
      forall k | 0 <= k < |ps|
        ensures LessEq3(MeshBoxFrom(b, ps).min, ps[k].bb.min) && LessEq3(ps[k].bb.max, MeshBoxFrom(b, ps).max)
      {
        if k > 0 { assert ps[k] == ps[1..][k - 1]; }
      }
    }
  }

  /**
   * The mesh box of a mesh with at least one primitive is valid and
   * contains every primitive's box.
   */
  lemma MeshBoxCovers(ps: seq<Primitive>)
    requires ps != [] && forall k :: 0 <= k < |ps| ==> ps[k].bb.valid
    ensures MeshBox(ps).valid
    ensures forall k :: 0 <= k < |ps| ==>
      LessEq3(MeshBox(ps).min, ps[k].bb.min) && LessEq3(ps[k].bb.max, MeshBox(ps).max)
  {
    MeshBoxFromCovers(DefaultBox, ps);
  }

  /** Attach node id under its parent, or as a root, and append it to the linear list. */
  function Attach(st: LoadState, id: nat, parent: Option<nat>): (r: LoadState)
    requires id < |st.arena| && (parent.Some? ==> parent.value < |st.arena|)
    ensures r == st.(arena := r.arena, roots := r.roots, linear := r.linear) && |r.arena| == |st.arena|
    ensures r.linear == st.linear + [id]
  {
    var st1 :=
      match parent
      case Some(p) => st.(arena := st.arena[p := st.arena[p].(children := st.arena[p].children + [id])])
      case None => st.(roots := st.roots + [id]);
    st1.(linear := st1.linear + [id])
  }

  /**
   * The mesh part of Model::load_node for mesh mi: Mesh::Mesh stores the
   * node matrix in block mesh_count and takes that slot, mesh_count is
   * incremented, then the primitives are loaded.
   */
  function LoadMeshF(st: LoadState, doc: Document, nm: nat, mi: nat, matrix: Mat): (r: PrimsResult)
    requires Loadable(doc, nm) && mi < |doc.meshes|
    requires Room(st, Plus(PrimitiveCounts(doc.meshes[mi].primitives), Counts(0, 0, 1)))
    ensures Grows(st, r.st, Plus(PrimitiveCounts(doc.meshes[mi].primitives), Counts(0, 0, 1)))
    ensures r.st.arena == st.arena && r.st.roots == st.roots && r.st.linear == st.linear
  {
    var slot := st.meshCount;
    var st3 := st.(blocks := st.blocks[slot := st.blocks[slot].(matrix := matrix)], meshCount := slot + 1);
    LoadPrimsF(st3, doc.meshes[mi].primitives, [], nm)
  }

  /**
   * The part of Model::load_node after the children: the mesh, if any; a
   * rejected primitive ends the call before the mesh is recorded and before
   * the node is attached. Otherwise the node gets its mesh (with the slot it
   * took and the box of its primitives), is attached and is appended to the
   * linear list.
   */
  function FinishNode(st: LoadState, doc: Document, nm: nat, dn: DocNode, id: nat, parent: Option<nat>, matrix: Mat): (r: LoadState)
    requires Loadable(doc, nm) && dn.mesh < |doc.meshes|
    requires Room(st, OwnCounts(doc, dn))
    requires id < |st.arena| && (parent.Some? ==> parent.value < |st.arena|)
    ensures Grows(st, r, OwnCounts(doc, dn)) && |r.arena| == |st.arena|
  {
    if dn.mesh > -1 then
      var pr := LoadMeshF(st, doc, nm, dn.mesh, matrix);
      if !pr.accepted then pr.st
      else
        var mesh := Mesh(pr.prims, MeshBox(pr.prims), st.meshCount);
        Attach(pr.st.(arena := pr.st.arena[id := pr.st.arena[id].(mesh := Some(mesh))]), id, parent)
    else
      Attach(st, id, parent)
  }

  /**
   * Model::load_node for glTF node gi under `parent`: allocate the node,
   * load its children in order, then finish the node itself.
   */
  ghost function LoadNodeF(st: LoadState, doc: Document, nm: nat, gi: nat, parent: Option<nat>, depth: nat): (r: LoadState)
    requires Loadable(doc, nm) && Bounded(doc, gi, depth)
    requires Room(st, NodeCounts(doc, gi, depth))
    requires parent.Some? ==> parent.value < |st.arena|
    ensures Grows(st, r, NodeCounts(doc, gi, depth)) && |r.arena| > |st.arena|
    decreases depth, 0
  {
    var dn := doc.nodes[gi];
    var id := |st.arena|;
    var node := NewNode(dn, gi, parent);
    var st1 := st.(arena := st.arena + [node]);
    var st2 := LoadKidsF(st1, doc, nm, dn.children, id, depth - 1);
    FinishNode(st2, doc, nm, dn, id, parent, node.matrix)
  }

  /** load_node over the children ks of node pid, in order. */
  ghost function LoadKidsF(st: LoadState, doc: Document, nm: nat, ks: seq<nat>, pid: nat, depth: nat): (r: LoadState)
    requires Loadable(doc, nm) && AllBounded(doc, ks, depth)
    requires Room(st, ForestCounts(doc, ks, depth))
    requires pid < |st.arena|
    ensures Grows(st, r, ForestCounts(doc, ks, depth))
    decreases depth, 1, |ks|
  {
    if ks == [] then st
    else
      var st1 := LoadNodeF(st, doc, nm, ks[0], Some(pid), depth);
      LoadKidsF(st1, doc, nm, ks[1..], pid, depth)
  }

  /** One step of LoadKidsF: load the first child, then the rest from the state it leaves. */
  lemma KidsStep(st: LoadState, doc: Document, nm: nat, ks: seq<nat>, pid: nat, depth: nat)
    requires Loadable(doc, nm) && AllBounded(doc, ks, depth) && ks != []
    requires Room(st, ForestCounts(doc, ks, depth)) && pid < |st.arena|
    ensures Bounded(doc, ks[0], depth) && Room(st, NodeCounts(doc, ks[0], depth))
    ensures var st1 := LoadNodeF(st, doc, nm, ks[0], Some(pid), depth);
      AllBounded(doc, ks[1..], depth) && pid < |st1.arena| &&
      Room(st1, ForestCounts(doc, ks[1..], depth)) &&
      LoadKidsF(st, doc, nm, ks, pid, depth) == LoadKidsF(st1, doc, nm, ks[1..], pid, depth)
  {
    assert AllBounded(doc, ks[1..], depth) by {
      forall k | 0 <= k < |ks[1..]| ensures Bounded(doc, ks[1..][k], depth) {
        assert ks[1..][k] == ks[k + 1];
      }
    }
  }

  /**
   * The shape load_node keeps: the arena is a forest whose parents sit below
   * their children; every mesh slot was handed out, and no two meshes share
   * one; roots are parentless;
   * the linear list holds distinct nodes, holds every node that is some
   * node's child, and lists every node after all of its children
   * (post-order).
   */
  predicate Linked(st: LoadState) {
    ForestOk(st.arena, st.roots) && SlotsOk(st.arena, st.meshCount) && PostOrder(st.arena, st.linear)
  }

  /** The arena is a forest linked both ways, and the roots are parentless nodes of it. */
  predicate ForestOk(a: seq<Node>, roots: seq<nat>) {
    ValidArena(a) &&
    forall k :: 0 <= k < |roots| ==> roots[k] < |a| && a[roots[k]].parent.None?
  }

  /** Every mesh's slot is below the slot counter, and no two meshes share a slot. */
  predicate SlotsOk(a: seq<Node>, meshCount: nat) {
    (forall i :: 0 <= i < |a| && a[i].mesh.Some? ==> a[i].mesh.value.slot < meshCount) &&
    (forall i, j :: 0 <= i < j < |a| && a[i].mesh.Some? && a[j].mesh.Some? ==>
      a[i].mesh.value.slot != a[j].mesh.value.slot)
  }

  /**
   * The linear list holds distinct arena nodes, holds every node that is a
   * child, and lists each node after all of its children.
   */
  predicate PostOrder(a: seq<Node>, linear: seq<nat>) {
    (forall k :: 0 <= k < |linear| ==> linear[k] < |a|) &&
    (forall p, q :: 0 <= p < q < |linear| ==> linear[p] != linear[q]) &&
    (forall i, k :: 0 <= i < |a| && 0 <= k < |a[i].children| ==> a[i].children[k] in linear) &&
    (forall q, k :: 0 <= q < |linear| && 0 <= k < |a[linear[q]].children| ==> a[linear[q]].children[k] in linear[..q])
  }

  /** Slots only depend on the meshes. */
  lemma SlotsSameMeshes(a: seq<Node>, b: seq<Node>, c: nat, c': nat)
    requires SlotsOk(a, c) && c <= c' && |a| == |b|
    requires forall i :: 0 <= i < |a| ==> b[i].mesh == a[i].mesh
    ensures SlotsOk(b, c')
  {
  }

  /**
   * r only adds to st: existing nodes keep their parent, glTF index and
   * mesh; the root and linear lists are extended, and every node appended
   * to the linear list is a new one.
   */
  predicate Extends(st: LoadState, r: LoadState) {
    |st.arena| <= |r.arena| &&
    (forall i :: 0 <= i < |st.arena| ==>
      r.arena[i].parent == st.arena[i].parent && r.arena[i].index == st.arena[i].index &&
      r.arena[i].mesh == st.arena[i].mesh) &&
    |st.linear| <= |r.linear| && r.linear[..|st.linear|] == st.linear &&
    (forall k :: |st.linear| <= k < |r.linear| ==> |st.arena| <= r.linear[k]) &&
    |st.roots| <= |r.roots| && r.roots[..|st.roots|] == st.roots
  }

  lemma ExtendsTrans(a: LoadState, b: LoadState, c: LoadState)
    requires Extends(a, b) && Extends(b, c)
    ensures Extends(a, c)
  {
    assert c.linear[..|a.linear|] == c.linear[..|b.linear|][..|a.linear|];
    assert c.roots[..|a.roots|] == c.roots[..|b.roots|][..|a.roots|];
    forall k | |a.linear| <= k < |c.linear| ensures |a.arena| <= c.linear[k] {
      if k < |b.linear| {
        assert c.linear[k] == c.linear[..|b.linear|][k] == b.linear[k];
      }
    }
  }

  /** Attaching a finished node keeps the shape; it only appends to the lists and to the parent's children. */
  lemma AttachLinked(st: LoadState, id: nat, parent: Option<nat>)
    requires Linked(st) && id < |st.arena| && id !in st.linear
    requires st.arena[id].parent == parent
    requires parent.Some? ==> parent.value < id && parent.value !in st.linear
    ensures var r := Attach(st, id, parent);
      Linked(r) && r.linear == st.linear + [id] && |r.arena| == |st.arena| &&
      |st.roots| <= |r.roots| && r.roots[..|st.roots|] == st.roots &&
      (forall i :: 0 <= i < |st.arena| ==>
        r.arena[i].parent == st.arena[i].parent && r.arena[i].index == st.arena[i].index &&
        r.arena[i].mesh == st.arena[i].mesh)
  {
    var r := Attach(st, id, parent);
    assert forall i :: 0 <= i < |r.arena| ==> r.arena[i].mesh == st.arena[i].mesh;
    SlotsSameMeshes(st.arena, r.arena, st.meshCount, r.meshCount);
    AttachForest(st.arena, st.roots, id, parent);
    AttachOrder(st.arena, st.linear, id, parent);
  }

  lemma AttachForest(a: seq<Node>, roots: seq<nat>, id: nat, parent: Option<nat>)
    requires ForestOk(a, roots) && id < |a| && a[id].parent == parent
    requires parent.Some? ==> parent.value < id
    ensures parent.Some? ==> ForestOk(a[parent.value := a[parent.value].(children := a[parent.value].children + [id])], roots)
    ensures parent.None? ==> ForestOk(a, roots + [id])
  {
  }

  lemma AttachOrder(a: seq<Node>, linear: seq<nat>, id: nat, parent: Option<nat>)
    requires PostOrder(a, linear) && id < |a| && id !in linear
    requires parent.Some? ==> parent.value < |a| && parent.value != id && parent.value !in linear
    ensures parent.Some? ==> PostOrder(a[parent.value := a[parent.value].(children := a[parent.value].children + [id])], linear + [id])
    ensures parent.None? ==> PostOrder(a, linear + [id])
  {
    var a' := if parent.Some? then a[parent.value := a[parent.value].(children := a[parent.value].children + [id])] else a;
    var l := linear + [id];
    assert l[..|linear|] == linear;
    forall q, k | 0 <= q < |l| && 0 <= k < |a'[l[q]].children|
      ensures a'[l[q]].children[k] in l[..q]
    {
      if q < |linear| {
        assert l[..q] == linear[..q];
        assert l[q] == linear[q];
        assert a'[l[q]] == a[linear[q]];
      } else {
        assert l[..q] == linear;
        assert a'[id] == a[id];
      }
    }
  }

  /** Handing out more slots, and writing buffers, keeps the shape. */
  lemma MoreSlotsLinked(st: LoadState, r: LoadState)
    requires Linked(st) && r.arena == st.arena && r.roots == st.roots && r.linear == st.linear
    requires st.meshCount <= r.meshCount
    ensures Linked(r)
  {
  }

  /** Recording a mesh whose slot was handed out keeps the shape. */
  lemma SetMeshLinked(st: LoadState, id: nat, mesh: Mesh)
    requires Linked(st) && id < |st.arena| && mesh.slot < st.meshCount
    requires forall i :: 0 <= i < |st.arena| && i != id && st.arena[i].mesh.Some? ==> st.arena[i].mesh.value.slot != mesh.slot
    ensures Linked(st.(arena := st.arena[id := st.arena[id].(mesh := Some(mesh))]))
  {
  }

  /** Finishing a node whose children are loaded keeps the shape; the only node it may append is id. */
  lemma FinishNodeLinked(st: LoadState, doc: Document, nm: nat, dn: DocNode, id: nat, parent: Option<nat>, matrix: Mat)
    requires Loadable(doc, nm) && dn.mesh < |doc.meshes|
    requires Room(st, OwnCounts(doc, dn))
    requires id < |st.arena| && (parent.Some? ==> parent.value < |st.arena|)
    requires Linked(st) && id !in st.linear && st.arena[id].parent == parent
    requires parent.Some? ==> parent.value < id && parent.value !in st.linear
    ensures var r := FinishNode(st, doc, nm, dn, id, parent, matrix);
      Linked(r) && (r.linear == st.linear || r.linear == st.linear + [id]) &&
      |st.roots| <= |r.roots| && r.roots[..|st.roots|] == st.roots &&
      (forall i :: 0 <= i < |st.arena| ==>
        r.arena[i].parent == st.arena[i].parent && r.arena[i].index == st.arena[i].index &&
        (i != id ==> r.arena[i].mesh == st.arena[i].mesh))
  {
    if dn.mesh > -1 {
      var pr := LoadMeshF(st, doc, nm, dn.mesh, matrix);
      MeshCaseLinked(st, pr, id, parent);
    } else {
      AttachLinked(st, id, parent);
    }
  }

  /** The mesh case of FinishNode: a rejected mesh only moves the counters; an accepted one is recorded and attached. */
  lemma MeshCaseLinked(st: LoadState, pr: PrimsResult, id: nat, parent: Option<nat>)
    requires Linked(st) && id < |st.arena| && id !in st.linear && st.arena[id].parent == parent
    requires parent.Some? ==> parent.value < id && parent.value !in st.linear
    requires pr.st.arena == st.arena && pr.st.roots == st.roots && pr.st.linear == st.linear
    requires pr.st.meshCount == st.meshCount + 1
    ensures var r := if !pr.accepted then pr.st
      else Attach(pr.st.(arena := pr.st.arena[id := pr.st.arena[id].(mesh := Some(Mesh(pr.prims, MeshBox(pr.prims), st.meshCount)))]), id, parent);
      Linked(r) && (r.linear == st.linear || r.linear == st.linear + [id]) &&
      |st.roots| <= |r.roots| && r.roots[..|st.roots|] == st.roots &&
      (forall i :: 0 <= i < |st.arena| ==>
        r.arena[i].parent == st.arena[i].parent && r.arena[i].index == st.arena[i].index &&
        (i != id ==> r.arena[i].mesh == st.arena[i].mesh))
  {
    SlotsSameMeshes(st.arena, pr.st.arena, st.meshCount, pr.st.meshCount);
    assert Linked(pr.st);
    if pr.accepted {
      MeshAttachLinked(pr.st, id, parent, Mesh(pr.prims, MeshBox(pr.prims), st.meshCount));
    } else {
      assert pr.st.roots[..|st.roots|] == st.roots;
    }
  }

  /** Recording a node's mesh and then attaching the node keeps the shape. */
  lemma MeshAttachLinked(st: LoadState, id: nat, parent: Option<nat>, mesh: Mesh)
    requires Linked(st) && id < |st.arena| && id !in st.linear && mesh.slot < st.meshCount
    requires forall i :: 0 <= i < |st.arena| && st.arena[i].mesh.Some? ==> st.arena[i].mesh.value.slot < mesh.slot
    requires st.arena[id].parent == parent
    requires parent.Some? ==> parent.value < id && parent.value !in st.linear
    ensures var r := Attach(st.(arena := st.arena[id := st.arena[id].(mesh := Some(mesh))]), id, parent);
      Linked(r) && r.linear == st.linear + [id] &&
      |st.roots| <= |r.roots| && r.roots[..|st.roots|] == st.roots &&
      (forall i :: 0 <= i < |st.arena| ==>
        r.arena[i].parent == st.arena[i].parent && r.arena[i].index == st.arena[i].index &&
        (i != id ==> r.arena[i].mesh == st.arena[i].mesh))
  {
    var s1 := st.(arena := st.arena[id := st.arena[id].(mesh := Some(mesh))]);
    SetMeshLinked(st, id, mesh);
    AttachLinked(s1, id, parent);
  }

  /** Allocating a fresh childless node keeps the shape. */
  lemma NewNodeLinked(st: LoadState, node: Node)
    requires Linked(st) && node.children == [] && node.mesh.None?
    requires node.parent.Some? ==> node.parent.value < |st.arena|
    ensures Linked(st.(arena := st.arena + [node])) && Extends(st, st.(arena := st.arena + [node]))
  {
    var s1 := st.(arena := st.arena + [node]);
    assert s1.linear[..|st.linear|] == st.linear && s1.roots[..|st.roots|] == st.roots;
    forall i, k | 0 <= i < |s1.arena| && 0 <= k < |s1.arena[i].children|
      ensures i < s1.arena[i].children[k] < |s1.arena| && s1.arena[s1.arena[i].children[k]].parent == Some(i)
    {
      assert i < |st.arena|;
    }
  }

  /**
   * load_node keeps the shape: after loading glTF node gi, the arena is
   * still a forest with every child linked back to its parent, every mesh
   * slot below the slot counter, and the linear list a duplicate-free
   * post-order; the node itself sits at the first new arena position with
   * glTF index gi and the given parent, and nothing already there changes
   * parent, index or mesh.
   */
  lemma {:induction false} LoadNodeLinked(st: LoadState, doc: Document, nm: nat, gi: nat, parent: Option<nat>, depth: nat)
    requires Loadable(doc, nm) && Bounded(doc, gi, depth)
    requires Room(st, NodeCounts(doc, gi, depth))
    requires parent.Some? ==> parent.value < |st.arena| && parent.value !in st.linear
    requires Linked(st)
    ensures var r := LoadNodeF(st, doc, nm, gi, parent, depth);
      Linked(r) && Extends(st, r) && r.arena[|st.arena|].index == gi && r.arena[|st.arena|].parent == parent
    decreases depth, 0
  {
    var dn := doc.nodes[gi];
    var id := |st.arena|;
    var node := NewNode(dn, gi, parent);
    var st1 := st.(arena := st.arena + [node]);
    NewNodeLinked(st, node);
    assert id !in st1.linear;
    LoadKidsLinked(st1, doc, nm, dn.children, id, depth - 1);
    var st2 := LoadKidsF(st1, doc, nm, dn.children, id, depth - 1);
    StaysOut(st1, st2, id);
    if parent.Some? {
      StaysOut(st, st1, parent.value);
      StaysOut(st1, st2, parent.value);
    }
    FinishNodeLinked(st2, doc, nm, dn, id, parent, node.matrix);
    ExtendsTrans(st, st1, st2);
    FinishExtends(st, st2, FinishNode(st2, doc, nm, dn, id, parent, node.matrix));
  }

  /** Finishing node |st.arena| after its children extends the state the node was allocated in. */
  lemma FinishExtends(st: LoadState, st2: LoadState, r: LoadState)
    requires Extends(st, st2) && |st.arena| < |st2.arena|
    requires r.linear == st2.linear || r.linear == st2.linear + [|st.arena|]
    requires |st2.roots| <= |r.roots| && r.roots[..|st2.roots|] == st2.roots && |r.arena| == |st2.arena|
    requires forall i :: 0 <= i < |st2.arena| ==>
      r.arena[i].parent == st2.arena[i].parent && r.arena[i].index == st2.arena[i].index &&
      (i != |st.arena| ==> r.arena[i].mesh == st2.arena[i].mesh)
    ensures Extends(st, r)
  {
    assert r.linear[..|st2.linear|] == st2.linear;
    assert r.linear[..|st.linear|] == st2.linear[..|st.linear|];
    assert r.roots[..|st.roots|] == st2.roots[..|st.roots|];
  }

  /** A node outside the linear list and already allocated stays out of it as the state is extended. */
  lemma StaysOut(a: LoadState, b: LoadState, x: nat)
    requires Extends(a, b) && x < |a.arena| && x !in a.linear
    ensures x !in b.linear
  {
    forall k | 0 <= k < |b.linear| ensures b.linear[k] != x {
      if k < |a.linear| {
        assert b.linear[k] == b.linear[..|a.linear|][k];
      }
    }
  }

  /** The children loop keeps the shape, for a parent that is not yet in the linear list. */
  lemma {:induction false} LoadKidsLinked(st: LoadState, doc: Document, nm: nat, ks: seq<nat>, pid: nat, depth: nat)
    requires Loadable(doc, nm) && AllBounded(doc, ks, depth)
    requires Room(st, ForestCounts(doc, ks, depth))
    requires pid < |st.arena| && pid !in st.linear
    requires Linked(st)
    ensures var r := LoadKidsF(st, doc, nm, ks, pid, depth); Linked(r) && Extends(st, r)
    decreases depth, 1, |ks|
  {
    if ks == [] {
      assert st.linear[..|st.linear|] == st.linear && st.roots[..|st.roots|] == st.roots;
    } else {
      KidsStep(st, doc, nm, ks, pid, depth);
      LoadNodeLinked(st, doc, nm, ks[0], Some(pid), depth);
      var st1 := LoadNodeF(st, doc, nm, ks[0], Some(pid), depth);
      StaysOut(st, st1, pid);
      LoadKidsLinked(st1, doc, nm, ks[1..], pid, depth);
      ExtendsTrans(st, st1, LoadKidsF(st1, doc, nm, ks[1..], pid, depth));
    }
  }

  /** Every primitive of every mesh of the document has a supported index type. */
  predicate IndexTypesOk(doc: Document) {
    forall m, j :: 0 <= m < |doc.meshes| && 0 <= j < |doc.meshes[m].primitives| ==>
      IndexTypeOk(doc.meshes[m].primitives[j])
  }

  /** With every index type supported, finishing a node moves the cursors by exactly its own counts and attaches it. */
  lemma FinishNodeExact(st: LoadState, doc: Document, nm: nat, dn: DocNode, id: nat, parent: Option<nat>, matrix: Mat)
    requires Loadable(doc, nm) && dn.mesh < |doc.meshes| && IndexTypesOk(doc)
    requires Room(st, OwnCounts(doc, dn))
    requires id < |st.arena| && (parent.Some? ==> parent.value < |st.arena|)
    ensures var r := FinishNode(st, doc, nm, dn, id, parent, matrix);
      r.vertexPos == st.vertexPos + OwnCounts(doc, dn).vertices &&
      r.indexPos == st.indexPos + OwnCounts(doc, dn).indices &&
      r.linear == st.linear + [id]
  {
    if dn.mesh > -1 {
      assert AllIndexTypesOk(doc.meshes[dn.mesh].primitives);
    }
  }

  /**
   * When every index type is supported, get_node_props' totals are exact:
   * load_node advances the vertex cursor by exactly the subtree's vertex
   * total and the index cursor by exactly its index total, and appends the
   * node itself last to the linear list.
   */
  lemma {:induction false} LoadNodeExact(st: LoadState, doc: Document, nm: nat, gi: nat, parent: Option<nat>, depth: nat)
    requires Loadable(doc, nm) && Bounded(doc, gi, depth) && IndexTypesOk(doc)
    requires Room(st, NodeCounts(doc, gi, depth))
    requires parent.Some? ==> parent.value < |st.arena|
    ensures var r := LoadNodeF(st, doc, nm, gi, parent, depth);
      r.vertexPos == st.vertexPos + NodeCounts(doc, gi, depth).vertices &&
      r.indexPos == st.indexPos + NodeCounts(doc, gi, depth).indices &&
      |r.linear| > 0 && r.linear[|r.linear| - 1] == |st.arena|
    decreases depth, 0
  {
    var dn := doc.nodes[gi];
    var id := |st.arena|;
    var node := NewNode(dn, gi, parent);
    var st1 := st.(arena := st.arena + [node]);
    var kc, oc := ForestCounts(doc, dn.children, depth - 1), OwnCounts(doc, dn);
    assert NodeCounts(doc, gi, depth) == Plus(kc, oc);
    LoadKidsExact(st1, doc, nm, dn.children, id, depth - 1);
    var st2 := LoadKidsF(st1, doc, nm, dn.children, id, depth - 1);
    assert st2.vertexPos == st.vertexPos + kc.vertices && st2.indexPos == st.indexPos + kc.indices;
    FinishNodeExact(st2, doc, nm, dn, id, parent, node.matrix);
    assert LoadNodeF(st, doc, nm, gi, parent, depth) == FinishNode(st2, doc, nm, dn, id, parent, node.matrix);
  }

  lemma {:induction false} LoadKidsExact(st: LoadState, doc: Document, nm: nat, ks: seq<nat>, pid: nat, depth: nat)
    requires Loadable(doc, nm) && AllBounded(doc, ks, depth) && IndexTypesOk(doc)
    requires Room(st, ForestCounts(doc, ks, depth))
    requires pid < |st.arena|
    ensures var r := LoadKidsF(st, doc, nm, ks, pid, depth);
      r.vertexPos == st.vertexPos + ForestCounts(doc, ks, depth).vertices &&
      r.indexPos == st.indexPos + ForestCounts(doc, ks, depth).indices
    decreases depth, 1, |ks|
  {
    if ks != [] {
      KidsStep(st, doc, nm, ks, pid, depth);
      LoadNodeExact(st, doc, nm, ks[0], Some(pid), depth);
      LoadKidsExact(LoadNodeF(st, doc, nm, ks[0], Some(pid), depth), doc, nm, ks[1..], pid, depth);
    }
  }

  /** load_node over the scene roots ks, in order, each without a parent. */
  ghost function LoadRootsF(st: LoadState, doc: Document, nm: nat, ks: seq<nat>, depth: nat): (r: LoadState)
    requires Loadable(doc, nm) && AllBounded(doc, ks, depth)
    requires Room(st, ForestCounts(doc, ks, depth))
    ensures Grows(st, r, ForestCounts(doc, ks, depth))
    decreases |ks|
  {
    if ks == [] then st
    else
      var st1 := LoadNodeF(st, doc, nm, ks[0], None, depth);
      assert AllBounded(doc, ks[1..], depth) by {
        forall k | 0 <= k < |ks[1..]| ensures Bounded(doc, ks[1..][k], depth) {
          assert ks[1..][k] == ks[k + 1];
        }
      }
      LoadRootsF(st1, doc, nm, ks[1..], depth)
  }

  /** One step of LoadRootsF: load the first root, then the rest from the state it leaves. */
  lemma RootsStep(st: LoadState, doc: Document, nm: nat, ks: seq<nat>, depth: nat)
    requires Loadable(doc, nm) && AllBounded(doc, ks, depth) && ks != []
    requires Room(st, ForestCounts(doc, ks, depth))
    ensures Bounded(doc, ks[0], depth) && Room(st, NodeCounts(doc, ks[0], depth))
    ensures var st1 := LoadNodeF(st, doc, nm, ks[0], None, depth);
      AllBounded(doc, ks[1..], depth) && Room(st1, ForestCounts(doc, ks[1..], depth)) &&
      LoadRootsF(st, doc, nm, ks, depth) == LoadRootsF(st1, doc, nm, ks[1..], depth)
  {
    assert AllBounded(doc, ks[1..], depth) by {
      forall k | 0 <= k < |ks[1..]| ensures Bounded(doc, ks[1..][k], depth) {
        assert ks[1..][k] == ks[k + 1];
      }
    }
  }

  /** Loading the roots keeps the shape load_node keeps, and only extends the state. */
  lemma {:induction false} LoadRootsLinked(st: LoadState, doc: Document, nm: nat, ks: seq<nat>, depth: nat)
    requires Loadable(doc, nm) && AllBounded(doc, ks, depth)
    requires Room(st, ForestCounts(doc, ks, depth))
    requires Linked(st)
    ensures var r := LoadRootsF(st, doc, nm, ks, depth); Linked(r) && Extends(st, r)
    decreases |ks|
  {
    if ks == [] {
      assert st.linear[..|st.linear|] == st.linear && st.roots[..|st.roots|] == st.roots;
    } else {
      RootsStep(st, doc, nm, ks, depth);
      LoadNodeLinked(st, doc, nm, ks[0], None, depth);
      var st1 := LoadNodeF(st, doc, nm, ks[0], None, depth);
      LoadRootsLinked(st1, doc, nm, ks[1..], depth);
      ExtendsTrans(st, st1, LoadRootsF(st1, doc, nm, ks[1..], depth));
    }
  }

  /**
   * With every index type supported, loading the roots advances the
   * cursors by exactly get_node_props' totals over them.
   */
  lemma {:induction false} LoadRootsExact(st: LoadState, doc: Document, nm: nat, ks: seq<nat>, depth: nat)
    requires Loadable(doc, nm) && AllBounded(doc, ks, depth) && IndexTypesOk(doc)
    requires Room(st, ForestCounts(doc, ks, depth))
    ensures var r := LoadRootsF(st, doc, nm, ks, depth);
      r.vertexPos == st.vertexPos + ForestCounts(doc, ks, depth).vertices &&
      r.indexPos == st.indexPos + ForestCounts(doc, ks, depth).indices
    decreases |ks|
  {
    if ks != [] {
      RootsStep(st, doc, nm, ks, depth);
      LoadNodeExact(st, doc, nm, ks[0], None, depth);
      LoadRootsExact(LoadNodeF(st, doc, nm, ks[0], None, depth), doc, nm, ks[1..], depth);
    }
  }

  /**
   * No node has its skin pointer set yet (load_skins assigns skins after
   * every node is loaded), and every skin index is below ns.
   */
  predicate Unskinned(a: seq<Node>, ns: int) {
    forall i :: 0 <= i < |a| ==> a[i].skin.None? && a[i].skinIndex < ns
  }

  /** Every node of the document names a skin index below ns (or none, -1). */
  predicate SkinIndicesBelow(doc: Document, ns: int) {
    forall n :: 0 <= n < |doc.nodes| ==> doc.nodes[n].skin < ns
  }

  lemma FinishNodeSkins(st: LoadState, doc: Document, nm: nat, dn: DocNode, id: nat, parent: Option<nat>, matrix: Mat, ns: int)
    requires Loadable(doc, nm) && dn.mesh < |doc.meshes|
    requires Room(st, OwnCounts(doc, dn))
    requires id < |st.arena| && (parent.Some? ==> parent.value < |st.arena|)
    requires Unskinned(st.arena, ns) && BlocksOk(st.blocks)
    ensures var r := FinishNode(st, doc, nm, dn, id, parent, matrix); Unskinned(r.arena, ns) && BlocksOk(r.blocks)
  {
    if dn.mesh > -1 {
      var pr := LoadMeshF(st, doc, nm, dn.mesh, matrix);
      LoadMeshBlocks(st, doc, nm, dn.mesh, matrix);
      if pr.accepted {
        var mesh := Mesh(pr.prims, MeshBox(pr.prims), st.meshCount);
        var st1 := pr.st.(arena := pr.st.arena[id := pr.st.arena[id].(mesh := Some(mesh))]);
        SetMeshUnskinned(pr.st.arena, id, mesh, ns);
        AttachUnskinned(st1, id, parent, ns);
      }
    } else {
      AttachUnskinned(st, id, parent, ns);
    }
  }

  /** Loading a mesh writes only the matrix of its block: every block keeps its joint matrices. */
  lemma LoadMeshBlocks(st: LoadState, doc: Document, nm: nat, mi: nat, matrix: Mat)
    requires Loadable(doc, nm) && mi < |doc.meshes|
    requires Room(st, Plus(PrimitiveCounts(doc.meshes[mi].primitives), Counts(0, 0, 1)))
    requires BlocksOk(st.blocks)
    ensures BlocksOk(LoadMeshF(st, doc, nm, mi, matrix).st.blocks)
  {
    BlocksOkSetMatrix(st.blocks, st.meshCount, matrix);
  }

  lemma BlocksOkSetMatrix(b: seq<UniformBlock>, s: nat, m: Mat)
    requires BlocksOk(b) && s < |b|
    ensures BlocksOk(b[s := b[s].(matrix := m)])
  {
  }

  /** Giving a node its mesh keeps skins and skin indices. */
  lemma SetMeshUnskinned(a: seq<Node>, id: nat, mesh: Mesh, ns: int)
    requires id < |a| && Unskinned(a, ns)
    ensures Unskinned(a[id := a[id].(mesh := Some(mesh))], ns)
  {
  }

  /** Attaching a node changes only a parent's children: skins and skin indices stay. */
  lemma AttachUnskinned(st: LoadState, id: nat, parent: Option<nat>, ns: int)
    requires id < |st.arena| && (parent.Some? ==> parent.value < |st.arena|)
    requires Unskinned(st.arena, ns)
    ensures Unskinned(Attach(st, id, parent).arena, ns) && Attach(st, id, parent).blocks == st.blocks
  {
    var r := Attach(st, id, parent);
    forall i | 0 <= i < |r.arena| ensures r.arena[i].skin == st.arena[i].skin && r.arena[i].skinIndex == st.arena[i].skinIndex {
    }
  }

  /**
   * Loading leaves every skin pointer unset and copies each node's skin
   * index from the document, so the indices stay below ns; it writes only
   * the matrix of a uniform block, so every block keeps its joint matrices.
   */
  lemma {:induction false} LoadNodeSkins(st: LoadState, doc: Document, nm: nat, gi: nat, parent: Option<nat>, depth: nat, ns: int)
    requires Loadable(doc, nm) && Bounded(doc, gi, depth)
    requires Room(st, NodeCounts(doc, gi, depth))
    requires parent.Some? ==> parent.value < |st.arena|
    requires SkinIndicesBelow(doc, ns) && Unskinned(st.arena, ns) && BlocksOk(st.blocks)
    ensures var r := LoadNodeF(st, doc, nm, gi, parent, depth); Unskinned(r.arena, ns) && BlocksOk(r.blocks)
    decreases depth, 0
  {
    var dn := doc.nodes[gi];
    var id := |st.arena|;
    var node := NewNode(dn, gi, parent);
    var st1 := st.(arena := st.arena + [node]);
    LoadKidsSkins(st1, doc, nm, dn.children, id, depth - 1, ns);
    var st2 := LoadKidsF(st1, doc, nm, dn.children, id, depth - 1);
    FinishNodeSkins(st2, doc, nm, dn, id, parent, node.matrix, ns);
  }

  lemma {:induction false} LoadKidsSkins(st: LoadState, doc: Document, nm: nat, ks: seq<nat>, pid: nat, depth: nat, ns: int)
    requires Loadable(doc, nm) && AllBounded(doc, ks, depth)
    requires Room(st, ForestCounts(doc, ks, depth))
    requires pid < |st.arena|
    requires SkinIndicesBelow(doc, ns) && Unskinned(st.arena, ns) && BlocksOk(st.blocks)
    ensures var r := LoadKidsF(st, doc, nm, ks, pid, depth); Unskinned(r.arena, ns) && BlocksOk(r.blocks)
    decreases depth, 1, |ks|
  {
    if ks != [] {
      KidsStep(st, doc, nm, ks, pid, depth);
      LoadNodeSkins(st, doc, nm, ks[0], Some(pid), depth, ns);
      LoadKidsSkins(LoadNodeF(st, doc, nm, ks[0], Some(pid), depth), doc, nm, ks[1..], pid, depth, ns);
    }
  }

  lemma {:induction false} LoadRootsSkins(st: LoadState, doc: Document, nm: nat, ks: seq<nat>, depth: nat, ns: int)
    requires Loadable(doc, nm) && AllBounded(doc, ks, depth)
    requires Room(st, ForestCounts(doc, ks, depth))
    requires SkinIndicesBelow(doc, ns) && Unskinned(st.arena, ns) && BlocksOk(st.blocks)
    ensures var r := LoadRootsF(st, doc, nm, ks, depth); Unskinned(r.arena, ns) && BlocksOk(r.blocks)
    decreases |ks|
  {
    if ks != [] {
      RootsStep(st, doc, nm, ks, depth);
      LoadNodeSkins(st, doc, nm, ks[0], None, depth, ns);
      LoadRootsSkins(LoadNodeF(st, doc, nm, ks[0], None, depth), doc, nm, ks[1..], depth, ns);
    }
  }
}

=== FILE: materials.dfy ===
/**
 * Material (model.hpp) with its default member values, and what
 * Model::load_materials makes of one glTF material.
 *
 * A texture pointer is the position of the texture in the model's texture
 * list, or None for a null pointer.
 */
module Materials {
  import opened Wrappers
  import opened LinAlg
  import opened Document

  datatype AlphaMode = Opaque | Mask | Blend

  /** Material::TexCoordSets: six uint8_t slots. */
  datatype TexCoordSets = TexCoordSets(
    baseColor: nat,
    metallicRoughness: nat,
    specularGlossiness: nat,
    normal: nat,
    occlusion: nat,
    emissive: nat)

  /** Material::Extension: the KHR_materials_pbrSpecularGlossiness data. */
  datatype Extension = Extension(
    specularGlossinessTexture: Option<nat>,
    diffuseTexture: Option<nat>,
    diffuseFactor: Vec4,
    specularFactor: Vec3)

  datatype PbrWorkflows = PbrWorkflows(metallicRoughness: bool, specularGlossiness: bool)

  datatype Material = Material(
    alphaMode: AlphaMode,
    alphaCutoff: real,
    metallicFactor: real,
    roughnessFactor: real,
    emissiveStrength: real,
    baseColorFactor: Vec4,
    emissiveFactor: Vec4,
    baseColorTexture: Option<nat>,
    metallicRoughnessTexture: Option<nat>,
    normalTexture: Option<nat>,
    occlusionTexture: Option<nat>,
    emissiveTexture: Option<nat>,
    doubleSided: bool,
    texCoordSets: TexCoordSets,
    extension: Extension,
    pbrWorkflows: PbrWorkflows,
    index: nat)

  /**
   * A value-initialised Material: the default member values of model.hpp,
   * null texture pointers, zero texture-coordinate sets and index 0.
   */
  const DefaultMaterial: Material := Material(
    Opaque, 1.0, 1.0, 1.0, 1.0, One4, Zero4,
    None, None, None, None, None, false,
    TexCoordSets(0, 0, 0, 0, 0, 0),
    Extension(None, None, One4, Zero3),
    PbrWorkflows(true, false),
    0)

  /** Conversion of an int to uint8_t: reduction modulo 256. */
  function U8(i: int): (r: nat)
    ensures r < 256
    ensures 0 <= i < 256 ==> r == i
    ensures (r - i) % 256 == 0
  {
    i % 256
  }

  /** The components of a vector as a sequence, and back. */
  function Seq4(v: Vec4): seq<real> { [v.x, v.y, v.z, v.w] }
  function Seq3(v: Vec3): seq<real> { [v.x, v.y, v.z] }
  function AsVec4(s: seq<real>): Vec4 requires |s| == 4 { Vec4(s[0], s[1], s[2], s[3]) }
  function AsVec3(s: seq<real>): Vec3 requires |s| == 3 { Vec3(s[0], s[1], s[2]) }

  /** v with its first |f| components replaced by f. */
  function Overlay(v: seq<real>, f: seq<real>): (r: seq<real>)
    requires |f| <= |v|
  {
    f + v[|f|..]
  }

  /**
   * The diffuseFactor / specularFactor loop: component i of the vector takes
   * factor value i, for every i the factor array has.
   */
  method OverlayComponents(v: seq<real>, f: seq<real>) returns (r: seq<real>)
    requires |f| <= |v|
    ensures r == Overlay(v, f)
  {
    r := v;
    var i := 0;
    while i < |f|
      invariant 0 <= i <= |f| && |r| == |v|
      invariant forall j :: 0 <= j < i ==> r[j] == f[j]
      invariant forall j :: i <= j < |v| ==> r[j] == v[j]
    {
      r := r[i := f[i]];
      i := i + 1;
    }
    OverlayComponentsExact(v, f);
  }

  /** Overlay replaces exactly the first |f| components and keeps the length. */
  lemma OverlayComponentsExact(v: seq<real>, f: seq<real>)
    requires |f| <= |v|
    ensures |Overlay(v, f)| == |v|
    ensures forall i :: 0 <= i < |f| ==> Overlay(v, f)[i] == f[i]
    ensures forall i :: |f| <= i < |v| ==> Overlay(v, f)[i] == v[i]
  {
  }

  /** Every texture index a material names refers to one of nt textures. */
  predicate TexturesOk(m: DocMaterial, nt: nat) {
    var ok := (t: Option<int>) => t.None? || 0 <= t.value < nt;
    ok(m.baseColorTexture) && ok(m.metallicRoughnessTexture) && ok(m.normalTexture) &&
    ok(m.emissiveTexture) && ok(m.occlusionTexture) &&
    (m.specGloss.Some? ==>
      ok(m.specGloss.value.sgTexture) && ok(m.specGloss.value.diffuseTexture) &&
      (m.specGloss.value.diffuseFactor.Some? ==> |m.specGloss.value.diffuseFactor.value| <= 4) &&
      (m.specGloss.value.specularFactor.Some? ==> |m.specGloss.value.specularFactor.value| <= 3))
  }

  /** A texture reference as a pointer, and the uint8_t slot it leaves in tex_coord_sets. */
  function Pointer(t: Option<int>): Option<nat> {
    if t.Some? && t.value >= 0 then Some(t.value) else None
  }

  function Slot(t: Option<int>, otherwise: nat): nat {
    if t.Some? then U8(t.value) else otherwise
  }

  /** The metallic-roughness values of m laid over r. */
  function PbrValues(r: Material, m: DocMaterial): Material {
    r.(baseColorTexture := if m.baseColorTexture.Some? then Pointer(m.baseColorTexture) else r.baseColorTexture,
       metallicRoughnessTexture :=
         if m.metallicRoughnessTexture.Some? then Pointer(m.metallicRoughnessTexture) else r.metallicRoughnessTexture,
       texCoordSets := r.texCoordSets.(baseColor := Slot(m.baseColorTexture, r.texCoordSets.baseColor),
                                       metallicRoughness := Slot(m.metallicRoughnessTexture, r.texCoordSets.metallicRoughness)),
       roughnessFactor := m.roughnessFactor.GetOr(r.roughnessFactor),
       metallicFactor := m.metallicFactor.GetOr(r.metallicFactor),
       baseColorFactor := m.baseColorFactor.GetOr(r.baseColorFactor))
  }

  /**
   * The additional values of m laid over r: the other three textures, the
   * alpha mode ("MASK" also sets the cutoff to 0.5, which an explicit
   * alphaCutoff then overrides) and the emissive factor with w = 1.
   */
  function AdditionalValues(r: Material, m: DocMaterial): Material {
    var masked := m.alphaMode == Some("MASK");
    r.(normalTexture := if m.normalTexture.Some? then Pointer(m.normalTexture) else r.normalTexture,
       emissiveTexture := if m.emissiveTexture.Some? then Pointer(m.emissiveTexture) else r.emissiveTexture,
       occlusionTexture := if m.occlusionTexture.Some? then Pointer(m.occlusionTexture) else r.occlusionTexture,
       texCoordSets := r.texCoordSets.(normal := Slot(m.normalTexture, r.texCoordSets.normal),
                                       emissive := Slot(m.emissiveTexture, r.texCoordSets.emissive),
                                       occlusion := Slot(m.occlusionTexture, r.texCoordSets.occlusion)),
       alphaMode := if m.alphaMode == Some("BLEND") then Blend else if masked then Mask else r.alphaMode,
       alphaCutoff := if m.alphaCutoff.Some? then m.alphaCutoff.value else if masked then 0.5 else r.alphaCutoff,
       emissiveFactor := if m.emissiveFactor.Some? then Extend(m.emissiveFactor.value, 1.0) else r.emissiveFactor)
  }

  /**
   * The extensions of m laid over r. The specular-glossiness texture stores
   * its texCoord, not its texture index, in tex_coord_sets, and switches the
   * specular-glossiness workflow on without switching metallic-roughness off.
   */
  function Extensions(r: Material, m: DocMaterial): Material
    requires m.specGloss.Some? ==>
      (m.specGloss.value.diffuseFactor.Some? ==> |m.specGloss.value.diffuseFactor.value| <= 4) &&
      (m.specGloss.value.specularFactor.Some? ==> |m.specGloss.value.specularFactor.value| <= 3)
  {
    var r1 := r.(emissiveStrength := m.emissiveStrength.GetOr(r.emissiveStrength));
    match m.specGloss
    case None => r1
    case Some(sg) =>
      var e := r1.extension;
      var hasSg := sg.sgTexture.Some?;
      r1.(extension := e.(
            specularGlossinessTexture := if hasSg then Pointer(sg.sgTexture) else e.specularGlossinessTexture,
            diffuseTexture := if sg.diffuseTexture.Some? then Pointer(sg.diffuseTexture) else e.diffuseTexture,
            diffuseFactor := if sg.diffuseFactor.Some? then AsVec4(Overlay(Seq4(e.diffuseFactor), sg.diffuseFactor.value))
                             else e.diffuseFactor,
            specularFactor := if sg.specularFactor.Some? then AsVec3(Overlay(Seq3(e.specularFactor), sg.specularFactor.value))
                              else e.specularFactor),
          texCoordSets := r1.texCoordSets.(specularGlossiness :=
            if hasSg then U8(sg.sgTexCoord) else r1.texCoordSets.specularGlossiness),
          pbrWorkflows := r1.pbrWorkflows.(specularGlossiness := hasSg || r1.pbrWorkflows.specularGlossiness))
  }

  /** The material load_materials builds from m as the index-th entry. */
  function MaterialOf(m: DocMaterial, index: nat, nt: nat): Material
    requires TexturesOk(m, nt)
  {
    var r := AdditionalValues(PbrValues(DefaultMaterial.(doubleSided := m.doubleSided), m), m);
    Extensions(r, m).(index := index)
  }

  /** The metallic-roughness part of load_materials' loop body. */
  method LoadPbrValues(r0: Material, m: DocMaterial) returns (r: Material)
    ensures r == PbrValues(r0, m)
  {
    r := r0;
    if m.baseColorTexture.Some? {
      r := r.(baseColorTexture := Pointer(m.baseColorTexture),
              texCoordSets := r.texCoordSets.(baseColor := U8(m.baseColorTexture.value)));
    }
    if m.metallicRoughnessTexture.Some? {
      r := r.(metallicRoughnessTexture := Pointer(m.metallicRoughnessTexture),
              texCoordSets := r.texCoordSets.(metallicRoughness := U8(m.metallicRoughnessTexture.value)));
    }
    if m.roughnessFactor.Some? {
      r := r.(roughnessFactor := m.roughnessFactor.value);
    }
    if m.metallicFactor.Some? {
      r := r.(metallicFactor := m.metallicFactor.value);
    }
    if m.baseColorFactor.Some? {
      r := r.(baseColorFactor := m.baseColorFactor.value);
    }
  }

  /** The additional-values part of load_materials' loop body. */
  method LoadAdditionalValues(r0: Material, m: DocMaterial) returns (r: Material)
    ensures r == AdditionalValues(r0, m)
  {
    r := r0;
    if m.normalTexture.Some? {
      r := r.(normalTexture := Pointer(m.normalTexture),
              texCoordSets := r.texCoordSets.(normal := U8(m.normalTexture.value)));
    }
    if m.emissiveTexture.Some? {
      r := r.(emissiveTexture := Pointer(m.emissiveTexture),
              texCoordSets := r.texCoordSets.(emissive := U8(m.emissiveTexture.value)));
    }
    if m.occlusionTexture.Some? {
      r := r.(occlusionTexture := Pointer(m.occlusionTexture),
              texCoordSets := r.texCoordSets.(occlusion := U8(m.occlusionTexture.value)));
    }
    if m.alphaMode.Some? {
      if m.alphaMode.value == "BLEND" {
        r := r.(alphaMode := Blend);
      }
      if m.alphaMode.value == "MASK" {
        r := r.(alphaCutoff := 0.5, alphaMode := Mask);
      }
    }
    if m.alphaCutoff.Some? {
      r := r.(alphaCutoff := m.alphaCutoff.value);
    }
    if m.emissiveFactor.Some? {
      r := r.(emissiveFactor := Extend(m.emissiveFactor.value, 1.0));
    }
  }

  /** The extensions part of load_materials' loop body. */
  method LoadExtensions(r0: Material, m: DocMaterial) returns (r: Material)
    requires m.specGloss.Some? ==>
      (m.specGloss.value.diffuseFactor.Some? ==> |m.specGloss.value.diffuseFactor.value| <= 4) &&
      (m.specGloss.value.specularFactor.Some? ==> |m.specGloss.value.specularFactor.value| <= 3)
    ensures r == Extensions(r0, m)
  {
    r := r0;
    if m.emissiveStrength.Some? {
      r := r.(emissiveStrength := m.emissiveStrength.value);
    }
    if m.specGloss.Some? {
      var sg := m.specGloss.value;
      if sg.sgTexture.Some? {
        r := r.(extension := r.extension.(specularGlossinessTexture := Pointer(sg.sgTexture)),
                texCoordSets := r.texCoordSets.(specularGlossiness := U8(sg.sgTexCoord)),
                pbrWorkflows := r.pbrWorkflows.(specularGlossiness := true));
      }
      if sg.diffuseTexture.Some? {
        r := r.(extension := r.extension.(diffuseTexture := Pointer(sg.diffuseTexture)));
      }
      if sg.diffuseFactor.Some? {
        var f := OverlayComponents(Seq4(r.extension.diffuseFactor), sg.diffuseFactor.value);
        r := r.(extension := r.extension.(diffuseFactor := AsVec4(f)));
      }
      if sg.specularFactor.Some? {
        var f := OverlayComponents(Seq3(r.extension.specularFactor), sg.specularFactor.value);
        r := r.(extension := r.extension.(specularFactor := AsVec3(f)));
      }
    }
  }

  /**
   * The body of load_materials' loop for one glTF material: start from the
   * defaults, override what the material has, and record its index.
   */
  method LoadMaterial(m: DocMaterial, index: nat, nt: nat) returns (r: Material)
    requires TexturesOk(m, nt)
    ensures r == MaterialOf(m, index, nt)
  {
    r := DefaultMaterial.(doubleSided := m.doubleSided);
    r := LoadPbrValues(r, m);
    r := LoadAdditionalValues(r, m);
    r := LoadExtensions(r, m);
    r := r.(index := index);
  }

  /**
   * What a loaded material records: its position as index, a texture pointer
   * exactly for each texture the glTF material names, and the texture index
   * truncated to uint8_t in the matching tex_coord_sets slot.
   */
  lemma MaterialOfTextures(m: DocMaterial, index: nat, nt: nat)
    requires TexturesOk(m, nt)
    ensures var r := MaterialOf(m, index, nt);
      r.index == index &&
      (r.baseColorTexture.Some? <==> m.baseColorTexture.Some?) &&
      (r.baseColorTexture.Some? ==>
        r.baseColorTexture.value < nt && r.texCoordSets.baseColor == U8(m.baseColorTexture.value)) &&
      (r.normalTexture.Some? <==> m.normalTexture.Some?) &&
      (r.normalTexture.Some? ==> r.normalTexture.value < nt && r.texCoordSets.normal == U8(m.normalTexture.value)) &&
      (r.emissiveTexture.Some? <==> m.emissiveTexture.Some?) &&
      (r.occlusionTexture.Some? <==> m.occlusionTexture.Some?) &&
      (r.metallicRoughnessTexture.Some? <==> m.metallicRoughnessTexture.Some?)
  {
  }

  /**
   * Alpha handling: mask exactly for "MASK", blend exactly for "BLEND";
   * an explicit alphaCutoff wins, otherwise "MASK" gives 0.5 and anything
   * else keeps the default 1.0.
   */
  lemma MaterialOfAlpha(m: DocMaterial, index: nat, nt: nat)
    requires TexturesOk(m, nt)
    ensures var r := MaterialOf(m, index, nt);
      (r.alphaMode == Mask <==> m.alphaMode == Some("MASK")) &&
      (r.alphaMode == Blend <==> m.alphaMode == Some("BLEND")) &&
      (m.alphaCutoff.Some? ==> r.alphaCutoff == m.alphaCutoff.value) &&
      (m.alphaCutoff.None? && m.alphaMode == Some("MASK") ==> r.alphaCutoff == 0.5) &&
      (m.alphaCutoff.None? && m.alphaMode != Some("MASK") ==> r.alphaCutoff == 1.0)
  {
  }

  /**
   * The workflow flags: metallic-roughness stays set on every loaded
   * material, and specular-glossiness is set exactly when the extension
   * names a specular-glossiness texture, in which case its slot holds the
   * texCoord truncated to uint8_t.
   */
  lemma MaterialOfWorkflows(m: DocMaterial, index: nat, nt: nat)
    requires TexturesOk(m, nt)
    ensures var r := MaterialOf(m, index, nt);
      r.pbrWorkflows.metallicRoughness &&
      (r.pbrWorkflows.specularGlossiness <==> m.specGloss.Some? && m.specGloss.value.sgTexture.Some?) &&
      (r.pbrWorkflows.specularGlossiness ==>
        r.extension.specularGlossinessTexture.Some? &&
        r.texCoordSets.specularGlossiness == U8(m.specGloss.value.sgTexCoord))
  {
  }

  /** The factor fields of MaterialOf: the extension's overlays on the defaults. */
  lemma MaterialOfFactorFields(m: DocMaterial, index: nat, nt: nat)
    requires TexturesOk(m, nt) && m.specGloss.Some?
    ensures var x := MaterialOf(m, index, nt).extension; var sg := m.specGloss.value;
      (sg.diffuseFactor.Some? ==> x.diffuseFactor == AsVec4(Overlay(Seq4(One4), sg.diffuseFactor.value))) &&
      (sg.specularFactor.Some? ==> x.specularFactor == AsVec3(Overlay(Seq3(Zero3), sg.specularFactor.value)))
  {
  }

  /**
   * The extension's factor arrays override only the components they have:
   * a one-element diffuseFactor changes the red channel and leaves the
   * default 1.0 in the others.
   */
  lemma MaterialOfFactors(m: DocMaterial, index: nat, nt: nat)
    requires TexturesOk(m, nt) && m.specGloss.Some?
    ensures var r := MaterialOf(m, index, nt); var sg := m.specGloss.value;
      (sg.diffuseFactor.Some? ==>
        forall i :: 0 <= i < 4 ==>
          Seq4(r.extension.diffuseFactor)[i] == if i < |sg.diffuseFactor.value| then sg.diffuseFactor.value[i] else 1.0) &&
      (sg.specularFactor.Some? ==>
        forall i :: 0 <= i < 3 ==>
          Seq3(r.extension.specularFactor)[i] == if i < |sg.specularFactor.value| then sg.specularFactor.value[i] else 0.0)
  {
    var r := MaterialOf(m, index, nt);
    var sg := m.specGloss.value;
    MaterialOfFactorFields(m, index, nt);
    if sg.diffuseFactor.Some? {
      OverlayComponentsExact(Seq4(One4), sg.diffuseFactor.value);
      assert Seq4(r.extension.diffuseFactor) == Overlay(Seq4(One4), sg.diffuseFactor.value);
    }
    if sg.specularFactor.Some? {
      OverlayComponentsExact(Seq3(Zero3), sg.specularFactor.value);
      assert Seq3(r.extension.specularFactor) == Overlay(Seq3(Zero3), sg.specularFactor.value);
    }
  }

  /** A material with no properties at all loads as the defaults, at its own index. */
  lemma MaterialOfEmpty(index: nat, nt: nat)
    ensures var m := DocMaterial(false, None, None, None, None, None, None, None, None, None, None, None, None, None);
      MaterialOf(m, index, nt) == DefaultMaterial.(index := index)
  {
  }

  /** The materials load_materials builds for ms, in order, the k-th with index base + k. */
  function MaterialsOf(ms: seq<DocMaterial>, base: nat, nt: nat): (r: seq<Material>)
    requires forall k :: 0 <= k < |ms| ==> TexturesOk(ms[k], nt)
    ensures |r| == |ms|
  {
    if ms == [] then [] else MaterialsOf(ms[..|ms| - 1], base, nt) + [MaterialOf(ms[|ms| - 1], base + |ms| - 1, nt)]
  }

  /** One more glTF material appends one more material, with index base + k. */
  lemma MaterialsOfSnoc(ms: seq<DocMaterial>, base: nat, nt: nat, k: nat, pre: seq<Material>)
    requires (forall j :: 0 <= j < |ms| ==> TexturesOk(ms[j], nt)) && k < |ms|
    ensures pre + MaterialsOf(ms[..k + 1], base, nt) == pre + MaterialsOf(ms[..k], base, nt) + [MaterialOf(ms[k], base + k, nt)]
  {
    assert ms[..k + 1][..k] == ms[..k];
  }

  /** The k-th material built is the k-th glTF material, with index base + k. */
  lemma {:induction false} MaterialsOfAt(ms: seq<DocMaterial>, base: nat, nt: nat, k: nat)
    requires (forall j :: 0 <= j < |ms| ==> TexturesOk(ms[j], nt)) && k < |ms|
    ensures MaterialsOf(ms, base, nt)[k] == MaterialOf(ms[k], base + k, nt)
  {
    if k < |ms| - 1 {
      MaterialsOfAt(ms[..|ms| - 1], base, nt, k);
    }
  }
}

=== FILE: model.dfy ===
/**
 * The Model class of model.cpp/model.hpp: the loaded scene, its materials,
 * skins, textures and animations, and the import of a decoded glTF
 * document into them. Each loading step is proved to follow the matching
 * function of the Loading, Materials and Textures modules.
 */
module ModelClass {
  import opened Wrappers
  import opened LinAlg
  import opened Bounds
  import opened Document
  import opened Scene
  import opened Materials
  import opened Textures
  import opened Loading
  import opened Animations
  import opened Skins
  import opened SceneBounds
  import opened Ac

  /**
   * Model::LoaderInfo: the vertex and index staging buffers, sized by the
   * get_node_props pre-pass, and the two write cursors.
   */
  class LoaderInfo {
    const vertexBuffer: array<Vertex>
    const indexBuffer: array<nat>
    var vertexPos: nat
    var indexPos: nat

    /**
     * Allocate the two buffers; `vertices` and `indices` stand for the
     * contents of the uninitialised allocations. Both cursors start at 0.
     */
    constructor(vertices: seq<Vertex>, indices: seq<nat>)
      ensures vertexBuffer[..] == vertices && indexBuffer[..] == indices
      ensures vertexPos == 0 && indexPos == 0
      ensures fresh(vertexBuffer) && fresh(indexBuffer)
    {
      vertexBuffer := new Vertex[|vertices|](k requires 0 <= k < |vertices| => vertices[k]);
      indexBuffer := new nat[|indices|](k requires 0 <= k < |indices| => indices[k]);
      vertexPos, indexPos := 0, 0;
      new;
      assert vertexBuffer[..] == vertices;
      assert indexBuffer[..] == indices;
    }

    /**
     * The vertex loop of load_node for one primitive: write VertexAt for
     * each position at the vertex cursor and advance it.
     */
    method WriteVertices(p: DocPrimitive)
      requires PrimitiveOk(p) && vertexPos + |p.positions| <= vertexBuffer.Length
      modifies this, vertexBuffer
      ensures vertexBuffer[..] == WrittenVertices(old(vertexBuffer[..]), old(vertexPos), p, |p.positions|)
      ensures vertexPos == old(vertexPos) + |p.positions| && indexPos == old(indexPos)
    {
      ghost var vs0 := vertexBuffer[..];
      ghost var pos0 := vertexPos;
      var v := 0;
      while v < |p.positions|
        invariant 0 <= v <= |p.positions| && vertexPos == pos0 + v && indexPos == old(indexPos)
        invariant vertexBuffer[..] == WrittenVertices(vs0, pos0, p, v)
      {
        vertexBuffer[vertexPos] := VertexAt(p, v, vertexBuffer[vertexPos]);
        vertexPos := vertexPos + 1;
        v := v + 1;
        assert vertexBuffer[..] == WrittenVertices(vs0, pos0, p, v);
      }
    }

    /**
     * The index loop of load_node for one supported component type: write
     * each value plus `base` (uint32_t arithmetic) at the index cursor and
     * advance it.
     */
    method WriteIndices(values: seq<nat>, base: nat)
      requires indexPos + |values| <= indexBuffer.Length
      modifies this, indexBuffer
      ensures indexBuffer[..] == WrittenIndices(old(indexBuffer[..]), old(indexPos), values, |values|, base)
      ensures indexPos == old(indexPos) + |values| && vertexPos == old(vertexPos)
    {
      ghost var is0 := indexBuffer[..];
      ghost var pos0 := indexPos;
      var k := 0;
      while k < |values|
        invariant 0 <= k <= |values| && indexPos == pos0 + k && vertexPos == old(vertexPos)
        invariant indexBuffer[..] == WrittenIndices(is0, pos0, values, k, base)
      {
        indexBuffer[indexPos] := (values[k] + base) % U32;
        indexPos := indexPos + 1;
        k := k + 1;
        assert indexBuffer[..] == WrittenIndices(is0, pos0, values, k, base);
      }
    }
  }

  /** The loop over a mesh's primitives that builds the mesh bounding box. */
  method ComputeMeshBox(prims: seq<Primitive>) returns (bb: BoundingBox)
    ensures bb == MeshBox(prims)
  {
    bb := DefaultBox;
    var j := 0;
    while j < |prims|
      invariant 0 <= j <= |prims|
      invariant MeshBoxFrom(bb, prims[j..]) == MeshBox(prims)
    {
      var p := prims[j];
      if p.bb.valid && !bb.valid {
        bb := p.bb.(valid := true);
      }
      bb := bb.(min := MinV(bb.min, p.bb.min), max := MaxV(bb.max, p.bb.max));
      assert prims[j..][1..] == prims[j + 1..];
      j := j + 1;
    }
  }

  /** std::string::rfind('.'): the position of the last '.', if any. */
  function LastDot(s: string): (r: Option<nat>)
    ensures r.Some? ==> r.value < |s| && s[r.value] == '.' && forall j :: r.value < j < |s| ==> s[j] != '.'
    ensures r.None? ==> forall j :: 0 <= j < |s| ==> s[j] != '.'
  {
    if s == [] then None
    else if s[|s| - 1] == '.' then Some(|s| - 1)
    else LastDot(s[..|s| - 1])
  }

  /** load_from_file reads a file as binary glTF exactly when what follows its last '.' is "glb". */
  function IsGlb(filename: string): bool {
    match LastDot(filename)
    case None => false
    case Some(p) => filename[p + 1..] == "glb"
  }

  /** The binary test is exactly "the name ends in .glb" (case-sensitive). */
  lemma IsGlbIff(filename: string)
    ensures IsGlb(filename) <==> |filename| >= 4 && filename[|filename| - 4..] == ".glb"
  {
    var n := |filename|;
    if n >= 4 && filename[n - 4..] == ".glb" {
      assert filename[n - 4] == '.';
      assert filename[n - 3] == 'g' && filename[n - 2] == 'l' && filename[n - 1] == 'b';
      var p := LastDot(filename);
      assert p.Some? && p.value == n - 4;
    }
    if IsGlb(filename) {
      var p := LastDot(filename).value;
      assert filename[p + 1..] == "glb";
      assert |filename| == p + 4;
      assert filename[n - 4..] == [filename[p]] + filename[p + 1..];
    }
  }

  /** The parse result load_from_file goes on with: the binary one for a .glb name, the text one otherwise. */
  function Parsed(filename: string, text: Option<Document>, binary: Option<Document>): Option<Document> {
    if IsGlb(filename) then binary else text
  }

  /** The scene load_from_file loads: the default scene, or scene 0 when there is none. */
  function SceneIndex(doc: Document): (r: nat)
    requires |doc.scenes| > 0 && doc.defaultScene < |doc.scenes|
    ensures r < |doc.scenes|
    ensures doc.defaultScene >= 0 ==> r == doc.defaultScene
  {
    if doc.defaultScene > -1 then doc.defaultScene else 0
  }

  /**
   * What load_from_file relies on of a decoded document: every index it
   * follows is in range (scene, node, mesh, material, texture, image,
   * sampler and skin references), the node graph below the chosen scene's
   * roots is acyclic, every skin has its inverse bind matrices, and the
   * mesh-bearing nodes of the scene fit the matrix buffer, which holds one
   * block per glTF mesh.
   */
  ghost predicate Importable(doc: Document) {
    Loadable(doc, |doc.materials| + 1) &&
    |doc.scenes| > 0 && doc.defaultScene < |doc.scenes| &&
    ResourcesOk(doc) &&
    SkinIndicesBelow(doc, |doc.skins|) &&
    (forall k :: 0 <= k < |doc.skins| ==> BindMatricesCover(doc.skins[k])) &&
    AllBounded(doc, doc.scenes[SceneIndex(doc)].nodes, |doc.nodes|) &&
    ForestCounts(doc, doc.scenes[SceneIndex(doc)].nodes, |doc.nodes|).meshNodes <= |doc.meshes|
  }

  /**
   * The contents the staging buffers and the matrix buffer start with. The
   * allocations are uninitialised; the model fills them with these values.
   */
  const BlankVertex: Vertex := Vertex(Zero3, Normalized(Zero3), Vec2(0.0, 0.0), Vec2(0.0, 0.0), Zero4, Zero4, Zero4)
  const BlankBlock: UniformBlock := UniformBlock(Identity, seq(MAX_NUM_JOINTS, k => Identity), 0)

  /** The loader state before the first root is loaded, with buffers sized by the totals c. */
  function Start(doc: Document, c: Counts): (st: LoadState)
    ensures Room(st, Counts(c.vertices, c.indices, 0)) && BlocksOk(st.blocks)
  {
    LoadState([], [], [], 0, 0, 0,
      seq(c.vertices, k => BlankVertex), seq(c.indices, k => 0), seq(|doc.meshes|, k => BlankBlock))
  }

  /** The observable state of a Model. */
  datatype ModelState = ModelState(
    arena: seq<Node>,
    roots: seq<nat>,
    linear: seq<nat>,
    meshCount: nat,
    matrices: seq<UniformBlock>,
    materials: seq<Material>,
    skins: seq<Skin>,
    samplers: seq<TextureSampler>,
    textures: seq<Texture>,
    extensions: seq<string>,
    animations: seq<Animation>,
    dimensions: Dimensions,
    aabb: Mat4)

  /**
   * After loading, before skins are attached, the pose loop may run: the
   * loaded forest with slots inside the matrix buffer, no skin pointer set,
   * and every skin index naming a loaded skin.
   */
  lemma LoadedPoseOk(st0: LoadState, st: LoadState, doc: Document, c: Counts, a: seq<Node>, roots: seq<nat>)
    requires Linked(st) && Grows(st0, st, c) && st0.meshCount == 0 && c.meshNodes <= |st.blocks|
    requires Unskinned(st.arena, |doc.skins|) && a == st.arena && roots == st.roots
    requires forall k :: 0 <= k < |doc.skins| ==> BindMatricesCover(doc.skins[k])
    ensures ValidArena(a) && Above(a, -1, roots)
    ensures PoseOk(a, SkinsFromDoc(a, roots, doc.skins), |st.blocks|)
  {
    var skins := SkinsFromDoc(a, roots, doc.skins);
    forall k | 0 <= k < |skins| ensures SkinOk(a, skins[k]) {
      SkinsFromDocAt(a, roots, doc.skins, k);
      SkinFromDocOk(a, roots, doc.skins[k]);
    }
  }

  /**
   * The roots of the chosen scene loaded into a fresh loader: staging
   * buffers sized by get_node_props' totals and one uniform block per glTF
   * mesh.
   */
  ghost function Loaded(doc: Document): LoadState
    requires Importable(doc)
  {
    var nm := |doc.materials| + 1;
    var sceneRoots := doc.scenes[SceneIndex(doc)].nodes;
    var c := ForestCounts(doc, sceneRoots, |doc.nodes|);
    LoadRootsF(Start(doc, c), doc, nm, sceneRoots, |doc.nodes|)
  }

  /**
   * What comes out of Loaded is a forest whose mesh slots fit the matrix
   * buffer and whose skin indices name skins the document has, with no skin
   * pointer set yet: what the pose loop needs once the skins are read.
   */
  lemma LoadedOk(doc: Document)
    requires Importable(doc)
    ensures var st := Loaded(doc);
      Ready(doc, st.arena, st.roots, st.linear, st.blocks) && |st.blocks| == |doc.meshes|
  {
    var nm := |doc.materials| + 1;
    var sceneRoots := doc.scenes[SceneIndex(doc)].nodes;
    var c := ForestCounts(doc, sceneRoots, |doc.nodes|);
    var st0 := Start(doc, c);
    var st := LoadRootsF(st0, doc, nm, sceneRoots, |doc.nodes|);
    LoadRootsLinked(st0, doc, nm, sceneRoots, |doc.nodes|);
    LoadRootsSkins(st0, doc, nm, sceneRoots, |doc.nodes|, |doc.skins|);
    LoadedPoseOk(st0, st, doc, c, st.arena, st.roots);
  }

  /**
   * What the rest of the import needs of the loaded nodes and blocks: a
   * forest, linear nodes inside it, well-sized blocks, and the pose loop's
   * demands on the skins load_skins will read off these nodes.
   */
  predicate Ready(doc: Document, a: seq<Node>, roots: seq<nat>, linear: seq<nat>, blocks: seq<UniformBlock>) {
    ValidArena(a) && Above(a, -1, roots) && BlocksOk(blocks) &&
    (forall k :: 0 <= k < |linear| ==> linear[k] < |a|) &&
    PoseOk(a, SkinsFromDoc(a, roots, doc.skins), |blocks|)
  }

  /**
   * The state load_from_file leaves once the roots are loaded into a, roots,
   * linear, meshCount and blocks, and the samplers, textures and materials
   * are loaded: the animations, then the skins, read off the loaded nodes;
   * the initial pose; the extensions; and the boxes and extent of
   * get_scene_dimensions.
   */
  function Finished(doc: Document, a: seq<Node>, roots: seq<nat>, linear: seq<nat>, meshCount: nat,
                    blocks: seq<UniformBlock>, samplers: seq<TextureSampler>, textures: seq<Texture>,
                    materials: seq<Material>, eval: Mat -> Mat4): (r: ModelState)
    requires Ready(doc, a, roots, linear, blocks)
  {
    var skins := SkinsFromDoc(a, roots, doc.skins);
    var pose := PoseF(a, skins, blocks, linear);
    var arena := BoxAllF(pose.0, linear, eval);
    var dims := DimensionsOf(arena, linear, InitialDimensions);
    ModelState(arena, roots, linear, meshCount, pose.1, materials, skins, samplers, textures,
      doc.extensionsUsed, AnimationsFromDoc(a, roots, doc.animations, 0), dims, SceneAabb(dims))
  }

  /**
   * After the pose and the boxes the scene still meets update's demands,
   * every block keeps its joint matrices and the roots are in the arena.
   */
  lemma FinishedOk(doc: Document, a: seq<Node>, roots: seq<nat>, linear: seq<nat>, meshCount: nat,
                   blocks: seq<UniformBlock>, samplers: seq<TextureSampler>, textures: seq<Texture>,
                   materials: seq<Material>, eval: Mat -> Mat4)
    requires Ready(doc, a, roots, linear, blocks)
    ensures var r := Finished(doc, a, roots, linear, meshCount, blocks, samplers, textures, materials, eval);
      SceneOk(r.arena, r.skins, |r.matrices|) && BlocksOk(r.matrices) && Above(r.arena, -1, r.roots) &&
      |r.matrices| == |blocks| && r.extensions == doc.extensionsUsed && r.materials == materials
  {
    var skins := SkinsFromDoc(a, roots, doc.skins);
    var pose := PoseF(a, skins, blocks, linear);
    var arena := BoxAllF(pose.0, linear, eval);
    SameShapeSceneOk(pose.0, arena, skins, |blocks|);
  }

  /** Finished, assembled from the results of its steps. */
  lemma FinishedFrom(doc: Document, a: seq<Node>, roots: seq<nat>, linear: seq<nat>, meshCount: nat,
                     blocks: seq<UniformBlock>, samplers: seq<TextureSampler>, textures: seq<Texture>,
                     materials: seq<Material>, eval: Mat -> Mat4,
                     animations: seq<Animation>, skins: seq<Skin>, posed: seq<Node>, written: seq<UniformBlock>,
                     boxed: seq<Node>, dims: Dimensions, aabb: Mat4)
    requires Ready(doc, a, roots, linear, blocks)
    requires animations == AnimationsFromDoc(a, roots, doc.animations, 0)
    requires skins == SkinsFromDoc(a, roots, doc.skins)
    requires (posed, written) == PoseF(a, skins, blocks, linear)
    requires boxed == BoxAllF(posed, linear, eval)
    requires dims == DimensionsOf(boxed, linear, InitialDimensions) && aabb == SceneAabb(dims)
    ensures Finished(doc, a, roots, linear, meshCount, blocks, samplers, textures, materials, eval) ==
      ModelState(boxed, roots, linear, meshCount, written, materials, skins, samplers, textures,
        doc.extensionsUsed, animations, dims, aabb)
  {
  }

  /**
   * The state when the upload fails: as Finished, but the nodes keep the
   * boxes they had before get_scene_dimensions, and the extent and aabb
   * keep their earlier values dims and aabb.
   */
  function Unboxed(doc: Document, a: seq<Node>, roots: seq<nat>, linear: seq<nat>, meshCount: nat,
                   blocks: seq<UniformBlock>, samplers: seq<TextureSampler>, textures: seq<Texture>,
                   materials: seq<Material>, dims: Dimensions, aabb: Mat4): ModelState
    requires Ready(doc, a, roots, linear, blocks)
  {
    var skins := SkinsFromDoc(a, roots, doc.skins);
    var pose := PoseF(a, skins, blocks, linear);
    ModelState(pose.0, roots, linear, meshCount, pose.1, materials, skins, samplers, textures,
      doc.extensionsUsed, AnimationsFromDoc(a, roots, doc.animations, 0), dims, aabb)
  }

  /** The matrix buffer is made and mapped: there is no glTF mesh, or neither call failed. */
  predicate MatrixBufferOk(doc: Document, matrixBuffer: seq<AcResult>) {
    |doc.meshes| == 0 || FirstFailure(matrixBuffer).Success?
  }

  /** s with doc's samplers, textures and materials (the default material last) loaded. */
  function WithResources(s: ModelState, doc: Document): ModelState
    requires ResourcesOk(doc)
  {
    var samplers := SamplersOf(doc.samplers);
    s.(samplers := samplers, textures := TexturesOf(doc.textures, samplers),
       materials := MaterialsOf(doc.materials, 0, |doc.textures|) + [DefaultMaterial])
  }

  /** The textures name images and samplers that exist, and the materials name textures that exist. */
  predicate ResourcesOk(doc: Document) {
    TexturesRefsOk(doc.textures, |doc.images|, |doc.samplers|) &&
    forall k :: 0 <= k < |doc.materials| ==> TexturesOk(doc.materials[k], |doc.textures|)
  }

  /**
   * The state load_from_file leaves once the scene is loaded into st: the
   * samplers, textures and materials (the default material last), then
   * Finished on st.
   */
  function ImportFrom(doc: Document, st: LoadState, eval: Mat -> Mat4): ModelState
    requires ResourcesOk(doc) && Ready(doc, st.arena, st.roots, st.linear, st.blocks)
  {
    var samplers := SamplersOf(doc.samplers);
    Finished(doc, st.arena, st.roots, st.linear, st.meshCount, st.blocks, samplers,
      TexturesOf(doc.textures, samplers), MaterialsOf(doc.materials, 0, |doc.textures|) + [DefaultMaterial], eval)
  }

  /** The state a failed upload leaves once the scene is loaded into st, with the earlier extent and aabb. */
  function UploadFailedFrom(doc: Document, st: LoadState, dims: Dimensions, aabb: Mat4): ModelState
    requires ResourcesOk(doc) && Ready(doc, st.arena, st.roots, st.linear, st.blocks)
  {
    var samplers := SamplersOf(doc.samplers);
    Unboxed(doc, st.arena, st.roots, st.linear, st.meshCount, st.blocks, samplers,
      TexturesOf(doc.textures, samplers), MaterialsOf(doc.materials, 0, |doc.textures|) + [DefaultMaterial], dims, aabb)
  }

  /** The state load_from_file leaves when the upload of doc fails: UploadFailedFrom on the scene Loaded. */
  ghost function UploadFailedF(doc: Document, dims: Dimensions, aabb: Mat4): ModelState
    requires Importable(doc)
  {
    LoadedOk(doc);
    UploadFailedFrom(doc, Loaded(doc), dims, aabb)
  }

  /** The state load_from_file leaves after importing doc: ImportFrom on the scene Loaded. */
  ghost function ImportF(doc: Document, eval: Mat -> Mat4): ModelState
    requires Importable(doc)
  {
    LoadedOk(doc);
    ImportFrom(doc, Loaded(doc), eval)
  }
  lemma ImportFromLoaded(doc: Document, eval: Mat -> Mat4, dims: Dimensions, aabb: Mat4)
    requires Importable(doc)
    ensures var st := Loaded(doc); Ready(doc, st.arena, st.roots, st.linear, st.blocks)
    ensures ImportF(doc, eval) == ImportFrom(doc, Loaded(doc), eval)
    ensures UploadFailedF(doc, dims, aabb) == UploadFailedFrom(doc, Loaded(doc), dims, aabb)
  {
    LoadedOk(doc);
  }


  /**
   * An imported model meets update's demands, keeps every block's joint
   * matrices, has one block per glTF mesh, records the document's
   * extensions, and ends its materials with the default material.
   */
  lemma ImportFOk(doc: Document, eval: Mat -> Mat4)
    requires Importable(doc)
    ensures var r := ImportF(doc, eval);
      SceneOk(r.arena, r.skins, |r.matrices|) && BlocksOk(r.matrices) && Above(r.arena, -1, r.roots) &&
      r.extensions == doc.extensionsUsed && |r.matrices| == |doc.meshes| &&
      |r.materials| == |doc.materials| + 1 && r.materials[|doc.materials|] == DefaultMaterial
  {
    var st := Loaded(doc);
    LoadedOk(doc);
    var samplers := SamplersOf(doc.samplers);
    var materials := MaterialsOf(doc.materials, 0, |doc.textures|) + [DefaultMaterial];
    FinishedOk(doc, st.arena, st.roots, st.linear, st.meshCount, st.blocks, samplers,
      TexturesOf(doc.textures, samplers), materials, eval);
  }

  class Model {
    var arena: seq<Node>
    var roots: seq<nat>
    var linear: seq<nat>
    var meshCount: nat
    var matrices: array<UniformBlock>
    var materials: seq<Material>
    var skins: seq<Skin>
    var samplers: seq<TextureSampler>
    var textures: seq<Texture>
    var extensions: seq<string>
    var animations: seq<Animation>
    var dimensions: Dimensions
    var aabb: Mat4

    /**
     * A model with nothing loaded, no mesh slots handed out, an empty matrix
     * buffer and the extent's initial values. `aabb` is value-initialised,
     * taken here to be the identity matrix.
     */
    constructor()
      ensures Empty() && extensions == [] && matrices.Length == 0
      ensures dimensions == InitialDimensions && aabb == IdentityMat4
    {
      arena, roots, linear, meshCount := [], [], [], 0;
      matrices := new UniformBlock[0];
      materials, skins, samplers, textures, extensions := [], [], [], [], [];
      animations := [];
      dimensions := InitialDimensions;
      aabb := IdentityMat4;
    }

    /** Nothing loaded yet: no nodes, slots, materials, skins, samplers, textures or animations. */
    predicate Empty()
      reads this
    {
      arena == [] && roots == [] && linear == [] && meshCount == 0 &&
      materials == [] && skins == [] && samplers == [] && textures == [] && animations == []
    }

    /** The samplers, textures and materials are doc's, the default material last. */
    predicate ResourcesLoaded(doc: Document)
      requires ResourcesOk(doc)
      reads this`samplers, this`textures, this`materials
    {
      samplers == SamplersOf(doc.samplers) && textures == TexturesOf(doc.textures, samplers) &&
      materials == MaterialsOf(doc.materials, 0, |doc.textures|) + [DefaultMaterial]
    }

    /** The model's observable state. */
    function State(): ModelState
      reads this, matrices
    {
      ModelState(arena, roots, linear, meshCount, matrices[..], materials, skins, samplers, textures,
        extensions, animations, dimensions, aabb)
    }

    /** The part of the model and the loader that load_node reads and writes. */
    function Snapshot(info: LoaderInfo): LoadState
      reads this, matrices, info, info.vertexBuffer, info.indexBuffer
    {
      LoadState(arena, roots, linear, meshCount, info.vertexPos, info.indexPos,
        info.vertexBuffer[..], info.indexBuffer[..], matrices[..])
    }

    /**
     * One primitive of load_node: the vertices, then the indices rebased by
     * the vertex cursor as it was before the vertices, then the Primitive.
     * An unsupported index component type gives no primitive.
     */
    method LoadPrimitive(info: LoaderInfo, p: DocPrimitive) returns (prim: Option<Primitive>)
      requires PrimitiveOk(p) && 0 < |materials| && p.material < |materials|
      requires Room(Snapshot(info), PrimNeeds(p))
      modifies info, info.vertexBuffer, info.indexBuffer
      ensures PrimStep(Snapshot(info), prim) == LoadPrimF(old(Snapshot(info)), p, |materials|)
    {
      var vertexStart := Trunc32(info.vertexPos);
      var indexStart := Trunc32(info.indexPos);
      var vertexCount := Trunc32(|p.positions|);
      var indexCount := 0;
      info.WriteVertices(p);
      if p.indices.Some? {
        var acc := p.indices.value;
        indexCount := Trunc32(|acc.values|);
        if acc.componentType in {UNSIGNED_INT, UNSIGNED_SHORT, UNSIGNED_BYTE} {
          info.WriteIndices(acc.values, vertexStart);
        } else {
          return None;
        }
      }
      var material := if p.material > -1 then p.material else |materials| - 1;
      prim := Some(Primitive(indexStart, indexCount, vertexCount, material, indexCount > 0,
        BoundingBox(p.posMin, p.posMax, true)));
    }

    /** The primitives loop of load_node; `accepted` is false when it stopped at a rejected primitive. */
    method LoadPrimitives(info: LoaderInfo, ps: seq<DocPrimitive>) returns (prims: seq<Primitive>, accepted: bool)
      requires PrimsOk(ps, |materials|) && Room(Snapshot(info), PrimitiveCounts(ps))
      modifies info, info.vertexBuffer, info.indexBuffer
      ensures PrimsResult(Snapshot(info), prims, accepted) == LoadPrimsF(old(Snapshot(info)), ps, [], |materials|)
    {
      prims := [];
      var j := 0;
      while j < |ps|
        invariant 0 <= j <= |ps|
        invariant PrimsOk(ps[j..], |materials|) && Room(Snapshot(info), PrimitiveCounts(ps[j..]))
        invariant LoadPrimsF(Snapshot(info), ps[j..], prims, |materials|) == LoadPrimsF(old(Snapshot(info)), ps, [], |materials|)
      {
        assert ps[j..][0] == ps[j] && ps[j..][1..] == ps[j + 1..];
        var prim := LoadPrimitive(info, ps[j]);
        if prim.None? {
          return prims, false;
        }
        PrimsOkSuffix(ps, |materials|, j + 1);
        prims := prims + [prim.value];
        j := j + 1;
      }
      assert ps[j..] == [];
      return prims, true;
    }

    /**
     * The end of load_node: for a mesh, Mesh::Mesh stores the node matrix
     * in block mesh_count and takes that slot, mesh_count is incremented and
     * the primitives are loaded; a rejected primitive returns at once.
     * Otherwise the mesh box is computed, and the node is attached to its
     * parent (or the roots) and appended to the linear list.
     */
    method CompleteNode(info: LoaderInfo, doc: Document, dn: DocNode, id: nat, parent: Option<nat>, matrix: Mat)
      requires Loadable(doc, |materials|) && dn.mesh < |doc.meshes|
      requires Room(Snapshot(info), OwnCounts(doc, dn))
      requires id < |arena| && (parent.Some? ==> parent.value < |arena|)
      modifies this`arena, this`roots, this`linear, this`meshCount, matrices, info, info.vertexBuffer, info.indexBuffer
      ensures Snapshot(info) == Loading.FinishNode(old(Snapshot(info)), doc, |materials|, dn, id, parent, matrix)
    {
      if dn.mesh > -1 {
        var accepted := LoadNodeMesh(info, doc, dn.mesh, id, matrix);
        if !accepted {
          return;
        }
      }
      AttachNode(info, id, parent);
    }

    /**
     * The mesh part of the end of load_node: load the mesh and, when every
     * primitive was accepted, give node id the mesh with its box and slot.
     */
    method LoadNodeMesh(info: LoaderInfo, doc: Document, mi: nat, id: nat, matrix: Mat) returns (accepted: bool)
      requires Loadable(doc, |materials|) && mi < |doc.meshes|
      requires Room(Snapshot(info), Plus(PrimitiveCounts(doc.meshes[mi].primitives), Counts(0, 0, 1)))
      requires id < |arena|
      modifies this`arena, this`meshCount, matrices, info, info.vertexBuffer, info.indexBuffer
      ensures var pr := LoadMeshF(old(Snapshot(info)), doc, |materials|, mi, matrix);
        accepted == pr.accepted &&
        Snapshot(info) == if accepted then pr.st.(arena := pr.st.arena[id := pr.st.arena[id].(mesh := Some(Mesh(pr.prims, MeshBox(pr.prims), old(meshCount))))]) else pr.st
    {
      var slot := meshCount;
      var prims;
      prims, accepted := LoadMesh(info, doc, mi, matrix);
      if accepted {
        var bb := ComputeMeshBox(prims);
        arena := arena[id := arena[id].(mesh := Some(Mesh(prims, bb, slot)))];
      }
    }

    /** The mesh part of load_node: take the next uniform-block slot, then load the primitives. */
    method LoadMesh(info: LoaderInfo, doc: Document, mi: nat, matrix: Mat) returns (prims: seq<Primitive>, accepted: bool)
      requires Loadable(doc, |materials|) && mi < |doc.meshes|
      requires Room(Snapshot(info), Plus(PrimitiveCounts(doc.meshes[mi].primitives), Counts(0, 0, 1)))
      modifies this`meshCount, matrices, info, info.vertexBuffer, info.indexBuffer
      ensures PrimsResult(Snapshot(info), prims, accepted) == LoadMeshF(old(Snapshot(info)), doc, |materials|, mi, matrix)
    {
      var slot := meshCount;
      matrices[slot] := matrices[slot].(matrix := matrix);
      meshCount := meshCount + 1;
      var ps := doc.meshes[mi].primitives;
      assert PrimsOk(ps, |materials|);
      prims, accepted := LoadPrimitives(info, ps);
    }

    /** Attach node id under its parent, or as a root, and append it to the linear list. */
    method AttachNode(ghost info: LoaderInfo, id: nat, parent: Option<nat>)
      requires id < |arena| && (parent.Some? ==> parent.value < |arena|)
      modifies this`arena, this`roots, this`linear
      ensures Snapshot(info) == Attach(old(Snapshot(info)), id, parent)
    {
      match parent {
        case Some(p) =>
          arena := arena[p := arena[p].(children := arena[p].children + [id])];
        case None =>
          roots := roots + [id];
      }
      linear := linear + [id];
    }

    /**
     * Model::load_node for glTF node gi under `parent`: allocate the node
     * with its own TRS and matrix, load every child under it, then finish
     * the node. The whole effect is LoadNodeF.
     */
    method LoadNode(info: LoaderInfo, doc: Document, gi: nat, parent: Option<nat>, ghost depth: nat)
      requires Loadable(doc, |materials|) && Bounded(doc, gi, depth)
      requires Room(Snapshot(info), NodeCounts(doc, gi, depth))
      requires parent.Some? ==> parent.value < |arena|
      modifies this`arena, this`roots, this`linear, this`meshCount, matrices, info, info.vertexBuffer, info.indexBuffer
      ensures Snapshot(info) == LoadNodeF(old(Snapshot(info)), doc, |materials|, gi, parent, depth)
      decreases depth, 0
    {
      var dn := doc.nodes[gi];
      var id := |arena|;
      var node := NewNode(dn, gi, parent);
      arena := arena + [node];
      LoadChildren(info, doc, dn.children, id, depth - 1);
      CompleteNode(info, doc, dn, id, parent, node.matrix);
    }

    /** The children loop of load_node: load each of ks, in order, under node pid. */
    method LoadChildren(info: LoaderInfo, doc: Document, ks: seq<nat>, pid: nat, ghost depth: nat)
      requires Loadable(doc, |materials|) && AllBounded(doc, ks, depth)
      requires Room(Snapshot(info), ForestCounts(doc, ks, depth))
      requires pid < |arena|
      modifies this`arena, this`roots, this`linear, this`meshCount, matrices, info, info.vertexBuffer, info.indexBuffer
      ensures Snapshot(info) == LoadKidsF(old(Snapshot(info)), doc, |materials|, ks, pid, depth)
      decreases depth, 1
    {
      var i := 0;
      while i < |ks|
        invariant 0 <= i <= |ks| && pid < |arena|
        invariant AllBounded(doc, ks[i..], depth)
        invariant Room(Snapshot(info), ForestCounts(doc, ks[i..], depth))
        invariant LoadKidsF(Snapshot(info), doc, |materials|, ks[i..], pid, depth) ==
          LoadKidsF(old(Snapshot(info)), doc, |materials|, ks, pid, depth)
      {
        assert ks[i..][0] == ks[i] && ks[i..][1..] == ks[i + 1..];
        KidsStep(Snapshot(info), doc, |materials|, ks[i..], pid, depth);
        LoadNode(info, doc, ks[i], Some(pid), depth);
        i := i + 1;
      }
      assert ks[i..] == [];
    }

    /** The loop of load_from_file that loads each root of the scene, in order, without a parent. */
    method LoadRoots(info: LoaderInfo, doc: Document, ks: seq<nat>, ghost depth: nat)
      requires Loadable(doc, |materials|) && AllBounded(doc, ks, depth)
      requires Room(Snapshot(info), ForestCounts(doc, ks, depth))
      modifies this`arena, this`roots, this`linear, this`meshCount, matrices, info, info.vertexBuffer, info.indexBuffer
      ensures Snapshot(info) == LoadRootsF(old(Snapshot(info)), doc, |materials|, ks, depth)
    {
      var i := 0;
      while i < |ks|
        invariant 0 <= i <= |ks|
        invariant AllBounded(doc, ks[i..], depth)
        invariant Room(Snapshot(info), ForestCounts(doc, ks[i..], depth))
        invariant LoadRootsF(Snapshot(info), doc, |materials|, ks[i..], depth) ==
          LoadRootsF(old(Snapshot(info)), doc, |materials|, ks, depth)
      {
        assert ks[i..][0] == ks[i] && ks[i..][1..] == ks[i + 1..];
        ghost var st := Snapshot(info);
        RootsStep(st, doc, |materials|, ks[i..], depth);
        LoadNode(info, doc, ks[i], None, depth);
        assert Snapshot(info) == LoadNodeF(st, doc, |materials|, ks[i], None, depth);
        i := i + 1;
      }
      assert ks[i..] == [];
    }

    /**
     * Model::get_node_props: add to the running totals the vertex and index
     * counts of every primitive in the subtree of glTF node n, children
     * first. It reads nothing of the model.
     */
    method GetNodeProps(doc: Document, n: nat, vertexCount: nat, indexCount: nat, ghost depth: nat) returns (vc: nat, ic: nat)
      requires WellFormed(doc) && Bounded(doc, n, depth)
      ensures vc == vertexCount + NodeCounts(doc, n, depth).vertices
      ensures ic == indexCount + NodeCounts(doc, n, depth).indices
      decreases depth
    {
      var node := doc.nodes[n];
      vc, ic := vertexCount, indexCount;
      var kids := node.children;
      var i := 0;
      while i < |kids|
        invariant 0 <= i <= |kids|
        invariant AllBounded(doc, kids[i..], depth - 1)
        invariant vc + ForestCounts(doc, kids[i..], depth - 1).vertices ==
          vertexCount + ForestCounts(doc, kids, depth - 1).vertices
        invariant ic + ForestCounts(doc, kids[i..], depth - 1).indices ==
          indexCount + ForestCounts(doc, kids, depth - 1).indices
      {
        ForestCountsStep(doc, kids[i..], depth - 1);
        assert kids[i..][0] == kids[i] && kids[i..][1..] == kids[i + 1..];
        vc, ic := GetNodeProps(doc, kids[i], vc, ic, depth - 1);
        i := i + 1;
      }
      assert kids[i..] == [];
      if node.mesh > -1 {
        vc, ic := PrimitiveProps(doc.meshes[node.mesh].primitives, vc, ic);
      }
    }

    /** The primitive loop of get_node_props: add each primitive's vertex count and index count. */
    static method PrimitiveProps(prims: seq<DocPrimitive>, vertexCount: nat, indexCount: nat) returns (vc: nat, ic: nat)
      ensures vc == vertexCount + PrimitiveCounts(prims).vertices
      ensures ic == indexCount + PrimitiveCounts(prims).indices
    {
      vc, ic := vertexCount, indexCount;
      var j := 0;
      while j < |prims|
        invariant 0 <= j <= |prims|
        invariant vc + PrimitiveCounts(prims[j..]).vertices == vertexCount + PrimitiveCounts(prims).vertices
        invariant ic + PrimitiveCounts(prims[j..]).indices == indexCount + PrimitiveCounts(prims).indices
      {
        assert prims[j..][0] == prims[j] && prims[j..][1..] == prims[j + 1..];
        vc := vc + |prims[j].positions|;
        if prims[j].indices.Some? {
          ic := ic + |prims[j].indices.value.values|;
        }
        j := j + 1;
      }
      assert prims[j..] == [];
    }

    /**
     * Model::load_texture_samplers: append one sampler per glTF sampler,
     * the W address mode copied from V.
     */
    method LoadTextureSamplers(doc: Document)
      modifies this`samplers
      ensures samplers == old(samplers) + SamplersOf(doc.samplers)
      ensures old(samplers) == [] ==> samplers == SamplersOf(doc.samplers)
    {
      var k := 0;
      while k < |doc.samplers|
        invariant 0 <= k <= |doc.samplers|
        invariant samplers == old(samplers) + SamplersOf(doc.samplers[..k])
      {
        assert doc.samplers[..k + 1][..k] == doc.samplers[..k];
        var smpl := doc.samplers[k];
        var sampler := TextureSampler(GetAcFilter(smpl.magFilter), GetAcFilter(smpl.minFilter),
          GetAddressMode(smpl.wrapS), GetAddressMode(smpl.wrapT), Repeat);
        sampler := sampler.(addressModeW := sampler.addressModeV);
        samplers := samplers + [sampler];
        k := k + 1;
      }
      assert doc.samplers[..k] == doc.samplers;
    }

    /**
     * Model::load_textures: append one texture per glTF texture, with the
     * default sampler when it names none and the loaded sampler otherwise.
     */
    method LoadTextures(doc: Document)
      requires TexturesRefsOk(doc.textures, |doc.images|, |samplers|)
      modifies this`textures
      ensures textures == old(textures) + TexturesOf(doc.textures, samplers)
      ensures old(textures) == [] ==> textures == TexturesOf(doc.textures, samplers)
    {
      var k := 0;
      while k < |doc.textures|
        invariant 0 <= k <= |doc.textures|
        invariant textures == old(textures) + TexturesOf(doc.textures[..k], samplers)
      {
        assert doc.textures[..k + 1][..k] == doc.textures[..k];
        var tex := doc.textures[k];
        var image := doc.images[tex.source];
        var textureSampler: TextureSampler;
        if tex.sampler == -1 {
          textureSampler := TextureSampler(Filter.Linear, Filter.Linear, Repeat, Repeat, Repeat);
        } else {
          textureSampler := samplers[tex.sampler];
        }
        textures := textures + [Texture(tex.source, textureSampler)];
        k := k + 1;
      }
      assert doc.textures[..k] == doc.textures;
    }

    /**
     * Model::load_materials: append one material per glTF material, each
     * recording its position, then the default material for primitives
     * without one.
     */
    method LoadMaterials(doc: Document)
      requires forall k :: 0 <= k < |doc.materials| ==> TexturesOk(doc.materials[k], |textures|)
      modifies this`materials
      ensures materials == old(materials) + MaterialsOf(doc.materials, |old(materials)|, |textures|) + [DefaultMaterial]
      ensures old(materials) == [] ==> materials == MaterialsOf(doc.materials, 0, |textures|) + [DefaultMaterial]
    {
      ghost var pre := materials;
      var nt := |textures|;
      var k := 0;
      while k < |doc.materials|
        invariant 0 <= k <= |doc.materials|
        invariant materials == pre + MaterialsOf(doc.materials[..k], |pre|, nt)
      {
        var material := LoadMaterial(doc.materials[k], |materials|, nt);
        MaterialsOfSnoc(doc.materials, |pre|, nt, k, pre);
        materials := materials + [material];
        k := k + 1;
      }
      assert doc.materials[..k] == doc.materials;
      materials := materials + [DefaultMaterial];
    }

    /** Model::load_skins: append one skin per glTF skin, its nodes found among the loaded ones. */
    method LoadSkins(doc: Document)
      requires ValidArena(arena) && Above(arena, -1, roots)
      modifies this`skins
      ensures skins == old(skins) + SkinsFromDoc(arena, roots, doc.skins)
      ensures old(skins) == [] ==> skins == SkinsFromDoc(arena, roots, doc.skins)
    {
      ghost var pre := skins;
      var a, rs := arena, roots;
      var k := 0;
      while k < |doc.skins|
        invariant 0 <= k <= |doc.skins|
        invariant skins == pre + SkinsFromDoc(a, rs, doc.skins[..k])
      {
        var newSkin := LoadSkin(a, rs, doc.skins[k]);
        SkinsFromDocSnoc(a, rs, doc.skins, k, pre);
        skins := skins + [newSkin];
        k := k + 1;
      }
      assert doc.skins[..k] == doc.skins;
    }

    /**
     * The loop of load_from_file over the linear node list: assign each
     * node its skin when it has a skin index, then update it when it has a
     * mesh.
     */
    method InitialPose()
      requires PoseOk(arena, skins, matrices.Length) && BlocksOk(matrices[..])
      requires forall k :: 0 <= k < |linear| ==> linear[k] < |arena|
      modifies this`arena, matrices
      ensures (arena, matrices[..]) == PoseF(old(arena), skins, old(matrices[..]), linear)
    {
      var k := 0;
      while k < |linear|
        invariant 0 <= k <= |linear| && |arena| == old(|arena|)
        invariant PoseOk(arena, skins, matrices.Length) && BlocksOk(matrices[..])
        invariant PoseF(arena, skins, matrices[..], linear[k..]) == PoseF(old(arena), skins, old(matrices[..]), linear)
      {
        assert linear[k..][0] == linear[k] && linear[k..][1..] == linear[k + 1..];
        PoseStep(arena, skins, matrices[..], linear[k..]);
        PoseNode(linear[k]);
        k := k + 1;
      }
      assert linear[k..] == [];
    }

    /** One pass of InitialPose's loop: give node x its skin, then update x when it has a mesh. */
    method PoseNode(x: nat)
      requires PoseOk(arena, skins, matrices.Length) && BlocksOk(matrices[..]) && x < |arena|
      modifies this`arena, matrices
      ensures arena == AssignSkin(old(arena), x)
      ensures matrices[..] == if arena[x].mesh.Some? then WriteAll(arena, skins, old(matrices[..]), PreOrder(arena, x)) else old(matrices[..])
    {
      AssignSkinOk(arena, skins, matrices.Length, x);
      if arena[x].skinIndex > -1 {
        arena := arena[x := arena[x].(skin := Some(arena[x].skinIndex as nat))];
      }
      if arena[x].mesh.Some? {
        Update(arena, skins, matrices, x);
      }
    }

    /**
     * Model::calculate_bounding_box: box node id against its world matrix
     * (see NodeBoxes), then recurse into each child. `parent` only feeds a
     * local copy of the parent's bvh that the source widens and then drops;
     * that copy is not modelled.
     */
    method CalculateBoundingBox(id: nat, parent: Option<nat>, eval: Mat -> Mat4)
      requires ValidArena(arena) && id < |arena| && (parent.Some? ==> parent.value < |arena|)
      modifies this`arena
      ensures arena == CalcBoxF(old(arena), id, eval)
      decreases |arena| - id
    {
      ghost var a0 := arena;
      BoxOwn(id, eval);
      var kids := arena[id].children;
      CalcBoxUnfold(a0, id, eval);
      var k := 0;
      while k < |kids|
        invariant 0 <= k <= |kids| && |arena| == |a0|
        invariant ValidArena(arena) && Above(arena, id, kids[k..])
        invariant CalcKidsF(arena, id, kids[k..], eval) == CalcBoxF(a0, id, eval)
      {
        CalcKidsStep(arena, id, kids[k..], eval);
        assert kids[k..][0] == kids[k] && kids[k..][1..] == kids[k + 1..];
        CalculateBoundingBox(kids[k], Some(id), eval);
        k := k + 1;
      }
      assert kids[k..] == [];
    }

    /**
     * The part of calculate_bounding_box that boxes node id itself: a node
     * with a mesh whose box is valid gets the mesh box transformed by its
     * world matrix as aabb, and, when it has no children, as bvh too.
     */
    method BoxOwn(id: nat, eval: Mat -> Mat4)
      requires ValidArena(arena) && id < |arena|
      modifies this`arena
      ensures arena == old(arena)[id := Boxed(old(arena), eval, id)]
    {
      var node := arena[id];
      if node.mesh.Some? && node.mesh.value.bb.valid {
        var m := GetMatrix(arena, id);
        var box := GetAabb(node.mesh.value.bb, eval(m));
        node := node.(aabb := box);
        if |node.children| == 0 {
          node := node.(bvh := BoundingBox(box.min, box.max, true));
        }
      }
      arena := arena[id := node];
    }

    /**
     * Model::get_scene_dimensions: box every node of the linear list, fold
     * the valid bvhs into the extent starting from (FLT_MAX, -FLT_MAX), and
     * set aabb to the matrix mapping the unit cube onto the extent.
     */
    method GetSceneDimensions(eval: Mat -> Mat4)
      requires ValidArena(arena) && forall k :: 0 <= k < |linear| ==> linear[k] < |arena|
      modifies this`arena, this`dimensions, this`aabb
      ensures arena == BoxAllF(old(arena), linear, eval)
      ensures dimensions == DimensionsOf(arena, linear, InitialDimensions)
      ensures aabb == SceneAabb(dimensions)
    {
      ghost var a0 := arena;
      var k := 0;
      while k < |linear|
        invariant 0 <= k <= |linear| && |arena| == |a0| && ValidArena(arena)
        invariant BoxAllF(arena, linear[k..], eval) == BoxAllF(a0, linear, eval)
      {
        assert linear[k..][0] == linear[k] && linear[k..][1..] == linear[k + 1..];
        CalculateBoundingBox(linear[k], None, eval);
        k := k + 1;
      }
      assert linear[k..] == [];
      dimensions := Dimensions(Vec3(FLT_MAX, FLT_MAX, FLT_MAX), Vec3(-FLT_MAX, -FLT_MAX, -FLT_MAX));
      dimensions := FoldDimensions(arena, linear, dimensions);
      aabb := Mat4(
        Vec4(dimensions.max.x - dimensions.min.x, 0.0, 0.0, 0.0),
        Vec4(0.0, dimensions.max.y - dimensions.min.y, 0.0, 0.0),
        Vec4(0.0, 0.0, dimensions.max.z - dimensions.min.z, 0.0),
        Vec4(0.0, 0.0, 0.0, 1.0));
      aabb := aabb.(c3 := Vec4(dimensions.min.x, dimensions.min.y, dimensions.min.z, aabb.c3.w));
    }

    /**
     * Model::load_animations: append one animation per glTF animation, in
     * order; an unnamed one is named by its position among the model's
     * animations.
     */
    method LoadAnimations(doc: Document)
      requires ValidArena(arena) && Above(arena, -1, roots)
      modifies this`animations
      ensures animations == old(animations) + AnimationsFromDoc(arena, roots, doc.animations, |old(animations)|)
      ensures old(animations) == [] ==> animations == AnimationsFromDoc(arena, roots, doc.animations, 0)
    {
      ghost var pre := animations;
      var a, rs := arena, roots;
      var k := 0;
      while k < |doc.animations|
        invariant 0 <= k <= |doc.animations|
        invariant animations == pre + AnimationsFromDoc(a, rs, doc.animations[..k], |pre|)
      {
        var animation := LoadAnimation(a, rs, doc.animations[k], |animations|);
        AnimationsFromDocSnoc(a, rs, doc.animations, k, pre, animations, animation);
        animations := animations + [animation];
        k := k + 1;
      }
      assert doc.animations[..k] == doc.animations;
    }

    /**
     * The body of load_from_file once the document is decoded: samplers,
     * textures, materials; the matrix buffer, whose creation or mapping may
     * fail (`matrixBuffer`, when there are glTF meshes); the scene
     * (LoadScene); the animations, when there are any; the skins; the
     * initial pose; the extensions; the upload, whose checked calls may fail
     * (`upload`); and the scene dimensions. A failure is returned at once
     * with what was loaded so far.
     */
    method Import(doc: Document, eval: Mat -> Mat4, matrixBuffer: seq<AcResult>, upload: seq<AcResult>)
      returns (result: AcResult)
      requires Importable(doc) && Empty()
      modifies this
      ensures !MatrixBufferOk(doc, matrixBuffer) ==>
        result == FirstFailure(matrixBuffer) && State() == WithResources(old(State()), doc)
      ensures MatrixBufferOk(doc, matrixBuffer) && !FirstFailure(upload).Success? ==>
        result == FirstFailure(upload) && State() == UploadFailedF(doc, old(dimensions), old(aabb))
      ensures MatrixBufferOk(doc, matrixBuffer) && FirstFailure(upload).Success? ==>
        result == Success && State() == ImportF(doc, eval)
    {
      LoadResources(doc);
      if !MatrixBufferOk(doc, matrixBuffer) {
        return FirstFailure(matrixBuffer);
      }
      ghost var st;
      result, st := ImportScene(doc, eval, upload, dimensions, aabb);
      ImportFromLoaded(doc, eval, old(dimensions), old(aabb));
    }

    /**
     * The import once the resources are loaded and the matrix buffer is
     * made: the scene, loaded into st, then the rest.
     */
    method ImportScene(doc: Document, eval: Mat -> Mat4, upload: seq<AcResult>, ghost dims: Dimensions, ghost box: Mat4)
      returns (result: AcResult, ghost st: LoadState)
      requires Importable(doc) && animations == [] && skins == []
      requires ResourcesLoaded(doc) && dimensions == dims && aabb == box
      requires arena == [] && roots == [] && linear == [] && meshCount == 0
      modifies this`arena, this`roots, this`linear, this`meshCount, this`matrices, this`animations, this`skins
      modifies this`extensions, this`dimensions, this`aabb
      ensures st == Loaded(doc) && Ready(doc, st.arena, st.roots, st.linear, st.blocks)
      ensures result == FirstFailure(upload)
      ensures State() == if result.Success? then ImportFrom(doc, st, eval) else UploadFailedFrom(doc, st, dims, box)
    {
      st := LoadScene(doc);
      result := CompleteImport(doc, eval, st, upload, dims, box);
    }

    /** The rest of the import once the resources and the scene (st) are loaded. */
    method CompleteImport(doc: Document, eval: Mat -> Mat4, ghost st: LoadState, upload: seq<AcResult>,
                          ghost dims: Dimensions, ghost box: Mat4)
      returns (result: AcResult)
      requires ResourcesOk(doc) && animations == [] && skins == []
      requires ResourcesLoaded(doc) && dimensions == dims && aabb == box
      requires arena == st.arena && roots == st.roots && linear == st.linear && meshCount == st.meshCount
      requires matrices[..] == st.blocks && Ready(doc, st.arena, st.roots, st.linear, st.blocks)
      modifies this`arena, this`animations, this`skins, this`extensions, this`dimensions, this`aabb, matrices
      ensures result == FirstFailure(upload)
      ensures State() == if result.Success? then ImportFrom(doc, st, eval) else UploadFailedFrom(doc, st, dims, box)
    {
      result := FinishImport(doc, eval, upload);
    }

    /** The first steps of load_from_file's import: samplers, textures, then materials. */
    method LoadResources(doc: Document)
      requires Importable(doc) && samplers == [] && textures == [] && materials == []
      modifies this`samplers, this`textures, this`materials
      ensures ResourcesLoaded(doc)
    {
      LoadTextureSamplers(doc);
      LoadTextures(doc);
      LoadMaterials(doc);
    }

    /**
     * The steps of load_from_file after the roots are loaded: the
     * animations, when there are any; the skins; the initial pose; the
     * extensions; and, when the upload succeeds, the scene dimensions.
     */
    method FinishImport(doc: Document, eval: Mat -> Mat4, upload: seq<AcResult>) returns (result: AcResult)
      requires animations == [] && skins == [] && Ready(doc, arena, roots, linear, matrices[..])
      modifies this`arena, this`animations, this`skins, this`extensions, this`dimensions, this`aabb, matrices
      ensures result == FirstFailure(upload)
      ensures result.Success? ==>
        State() == Finished(doc, old(arena), roots, linear, meshCount, old(matrices[..]), samplers, textures, materials, eval)
      ensures !result.Success? ==>
        State() == Unboxed(doc, old(arena), roots, linear, meshCount, old(matrices[..]), samplers, textures, materials,
          old(dimensions), old(aabb))
    {
      ghost var a0, b0 := arena, matrices[..];
      ghost var posed;
      result, posed := FinishScene(doc, eval, upload);
      if result.Success? {
        FinishedFrom(doc, a0, roots, linear, meshCount, b0, samplers, textures, materials, eval,
          animations, skins, posed, matrices[..], arena, dimensions, aabb);
      }
    }

    /**
     * FinishImport's steps, each result named: the node data, the
     * extensions, the upload, then the boxes and the extent; posed is the
     * arena between the initial pose and the boxes. A failed upload returns
     * its failure before the boxes.
     */
    method FinishScene(doc: Document, eval: Mat -> Mat4, upload: seq<AcResult>) returns (result: AcResult, ghost posed: seq<Node>)
      requires animations == [] && skins == [] && Ready(doc, arena, roots, linear, matrices[..])
      modifies this`arena, this`animations, this`skins, this`extensions, this`dimensions, this`aabb, matrices
      ensures animations == AnimationsFromDoc(old(arena), roots, doc.animations, 0)
      ensures skins == SkinsFromDoc(old(arena), roots, doc.skins)
      ensures (posed, matrices[..]) == PoseF(old(arena), skins, old(matrices[..]), linear)
      ensures extensions == doc.extensionsUsed && result == FirstFailure(upload)
      ensures result.Success? ==>
        arena == BoxAllF(posed, linear, eval) && dimensions == DimensionsOf(arena, linear, InitialDimensions) &&
        aabb == SceneAabb(dimensions)
      ensures !result.Success? ==> arena == posed && dimensions == old(dimensions) && aabb == old(aabb)
    {
      posed := PrepareScene(doc);
      result := UploadAndMeasure(eval, upload);
    }

    /** The node data, then the extensions; posed is the arena after the initial pose. */
    method PrepareScene(doc: Document) returns (ghost posed: seq<Node>)
      requires animations == [] && skins == [] && Ready(doc, arena, roots, linear, matrices[..])
      modifies this`arena, this`animations, this`skins, this`extensions, matrices
      ensures animations == AnimationsFromDoc(old(arena), roots, doc.animations, 0)
      ensures skins == SkinsFromDoc(old(arena), roots, doc.skins)
      ensures (posed, matrices[..]) == PoseF(old(arena), skins, old(matrices[..]), linear)
      ensures arena == posed && extensions == doc.extensionsUsed
      ensures ValidArena(arena) && forall k :: 0 <= k < |linear| ==> linear[k] < |arena|
    {
      // The source calls load_animations only when there are animations;
      // with none it appends nothing, so the call is made unconditionally.
      LoadNodeData(doc);
      posed := arena;
      extensions := doc.extensionsUsed;
    }

    /**
     * The tail of load_from_file: the upload, whose first failing checked
     * call is returned at once, then get_scene_dimensions.
     */
    method UploadAndMeasure(eval: Mat -> Mat4, upload: seq<AcResult>) returns (result: AcResult)
      requires ValidArena(arena) && forall k :: 0 <= k < |linear| ==> linear[k] < |arena|
      modifies this`arena, this`dimensions, this`aabb
      ensures result == FirstFailure(upload)
      ensures result.Success? ==>
        arena == BoxAllF(old(arena), linear, eval) && dimensions == DimensionsOf(arena, linear, InitialDimensions) &&
        aabb == SceneAabb(dimensions)
      ensures !result.Success? ==> arena == old(arena) && dimensions == old(dimensions) && aabb == old(aabb)
    {
      result := FirstFailure(upload);
      if !result.Success? {
        return;
      }
      GetSceneDimensions(eval);
    }

    /** The animations and skins, read off the loaded nodes, then the initial pose. */
    method LoadNodeData(doc: Document)
      requires animations == [] && skins == [] && Ready(doc, arena, roots, linear, matrices[..])
      modifies this`arena, this`animations, this`skins, matrices
      ensures animations == AnimationsFromDoc(old(arena), roots, doc.animations, 0)
      ensures skins == SkinsFromDoc(old(arena), roots, doc.skins)
      ensures (arena, matrices[..]) == PoseF(old(arena), skins, old(matrices[..]), linear)
    {
      LoadAnimations(doc);
      LoadSkins(doc);
      InitialPose();
    }

    /**
     * The loop of load_from_file over the scene's roots: the vertex and
     * index totals get_node_props accumulates, starting from zero.
     */
    method SceneProps(doc: Document, sceneRoots: seq<nat>, ghost depth: nat) returns (vertexCount: nat, indexCount: nat)
      requires WellFormed(doc) && AllBounded(doc, sceneRoots, depth)
      ensures vertexCount == ForestCounts(doc, sceneRoots, depth).vertices
      ensures indexCount == ForestCounts(doc, sceneRoots, depth).indices
    {
      vertexCount, indexCount := 0, 0;
      var i := 0;
      while i < |sceneRoots|
        invariant 0 <= i <= |sceneRoots|
        invariant AllBounded(doc, sceneRoots[i..], depth)
        invariant vertexCount + ForestCounts(doc, sceneRoots[i..], depth).vertices ==
          ForestCounts(doc, sceneRoots, depth).vertices
        invariant indexCount + ForestCounts(doc, sceneRoots[i..], depth).indices ==
          ForestCounts(doc, sceneRoots, depth).indices
      {
        assert sceneRoots[i..][0] == sceneRoots[i] && sceneRoots[i..][1..] == sceneRoots[i + 1..];
        vertexCount, indexCount := GetNodeProps(doc, sceneRoots[i], vertexCount, indexCount, depth);
        i := i + 1;
      }
      assert sceneRoots[i..] == [];
    }

    /**
     * The scene part of load_from_file: choose the scene, total its vertex
     * and index counts with get_node_props, size the staging buffers by
     * them and the matrix buffer by the glTF meshes, then load every root.
     */
    method LoadScene(doc: Document) returns (ghost st: LoadState)
      requires Importable(doc) && |materials| == |doc.materials| + 1
      requires arena == [] && roots == [] && linear == [] && meshCount == 0
      modifies this`arena, this`roots, this`linear, this`meshCount, this`matrices
      ensures fresh(matrices) && st == Loaded(doc)
      ensures arena == st.arena && roots == st.roots && linear == st.linear && meshCount == st.meshCount
      ensures matrices[..] == st.blocks && Ready(doc, st.arena, st.roots, st.linear, st.blocks)
    {
      var sceneRoots := doc.scenes[if doc.defaultScene > -1 then doc.defaultScene else 0].nodes;
      ghost var depth := |doc.nodes|;
      var vertexCount, indexCount := SceneProps(doc, sceneRoots, depth);
      var info := new LoaderInfo(seq(vertexCount, k => BlankVertex), seq(indexCount, k => 0));
      matrices := new UniformBlock[|doc.meshes|](k => BlankBlock);
      ghost var c := ForestCounts(doc, sceneRoots, depth);
      assert vertexCount == c.vertices && indexCount == c.indices;
      assert matrices[..] == seq(|doc.meshes|, k => BlankBlock);
      assert info.vertexBuffer[..] == seq(c.vertices, k => BlankVertex);
      assert info.indexBuffer[..] == seq(c.indices, k => 0);
      assert Snapshot(info) == Start(doc, c);
      LoadRoots(info, doc, sceneRoots, depth);
      LoadedOk(doc);
      st := Loaded(doc);
    }

    /**
     * Model::load_from_file. A file that cannot be opened or read returns
     * that call's own result and changes nothing; a document that does not
     * decode gives the unknown error and changes nothing; otherwise the
     * document is imported (Import), returning the first failure of the
     * matrix buffer's or the upload's checked calls with what was loaded so
     * far. `fileOpen` and `fileRead` stand for the results of ac_create_file
     * and ac_file_read, `text` and `binary` for the two decoders' results on
     * the file's bytes, `matrixBuffer` and `upload` for the results of those
     * checked calls in the order they are made, and `eval` for the
     * floating-point evaluation of matrix products.
     */
    method LoadFromFile(filename: string, fileOpen: AcResult, fileRead: AcResult, text: Option<Document>,
                        binary: Option<Document>, matrixBuffer: seq<AcResult>, upload: seq<AcResult>, eval: Mat -> Mat4)
      returns (result: AcResult)
      requires Empty()
      requires Parsed(filename, text, binary).Some? ==> Importable(Parsed(filename, text, binary).value)
      modifies this
      ensures var file := FirstFailure([fileOpen, fileRead]);
        !file.Success? ==> result == file && State() == old(State())
      ensures FirstFailure([fileOpen, fileRead]).Success? && Parsed(filename, text, binary).None? ==>
        result == UnknownError && State() == old(State())
      ensures FirstFailure([fileOpen, fileRead]).Success? && Parsed(filename, text, binary).Some? ==>
        var doc := Parsed(filename, text, binary).value;
        (!MatrixBufferOk(doc, matrixBuffer) ==>
          result == FirstFailure(matrixBuffer) && State() == WithResources(old(State()), doc)) &&
        (MatrixBufferOk(doc, matrixBuffer) && !FirstFailure(upload).Success? ==>
          result == FirstFailure(upload) && State() == UploadFailedF(doc, old(dimensions), old(aabb))) &&
        (MatrixBufferOk(doc, matrixBuffer) && FirstFailure(upload).Success? ==>
          result == Success && State() == ImportF(doc, eval))
    {
      ghost var file := [fileOpen, fileRead];
      assert file[1..] == [fileRead] && file[1..][1..] == [];
      if !fileOpen.Success? {
        return fileOpen;
      }
      if !fileRead.Success? {
        return fileRead;
      }
      assert FirstFailure(file) == FirstFailure(file[1..]) == FirstFailure(file[1..][1..]) == Success;
      var binaryFile := false;
      var extpos := LastDot(filename);
      if extpos.Some? {
        binaryFile := filename[extpos.value + 1..] == "glb";
      }
      var fileLoaded := if binaryFile then binary else text;
      if fileLoaded.None? {
        return UnknownError;
      }
      result := Import(fileLoaded.value, eval, matrixBuffer, upload);
    }

    /**
     * Model::update_animation: an index past the last animation changes
     * nothing; otherwise every channel is evaluated at `time` and, when any
     * fired, every root is updated (AnimateScene).
     */
    method UpdateAnimation(index: nat, time: real)
      requires SceneOk(arena, skins, matrices.Length) && BlocksOk(matrices[..]) && Above(arena, -1, roots)
      requires index < |animations| ==> ChannelsFit(arena, animations[index], animations[index].channels)
      modifies this`arena, matrices
      ensures index < |animations| ==>
        (arena, matrices[..]) == AnimateScene(old(arena), skins, old(matrices[..]), roots, animations[index], time)
      ensures index >= |animations| ==> arena == old(arena) && matrices[..] == old(matrices[..])
    {
      if |animations| == 0 || index > |animations| - 1 {
        return;
      }
      var animation := animations[index];
      var channels := animation.channels;
      ghost var a0 := arena;
      var updated := false;
      var k := 0;
      while k < |channels|
        invariant 0 <= k <= |channels| && SameShape(a0, arena)
        invariant matrices[..] == old(matrices[..])
        invariant ChannelsFit(arena, animation, channels[k..])
        invariant var rest := ApplyChannels(arena, animation, channels[k..], time);
          (rest.0, updated || rest.1) == ApplyChannels(a0, animation, channels, time)
      {
        var c := channels[k];
        assert channels[k..][0] == c && channels[k..][1..] == channels[k + 1..];
        var fired;
        arena, fired := EvaluateChannel(arena, c, animation.samplers[c.samplerIndex], time);
        updated := updated || fired;
        k := k + 1;
      }
      assert channels[k..] == [];
      SameShapeSceneOk(a0, arena, skins, matrices.Length);
      if updated {
        UpdateRoots(arena, skins, matrices, roots);
      }
    }
  }
}

=== FILE: objmodel.dfy ===
/**
 * The model sample (02_model/main.cpp): load_model turns the corners of an
 * OBJ mesh into an indexed vertex list, keeping one vertex per distinct
 * (position, uv) pair, and create_texture stages the decoded image for
 * upload.
 *
 * Floats are reals; the tinyobj and stb_image decoders are not modelled:
 * their outputs are parameters.
 */
module ObjModel {
  import opened Wrappers
  import opened LinAlg
  import opened Staging
  import opened Ac

  /* Vertices and their hash */

  /** A vertex: position and texture coordinate. Vertex::operator== is equality of both. */
  datatype Vertex = Vertex(pos: Vec3, uv: Vec2)

  /** size_t hash_combine(seed, hash): seed ^= hash + 0x9e3779b9 + (seed << 6) + (seed >> 2), wrapping modulo 2^64. */
  function HashCombine(seed: bv64, hash: bv64): bv64 {
    seed ^ (hash + 0x9e3779b9 + (seed << 6) + (seed >> 2))
  }

  /** std::hash<glm::vec2>: both components' float hashes combined into seed 0. */
  function Vec2Hash(floatHash: real -> bv64, v: Vec2): bv64 {
    HashCombine(HashCombine(0, floatHash(v.x)), floatHash(v.y))
  }

  /** std::hash<glm::vec3>: the three components' float hashes combined into seed 0. */
  function Vec3Hash(floatHash: real -> bv64, v: Vec3): bv64 {
    HashCombine(HashCombine(HashCombine(0, floatHash(v.x)), floatHash(v.y)), floatHash(v.z))
  }

  /** std::hash<Vertex>: (hash(pos) >> 1) ^ (hash(uv) << 1). */
  function VertexHash(floatHash: real -> bv64, v: Vertex): bv64 {
    (Vec3Hash(floatHash, v.pos) >> 1) ^ (Vec2Hash(floatHash, v.uv) << 1)
  }

  /* The parsed OBJ */

  /** A corner of a face: indices into the position and texture-coordinate arrays (tinyobj::index_t). */
  datatype Index = Index(vertexIndex: int, texcoordIndex: int)

  datatype Shape = Shape(indices: seq<Index>)

  /** What the OBJ reader hands back: flat position and texture-coordinate arrays, and the shapes. */
  datatype ObjData = ObjData(vertices: seq<real>, texcoords: seq<real>, shapes: seq<Shape>)

  /** The corner's positions and texture coordinates exist; reading outside the arrays is undefined in the source. */
  predicate IndexOk(o: ObjData, idx: Index) {
    0 <= idx.vertexIndex && 3 * idx.vertexIndex + 2 < |o.vertices| &&
    0 <= idx.texcoordIndex && 2 * idx.texcoordIndex + 1 < |o.texcoords|
  }

  predicate ObjOk(o: ObjData) {
    forall s, j :: 0 <= s < |o.shapes| && 0 <= j < |o.shapes[s].indices| ==> IndexOk(o, o.shapes[s].indices[j])
  }

  /** The vertex of a corner: three position floats, and the texture coordinate with v flipped to 1 - v. */
  function VertexOf(o: ObjData, idx: Index): (v: Vertex)
    requires IndexOk(o, idx)
    ensures v.pos == Vec3(o.vertices[3 * idx.vertexIndex], o.vertices[3 * idx.vertexIndex + 1], o.vertices[3 * idx.vertexIndex + 2])
    ensures v.uv.x == o.texcoords[2 * idx.texcoordIndex] && v.uv.y + o.texcoords[2 * idx.texcoordIndex + 1] == 1.0
  {
    var p, t := 3 * idx.vertexIndex, 2 * idx.texcoordIndex;
    Vertex(Vec3(o.vertices[p], o.vertices[p + 1], o.vertices[p + 2]), Vec2(o.texcoords[t], 1.0 - o.texcoords[t + 1]))
  }

  /** The vertices of one shape's corners, in order. */
  function ShapeCorners(o: ObjData, sh: Shape): (cs: seq<Vertex>)
    requires forall j :: 0 <= j < |sh.indices| ==> IndexOk(o, sh.indices[j])
    ensures |cs| == |sh.indices|
  {
    seq(|sh.indices|, j requires 0 <= j < |sh.indices| => VertexOf(o, sh.indices[j]))
  }

  /** The vertices of every corner of the given shapes, shape by shape. */
  function Corners(o: ObjData, shapes: seq<Shape>): seq<Vertex>
    requires forall s, j :: 0 <= s < |shapes| && 0 <= j < |shapes[s].indices| ==> IndexOk(o, shapes[s].indices[j])
  {
    if shapes == [] then [] else Corners(o, shapes[..|shapes| - 1]) + ShapeCorners(o, shapes[|shapes| - 1])
  }

  /** The number of corners of the given shapes. */
  function CornerCount(shapes: seq<Shape>): nat {
    if shapes == [] then 0 else CornerCount(shapes[..|shapes| - 1]) + |shapes[|shapes| - 1].indices|
  }

  /** There is one vertex per corner. */
  lemma {:induction false} CornersCount(o: ObjData, shapes: seq<Shape>)
    requires forall s, j :: 0 <= s < |shapes| && 0 <= j < |shapes[s].indices| ==> IndexOk(o, shapes[s].indices[j])
    ensures |Corners(o, shapes)| == CornerCount(shapes)
  {
    if shapes != [] {
      CornersCount(o, shapes[..|shapes| - 1]);
    }
  }

  /* Deduplication */

  /** The distinct vertices of cs in order of first occurrence. */
  function Unique(cs: seq<Vertex>): seq<Vertex> {
    if cs == [] then []
    else
      var u := Unique(cs[..|cs| - 1]);
      if cs[|cs| - 1] in u then u else u + [cs[|cs| - 1]]
  }

  /** The position of v in u. */
  function Position(u: seq<Vertex>, v: Vertex): (i: nat)
    requires v in u
    ensures i < |u| && u[i] == v
  {
    if u[0] == v then 0 else assert u == [u[0]] + u[1..]; 1 + Position(u[1..], v)
  }

  /** The position is the first occurrence. */
  lemma {:induction false} PositionFirst(u: seq<Vertex>, v: Vertex)
    requires v in u
    ensures forall j :: 0 <= j < Position(u, v) ==> u[j] != v
  {
    if u[0] != v {
      assert u == [u[0]] + u[1..];
      PositionFirst(u[1..], v);
    }
  }

  /** The index load_model pushes for each corner: where its vertex sits in the vertex list, after base vertices already there. */
  function Indices(cs: seq<Vertex>, base: nat): (r: seq<nat>)
    ensures |r| == |cs|
  {
    if cs == [] then []
    else
      UniqueHas(cs, |cs| - 1);
      Indices(cs[..|cs| - 1], base) + [base + Position(Unique(cs), cs[|cs| - 1])]
  }

  /** The distinct vertices are the vertices of cs, no more and no fewer. */
  lemma {:induction false} UniqueElements(cs: seq<Vertex>)
    ensures forall v :: v in Unique(cs) <==> v in cs
  {
    if cs != [] {
      var pre := cs[..|cs| - 1];
      UniqueElements(pre);
      assert cs == pre + [cs[|cs| - 1]];
    }
  }

  lemma UniqueHas(cs: seq<Vertex>, k: nat)
    requires k < |cs|
    ensures cs[k] in Unique(cs)
  {
    UniqueElements(cs);
  }

  /** No vertex appears twice among the distinct vertices. */
  lemma {:induction false} UniqueNoDuplicates(cs: seq<Vertex>)
    ensures forall i, j :: 0 <= i < j < |Unique(cs)| ==> Unique(cs)[i] != Unique(cs)[j]
  {
    if cs != [] {
      UniqueNoDuplicates(cs[..|cs| - 1]);
    }
  }

  /** The distinct vertices of a prefix are a prefix of the distinct vertices. */
  lemma {:induction false} UniquePrefix(cs: seq<Vertex>, n: nat)
    requires n <= |cs|
    ensures Unique(cs[..n]) <= Unique(cs)
    decreases |cs| - n
  {
    if n < |cs| {
      var pre := cs[..|cs| - 1];
      UniquePrefix(pre, n);
      assert pre[..n] == cs[..n];
    } else {
      assert cs[..n] == cs;
    }
  }

  /** In an extension of u, a vertex of u keeps its position. */
  lemma PositionInPrefix(u: seq<Vertex>, w: seq<Vertex>, v: Vertex)
    requires u <= w && v in u
    ensures v in w && Position(w, v) == Position(u, v)
  {
    var i := Position(u, v);
    assert w[i] == u[i];
    PositionAtMost(w, v, i);
    var j := Position(w, v);
    assert u[j] == w[j];
    PositionAtMost(u, v, j);
  }

  /** The position is at most any index holding the vertex. */
  lemma {:induction false} PositionAtMost(u: seq<Vertex>, v: Vertex, i: nat)
    requires i < |u| && u[i] == v
    ensures Position(u, v) <= i
  {
    if u[0] != v {
      PositionAtMost(u[1..], v, i - 1);
    }
  }

  /**
   * The round trip: the index pushed for corner k addresses, among the
   * distinct vertices, exactly the vertex of corner k.
   */
  lemma {:induction false} IndicesRoundTrip(cs: seq<Vertex>, base: nat, k: nat)
    requires k < |cs|
    ensures base <= Indices(cs, base)[k] < base + |Unique(cs)|
    ensures Unique(cs)[Indices(cs, base)[k] - base] == cs[k]
  {
    var pre := cs[..|cs| - 1];
    UniqueHas(cs, |cs| - 1);
    var last := base + Position(Unique(cs), cs[|cs| - 1]);
    assert Indices(cs, base) == Indices(pre, base) + [last];
    if k < |cs| - 1 {
      IndicesRoundTrip(pre, base, k);
      assert pre[k] == cs[k] && Indices(cs, base)[k] == Indices(pre, base)[k];
      UniquePrefix(cs, |cs| - 1);
      PositionInPrefix(Unique(pre), Unique(cs), cs[k]);
    }
  }

  /**
   * First-occurrence order: a distinct vertex earlier in the list first
   * occurs among the corners before a later one does.
   */
  lemma {:induction false} UniqueFirstOccurrence(cs: seq<Vertex>, i: nat, j: nat)
    requires i < j < |Unique(cs)|
    ensures Unique(cs)[i] in cs && Unique(cs)[j] in cs
    ensures Position(cs, Unique(cs)[i]) < Position(cs, Unique(cs)[j])
  {
    UniqueElements(cs);
    var pre := cs[..|cs| - 1];
    var last := cs[|cs| - 1];
    assert cs == pre + [last];
    var u := Unique(cs);
    if j < |Unique(pre)| {
      UniqueFirstOccurrence(pre, i, j);
      PositionInPrefix(pre, cs, u[i]);
      PositionInPrefix(pre, cs, u[j]);
    } else {
      UniqueElements(pre);
      assert u[i] == Unique(pre)[i] && u[i] in pre;
      PositionInPrefix(pre, cs, u[i]);
      assert u[j] == last && last !in pre;
    }
  }

  /* load_model */

  /** The vertex and index lists load_model appends to. */
  class MeshData {
    var vertices: seq<Vertex>
    var indices: seq<nat>

    constructor ()
      ensures vertices == [] && indices == []
    {
      vertices, indices := [], [];
    }
  }

  /** The decoded texture: its size and its RGBA8 texels. */
  class TextureData {
    var width: nat
    var height: nat
    var data: seq<bv8>

    constructor ()
      ensures width == 0 && height == 0 && data == []
    {
      width, height, data := 0, 0, [];
    }
  }

  /** What stb_image decodes the texture file into, four bytes per texel. */
  datatype DecodedImage = DecodedImage(width: nat, height: nat, pixels: seq<bv8>)

  /** The map of load_model: exactly the vertices of u, each to base plus its position in u. */
  ghost predicate IndexMap(m: map<Vertex, nat>, u: seq<Vertex>, base: nat) {
    (forall w :: w in m <==> w in u) &&
    (forall w :: w in m ==> w in u && m[w] == base + Position(u, w))
  }

  /** One more corner: its vertex joins the distinct vertices exactly when it is new. */
  lemma UniqueSnoc(done: seq<Vertex>, v: Vertex)
    ensures Unique(done + [v]) == if v in Unique(done) then Unique(done) else Unique(done) + [v]
  {
    assert (done + [v])[..|done|] == done;
  }

  /** One more corner: its index is base plus its vertex's position among the distinct vertices. */
  lemma IndicesSnoc(done: seq<Vertex>, v: Vertex, base: nat)
    ensures v in Unique(done + [v])
    ensures Indices(done + [v], base) == Indices(done, base) + [base + Position(Unique(done + [v]), v)]
  {
    var cs := done + [v];
    assert cs[..|cs| - 1] == done;
    UniqueHas(cs, |done|);
  }

  /** Mapping a new vertex to the next position keeps the map exact. */
  lemma IndexMapAdd(m: map<Vertex, nat>, u: seq<Vertex>, base: nat, v: Vertex)
    requires IndexMap(m, u, base) && v !in m
    ensures IndexMap(m[v := base + |u|], u + [v], base)
  {
    var m', u' := m[v := base + |u|], u + [v];
    forall w | w in m'
      ensures w in u' && m'[w] == base + Position(u', w)
    {
      if w != v {
        PositionInPrefix(u, u', w);
      } else {
        PositionFirst(u', v);
        assert u'[|u|] == v;
      }
    }
  }

  /** The map load_model has built once the distinct vertices u were met: each mapped to base plus its position. */
  function MapOf(u: seq<Vertex>, base: nat): map<Vertex, nat> {
    if u == [] then map[] else MapOf(u[..|u| - 1], base)[u[|u| - 1] := base + |u| - 1]
  }

  /** Over a list without repeats, that map is exact: it maps the list's vertices, each to base plus its position. */
  lemma {:induction false} MapOfIndexMap(u: seq<Vertex>, base: nat)
    requires forall i, j :: 0 <= i < j < |u| ==> u[i] != u[j]
    ensures IndexMap(MapOf(u, base), u, base)
  {
    if u != [] {
      var p := u[..|u| - 1];
      MapOfIndexMap(p, base);
      assert u == p + [u[|u| - 1]];
      IndexMapAdd(MapOf(p, base), p, base, u[|u| - 1]);
    }
  }

  /** The same, for one vertex. */
  lemma MapOfAt(u: seq<Vertex>, base: nat, v: Vertex)
    requires forall i, j :: 0 <= i < j < |u| ==> u[i] != u[j]
    ensures v in MapOf(u, base) <==> v in u
    ensures v in u ==> MapOf(u, base)[v] == base + Position(u, v)
  {
    MapOfIndexMap(u, base);
  }

  /** The map over the distinct vertices of the corners seen, for one vertex. */
  lemma UniqueMapAt(done: seq<Vertex>, base: nat, v: Vertex)
    ensures v in MapOf(Unique(done), base) <==> v in Unique(done)
    ensures v in Unique(done) ==> MapOf(Unique(done), base)[v] == base + Position(Unique(done), v)
  {
    UniqueNoDuplicates(done);
    MapOfAt(Unique(done), base, v);
  }

  /**
   * One corner, on the lists as they stand: its vertex is looked up in the
   * map; a new one is appended to the vertex list and mapped to its
   * position; then the mapped index is appended to the index list.
   */
  method AddCorner(vertices: seq<Vertex>, indices: seq<nat>, unique: map<Vertex, nat>, v: Vertex,
                   ghost v0: seq<Vertex>, ghost i0: seq<nat>, ghost done: seq<Vertex>)
    returns (vertices': seq<Vertex>, indices': seq<nat>, unique': map<Vertex, nat>)
    requires vertices == v0 + Unique(done) && indices == i0 + Indices(done, |v0|)
    requires unique == MapOf(Unique(done), |v0|)
    ensures vertices' == v0 + Unique(done + [v]) && indices' == i0 + Indices(done + [v], |v0|)
    ensures unique' == MapOf(Unique(done + [v]), |v0|)
  {
    ghost var u := Unique(done);
    UniqueMapAt(done, |v0|, v);
    if v !in unique {
      NewCorner(v, done, |v0|);
      unique' := unique[v := |vertices|];
      vertices' := vertices + [v];
      SnocAssoc(v0, u, v);
    } else {
      SeenCorner(v, done, |v0|);
      unique', vertices' := unique, vertices;
    }
    indices' := indices + [unique'[v]];
    SnocAssoc(i0, Indices(done, |v0|), unique'[v]);
  }

  /** Appending to a concatenation appends to its second part. */
  lemma SnocAssoc<T>(a: seq<T>, b: seq<T>, x: T)
    ensures (a + b) + [x] == a + (b + [x])
  {
  }

  /** A corner whose vertex is new: it is appended, and its index is the next position. */
  lemma NewCorner(v: Vertex, done: seq<Vertex>, base: nat)
    requires v !in Unique(done)
    ensures Unique(done + [v]) == Unique(done) + [v]
    ensures Indices(done + [v], base) == Indices(done, base) + [base + |Unique(done)|]
    ensures MapOf(Unique(done + [v]), base) == MapOf(Unique(done), base)[v := base + |Unique(done)|]
  {
    var u := Unique(done);
    assert (u + [v])[..|u|] == u;
    UniqueSnoc(done, v);
    IndicesSnoc(done, v, base);
    PositionFirst(u + [v], v);
    assert (u + [v])[|u|] == v;
  }

  /** A corner whose vertex was seen: the lists of distinct vertices and the map stay. */
  lemma SeenCorner(v: Vertex, done: seq<Vertex>, base: nat)
    requires v in Unique(done)
    ensures Unique(done + [v]) == Unique(done)
    ensures Indices(done + [v], base) == Indices(done, base) + [base + Position(Unique(done), v)]
  {
    UniqueSnoc(done, v);
    IndicesSnoc(done, v, base);
  }

  /**
   * The loops of load_model over the shapes and their corners. The vertex
   * list gains the corners' distinct vertices in first-occurrence order,
   * and the index list one index per corner, the position of its vertex.
   */
  method DedupCorners(mesh: MeshData, o: ObjData)
    requires ObjOk(o)
    modifies mesh
    ensures mesh.vertices == old(mesh.vertices) + Unique(Corners(o, o.shapes))
    ensures mesh.indices == old(mesh.indices) + Indices(Corners(o, o.shapes), |old(mesh.vertices)|)
  {
    ghost var v0, i0 := mesh.vertices, mesh.indices;
    var unique: map<Vertex, nat> := map[];
    ghost var done: seq<Vertex> := [];
    assert mesh.vertices == v0 + Unique(done) && mesh.indices == i0 + Indices(done, |v0|);
    for s := 0 to |o.shapes|
      invariant done == Corners(o, o.shapes[..s])
      invariant mesh.vertices == v0 + Unique(done) && mesh.indices == i0 + Indices(done, |v0|)
      invariant unique == MapOf(Unique(done), |v0|)
    {
      unique := DedupShape(mesh, unique, o, o.shapes[s], v0, i0, done);
      assert o.shapes[..s + 1][..s] == o.shapes[..s];
      done := done + ShapeCorners(o, o.shapes[s]);
    }
    assert o.shapes[..|o.shapes|] == o.shapes;
  }

  /** The inner loop of load_model: the corners of one shape, in order. */
  method DedupShape(mesh: MeshData, unique: map<Vertex, nat>, o: ObjData, shape: Shape,
                    ghost v0: seq<Vertex>, ghost i0: seq<nat>, ghost before: seq<Vertex>)
    returns (unique': map<Vertex, nat>)
    requires forall i :: 0 <= i < |shape.indices| ==> IndexOk(o, shape.indices[i])
    requires mesh.vertices == v0 + Unique(before) && mesh.indices == i0 + Indices(before, |v0|)
    requires unique == MapOf(Unique(before), |v0|)
    modifies mesh
    ensures mesh.vertices == v0 + Unique(before + ShapeCorners(o, shape))
    ensures mesh.indices == i0 + Indices(before + ShapeCorners(o, shape), |v0|)
    ensures unique' == MapOf(Unique(before + ShapeCorners(o, shape)), |v0|)
  {
    unique' := unique;
    ghost var done := before;
    for j := 0 to |shape.indices|
      invariant done == before + ShapeCorners(o, shape)[..j]
      invariant mesh.vertices == v0 + Unique(done) && mesh.indices == i0 + Indices(done, |v0|)
      invariant unique' == MapOf(Unique(done), |v0|)
    {
      var vertex := VertexOf(o, shape.indices[j]);
      mesh.vertices, mesh.indices, unique' := AddCorner(mesh.vertices, mesh.indices, unique', vertex, v0, i0, done);
      CornerStep(o, shape, before, done, j);
      done := done + [vertex];
    }
    assert ShapeCorners(o, shape)[..|shape.indices|] == ShapeCorners(o, shape);
  }

  /** The corners seen grow by the vertex of the next corner of the shape. */
  lemma CornerStep(o: ObjData, shape: Shape, before: seq<Vertex>, done: seq<Vertex>, j: nat)
    requires forall i :: 0 <= i < |shape.indices| ==> IndexOk(o, shape.indices[i])
    requires j < |shape.indices| && done == before + ShapeCorners(o, shape)[..j]
    ensures done + [VertexOf(o, shape.indices[j])] == before + ShapeCorners(o, shape)[..j + 1]
  {
    assert ShapeCorners(o, shape)[..j + 1] == ShapeCorners(o, shape)[..j] + [VertexOf(o, shape.indices[j])];
  }

  /**
   * App::load_model. Opening or reading either file ends it with that
   * failure; otherwise the texture receives the decoded image (its texels
   * inserted in front of what it held). A file that does not parse as OBJ
   * gives the unknown error with the mesh lists untouched; otherwise the
   * corners are deduplicated into them.
   */
  method LoadModel(mesh: MeshData, texture: TextureData,
                   objFile: AcResult, objRead: AcResult, pngFile: AcResult, pngRead: AcResult,
                   image: DecodedImage, parsed: Option<ObjData>)
    returns (r: AcResult)
    requires mesh != texture as object
    requires image.width * image.height * 4 <= |image.pixels|
    requires parsed.Some? ==> ObjOk(parsed.value)
    modifies mesh, texture
    ensures var files := FirstFailure([objFile, objRead, pngFile, pngRead]);
      r == if !files.Success? then files else if parsed.None? then UnknownError else Success
    ensures FirstFailure([objFile, objRead, pngFile, pngRead]).Success? ==>
      texture.width == image.width && texture.height == image.height &&
      texture.data == image.pixels[..image.width * image.height * 4] + old(texture.data)
    ensures !FirstFailure([objFile, objRead, pngFile, pngRead]).Success? ==>
      texture.width == old(texture.width) && texture.height == old(texture.height) && texture.data == old(texture.data)
    ensures r.Success? ==> parsed.Some?
    ensures r.Success? ==> mesh.vertices == old(mesh.vertices) + Unique(Corners(parsed.value, parsed.value.shapes))
    ensures r.Success? ==>
      mesh.indices == old(mesh.indices) + Indices(Corners(parsed.value, parsed.value.shapes), |old(mesh.vertices)|)
    ensures !r.Success? ==> mesh.vertices == old(mesh.vertices) && mesh.indices == old(mesh.indices)
  {
    ghost var rs := [objFile, objRead, pngFile, pngRead];
    assert rs[1..] == [objRead, pngFile, pngRead] && rs[1..][1..] == [pngFile, pngRead] && rs[1..][1..][1..] == [pngRead];
    assert rs[1..][1..][1..][1..] == [];
    if !objFile.Success? {
      return objFile;
    }
    if !objRead.Success? {
      return objRead;
    }
    assert FirstFailure(rs) == FirstFailure(rs[1..][1..]);
    if !pngFile.Success? {
      return pngFile;
    }
    assert FirstFailure(rs) == FirstFailure(rs[1..][1..][1..]);
    if !pngRead.Success? {
      return pngRead;
    }
    assert FirstFailure(rs) == FirstFailure(rs[1..][1..][1..][1..]);
    texture.width := image.width;
    texture.height := image.height;
    texture.data := image.pixels[..image.width * image.height * 4] + texture.data;
    if parsed.None? {
      return UnknownError;
    }
    DedupCorners(mesh, parsed.value);
    r := Success;
  }

  /** Every index load_model pushes for a parsed file addresses, in the final vertex list, the vertex of its corner. */
  lemma LoadedIndicesRoundTrip(v0: seq<Vertex>, i0: seq<nat>, o: ObjData, k: nat)
    requires ObjOk(o) && k < |Corners(o, o.shapes)|
    ensures var cs := Corners(o, o.shapes);
      var vertices, indices := v0 + Unique(cs), i0 + Indices(cs, |v0|);
      |indices| == |i0| + CornerCount(o.shapes) &&
      |v0| <= indices[|i0| + k] < |vertices| && vertices[indices[|i0| + k]] == cs[k]
  {
    var cs := Corners(o, o.shapes);
    CornersCount(o, o.shapes);
    IndicesRoundTrip(cs, |v0|, k);
  }

  /** The vertices load_model appends are pairwise distinct, and each is the vertex of some corner. */
  lemma LoadedVerticesDistinct(o: ObjData)
    requires ObjOk(o)
    ensures var u := Unique(Corners(o, o.shapes));
      (forall i, j :: 0 <= i < j < |u| ==> u[i] != u[j]) && (forall v :: v in u <==> v in Corners(o, o.shapes))
  {
    UniqueNoDuplicates(Corners(o, o.shapes));
    UniqueElements(Corners(o, o.shapes));
  }

  /* create_texture */

  /** The bytes of one texel of the RGBA8 sRGB texture. */
  const RGBA8_BYTES: nat := 4

  /**
   * App::create_texture: the image, the staging buffer and its mapping are
   * created in turn, each failure ending the function; then the texture's
   * rows are copied to their padded offsets in the mapped buffer, and the
   * upload is recorded and submitted, the pool, command buffer, submit and
   * wait failures ending it in turn.
   */
  method CreateTexture(texture: TextureData, rowAlign: nat, imageAlign: nat, mapped: array<bv8>,
                       image: AcResult, buffer: AcResult, mapping: AcResult, pool: AcResult, cmd: AcResult,
                       submit: AcResult, wait: AcResult)
    returns (r: AcResult)
    requires rowAlign > 0 && imageAlign > 0
    requires mapped.Length == LayoutOf(texture.width, texture.height, RGBA8_BYTES, rowAlign, imageAlign).size
    requires texture.height * (texture.width * RGBA8_BYTES) <= |texture.data|
    modifies mapped
    ensures r == FirstFailure([image, buffer, mapping, pool, cmd, submit, wait])
    ensures var l := LayoutOf(texture.width, texture.height, RGBA8_BYTES, rowAlign, imageAlign);
      mapped[..] == if image.Success? && buffer.Success? && mapping.Success?
        then Staged(old(mapped[..]), texture.data, texture.height, l.srcRow, l.dstRow) else old(mapped[..])
  {
    var first, rest := [image, buffer, mapping], [pool, cmd, submit, wait];
    assert first + rest == [image, buffer, mapping, pool, cmd, submit, wait];
    FirstFailureAppend(first, rest);
    r := StageTexture(texture, rowAlign, imageAlign, mapped, image, buffer, mapping);
    if !r.Success? {
      return;
    }
    r := SubmitUpload(pool, cmd, submit, wait);
  }

  /**
   * The first half of create_texture: image, staging buffer and mapping,
   * then the row copy, which happens only when all three succeeded.
   */
  method StageTexture(texture: TextureData, rowAlign: nat, imageAlign: nat, mapped: array<bv8>,
                      image: AcResult, buffer: AcResult, mapping: AcResult)
    returns (r: AcResult)
    requires rowAlign > 0 && imageAlign > 0
    requires mapped.Length == LayoutOf(texture.width, texture.height, RGBA8_BYTES, rowAlign, imageAlign).size
    requires texture.height * (texture.width * RGBA8_BYTES) <= |texture.data|
    modifies mapped
    ensures r == FirstFailure([image, buffer, mapping])
    ensures var l := LayoutOf(texture.width, texture.height, RGBA8_BYTES, rowAlign, imageAlign);
      mapped[..] == if image.Success? && buffer.Success? && mapping.Success?
        then Staged(old(mapped[..]), texture.data, texture.height, l.srcRow, l.dstRow) else old(mapped[..])
  {
    if !image.Success? {
      return image;
    }
    assert [image, buffer, mapping][1..] == [buffer, mapping];
    if !buffer.Success? {
      return buffer;
    }
    assert [buffer, mapping][1..] == [mapping];
    assert FirstFailure([image, buffer, mapping]) == FirstFailure([mapping]);
    if !mapping.Success? {
      return mapping;
    }
    assert [mapping][1..] == [];
    assert FirstFailure([mapping]) == FirstFailure([]) == Success;
    StageImage(mapped, texture.data, texture.width, texture.height, RGBA8_BYTES, rowAlign, imageAlign);
    r := Success;
  }

  /**
   * The second half of create_texture: command pool, command buffer, queue
   * submission and the wait for the queue, each failure ending it.
   */
  method SubmitUpload(pool: AcResult, cmd: AcResult, submit: AcResult, wait: AcResult) returns (r: AcResult)
    ensures r == FirstFailure([pool, cmd, submit, wait])
  {
    if !pool.Success? {
      return pool;
    }
    assert [pool, cmd, submit, wait][1..] == [cmd, submit, wait];
    if !cmd.Success? {
      return cmd;
    }
    assert [cmd, submit, wait][1..] == [submit, wait];
    assert FirstFailure([pool, cmd, submit, wait]) == FirstFailure([submit, wait]);
    if !submit.Success? {
      return submit;
    }
    assert [submit, wait][1..] == [wait] && [wait][1..] == [];
    assert FirstFailure([submit, wait]) == FirstFailure([wait]) == wait;
    r := wait;
  }
}

=== FILE: render.dfy ===
/**
 * The renderer of the PBR sample (05_pbr/main.cpp): the material records
 * it packs into the GPU material buffer, the image descriptor table, the
 * looping animation timer of stage_prepare, and the draws render_node and
 * stage_cmd record.
 *
 * GPU objects (pipelines, buffers, images) are opaque handles; a recorded
 * command buffer is the sequence of draws it holds, each with the state it
 * executes with.
 */
module Render {
  import opened Wrappers
  import opened LinAlg
  import opened Bounds
  import opened Document
  import opened Scene
  import opened Materials
  import opened Animations
  import opened ModelClass

  /* The GPU material record */

  /** The shader's workflow values (PBR_WORKFLOW_*, stored as floats). */
  const METALLIC_ROUGHNESS: real := 0.0
  const SPECULAR_GLOSSINESS: real := 1.0

  /** ShaderMaterial: one record of the material buffer. */
  datatype ShaderMaterial = ShaderMaterial(
    baseColorFactor: Vec4,
    emissiveFactor: Vec4,
    diffuseFactor: Vec4,
    specularFactor: Vec4,
    workflow: real,
    baseColorIndex: int,
    metallicRoughnessIndex: int,
    normalIndex: int,
    occlusionIndex: int,
    emissiveIndex: int,
    metallicFactor: real,
    roughnessFactor: real,
    alphaMask: real,
    alphaMaskCutoff: real,
    emissiveStrength: real,
    pad: real)

  /** A packed texture index: the texture-coordinate set of a present texture, -1 for a null pointer. */
  function TexIndex(t: Option<nat>, coordSet: nat): (r: int)
    ensures r == -1 <==> t.None?
    ensures r >= 0 ==> r == coordSet
  {
    if t.Some? then coordSet else -1
  }

  /**
   * The record the packing loop leaves in a slot that held `out`: every
   * field it writes, from the material; what neither workflow block writes
   * keeps the slot's earlier (uninitialised) contents. The
   * specular-glossiness block runs after the metallic-roughness one, so
   * where both are set its workflow and indices win.
   */
  function PackMaterial(out: ShaderMaterial, m: Material): ShaderMaterial {
    var mr, sg := m.pbrWorkflows.metallicRoughness, m.pbrWorkflows.specularGlossiness;
    var sets, ext := m.texCoordSets, m.extension;
    out.(
      baseColorFactor := if mr then m.baseColorFactor else out.baseColorFactor,
      emissiveFactor := m.emissiveFactor,
      diffuseFactor := if sg then ext.diffuseFactor else out.diffuseFactor,
      specularFactor := if sg then Vec4(ext.specularFactor.x, ext.specularFactor.y, ext.specularFactor.z, 1.0)
                        else out.specularFactor,
      workflow := if sg then SPECULAR_GLOSSINESS else if mr then METALLIC_ROUGHNESS else out.workflow,
      baseColorIndex := if sg then TexIndex(ext.diffuseTexture, sets.baseColor)
                        else TexIndex(m.baseColorTexture, sets.baseColor),
      metallicRoughnessIndex := if sg then TexIndex(ext.specularGlossinessTexture, sets.specularGlossiness)
                                else if mr then TexIndex(m.metallicRoughnessTexture, sets.metallicRoughness)
                                else out.metallicRoughnessIndex,
      normalIndex := TexIndex(m.normalTexture, sets.normal),
      occlusionIndex := TexIndex(m.occlusionTexture, sets.occlusion),
      emissiveIndex := TexIndex(m.emissiveTexture, sets.emissive),
      metallicFactor := if mr then m.metallicFactor else out.metallicFactor,
      roughnessFactor := if mr then m.roughnessFactor else out.roughnessFactor,
      alphaMask := if m.alphaMode == Mask then 1.0 else 0.0,
      alphaMaskCutoff := m.alphaCutoff,
      emissiveStrength := m.emissiveStrength)
  }

  /**
   * The body of the packing loop for one record, statement by statement:
   * the common fields, then the metallic-roughness block, then the
   * specular-glossiness block.
   */
  method PackRecord(out: ShaderMaterial, m: Material) returns (r: ShaderMaterial)
    ensures r == PackMaterial(out, m)
  {
    var sets := m.texCoordSets;
    r := out.(
      emissiveFactor := m.emissiveFactor,
      baseColorIndex := if m.baseColorTexture.Some? then sets.baseColor else -1,
      normalIndex := if m.normalTexture.Some? then sets.normal else -1,
      occlusionIndex := if m.occlusionTexture.Some? then sets.occlusion else -1,
      emissiveIndex := if m.emissiveTexture.Some? then sets.emissive else -1,
      alphaMask := if m.alphaMode == Mask then 1.0 else 0.0,
      alphaMaskCutoff := m.alphaCutoff,
      emissiveStrength := m.emissiveStrength);
    if m.pbrWorkflows.metallicRoughness {
      r := r.(
        workflow := METALLIC_ROUGHNESS,
        baseColorFactor := m.baseColorFactor,
        metallicFactor := m.metallicFactor,
        roughnessFactor := m.roughnessFactor,
        metallicRoughnessIndex := if m.metallicRoughnessTexture.Some? then sets.metallicRoughness else -1,
        baseColorIndex := if m.baseColorTexture.Some? then sets.baseColor else -1);
    }
    if m.pbrWorkflows.specularGlossiness {
      var ext := m.extension;
      r := r.(
        workflow := SPECULAR_GLOSSINESS,
        metallicRoughnessIndex := if ext.specularGlossinessTexture.Some? then sets.specularGlossiness else -1,
        baseColorIndex := if ext.diffuseTexture.Some? then sets.baseColor else -1,
        diffuseFactor := ext.diffuseFactor,
        specularFactor := Vec4(ext.specularFactor.x, ext.specularFactor.y, ext.specularFactor.z, 1.0));
    }
  }

  /**
   * The packing loop over the mapped material buffer, which holds one
   * record per material: record i is packed from materials[i].
   */
  method PackMaterials(buffer: array<ShaderMaterial>, materials: seq<Material>)
    requires buffer.Length == |materials|
    modifies buffer
    ensures forall i :: 0 <= i < buffer.Length ==> buffer[i] == PackMaterial(old(buffer[i]), materials[i])
  {
    for i := 0 to |materials|
      invariant forall j :: 0 <= j < i ==> buffer[j] == PackMaterial(old(buffer[j]), materials[j])
      invariant forall j :: i <= j < buffer.Length ==> buffer[j] == old(buffer[j])
    {
      buffer[i] := PackRecord(buffer[i], materials[i]);
    }
  }

  /**
   * Every texture index is -1 exactly when its texture pointer is null and
   * otherwise the stored texture-coordinate set; with specular-glossiness
   * the base colour index follows the diffuse texture and the
   * metallic-roughness index the specular-glossiness texture.
   */
  lemma PackedIndices(out: ShaderMaterial, m: Material)
    ensures var r := PackMaterial(out, m); var sets := m.texCoordSets;
      (r.normalIndex == -1 <==> m.normalTexture.None?) && (r.normalIndex >= 0 ==> r.normalIndex == sets.normal) &&
      (r.occlusionIndex == -1 <==> m.occlusionTexture.None?) && (r.occlusionIndex >= 0 ==> r.occlusionIndex == sets.occlusion) &&
      (r.emissiveIndex == -1 <==> m.emissiveTexture.None?) && (r.emissiveIndex >= 0 ==> r.emissiveIndex == sets.emissive) &&
      (r.baseColorIndex >= 0 ==> r.baseColorIndex == sets.baseColor) &&
      (!m.pbrWorkflows.specularGlossiness ==> (r.baseColorIndex == -1 <==> m.baseColorTexture.None?)) &&
      (m.pbrWorkflows.specularGlossiness ==>
        (r.baseColorIndex == -1 <==> m.extension.diffuseTexture.None?) &&
        (r.metallicRoughnessIndex == -1 <==> m.extension.specularGlossinessTexture.None?) &&
        (r.metallicRoughnessIndex >= 0 ==> r.metallicRoughnessIndex == sets.specularGlossiness)) &&
      (!m.pbrWorkflows.specularGlossiness && m.pbrWorkflows.metallicRoughness ==>
        (r.metallicRoughnessIndex == -1 <==> m.metallicRoughnessTexture.None?) &&
        (r.metallicRoughnessIndex >= 0 ==> r.metallicRoughnessIndex == sets.metallicRoughness))
  {
  }

  /**
   * alpha_mask is 1 exactly for MASK materials and 0 otherwise; the cutoff
   * and the emissive strength are copied unchanged.
   */
  lemma PackedAlpha(out: ShaderMaterial, m: Material)
    ensures var r := PackMaterial(out, m);
      (r.alphaMask == 1.0 <==> m.alphaMode == Mask) && (r.alphaMask == 0.0 <==> m.alphaMode != Mask) &&
      r.alphaMaskCutoff == m.alphaCutoff && r.emissiveStrength == m.emissiveStrength && r.emissiveFactor == m.emissiveFactor
  {
  }

  /**
   * The workflow is 1 when specular-glossiness is set, whatever the
   * metallic-roughness flag, and then the diffuse and specular factors come
   * from the extension with specular w = 1; with only metallic-roughness
   * it is 0 and the metallic-roughness factors are copied.
   */
  lemma PackedWorkflow(out: ShaderMaterial, m: Material)
    ensures var r := PackMaterial(out, m); var ext := m.extension;
      (m.pbrWorkflows.specularGlossiness ==>
        r.workflow == SPECULAR_GLOSSINESS && r.diffuseFactor == ext.diffuseFactor &&
        r.specularFactor.x == ext.specularFactor.x && r.specularFactor.y == ext.specularFactor.y &&
        r.specularFactor.z == ext.specularFactor.z && r.specularFactor.w == 1.0) &&
      (m.pbrWorkflows.metallicRoughness ==>
        r.baseColorFactor == m.baseColorFactor && r.metallicFactor == m.metallicFactor && r.roughnessFactor == m.roughnessFactor) &&
      (!m.pbrWorkflows.specularGlossiness && m.pbrWorkflows.metallicRoughness ==> r.workflow == METALLIC_ROUGHNESS)
  {
  }

  /**
   * A loaded material always keeps the metallic-roughness flag, so its
   * workflow, indices and metallic-roughness factors never come from the
   * buffer's earlier contents: two slots with different stale contents
   * receive the same values, and the workflow is 1 exactly when the
   * material names a specular-glossiness texture.
   */
  lemma {:induction false} PackedLoaded(o1: ShaderMaterial, o2: ShaderMaterial, d: DocMaterial, index: nat, nt: nat)
    requires TexturesOk(d, nt)
    ensures var m := MaterialOf(d, index, nt); var r1, r2 := PackMaterial(o1, m), PackMaterial(o2, m);
      r1.workflow == (if d.specGloss.Some? && d.specGloss.value.sgTexture.Some? then SPECULAR_GLOSSINESS else METALLIC_ROUGHNESS) &&
      r1.workflow == r2.workflow &&
      r1.baseColorIndex == r2.baseColorIndex && r1.metallicRoughnessIndex == r2.metallicRoughnessIndex &&
      r1.baseColorFactor == r2.baseColorFactor && r1.metallicFactor == r2.metallicFactor &&
      r1.roughnessFactor == r2.roughnessFactor
  {
    MaterialOfWorkflows(d, index, nt);
  }

  /* The image descriptor table */

  /** MAX_IMAGES: the number of image descriptors of the material set. */
  const MAX_IMAGES: nat := 500

  /** A GPU image handle. */
  type ImageHandle = nat

  /** An ac_descriptor, as far as the image table uses it: the image it names, or none. */
  datatype Descriptor = Descriptor(image: Option<ImageHandle>)

  /**
   * The image descriptor table: value-initialised, every slot set to the
   * stub image, then slot i set to the image of texture i. The source writes
   * slot i for every texture, so more than MAX_IMAGES textures would write
   * past the table.
   */
  method ImageDescriptors(stub: ImageHandle, images: seq<ImageHandle>) returns (d: array<Descriptor>)
    requires |images| <= MAX_IMAGES
    ensures d.Length == MAX_IMAGES
    ensures forall i :: 0 <= i < |images| ==> d[i] == Descriptor(Some(images[i]))
    ensures forall i :: |images| <= i < MAX_IMAGES ==> d[i] == Descriptor(Some(stub))
  {
    d := new Descriptor[MAX_IMAGES](_ => Descriptor(None));
    var stubDescriptor := Descriptor(Some(stub));
    for i := 0 to MAX_IMAGES
      invariant forall j :: 0 <= j < i ==> d[j] == stubDescriptor
    {
      d[i] := stubDescriptor;
    }
    for i := 0 to |images|
      invariant forall j :: 0 <= j < i ==> d[j] == Descriptor(Some(images[j]))
      invariant forall j :: i <= j < MAX_IMAGES ==> d[j] == stubDescriptor
    {
      d[i] := d[i].(image := Some(images[i]));
    }
  }

  /* The animation timer */

  /**
   * stage_prepare's timer step: add the frame time and, past the
   * animation's end, subtract the end once (not modulo).
   */
  function NextTimer(timer: real, dt: real, end: real): (r: real)
    ensures r == timer + dt || r == timer + dt - end
    ensures timer + dt <= end ==> r == timer + dt
    ensures timer + dt > end ==> r == timer + dt - end
  {
    var t := timer + dt;
    if t > end then t - end else t
  }

  /** A timer inside [0, end] stays inside it while frames are no longer than the animation. */
  lemma TimerStaysInRange(timer: real, dt: real, end: real)
    requires 0.0 <= timer <= end && 0.0 <= dt <= end
    ensures 0.0 <= NextTimer(timer, dt, end) <= end
  {
  }

  /** A single subtraction is not a modulo: a step longer than twice the animation leaves the timer past its end. */
  lemma TimerWrapsOnce(timer: real, dt: real, end: real)
    requires 0.0 <= end && timer + dt > end + end
    ensures NextTimer(timer, dt, end) > end
  {
  }

  /**
   * The application state stage_prepare and stage_cmd use: the scene, the
   * animation played, the last frame time and the animation timer.
   */
  class App {
    const scene: Model
    var animationIndex: nat
    var dt: real
    var animationTimer: real

    /** The index, frame time and timer start value-initialised (zero). */
    constructor(scene: Model)
      ensures this.scene == scene && animationIndex == 0 && dt == 0.0 && animationTimer == 0.0
    {
      this.scene := scene;
      animationIndex, dt, animationTimer := 0, 0.0, 0.0;
    }

    /**
     * stage_prepare: with at least one animation, the timer advances by the
     * frame time (wrapping once past the animation's end) and the scene is
     * animated at the new time; with none, neither changes.
     */
    method StagePrepare()
      requires SceneOk(scene.arena, scene.skins, scene.matrices.Length) && BlocksOk(scene.matrices[..])
      requires Above(scene.arena, -1, scene.roots)
      requires scene.animations != [] ==>
        animationIndex < |scene.animations| &&
        ChannelsFit(scene.arena, scene.animations[animationIndex], scene.animations[animationIndex].channels)
      modifies this`animationTimer, scene`arena, scene.matrices
      ensures scene.animations == [] ==>
        animationTimer == old(animationTimer) && scene.arena == old(scene.arena) && scene.matrices[..] == old(scene.matrices[..])
      ensures scene.animations != [] ==>
        var anim := scene.animations[animationIndex];
        animationTimer == NextTimer(old(animationTimer), dt, anim.end) &&
        (scene.arena, scene.matrices[..]) ==
          AnimateScene(old(scene.arena), scene.skins, old(scene.matrices[..]), scene.roots, anim, animationTimer)
    {
      if |scene.animations| > 0 {
        animationTimer := animationTimer + dt;
        if animationTimer > scene.animations[animationIndex].end {
          animationTimer := animationTimer - scene.animations[animationIndex].end;
        }
        scene.UpdateAnimation(animationIndex, animationTimer);
      }
    }
  }

  /* Draws */

  datatype Pipeline = Pbr | PbrDoubleSided | PbrAlphaBlended

  /** The draw command of a primitive: indexed over its index range, or over its vertices. */
  datatype DrawCall = DrawIndexed(indexCount: nat, firstIndex: nat) | DrawVertices(vertexCount: nat)

  /**
   * One recorded draw: the bound pipeline, the pushed material record and
   * uniform block slot, and the draw command.
   */
  datatype Draw = Draw(pipeline: Pipeline, material: int, node: nat, call: DrawCall)

  /**
   * The pipeline of a pass (sections 3.9.4 and 3.9.5 of the glTF 2.0
   * specification): opaque and masked materials are drawn without blending,
   * double-sided ones without culling; blended ones use the blending
   * pipeline.
   */
  function PipelineFor(mode: AlphaMode, doubleSided: bool): (p: Pipeline)
    ensures p == PbrAlphaBlended <==> mode == Blend
    ensures p == PbrDoubleSided <==> mode != Blend && doubleSided
  {
    match mode
    case Opaque => if doubleSided then PbrDoubleSided else Pbr
    case Mask => if doubleSided then PbrDoubleSided else Pbr
    case Blend => PbrAlphaBlended
  }

  /** The draw command of a primitive: indexed exactly when it has indices. */
  function CallOf(p: Primitive): (c: DrawCall)
    ensures c.DrawIndexed? <==> p.hasIndices
    ensures c.DrawIndexed? ==> c.indexCount == p.indexCount && c.firstIndex == p.firstIndex
    ensures c.DrawVertices? ==> c.vertexCount == p.vertexCount
  {
    if p.hasIndices then DrawIndexed(p.indexCount, p.firstIndex) else DrawVertices(p.vertexCount)
  }


  /**
   * The material number a draw pushes. render_node pushes the material's
   * `index` field (MaterialIndex); what the shader needs is the position of
   * the material's record in the material buffer (MaterialPosition). The
   * two differ only for the default material, whose index stays 0.
   */
  datatype Push = MaterialIndex | MaterialPosition

  /** The draw of primitive p, with material m, in uniform block `slot` in pass `mode`. */
  function DrawOf(p: Primitive, m: Material, slot: nat, mode: AlphaMode, push: Push): Draw {
    Draw(PipelineFor(mode, m.doubleSided), if push == MaterialIndex then m.index else p.material, slot, CallOf(p))
  }

  /** Every primitive of every mesh names a material of the list. */
  predicate MaterialsFit(a: seq<Node>, materials: seq<Material>) {
    forall x, j :: 0 <= x < |a| && a[x].mesh.Some? && 0 <= j < |a[x].mesh.value.primitives| ==>
      a[x].mesh.value.primitives[j].material < |materials|
  }

  predicate PrimitivesFit(ps: seq<Primitive>, materials: seq<Material>) {
    forall j :: 0 <= j < |ps| ==> ps[j].material < |materials|
  }

  /** The primitive loop of render_node: the draws of the primitives whose material is in the pass, in order. */
  function PrimitiveDraws(ps: seq<Primitive>, materials: seq<Material>, slot: nat, mode: AlphaMode, push: Push): seq<Draw>
    requires PrimitivesFit(ps, materials)
    decreases |ps|
  {
    if ps == [] then []
    else
      var m := materials[ps[0].material];
      (if m.alphaMode == mode then [DrawOf(ps[0], m, slot, mode, push)] else []) +
      PrimitiveDraws(ps[1..], materials, slot, mode, push)
  }

  /** A node's own draws: those of its mesh's primitives, none without a mesh. */
  function NodeDraws(a: seq<Node>, materials: seq<Material>, x: nat, mode: AlphaMode, push: Push): seq<Draw>
    requires MaterialsFit(a, materials) && x < |a|
  {
    match a[x].mesh
    case None => []
    case Some(mesh) => PrimitiveDraws(mesh.primitives, materials, mesh.slot, mode, push)
  }

  /** render_node: the node's own draws in the pass, then those of its children's subtrees. */
  function RenderNode(a: seq<Node>, materials: seq<Material>, x: nat, mode: AlphaMode, push: Push): seq<Draw>
    requires ValidArena(a) && MaterialsFit(a, materials) && x < |a|
    decreases |a| - x, 1
  {
    NodeDraws(a, materials, x, mode, push) + RenderNodes(a, materials, x, a[x].children, mode, push)
  }

  /** render_node over the nodes ks, all above lo, in order. */
  function RenderNodes(a: seq<Node>, materials: seq<Material>, lo: int, ks: seq<nat>, mode: AlphaMode, push: Push): seq<Draw>
    requires ValidArena(a) && MaterialsFit(a, materials) && Above(a, lo, ks)
    decreases |a| - lo, 0, |ks|
  {
    if ks == [] then []
    else RenderNode(a, materials, ks[0], mode, push) + RenderNodes(a, materials, lo, ks[1..], mode, push)
  }

  /** The own draws of the nodes xs, concatenated in order. */
  function DrawsAlong(a: seq<Node>, materials: seq<Material>, xs: seq<nat>, mode: AlphaMode, push: Push): seq<Draw>
    requires MaterialsFit(a, materials) && forall k :: 0 <= k < |xs| ==> xs[k] < |a|
    decreases |xs|
  {
    if xs == [] then []
    else NodeDraws(a, materials, xs[0], mode, push) + DrawsAlong(a, materials, xs[1..], mode, push)
  }

  lemma {:induction false} DrawsAlongAppend(a: seq<Node>, materials: seq<Material>, p: seq<nat>, q: seq<nat>, mode: AlphaMode, push: Push)
    requires MaterialsFit(a, materials)
    requires (forall k :: 0 <= k < |p| ==> p[k] < |a|) && (forall k :: 0 <= k < |q| ==> q[k] < |a|)
    ensures DrawsAlong(a, materials, p + q, mode, push) ==
      DrawsAlong(a, materials, p, mode, push) + DrawsAlong(a, materials, q, mode, push)
    decreases |p|
  {
    if p == [] {
      assert p + q == q;
    } else {
      assert (p + q)[0] == p[0] && (p + q)[1..] == p[1..] + q;
      DrawsAlongAppend(a, materials, p[1..], q, mode, push);
    }
  }

  /**
   * render_node visits the subtree in pre-order: its draws are the own
   * draws of the nodes of PreOrder(a, x), in that order.
   */
  lemma {:induction false} RenderNodePreOrder(a: seq<Node>, materials: seq<Material>, x: nat, mode: AlphaMode, push: Push)
    requires ValidArena(a) && MaterialsFit(a, materials) && x < |a|
    ensures RenderNode(a, materials, x, mode, push) == DrawsAlong(a, materials, PreOrder(a, x), mode, push)
    decreases |a| - x, 1
  {
    var kids := a[x].children;
    RenderNodesForest(a, materials, x, kids, mode, push);
    var f := Forest(a, x, kids);
    assert PreOrder(a, x) == [x] + f;
    DrawsAlongAppend(a, materials, [x], f, mode, push);
  }

  /** render_node over ks draws along the concatenated pre-orders of ks. */
  lemma {:induction false} RenderNodesForest(a: seq<Node>, materials: seq<Material>, lo: int, ks: seq<nat>, mode: AlphaMode, push: Push)
    requires ValidArena(a) && MaterialsFit(a, materials) && Above(a, lo, ks)
    ensures RenderNodes(a, materials, lo, ks, mode, push) == DrawsAlong(a, materials, Forest(a, lo, ks), mode, push)
    decreases |a| - lo, 0, |ks|
  {
    if ks != [] {
      RenderNodePreOrder(a, materials, ks[0], mode, push);
      RenderNodesForest(a, materials, lo, ks[1..], mode, push);
      DrawsAlongAppend(a, materials, PreOrder(a, ks[0]), Forest(a, lo, ks[1..]), mode, push);
    }
  }

  /**
   * Every draw of a pass belongs to it: its material is in the list and has
   * the pass's alpha mode, and its pipeline is the pass's pipeline for that
   * material's sidedness.
   */
  predicate InPass(ds: seq<Draw>, materials: seq<Material>, mode: AlphaMode) {
    forall i :: 0 <= i < |ds| ==>
      0 <= ds[i].material < |materials| && materials[ds[i].material].alphaMode == mode &&
      ds[i].pipeline == PipelineFor(mode, materials[ds[i].material].doubleSided)
  }

  lemma InPassAppend(p: seq<Draw>, q: seq<Draw>, materials: seq<Material>, mode: AlphaMode)
    requires InPass(p, materials, mode) && InPass(q, materials, mode)
    ensures InPass(p + q, materials, mode)
  {
    forall i | 0 <= i < |p + q|
      ensures 0 <= (p + q)[i].material < |materials| && materials[(p + q)[i].material].alphaMode == mode
      ensures (p + q)[i].pipeline == PipelineFor(mode, materials[(p + q)[i].material].doubleSided)
    {
      if i >= |p| {
        assert (p + q)[i] == q[i - |p|];
      }
    }
  }

  lemma {:induction false} PrimitiveDrawsInPass(ps: seq<Primitive>, materials: seq<Material>, slot: nat, mode: AlphaMode)
    requires PrimitivesFit(ps, materials)
    ensures InPass(PrimitiveDraws(ps, materials, slot, mode, MaterialPosition), materials, mode)
    decreases |ps|
  {
    if ps != [] {
      PrimitiveDrawsInPass(ps[1..], materials, slot, mode);
      var m := materials[ps[0].material];
      InPassAppend(if m.alphaMode == mode then [DrawOf(ps[0], m, slot, mode, MaterialPosition)] else [],
        PrimitiveDraws(ps[1..], materials, slot, mode, MaterialPosition), materials, mode);
    }
  }

  lemma NodeDrawsInPass(a: seq<Node>, materials: seq<Material>, x: nat, mode: AlphaMode)
    requires MaterialsFit(a, materials) && x < |a|
    ensures InPass(NodeDraws(a, materials, x, mode, MaterialPosition), materials, mode)
  {
    if a[x].mesh.Some? {
      PrimitiveDrawsInPass(a[x].mesh.value.primitives, materials, a[x].mesh.value.slot, mode);
    }
  }

  /** With the material's position pushed, every draw along xs in a pass belongs to that pass. */
  lemma {:induction false} DrawsAlongInPass(a: seq<Node>, materials: seq<Material>, xs: seq<nat>, mode: AlphaMode)
    requires MaterialsFit(a, materials) && forall k :: 0 <= k < |xs| ==> xs[k] < |a|
    ensures InPass(DrawsAlong(a, materials, xs, mode, MaterialPosition), materials, mode)
    decreases |xs|
  {
    if xs != [] {
      NodeDrawsInPass(a, materials, xs[0], mode);
      DrawsAlongInPass(a, materials, xs[1..], mode);
      InPassAppend(NodeDraws(a, materials, xs[0], mode, MaterialPosition),
        DrawsAlong(a, materials, xs[1..], mode, MaterialPosition), materials, mode);
    }
  }

  /** The draws a primitive of each alpha mode gets: exactly one, in the pass of its material's mode. */
  function PassCount(ps: seq<Primitive>, materials: seq<Material>, slot: nat, push: Push): nat
    requires PrimitivesFit(ps, materials)
  {
    |PrimitiveDraws(ps, materials, slot, Opaque, push)| + |PrimitiveDraws(ps, materials, slot, Mask, push)| +
    |PrimitiveDraws(ps, materials, slot, Blend, push)|
  }

  /** Every primitive is drawn in exactly one of the three passes. */
  lemma {:induction false} EveryPrimitiveOnce(ps: seq<Primitive>, materials: seq<Material>, slot: nat, push: Push)
    requires PrimitivesFit(ps, materials)
    ensures PassCount(ps, materials, slot, push) == |ps|
    decreases |ps|
  {
    if ps != [] {
      EveryPrimitiveOnce(ps[1..], materials, slot, push);
    }
  }

  /** The draws of one pass over the scene's roots. */
  function Pass(a: seq<Node>, materials: seq<Material>, roots: seq<nat>, mode: AlphaMode, push: Push): seq<Draw>
    requires ValidArena(a) && MaterialsFit(a, materials) && Above(a, -1, roots)
  {
    RenderNodes(a, materials, -1, roots, mode, push)
  }

  /** The draws of a frame: the opaque pass, then the masked pass, then the blended pass. */
  function Frame(a: seq<Node>, materials: seq<Material>, roots: seq<nat>, push: Push): seq<Draw>
    requires ValidArena(a) && MaterialsFit(a, materials) && Above(a, -1, roots)
  {
    Pass(a, materials, roots, Opaque, push) + Pass(a, materials, roots, Mask, push) +
    Pass(a, materials, roots, Blend, push)
  }

  /** Opaque before masked before blended. */
  function Rank(mode: AlphaMode): nat {
    match mode
    case Opaque => 0
    case Mask => 1
    case Blend => 2
  }

  /* Recorded commands */

  /**
   * The commands stage_cmd and render_node record. The viewport and scissor
   * cover the swapchain image from (0, 0) with depth range [0, 1].
   */
  datatype FrameCommand =
    | SetViewport(width: nat, height: nat)
    | SetScissor(width: nat, height: nat)
    | BindPipeline(pipeline: Pipeline)
    | BindVertexBuffer
    | BindIndexBuffer
    | BindSet(space: nat, setIndex: nat)
    | PushConstants(material: int, node: nat)
    | Issue(call: DrawCall)

  /** The commands one draw of render_node records: its pipeline, the three sets, the push data, then the draw. */
  function DrawCommands(d: Draw, frame: nat): seq<FrameCommand> {
    [BindPipeline(d.pipeline), BindSet(0, frame), BindSet(1, 0), BindSet(2, 0), PushConstants(d.material, d.node), Issue(d.call)]
  }

  /** The commands of a sequence of draws, in order. */
  function Recorded(ds: seq<Draw>, frame: nat): (cmds: seq<FrameCommand>)
    ensures |cmds| == 6 * |ds|
  {
    if ds == [] then [] else DrawCommands(ds[0], frame) + Recorded(ds[1..], frame)
  }

  /**
   * The draws a recorded sequence holds: each group of six commands that
   * binds a pipeline, pushes constants and issues a draw gives one Draw.
   */
  function DrawsIn(cmds: seq<FrameCommand>): seq<Draw>
    decreases |cmds|
  {
    if |cmds| >= 6 && cmds[0].BindPipeline? && cmds[4].PushConstants? && cmds[5].Issue? then
      [Draw(cmds[0].pipeline, cmds[4].material, cmds[4].node, cmds[5].call)] + DrawsIn(cmds[6..])
    else []
  }

  /** Reading the draws back off the recorded commands gives the draws recorded. */
  lemma {:induction false} DrawsInRecorded(ds: seq<Draw>, frame: nat)
    ensures DrawsIn(Recorded(ds, frame)) == ds
  {
    if ds != [] {
      var cmds := Recorded(ds, frame);
      assert cmds[6..] == Recorded(ds[1..], frame);
      DrawsInRecorded(ds[1..], frame);
    }
  }

  /**
   * Draw k of a recorded sequence is the six commands from 6k: every draw
   * binds its own pipeline and the frame's set in space 0 before it pushes
   * its constants.
   */
  lemma {:induction false} RecordedAt(ds: seq<Draw>, frame: nat, k: nat)
    requires k < |ds|
    ensures Recorded(ds, frame)[6 * k .. 6 * k + 6] == DrawCommands(ds[k], frame)
  {
    if k > 0 {
      RecordedAt(ds[1..], frame, k - 1);
      assert Recorded(ds, frame)[6..] == Recorded(ds[1..], frame);
    }
  }

  lemma {:induction false} RecordedAppend(xs: seq<Draw>, ys: seq<Draw>, frame: nat)
    ensures Recorded(xs + ys, frame) == Recorded(xs, frame) + Recorded(ys, frame)
  {
    if xs != [] {
      assert (xs + ys)[0] == xs[0] && (xs + ys)[1..] == xs[1..] + ys;
      RecordedAppend(xs[1..], ys, frame);
      AppendAssoc(DrawCommands(xs[0], frame), Recorded(xs[1..], frame), Recorded(ys, frame));
    } else {
      assert xs + ys == ys;
    }
  }

  /**
   * The commands stage_cmd records before the passes: the viewport and
   * scissor over the swapchain image, the pbr pipeline, the vertex buffer,
   * and the index buffer when the model has one.
   */
  function Setup(width: nat, height: nat, hasIndexBuffer: bool): (cmds: seq<FrameCommand>)
    ensures |cmds| == if hasIndexBuffer then 5 else 4
    ensures BindIndexBuffer in cmds <==> hasIndexBuffer
  {
    [SetViewport(width, height), SetScissor(width, height), BindPipeline(Pbr), BindVertexBuffer] +
    (if hasIndexBuffer then [BindIndexBuffer] else [])
  }

  /** One pass's loop of stage_cmd: render_node, as written, on each root in turn. */
  method RecordPass(a: seq<Node>, materials: seq<Material>, roots: seq<nat>, mode: AlphaMode, frame: nat)
    returns (cmds: seq<FrameCommand>)
    requires ValidArena(a) && MaterialsFit(a, materials) && Above(a, -1, roots)
    ensures cmds == Recorded(Pass(a, materials, roots, mode, MaterialIndex), frame)
  {
    cmds := [];
    assert roots[0..] == roots;
    for k := 0 to |roots|
      invariant cmds + Recorded(RenderNodes(a, materials, -1, roots[k..], mode, MaterialIndex), frame) ==
        Recorded(Pass(a, materials, roots, mode, MaterialIndex), frame)
    {
      var x := RenderNode(a, materials, roots[k], mode, MaterialIndex);
      var rest := RenderNodes(a, materials, -1, roots[k + 1..], mode, MaterialIndex);
      RenderNodesStep(a, materials, roots, k, mode, MaterialIndex);
      RecordedAppend(x, rest, frame);
      AppendAssoc(cmds, Recorded(x, frame), Recorded(rest, frame));
      cmds := cmds + Recorded(x, frame);
    }
    assert roots[|roots|..] == [];
  }

  lemma RenderNodesStep(a: seq<Node>, materials: seq<Material>, roots: seq<nat>, k: nat, mode: AlphaMode, push: Push)
    requires ValidArena(a) && MaterialsFit(a, materials) && Above(a, -1, roots) && k < |roots|
    ensures RenderNodes(a, materials, -1, roots[k..], mode, push) ==
      RenderNode(a, materials, roots[k], mode, push) + RenderNodes(a, materials, -1, roots[k + 1..], mode, push)
  {
    assert roots[k..][0] == roots[k] && roots[k..][1..] == roots[k + 1..];
  }

  lemma AppendAssoc<T>(p: seq<T>, q: seq<T>, r: seq<T>)
    ensures (p + q) + r == p + (q + r)
  {
  }

  /**
   * stage_cmd: the setup commands, then every root rendered in the opaque
   * pass, then every root in the masked pass, then every root in the
   * blended pass, each draw pushing its material's index. `width` and
   * `height` stand for the swapchain image's size, `hasIndexBuffer` for
   * whether the model made an index buffer.
   */
  method StageCmd(a: seq<Node>, materials: seq<Material>, roots: seq<nat>, frame: nat,
                  width: nat, height: nat, hasIndexBuffer: bool)
    returns (cmds: seq<FrameCommand>)
    requires ValidArena(a) && MaterialsFit(a, materials) && Above(a, -1, roots)
    ensures cmds == Setup(width, height, hasIndexBuffer) + Recorded(Frame(a, materials, roots, MaterialIndex), frame)
  {
    var opaquePass := RecordPass(a, materials, roots, Opaque, frame);
    var mask := RecordPass(a, materials, roots, Mask, frame);
    var blend := RecordPass(a, materials, roots, Blend, frame);
    ghost var o, m, b := Pass(a, materials, roots, Opaque, MaterialIndex), Pass(a, materials, roots, Mask, MaterialIndex),
      Pass(a, materials, roots, Blend, MaterialIndex);
    RecordedAppend(o, m, frame);
    RecordedAppend(o + m, b, frame);
    cmds := Setup(width, height, hasIndexBuffer) + (opaquePass + mask + blend);
  }

  /**
   * The draws of a recorded frame are the as-written Frame: after the
   * setup commands, reading the draws back off stage_cmd's commands gives
   * exactly Frame with material indices pushed.
   */
  lemma StagedDraws(a: seq<Node>, materials: seq<Material>, roots: seq<nat>, frame: nat,
                    width: nat, height: nat, hasIndexBuffer: bool, cmds: seq<FrameCommand>)
    requires ValidArena(a) && MaterialsFit(a, materials) && Above(a, -1, roots)
    requires cmds == Setup(width, height, hasIndexBuffer) + Recorded(Frame(a, materials, roots, MaterialIndex), frame)
    ensures DrawsIn(cmds[|Setup(width, height, hasIndexBuffer)|..]) == Frame(a, materials, roots, MaterialIndex)
  {
    var setup := Setup(width, height, hasIndexBuffer);
    assert cmds[|setup|..] == Recorded(Frame(a, materials, roots, MaterialIndex), frame);
    DrawsInRecorded(Frame(a, materials, roots, MaterialIndex), frame);
  }

  /**
   * The intended frame, which pushes each material's position: its draws
   * are those of the scene's nodes in pre-order for each pass, each pass's
   * draws belong to it, and so the frame draws every opaque material before
   * every masked one and every masked one before every blended one.
   */
  lemma FramePasses(a: seq<Node>, materials: seq<Material>, roots: seq<nat>)
    requires ValidArena(a) && MaterialsFit(a, materials) && Above(a, -1, roots)
    ensures forall mode ::
      Pass(a, materials, roots, mode, MaterialPosition) == DrawsAlong(a, materials, Forest(a, -1, roots), mode, MaterialPosition)
    ensures forall mode :: InPass(Pass(a, materials, roots, mode, MaterialPosition), materials, mode)
    ensures var ds := Frame(a, materials, roots, MaterialPosition);
      forall i, j :: 0 <= i < j < |ds| ==>
        0 <= ds[i].material < |materials| && 0 <= ds[j].material < |materials| &&
        Rank(materials[ds[i].material].alphaMode) <= Rank(materials[ds[j].material].alphaMode)
  {
    forall mode
      ensures Pass(a, materials, roots, mode, MaterialPosition) ==
        DrawsAlong(a, materials, Forest(a, -1, roots), mode, MaterialPosition)
      ensures InPass(Pass(a, materials, roots, mode, MaterialPosition), materials, mode)
    {
      RenderNodesForest(a, materials, -1, roots, mode, MaterialPosition);
      DrawsAlongInPass(a, materials, Forest(a, -1, roots), mode);
    }
    var o := Pass(a, materials, roots, Opaque, MaterialPosition);
    var m := Pass(a, materials, roots, Mask, MaterialPosition);
    var b := Pass(a, materials, roots, Blend, MaterialPosition);
    var ds := o + m + b;
    forall i | 0 <= i < |ds|
      ensures 0 <= ds[i].material < |materials|
      ensures Rank(materials[ds[i].material].alphaMode) == if i < |o| then 0 else if i < |o| + |m| then 1 else 2
    {
      if i < |o| {
        assert ds[i] == o[i];
      } else if i < |o| + |m| {
        assert ds[i] == m[i - |o|];
      } else {
        assert ds[i] == b[i - |o| - |m|];
      }
    }
  }

  /* The material index pushed for a material-less primitive */

  /**
   * A list as the loader leaves it: n document materials, each with its
   * position as index, then the default material, whose index stays 0.
   */
  predicate IndexedLoaded(materials: seq<Material>, n: nat) {
    |materials| == n + 1 && materials[n].index == 0 &&
    forall k :: 0 <= k < n ==> materials[k].index == k
  }

  /** The loaded material list is indexed so. */
  lemma LoadedMaterialIndices(ms: seq<DocMaterial>, nt: nat)
    requires forall j :: 0 <= j < |ms| ==> TexturesOk(ms[j], nt)
    ensures IndexedLoaded(MaterialsOf(ms, 0, nt) + [DefaultMaterial], |ms|)
  {
    var list := MaterialsOf(ms, 0, nt) + [DefaultMaterial];
    forall k | 0 <= k < |ms|
      ensures list[k].index == k
    {
      MaterialsOfAt(ms, 0, nt, k);
    }
  }

  /** The number pushed for the material at position k of a loaded list of n document materials. */
  function PushedIndex(k: int, n: nat): int {
    if k == n then 0 else k
  }

  /** The draws ds with each material position replaced by the number pushed for it. */
  function Remapped(ds: seq<Draw>, n: nat): seq<Draw> {
    seq(|ds|, i requires 0 <= i < |ds| => ds[i].(material := PushedIndex(ds[i].material, n)))
  }

  lemma RemappedAppend(p: seq<Draw>, q: seq<Draw>, n: nat)
    ensures Remapped(p + q, n) == Remapped(p, n) + Remapped(q, n)
  {
    assert forall i :: 0 <= i < |p + q| ==> Remapped(p + q, n)[i] == (Remapped(p, n) + Remapped(q, n))[i];
  }

  /**
   * For a primitive with a document material the draw render_node records
   * is the intended one: the material's index is its position.
   */
  lemma AsWrittenAgreesOnLoaded(ms: seq<DocMaterial>, nt: nat, p: Primitive, slot: nat, mode: AlphaMode)
    requires forall j :: 0 <= j < |ms| ==> TexturesOk(ms[j], nt)
    requires p.material < |ms|
    ensures var list := MaterialsOf(ms, 0, nt) + [DefaultMaterial];
      DrawOf(p, list[p.material], slot, mode, MaterialIndex) == DrawOf(p, list[p.material], slot, mode, MaterialPosition)
  {
    LoadedMaterialIndices(ms, nt);
  }

  lemma {:induction false} PrimitiveDrawsRemapped(ps: seq<Primitive>, materials: seq<Material>, n: nat, slot: nat, mode: AlphaMode)
    requires IndexedLoaded(materials, n) && PrimitivesFit(ps, materials)
    ensures PrimitiveDraws(ps, materials, slot, mode, MaterialIndex) ==
      Remapped(PrimitiveDraws(ps, materials, slot, mode, MaterialPosition), n)
    decreases |ps|
  {
    if ps != [] {
      PrimitiveDrawsRemapped(ps[1..], materials, n, slot, mode);
      var m := materials[ps[0].material];
      assert m.index == PushedIndex(ps[0].material, n);
      RemappedAppend(if m.alphaMode == mode then [DrawOf(ps[0], m, slot, mode, MaterialPosition)] else [],
        PrimitiveDraws(ps[1..], materials, slot, mode, MaterialPosition), n);
    }
  }

  lemma {:induction false} DrawsAlongRemapped(a: seq<Node>, materials: seq<Material>, n: nat, xs: seq<nat>, mode: AlphaMode)
    requires IndexedLoaded(materials, n) && MaterialsFit(a, materials) && forall k :: 0 <= k < |xs| ==> xs[k] < |a|
    ensures DrawsAlong(a, materials, xs, mode, MaterialIndex) == Remapped(DrawsAlong(a, materials, xs, mode, MaterialPosition), n)
    decreases |xs|
  {
    if xs != [] {
      var x := xs[0];
      if a[x].mesh.Some? {
        PrimitiveDrawsRemapped(a[x].mesh.value.primitives, materials, n, a[x].mesh.value.slot, mode);
      }
      DrawsAlongRemapped(a, materials, n, xs[1..], mode);
      RemappedAppend(NodeDraws(a, materials, x, mode, MaterialPosition),
        DrawsAlong(a, materials, xs[1..], mode, MaterialPosition), n);
    }
  }

  /**
   * The frame stage_cmd records over a loaded material list is the intended
   * frame with every default-material draw pushing 0 instead of the
   * default material's position.
   */
  lemma FrameRemapped(a: seq<Node>, materials: seq<Material>, n: nat, roots: seq<nat>)
    requires ValidArena(a) && MaterialsFit(a, materials) && Above(a, -1, roots) && IndexedLoaded(materials, n)
    ensures Frame(a, materials, roots, MaterialIndex) == Remapped(Frame(a, materials, roots, MaterialPosition), n)
  {
    forall mode
      ensures Pass(a, materials, roots, mode, MaterialIndex) == Remapped(Pass(a, materials, roots, mode, MaterialPosition), n)
    {
      RenderNodesForest(a, materials, -1, roots, mode, MaterialIndex);
      RenderNodesForest(a, materials, -1, roots, mode, MaterialPosition);
      DrawsAlongRemapped(a, materials, n, Forest(a, -1, roots), mode);
    }
    var o := Pass(a, materials, roots, Opaque, MaterialPosition);
    var m := Pass(a, materials, roots, Mask, MaterialPosition);
    RemappedAppend(o, m, n);
    RemappedAppend(o + m, Pass(a, materials, roots, Blend, MaterialPosition), n);
  }

  /** Every primitive of every mesh names one of the first n materials. */
  predicate DocumentMaterials(a: seq<Node>, n: nat) {
    forall x, j :: 0 <= x < |a| && a[x].mesh.Some? && 0 <= j < |a[x].mesh.value.primitives| ==>
      a[x].mesh.value.primitives[j].material < n
  }

  /** Every draw pushes one of the first n materials. */
  predicate DrawsBelow(ds: seq<Draw>, n: nat) {
    forall i :: 0 <= i < |ds| ==> 0 <= ds[i].material < n
  }

  lemma DrawsBelowAppend(p: seq<Draw>, q: seq<Draw>, n: nat)
    requires DrawsBelow(p, n) && DrawsBelow(q, n)
    ensures DrawsBelow(p + q, n)
  {
    forall i | 0 <= i < |p + q|
      ensures 0 <= (p + q)[i].material < n
    {
      if i >= |p| {
        assert (p + q)[i] == q[i - |p|];
      }
    }
  }

  lemma {:induction false} PrimitiveDrawsBelow(ps: seq<Primitive>, materials: seq<Material>, n: nat, slot: nat, mode: AlphaMode)
    requires PrimitivesFit(ps, materials) && forall j :: 0 <= j < |ps| ==> ps[j].material < n
    ensures DrawsBelow(PrimitiveDraws(ps, materials, slot, mode, MaterialPosition), n)
    decreases |ps|
  {
    if ps != [] {
      PrimitiveDrawsBelow(ps[1..], materials, n, slot, mode);
      var m := materials[ps[0].material];
      DrawsBelowAppend(if m.alphaMode == mode then [DrawOf(ps[0], m, slot, mode, MaterialPosition)] else [],
        PrimitiveDraws(ps[1..], materials, slot, mode, MaterialPosition), n);
    }
  }

  lemma {:induction false} DrawsAlongBelow(a: seq<Node>, materials: seq<Material>, n: nat, xs: seq<nat>, mode: AlphaMode)
    requires MaterialsFit(a, materials) && DocumentMaterials(a, n) && forall k :: 0 <= k < |xs| ==> xs[k] < |a|
    ensures DrawsBelow(DrawsAlong(a, materials, xs, mode, MaterialPosition), n)
    decreases |xs|
  {
    if xs != [] {
      var x := xs[0];
      if a[x].mesh.Some? {
        PrimitiveDrawsBelow(a[x].mesh.value.primitives, materials, n, a[x].mesh.value.slot, mode);
      }
      DrawsAlongBelow(a, materials, n, xs[1..], mode);
      DrawsBelowAppend(NodeDraws(a, materials, x, mode, MaterialPosition),
        DrawsAlong(a, materials, xs[1..], mode, MaterialPosition), n);
    }
  }

  /**
   * When every primitive names a document material, the frame stage_cmd
   * records is the intended frame.
   */
  lemma FrameAsIntended(a: seq<Node>, materials: seq<Material>, n: nat, roots: seq<nat>)
    requires ValidArena(a) && MaterialsFit(a, materials) && Above(a, -1, roots) && IndexedLoaded(materials, n)
    requires DocumentMaterials(a, n)
    ensures Frame(a, materials, roots, MaterialIndex) == Frame(a, materials, roots, MaterialPosition)
  {
    FrameRemapped(a, materials, n, roots);
    forall mode
      ensures DrawsBelow(Pass(a, materials, roots, mode, MaterialPosition), n)
    {
      RenderNodesForest(a, materials, -1, roots, mode, MaterialPosition);
      DrawsAlongBelow(a, materials, n, Forest(a, -1, roots), mode);
    }
    var o := Pass(a, materials, roots, Opaque, MaterialPosition);
    var m := Pass(a, materials, roots, Mask, MaterialPosition);
    DrawsBelowAppend(o, m, n);
    DrawsBelowAppend(o + m, Pass(a, materials, roots, Blend, MaterialPosition), n);
    var ds := Frame(a, materials, roots, MaterialPosition);
    assert forall i :: 0 <= i < |ds| ==> Remapped(ds, n)[i] == ds[i];
  }

  /**
   * A document with one masked material and a primitive without one: the
   * primitive refers to the default material (position 1), but render_node
   * pushes index 0, so the shader reads the masked material's record
   * (alpha_mask 1) instead of the default material's (alpha_mask 0).
   */
  lemma DefaultMaterialPushesRecordZero(out: ShaderMaterial)
    ensures var list := [DefaultMaterial.(alphaMode := Mask), DefaultMaterial];
      var p := Primitive(0, 0, 3, 1, false, BoundingBox(Zero3, Zero3, false));
      var d := DrawOf(p, list[p.material], 0, Opaque, MaterialIndex);
      d.material == 0 && d.material != p.material &&
      PackMaterial(out, list[d.material]).alphaMask == 1.0 &&
      PackMaterial(out, list[p.material]).alphaMask == 0.0
  {
  }
}

=== FILE: scene.dfy ===
/**
 * The runtime scene graph of the glTF viewer: Node, Mesh, Primitive, Skin and
 * the per-mesh uniform block (model.hpp), with the operations model.cpp
 * defines on them: local and world matrices, the skinning update and the
 * search for a node by its glTF index.
 *
 * Nodes live in an arena. A node is its position in a sequence, and parent,
 * child and joint pointers are positions in it. The loader creates a node
 * before any of its descendants, so a parent always sits below its children.
 */
module Scene {
  import opened Wrappers
  import opened LinAlg
  import opened Bounds

  /** MAX_NUM_JOINTS: the joint matrices a uniform block has room for. */
  const MAX_NUM_JOINTS: nat := 128

  /**
   * A drawable range of the shared vertex and index buffers. `material` is
   * the position of the referenced Material in the model's material list.
   */
  datatype Primitive = Primitive(
    firstIndex: nat,
    indexCount: nat,
    vertexCount: nat,
    material: nat,
    hasIndices: bool,
    bb: BoundingBox)

  /** A mesh and the uniform block slot (`Mesh::node`) it writes its matrices to. */
  datatype Mesh = Mesh(primitives: seq<Primitive>, bb: BoundingBox, slot: nat)

  /** A skin; `skeletonRoot` and `joints` are non-owning node references. */
  datatype Skin = Skin(
    name: string,
    skeletonRoot: Option<nat>,
    inverseBindMatrices: seq<Mat>,
    joints: seq<nat>)

  /** A scene node; `index` is the glTF node index it was loaded from. */
  datatype Node = Node(
    parent: Option<nat>,
    index: nat,
    children: seq<nat>,
    matrix: Mat,
    name: string,
    mesh: Option<Mesh>,
    skin: Option<nat>,
    skinIndex: int,
    translation: Vec3,
    scale: Vec3,
    rotation: Quat,
    bvh: BoundingBox,
    aabb: BoundingBox)

  /** Mesh::UniformBlock: the mesh matrix, the joint matrices and their count. */
  datatype UniformBlock = UniformBlock(matrix: Mat, jointMatrix: seq<Mat>, jointCount: nat)

  /** Every block has exactly MAX_NUM_JOINTS joint matrices, as the struct does. */
  predicate BlocksOk(b: seq<UniformBlock>) {
    forall s :: 0 <= s < |b| ==> |b[s].jointMatrix| == MAX_NUM_JOINTS
  }

  /** Every parent sits below its child in the arena. */
  predicate ParentsBelow(a: seq<Node>) {
    forall i :: 0 <= i < |a| && a[i].parent.Some? ==> a[i].parent.value < i
  }

  /**
   * The arena is a forest: parents sit below their children, and every child
   * of a node sits above it and names that node as its parent.
   */
  predicate ValidArena(a: seq<Node>) {
    ParentsBelow(a) &&
    forall i, k :: 0 <= i < |a| && 0 <= k < |a[i].children| ==>
      i < a[i].children[k] < |a| && a[a[i].children[k]].parent == Some(i)
  }

  /** Every node of ks sits strictly above lo and inside the arena. */
  predicate Above(a: seq<Node>, lo: int, ks: seq<nat>) {
    forall k :: 0 <= k < |ks| ==> lo < ks[k] < |a|
  }

  /** Node::local_matrix: translate(t) * mat4(rotation) * scale(s) * matrix. */
  function Local(n: Node): Mat {
    Mul(Mul(Mul([Translation(n.translation)], [Rotation(n.rotation)]), [Scaling(n.scale)]), n.matrix)
  }

  /** The world matrix of a node: its parent's world matrix times its local matrix. */
  function World(a: seq<Node>, id: nat): Mat
    requires ParentsBelow(a) && id < |a|
    decreases id
  {
    match a[id].parent
    case None => Local(a[id])
    case Some(p) => Mul(World(a, p), Local(a[id]))
  }

  /** The chain of nodes from a root down to `id`, following parent references. */
  function Path(a: seq<Node>, id: nat): (r: seq<nat>)
    requires ParentsBelow(a) && id < |a|
    ensures |r| > 0 && r[|r| - 1] == id
    ensures forall k :: 0 <= k < |r| ==> r[k] < |a|
    ensures a[r[0]].parent.None?
    ensures forall k :: 0 <= k < |r| - 1 ==> a[r[k + 1]].parent == Some(r[k])
    decreases id
  {
    match a[id].parent
    case None => [id]
    case Some(p) => Path(a, p) + [id]
  }

  /** The product of the local matrices of the nodes of ids, left to right. */
  function Product(a: seq<Node>, ids: seq<nat>): Mat
    requires forall k :: 0 <= k < |ids| ==> ids[k] < |a|
  {
    if ids == [] then Identity else Mul(Local(a[ids[0]]), Product(a, ids[1..]))
  }

  lemma {:induction false} ProductSnoc(a: seq<Node>, ids: seq<nat>, x: nat)
    requires forall k :: 0 <= k < |ids| ==> ids[k] < |a|
    requires x < |a|
    ensures Product(a, ids + [x]) == Mul(Product(a, ids), Local(a[x]))
  {
    if ids == [] {
      assert ids + [x] == [x];
      assert Product(a, [x]) == Mul(Local(a[x]), Product(a, []));
    } else {
      assert (ids + [x])[1..] == ids[1..] + [x];
      ProductSnoc(a, ids[1..], x);
      MulAssociative(Local(a[ids[0]]), Product(a, ids[1..]), Local(a[x]));
    }
  }

  /**
   * Node::get_matrix is the product local(root) * ... * local(parent) *
   * local(node) over the path from the root (glTF 2.0 section 3.5.3).
   */
  lemma {:induction false} WorldIsPathProduct(a: seq<Node>, id: nat)
    requires ParentsBelow(a) && id < |a|
    ensures World(a, id) == Product(a, Path(a, id))
    decreases id
  {
    match a[id].parent
    case None =>
      assert Path(a, id) == [id];
      assert Product(a, [id]) == Mul(Local(a[id]), Product(a, []));
    case Some(p) =>
      WorldIsPathProduct(a, p);
      ProductSnoc(a, Path(a, p), id);
  }

  /**
   * Node::get_matrix: start from the node's local matrix and multiply the
   * ancestors' local matrices in on the left, walking parent references
   * until there is none.
   */
  method GetMatrix(a: seq<Node>, id: nat) returns (m: Mat)
    requires ParentsBelow(a) && id < |a|
    ensures m == World(a, id)
  {
    m := Local(a[id]);
    var p: Option<nat> := a[id].parent;
    while p.Some?
      invariant p.Some? ==> p.value < |a|
      invariant (if p.Some? then Mul(World(a, p.value), m) else m) == World(a, id)
      decreases if p.Some? then p.value + 1 else 0
    {
      var q := p.value;
      MulAssociative(World(a, q), Local(a[q]), m);
      match a[q].parent {
        case None =>
          assert Mul(Local(a[q]), m) == World(a, id);
        case Some(pp) =>
          MulAssociative(World(a, pp), Local(a[q]), m);
      }
      m := Mul(Local(a[q]), m);
      p := a[q].parent;
    }
  }

  /** The nodes of the subtree of id in pre-order: the node, then each child's subtree in order. */
  function PreOrder(a: seq<Node>, id: nat): (r: seq<nat>)
    requires ValidArena(a) && id < |a|
    ensures |r| > 0 && r[0] == id
    ensures forall k :: 0 <= k < |r| ==> id <= r[k] < |a|
    decreases |a| - id, 1
  {
    [id] + Forest(a, id, a[id].children)
  }

  /** The pre-orders of the subtrees of ks, concatenated in order. */
  function Forest(a: seq<Node>, lo: int, ks: seq<nat>): (r: seq<nat>)
    requires ValidArena(a) && Above(a, lo, ks)
    ensures forall k :: 0 <= k < |r| ==> lo < r[k] < |a|
    decreases |a| - lo, 0, |ks|
  {
    if ks == [] then [] else PreOrder(a, ks[0]) + Forest(a, lo, ks[1..])
  }

  lemma {:induction false} ForestSnoc(a: seq<Node>, lo: int, ks: seq<nat>, k: nat)
    requires ValidArena(a) && Above(a, lo, ks) && lo < k < |a|
    ensures Forest(a, lo, ks + [k]) == Forest(a, lo, ks) + PreOrder(a, k)
  {
    if ks == [] {
      assert ks + [k] == [k];
      assert Forest(a, lo, [k]) == PreOrder(a, k) + Forest(a, lo, []);
    } else {
      assert (ks + [k])[1..] == ks[1..] + [k];
      assert Above(a, lo, ks[1..]);
      ForestSnoc(a, lo, ks[1..], k);
    }
  }

  /** An int converted to uint32_t: reduction modulo 2^32 (-1 becomes 2^32 - 1). */
  function ToU32(i: int): (r: nat)
    ensures r < 0x1_0000_0000
    ensures 0 <= i < 0x1_0000_0000 ==> r == i
  {
    i % 0x1_0000_0000
  }

  /** The first node of xs whose glTF index is gi. */
  function FirstWithIndex(a: seq<Node>, xs: seq<nat>, gi: nat): (r: Option<nat>)
    requires forall k :: 0 <= k < |xs| ==> xs[k] < |a|
  {
    if xs == [] then None
    else if a[xs[0]].index == gi then Some(xs[0])
    else FirstWithIndex(a, xs[1..], gi)
  }

  lemma {:induction false} FirstWithIndexAppend(a: seq<Node>, xs: seq<nat>, ys: seq<nat>, gi: nat)
    requires forall k :: 0 <= k < |xs| ==> xs[k] < |a|
    requires forall k :: 0 <= k < |ys| ==> ys[k] < |a|
    ensures FirstWithIndex(a, xs + ys, gi) ==
      if FirstWithIndex(a, xs, gi).Some? then FirstWithIndex(a, xs, gi) else FirstWithIndex(a, ys, gi)
  {
    if xs != [] {
      assert (xs + ys)[1..] == xs[1..] + ys;
      FirstWithIndexAppend(a, xs[1..], ys, gi);
    } else {
      assert xs + ys == ys;
    }
  }

  /** The nodes of xs whose glTF index is gi do not exist when FirstWithIndex finds none. */
  lemma {:induction false} FirstWithIndexNone(a: seq<Node>, xs: seq<nat>, gi: nat)
    requires forall k :: 0 <= k < |xs| ==> xs[k] < |a|
    ensures FirstWithIndex(a, xs, gi).None? <==> forall k :: 0 <= k < |xs| ==> a[xs[k]].index != gi
    ensures FirstWithIndex(a, xs, gi).Some? ==> FirstWithIndex(a, xs, gi).value in xs
  {
    if xs != [] {
      FirstWithIndexNone(a, xs[1..], gi);
      if a[xs[0]].index != gi {
        forall k | 0 <= k < |xs| ensures a[xs[k]].index != gi || FirstWithIndex(a, xs, gi).Some? {
          if k > 0 { assert xs[k] == xs[1..][k - 1]; }
        }
      }
    }
  }

  /**
   * Model::find_node: the node itself when its glTF index matches, otherwise
   * the first child subtree, in order, that yields a match.
   */
  function FindNode(a: seq<Node>, id: nat, gi: nat): (r: Option<nat>)
    requires ValidArena(a) && id < |a|
    ensures r.Some? ==> r.value < |a| && a[r.value].index == gi
    decreases |a| - id, 1
  {
    if a[id].index == gi then Some(id) else FindIn(a, id, a[id].children, gi)
  }

  /** The first of the subtrees of ks, in order, in which FindNode succeeds. */
  function FindIn(a: seq<Node>, lo: int, ks: seq<nat>, gi: nat): (r: Option<nat>)
    requires ValidArena(a) && Above(a, lo, ks)
    ensures r.Some? ==> r.value < |a| && a[r.value].index == gi
    decreases |a| - lo, 0, |ks|
  {
    if ks == [] then None
    else
      match FindNode(a, ks[0], gi)
      case Some(n) => Some(n)
      case None => FindIn(a, lo, ks[1..], gi)
  }

  /** Model::node_from_index: find_node over the root nodes, in order. */
  function NodeFromIndex(a: seq<Node>, roots: seq<nat>, gi: nat): (r: Option<nat>)
    requires ValidArena(a) && Above(a, -1, roots)
    ensures r.Some? ==> r.value < |a| && a[r.value].index == gi
  {
    FindIn(a, -1, roots, gi)
  }

  /** find_node is a pre-order depth-first search: it returns the first match in pre-order. */
  lemma {:induction false} FindNodeIsPreOrderSearch(a: seq<Node>, id: nat, gi: nat)
    requires ValidArena(a) && id < |a|
    ensures FindNode(a, id, gi) == FirstWithIndex(a, PreOrder(a, id), gi)
    decreases |a| - id, 1
  {
    var f := Forest(a, id, a[id].children);
    assert PreOrder(a, id) == [id] + f;
    assert ([id] + f)[1..] == f;
    FindInIsPreOrderSearch(a, id, a[id].children, gi);
  }

  lemma {:induction false} FindInIsPreOrderSearch(a: seq<Node>, lo: int, ks: seq<nat>, gi: nat)
    requires ValidArena(a) && Above(a, lo, ks)
    ensures FindIn(a, lo, ks, gi) == FirstWithIndex(a, Forest(a, lo, ks), gi)
    decreases |a| - lo, 0, |ks|
  {
    if ks != [] {
      FindNodeIsPreOrderSearch(a, ks[0], gi);
      FindInIsPreOrderSearch(a, lo, ks[1..], gi);
      FirstWithIndexAppend(a, PreOrder(a, ks[0]), Forest(a, lo, ks[1..]), gi);
    }
  }

  /** node_from_index finds nothing exactly when no node reachable from the roots has that index. */
  lemma NodeFromIndexComplete(a: seq<Node>, roots: seq<nat>, gi: nat)
    requires ValidArena(a) && Above(a, -1, roots)
    ensures NodeFromIndex(a, roots, gi) == FirstWithIndex(a, Forest(a, -1, roots), gi)
    ensures NodeFromIndex(a, roots, gi).None? <==>
      forall k :: 0 <= k < |Forest(a, -1, roots)| ==> a[Forest(a, -1, roots)[k]].index != gi
  {
    FindInIsPreOrderSearch(a, -1, roots, gi);
    FirstWithIndexNone(a, Forest(a, -1, roots), gi);
  }

  /** std::min(|joints|, MAX_NUM_JOINTS): how many joint matrices update writes. */
  function NumJoints(s: Skin): (n: nat)
    ensures n <= MAX_NUM_JOINTS && n <= |s.joints|
    ensures n == MAX_NUM_JOINTS || n == |s.joints|
  {
    if |s.joints| < MAX_NUM_JOINTS then |s.joints| else MAX_NUM_JOINTS
  }

  /** What update reads of a skin: joints inside the arena and an inverse bind matrix per used joint. */
  predicate SkinOk(a: seq<Node>, s: Skin) {
    (forall j :: 0 <= j < |s.joints| ==> s.joints[j] < |a|) &&
    |s.inverseBindMatrices| >= NumJoints(s)
  }

  /**
   * What update demands of the scene: a forest, every mesh slot inside the
   * uniform buffer of nb blocks, and every skin a mesh node uses resolvable.
   */
  predicate SceneOk(a: seq<Node>, skins: seq<Skin>, nb: nat) {
    ValidArena(a) &&
    forall i :: 0 <= i < |a| && a[i].mesh.Some? ==>
      a[i].mesh.value.slot < nb &&
      (a[i].skin.Some? ==> a[i].skin.value < |skins| && SkinOk(a, skins[a[i].skin.value]))
  }

  /** inverse(world) * world(joint i) * inverse_bind_matrices[i]. */
  function JointMatrix(a: seq<Node>, s: Skin, w: Mat, i: nat): Mat
    requires ParentsBelow(a) && SkinOk(a, s) && i < NumJoints(s)
  {
    Mul([Inverse(w)], Mul(World(a, s.joints[i]), s.inverseBindMatrices[i]))
  }

  /** The joint matrices with the first k replaced by JointMatrix, the rest as before. */
  function JointsUpTo(a: seq<Node>, s: Skin, w: Mat, prev: seq<Mat>, k: nat): (r: seq<Mat>)
    requires ParentsBelow(a) && SkinOk(a, s) && k <= NumJoints(s) && |prev| == MAX_NUM_JOINTS
    ensures |r| == MAX_NUM_JOINTS
    ensures forall i :: 0 <= i < k ==> r[i] == JointMatrix(a, s, w, i)
    ensures forall i :: k <= i < MAX_NUM_JOINTS ==> r[i] == prev[i]
  {
    seq(MAX_NUM_JOINTS, i requires 0 <= i < MAX_NUM_JOINTS =>
      if i < k then JointMatrix(a, s, w, i) else prev[i])
  }

  /**
   * The effect of Node::update on the uniform blocks for node x alone. A
   * mesh-less node writes nothing. A skinned mesh node writes its world
   * matrix, the first NumJoints joint matrices and the joint count. An
   * unskinned mesh node writes only the matrix.
   */
  function WriteNode(a: seq<Node>, skins: seq<Skin>, b: seq<UniformBlock>, x: nat): (r: seq<UniformBlock>)
    requires SceneOk(a, skins, |b|) && BlocksOk(b) && x < |a|
    ensures |r| == |b| && BlocksOk(r)
  {
    match a[x].mesh
    case None => b
    case Some(mesh) =>
      var w := World(a, x);
      match a[x].skin
      case None => b[mesh.slot := b[mesh.slot].(matrix := w)]
      case Some(k) =>
        var n := NumJoints(skins[k]);
        b[mesh.slot := UniformBlock(w, JointsUpTo(a, skins[k], w, b[mesh.slot].jointMatrix, n), n)]
  }

  /** The effect of updating the nodes of xs one after another. */
  function WriteAll(a: seq<Node>, skins: seq<Skin>, b: seq<UniformBlock>, xs: seq<nat>): (r: seq<UniformBlock>)
    requires SceneOk(a, skins, |b|) && BlocksOk(b)
    requires forall k :: 0 <= k < |xs| ==> xs[k] < |a|
    ensures |r| == |b| && BlocksOk(r)
    decreases |xs|
  {
    if xs == [] then b else WriteAll(a, skins, WriteNode(a, skins, b, xs[0]), xs[1..])
  }

  lemma {:induction false} WriteAllAppend(a: seq<Node>, skins: seq<Skin>, b: seq<UniformBlock>, xs: seq<nat>, ys: seq<nat>)
    requires SceneOk(a, skins, |b|) && BlocksOk(b)
    requires forall k :: 0 <= k < |xs| ==> xs[k] < |a|
    requires forall k :: 0 <= k < |ys| ==> ys[k] < |a|
    ensures WriteAll(a, skins, b, xs + ys) == WriteAll(a, skins, WriteAll(a, skins, b, xs), ys)
    decreases |xs|
  {
    if xs == [] {
      assert xs + ys == ys;
    } else {
      assert (xs + ys)[1..] == xs[1..] + ys;
      WriteAllAppend(a, skins, WriteNode(a, skins, b, xs[0]), xs[1..], ys);
    }
  }

  /**
   * Node::update on a skinned mesh node: the slot gets the world matrix,
   * joint slots 0..n-1 get the joint matrices and the rest are untouched,
   * and joint_count is n = min(|joints|, 128) (glTF 2.0 section 3.7.3).
   * Every other block is untouched.
   */
  lemma WriteNodeSkinned(a: seq<Node>, skins: seq<Skin>, b: seq<UniformBlock>, x: nat)
    requires SceneOk(a, skins, |b|) && BlocksOk(b) && x < |a|
    requires a[x].mesh.Some? && a[x].skin.Some?
    ensures var s, sk := a[x].mesh.value.slot, skins[a[x].skin.value];
      var r := WriteNode(a, skins, b, x);
      r[s].matrix == World(a, x) &&
      r[s].jointCount == NumJoints(sk) &&
      (forall i :: 0 <= i < NumJoints(sk) ==> r[s].jointMatrix[i] == JointMatrix(a, sk, World(a, x), i)) &&
      (forall i :: NumJoints(sk) <= i < MAX_NUM_JOINTS ==> r[s].jointMatrix[i] == b[s].jointMatrix[i]) &&
      (forall t :: 0 <= t < |b| && t != s ==> r[t] == b[t])
  {
  }

  /**
   * Node::update on an unskinned mesh node writes only the matrix of its
   * slot; on a mesh-less node it writes nothing.
   */
  lemma WriteNodeUnskinned(a: seq<Node>, skins: seq<Skin>, b: seq<UniformBlock>, x: nat)
    requires SceneOk(a, skins, |b|) && BlocksOk(b) && x < |a|
    requires a[x].mesh.None? || a[x].skin.None?
    ensures a[x].mesh.None? ==> WriteNode(a, skins, b, x) == b
    ensures a[x].mesh.Some? ==>
      WriteNode(a, skins, b, x) == b[a[x].mesh.value.slot := b[a[x].mesh.value.slot].(matrix := World(a, x))]
  {
  }

  /** The mesh slots the nodes of xs write to. */
  predicate WritesSlot(a: seq<Node>, xs: seq<nat>, s: nat)
    requires forall k :: 0 <= k < |xs| ==> xs[k] < |a|
  {
    exists k :: 0 <= k < |xs| && a[xs[k]].mesh.Some? && a[xs[k]].mesh.value.slot == s
  }

  /** Updating xs leaves every block that no node of xs owns untouched. */
  lemma {:induction false} WriteAllFrame(a: seq<Node>, skins: seq<Skin>, b: seq<UniformBlock>, xs: seq<nat>, s: nat)
    requires SceneOk(a, skins, |b|) && BlocksOk(b)
    requires forall k :: 0 <= k < |xs| ==> xs[k] < |a|
    requires s < |b| && !WritesSlot(a, xs, s)
    ensures WriteAll(a, skins, b, xs)[s] == b[s]
    decreases |xs|
  {
    if xs != [] {
      var b1 := WriteNode(a, skins, b, xs[0]);
      assert b1[s] == b[s] by {
        if a[xs[0]].mesh.Some? {
          assert a[xs[0]].mesh.value.slot != s;
        }
      }
      WriteAllFrame(a, skins, b1, xs[1..], s);
    }
  }

  /** No two mesh nodes of xs share a slot. */
  predicate DistinctSlots(a: seq<Node>, xs: seq<nat>)
    requires forall k :: 0 <= k < |xs| ==> xs[k] < |a|
  {
    forall j, k :: 0 <= j < k < |xs| && a[xs[j]].mesh.Some? && a[xs[k]].mesh.Some? ==>
      a[xs[j]].mesh.value.slot != a[xs[k]].mesh.value.slot
  }

  /**
   * When the mesh slots of xs are distinct, updating xs leaves in each mesh
   * node's slot exactly what updating that node alone would write there.
   */
  lemma {:induction false} WriteAllOwnSlot(a: seq<Node>, skins: seq<Skin>, b: seq<UniformBlock>, xs: seq<nat>, k: nat)
    requires SceneOk(a, skins, |b|) && BlocksOk(b)
    requires forall j :: 0 <= j < |xs| ==> xs[j] < |a|
    requires DistinctSlots(a, xs)
    requires k < |xs| && a[xs[k]].mesh.Some?
    ensures var s := a[xs[k]].mesh.value.slot;
      WriteAll(a, skins, b, xs)[s] == WriteNode(a, skins, b, xs[k])[s]
    decreases |xs|
  {
    var s := a[xs[k]].mesh.value.slot;
    var b1 := WriteNode(a, skins, b, xs[0]);
    var rest := xs[1..];
    if k == 0 {
      WriteAllFrame(a, skins, b1, rest, s);
    } else {
      assert rest[k - 1] == xs[k];
      assert DistinctSlots(a, rest) by {
        forall i, j | 0 <= i < j < |rest| && a[rest[i]].mesh.Some? && a[rest[j]].mesh.Some?
          ensures a[rest[i]].mesh.value.slot != a[rest[j]].mesh.value.slot
        {
          assert rest[i] == xs[i + 1] && rest[j] == xs[j + 1];
        }
      }
      WriteAllOwnSlot(a, skins, b1, rest, k - 1);
      assert b1[s] == b[s] by {
        if a[xs[0]].mesh.Some? {
          assert a[xs[0]].mesh.value.slot != s;
        }
      }
    }
  }

  /**
   * The skinned branch of Node::update: store the world matrix m, then each
   * joint matrix inverse(m) * world(joint) * inverse_bind_matrix in turn,
   * then the joint count.
   */
  method WriteSkinned(a: seq<Node>, skin: Skin, blocks: array<UniformBlock>, slot: nat, m: Mat)
    requires ParentsBelow(a) && SkinOk(a, skin)
    requires slot < blocks.Length && |blocks[slot].jointMatrix| == MAX_NUM_JOINTS
    modifies blocks
    ensures blocks[..] == old(blocks[..])[slot :=
      UniformBlock(m, JointsUpTo(a, skin, m, old(blocks[slot].jointMatrix), NumJoints(skin)), NumJoints(skin))]
  {
    ghost var b0 := blocks[..];
    blocks[slot] := blocks[slot].(matrix := m);
    var inverseTransform: Mat := [Inverse(m)];
    var numJoints := if |skin.joints| < MAX_NUM_JOINTS then |skin.joints| else MAX_NUM_JOINTS;
    var i := 0;
    assert JointsUpTo(a, skin, m, b0[slot].jointMatrix, 0) == b0[slot].jointMatrix;
    while i < numJoints
      invariant 0 <= i <= numJoints == NumJoints(skin)
      invariant blocks[..] == b0[slot := b0[slot].(matrix := m, jointMatrix := JointsUpTo(a, skin, m, b0[slot].jointMatrix, i))]
    {
      var jointMat := GetMatrix(a, skin.joints[i]);
      jointMat := Mul(jointMat, skin.inverseBindMatrices[i]);
      jointMat := Mul(inverseTransform, jointMat);
      ghost var before := JointsUpTo(a, skin, m, b0[slot].jointMatrix, i);
      assert before[i := jointMat] == JointsUpTo(a, skin, m, b0[slot].jointMatrix, i + 1);
      blocks[slot] := blocks[slot].(jointMatrix := blocks[slot].jointMatrix[i := jointMat]);
      i := i + 1;
    }
    blocks[slot] := blocks[slot].(jointCount := numJoints);
  }

  /**
   * Node::update: write this node's matrices when it has a mesh (see
   * WriteNode), then update every child in order. The net effect is
   * WriteNode applied to the whole subtree in pre-order.
   */
  method Update(a: seq<Node>, skins: seq<Skin>, blocks: array<UniformBlock>, id: nat)
    requires SceneOk(a, skins, blocks.Length) && BlocksOk(blocks[..]) && id < |a|
    modifies blocks
    ensures blocks[..] == WriteAll(a, skins, old(blocks[..]), PreOrder(a, id))
    decreases |a| - id
  {
    var node := a[id];
    ghost var b0 := blocks[..];
    if node.mesh.Some? {
      var m := GetMatrix(a, id);
      var slot := node.mesh.value.slot;
      if node.skin.Some? {
        WriteSkinned(a, skins[node.skin.value], blocks, slot, m);
      } else {
        blocks[slot] := blocks[slot].(matrix := m);
      }
    }
    ghost var afterSelf := blocks[..];
    assert afterSelf == WriteNode(a, skins, b0, id);
    var kids := node.children;
    var k := 0;
    while k < |kids|
      invariant 0 <= k <= |kids|
      invariant Above(a, id, kids[..k])
      invariant BlocksOk(blocks[..])
      invariant blocks[..] == WriteAll(a, skins, afterSelf, Forest(a, id, kids[..k]))
    {
      Update(a, skins, blocks, kids[k]);
      assert kids[..k + 1] == kids[..k] + [kids[k]];
      ForestSnoc(a, id, kids[..k], kids[k]);
      WriteAllAppend(a, skins, afterSelf, Forest(a, id, kids[..k]), PreOrder(a, kids[k]));
      k := k + 1;
    }
    assert kids[..k] == kids;
  }

  /** Node::update on each root in turn: the blocks as WriteAll over the whole forest in pre-order. */
  method UpdateRoots(a: seq<Node>, skins: seq<Skin>, blocks: array<UniformBlock>, roots: seq<nat>)
    requires SceneOk(a, skins, blocks.Length) && BlocksOk(blocks[..]) && Above(a, -1, roots)
    modifies blocks
    ensures blocks[..] == WriteAll(a, skins, old(blocks[..]), Forest(a, -1, roots))
  {
    ghost var b0 := blocks[..];
    var k := 0;
    while k < |roots|
      invariant 0 <= k <= |roots|
      invariant Above(a, -1, roots[..k])
      invariant BlocksOk(blocks[..])
      invariant blocks[..] == WriteAll(a, skins, b0, Forest(a, -1, roots[..k]))
    {
      Update(a, skins, blocks, roots[k]);
      assert roots[..k + 1] == roots[..k] + [roots[k]];
      ForestSnoc(a, -1, roots[..k], roots[k]);
      WriteAllAppend(a, skins, b0, Forest(a, -1, roots[..k]), PreOrder(a, roots[k]));
      k := k + 1;
    }
    assert roots[..k] == roots;
  }

  /** Only transforms differ: parents, children, meshes and skins stay as they were. */
  predicate SameShape(a: seq<Node>, b: seq<Node>) {
    |a| == |b| &&
    forall i :: 0 <= i < |a| ==>
      b[i].parent == a[i].parent && b[i].children == a[i].children &&
      b[i].mesh == a[i].mesh && b[i].skin == a[i].skin
  }

  /** A change of transforms alone keeps everything update relies on: a forest, the mesh slots and the skins. */
  lemma SameShapeSceneOk(a: seq<Node>, b: seq<Node>, skins: seq<Skin>, nb: nat)
    requires SameShape(a, b) && SceneOk(a, skins, nb)
    ensures SceneOk(b, skins, nb)
  {
    SameShapeValid(a, b);
  }

  /** A change of transforms alone keeps the arena a forest. */
  lemma SameShapeValid(a: seq<Node>, b: seq<Node>)
    requires SameShape(a, b) && ValidArena(a)
    ensures ValidArena(b)
  {
    forall i | 0 <= i < |b| && b[i].parent.Some? ensures b[i].parent.value < i {
      assert a[i].parent == b[i].parent;
    }
  }
}

=== FILE: skins.dfy ===
/**
 * Model::load_skins (model.cpp): a glTF skin (section 3.7.3 of the glTF 2.0
 * specification) becomes a Skin whose skeleton root and joints are loaded
 * nodes found by their glTF index, and whose inverse bind matrices are the
 * accessor's matrices.
 */
module Skins {
  import opened Wrappers
  import opened LinAlg
  import opened Document
  import opened Scene

  /** The joints a skin keeps: each glTF joint index that names a loaded node, in order. */
  function JointsFromDoc(a: seq<Node>, roots: seq<nat>, js: seq<int>): (r: seq<nat>)
    requires ValidArena(a) && Above(a, -1, roots)
    ensures |r| <= |js|
    ensures forall k :: 0 <= k < |r| ==> r[k] < |a|
  {
    if js == [] then []
    else
      var init := JointsFromDoc(a, roots, js[..|js| - 1]);
      match NodeFromIndex(a, roots, ToU32(js[|js| - 1]))
      case None => init
      case Some(n) => init + [n]
  }

  /** The inverse bind matrices: each 16-number matrix as a raw column-major factor, or none when absent. */
  function BindMatricesOf(m: Option<seq<seq<real>>>): (r: seq<Mat>)
    ensures m.None? ==> r == []
    ensures m.Some? ==> |r| == |m.value| && forall k :: 0 <= k < |r| ==> r[k] == [Columns(m.value[k])]
  {
    match m
    case None => []
    case Some(ms) => seq(|ms|, k requires 0 <= k < |ms| => [Columns(ms[k])])
  }

  /** The skin load_skins builds from s. */
  function SkinFromDoc(a: seq<Node>, roots: seq<nat>, s: DocSkin): Skin
    requires ValidArena(a) && Above(a, -1, roots)
  {
    Skin(
      s.name,
      if s.skeleton > -1 then NodeFromIndex(a, roots, s.skeleton) else None,
      BindMatricesOf(s.inverseBindMatrices),
      JointsFromDoc(a, roots, s.joints))
  }

  /** Loaded node n carries the glTF index of one of js. */
  predicate Names(a: seq<Node>, js: seq<int>, n: nat)
    requires n < |a|
  {
    exists j :: 0 <= j < |js| && a[n].index == ToU32(js[j])
  }

  /** Every kept joint is a loaded node whose glTF index is one of the skin's joint indices. */
  lemma {:induction false} JointsFromDocSound(a: seq<Node>, roots: seq<nat>, js: seq<int>)
    requires ValidArena(a) && Above(a, -1, roots)
    ensures forall k :: 0 <= k < |JointsFromDoc(a, roots, js)| ==> Names(a, js, JointsFromDoc(a, roots, js)[k])
  {
    if js != [] {
      var init := js[..|js| - 1];
      JointsFromDocSound(a, roots, init);
      var r := JointsFromDoc(a, roots, js);
      forall k | 0 <= k < |r| ensures Names(a, js, r[k]) {
        if k < |JointsFromDoc(a, roots, init)| {
          assert Names(a, init, r[k]);
          var j :| 0 <= j < |init| && a[r[k]].index == ToU32(init[j]);
          assert js[j] == init[j];
        } else {
          var n := NodeFromIndex(a, roots, ToU32(js[|js| - 1]));
          assert n.Some? && r[k] == n.value;
          assert a[r[k]].index == ToU32(js[|js| - 1]);
        }
      }
    }
  }

  /** Joints are dropped only when they name no loaded node: when every one does, all are kept. */
  lemma {:induction false} JointsFromDocAllKept(a: seq<Node>, roots: seq<nat>, js: seq<int>)
    requires ValidArena(a) && Above(a, -1, roots)
    requires forall j :: 0 <= j < |js| ==> NodeFromIndex(a, roots, ToU32(js[j])).Some?
    ensures |JointsFromDoc(a, roots, js)| == |js|
  {
    if js != [] {
      JointsFromDocAllKept(a, roots, js[..|js| - 1]);
    }
  }

  /**
   * What Node::update needs of a loaded skin holds when the glTF skin has an
   * inverse bind matrix for each of its first 128 joints (or has no joints).
   */
  predicate BindMatricesCover(s: DocSkin) {
    var n := if |s.joints| < MAX_NUM_JOINTS then |s.joints| else MAX_NUM_JOINTS;
    n == 0 || (s.inverseBindMatrices.Some? && |s.inverseBindMatrices.value| >= n)
  }

  lemma SkinFromDocOk(a: seq<Node>, roots: seq<nat>, s: DocSkin)
    requires ValidArena(a) && Above(a, -1, roots) && BindMatricesCover(s)
    ensures SkinOk(a, SkinFromDoc(a, roots, s))
  {
  }

  /** The joint loop of load_skins: append each joint index that resolves to a loaded node. */
  method LoadJoints(a: seq<Node>, roots: seq<nat>, js: seq<int>) returns (joints: seq<nat>)
    requires ValidArena(a) && Above(a, -1, roots)
    ensures joints == JointsFromDoc(a, roots, js)
  {
    joints := [];
    var k := 0;
    while k < |js|
      invariant 0 <= k <= |js|
      invariant joints == JointsFromDoc(a, roots, js[..k])
    {
      assert js[..k + 1][..k] == js[..k];
      var node := NodeFromIndex(a, roots, ToU32(js[k]));
      if node.Some? {
        joints := joints + [node.value];
      }
      k := k + 1;
    }
    assert js[..k] == js;
  }

  /** The body of load_skins for one glTF skin. */
  method LoadSkin(a: seq<Node>, roots: seq<nat>, s: DocSkin) returns (skin: Skin)
    requires ValidArena(a) && Above(a, -1, roots)
    ensures skin == SkinFromDoc(a, roots, s)
  {
    var skeletonRoot: Option<nat> := None;
    if s.skeleton > -1 {
      skeletonRoot := NodeFromIndex(a, roots, s.skeleton);
    }
    var joints := LoadJoints(a, roots, s.joints);
    var ibm: seq<Mat> := [];
    if s.inverseBindMatrices.Some? {
      var ms := s.inverseBindMatrices.value;
      var k := 0;
      while k < |ms|
        invariant 0 <= k <= |ms| && |ibm| == k
        invariant forall i :: 0 <= i < k ==> ibm[i] == [Columns(ms[i])]
      {
        ibm := ibm + [[Columns(ms[k])]];
        k := k + 1;
      }
    }
    skin := Skin(s.name, skeletonRoot, ibm, joints);
  }

  /**
   * What the initial pose needs: update's demands (SceneOk), every skin
   * index naming a skin that resolves in the arena, and every skin pointer
   * already set agreeing with the node's skin index.
   */
  predicate PoseOk(a: seq<Node>, skins: seq<Skin>, nb: nat) {
    SceneOk(a, skins, nb) &&
    (forall i :: 0 <= i < |a| && a[i].skinIndex > -1 ==>
      a[i].skinIndex < |skins| && SkinOk(a, skins[a[i].skinIndex])) &&
    (forall i :: 0 <= i < |a| && a[i].skin.Some? ==> a[i].skin.value == a[i].skinIndex)
  }

  /** Skin assignment in load_from_file: a node with a skin index gets skins[skin_index]. */
  function AssignSkin(a: seq<Node>, x: nat): (r: seq<Node>)
    requires x < |a|
    ensures |r| == |a|
  {
    if a[x].skinIndex > -1 then a[x := a[x].(skin := Some(a[x].skinIndex as nat))] else a
  }

  /** Assigning a skin keeps what the pose needs. */
  lemma AssignSkinOk(a: seq<Node>, skins: seq<Skin>, nb: nat, x: nat)
    requires PoseOk(a, skins, nb) && x < |a|
    ensures PoseOk(AssignSkin(a, x), skins, nb)
  {
    var r := AssignSkin(a, x);
    assert forall i :: 0 <= i < |a| ==> r[i] == a[i].(skin := r[i].skin);
    forall s: Skin | SkinOk(a, s) ensures SkinOk(r, s) {
    }
  }

  /**
   * The loop of load_from_file over the linear node list: each node first
   * gets its skin when it has a skin index, then, when it has a mesh, is
   * updated (Node::update on its subtree). The result is the arena and the
   * uniform blocks.
   */
  function PoseF(a: seq<Node>, skins: seq<Skin>, b: seq<UniformBlock>, xs: seq<nat>): (r: (seq<Node>, seq<UniformBlock>))
    requires PoseOk(a, skins, |b|) && BlocksOk(b)
    requires forall k :: 0 <= k < |xs| ==> xs[k] < |a|
    ensures |r.0| == |a| && |r.1| == |b| && BlocksOk(r.1) && PoseOk(r.0, skins, |b|)
    decreases |xs|
  {
    if xs == [] then (a, b)
    else
      var x := xs[0];
      var a1 := AssignSkin(a, x);
      AssignSkinOk(a, skins, |b|, x);
      var b1 := if a1[x].mesh.Some? then WriteAll(a1, skins, b, PreOrder(a1, x)) else b;
      PoseF(a1, skins, b1, xs[1..])
  }

  /** One step of the pose: assign x's skin, then write x's subtree when x has a mesh. */
  lemma PoseStep(a: seq<Node>, skins: seq<Skin>, b: seq<UniformBlock>, xs: seq<nat>)
    requires PoseOk(a, skins, |b|) && BlocksOk(b)
    requires forall k :: 0 <= k < |xs| ==> xs[k] < |a|
    requires xs != []
    ensures var a1 := AssignSkin(a, xs[0]);
      PoseOk(a1, skins, |b|) &&
      var b1 := if a1[xs[0]].mesh.Some? then WriteAll(a1, skins, b, PreOrder(a1, xs[0])) else b;
      |b1| == |b| && BlocksOk(b1) && PoseF(a, skins, b, xs) == PoseF(a1, skins, b1, xs[1..])
  {
    AssignSkinOk(a, skins, |b|, xs[0]);
  }

  /**
   * The pose changes nothing but skin pointers: a node of xs with a skin
   * index ends with skins[skin_index], and every other node keeps the skin
   * it had.
   */
  lemma {:induction false} PoseAssignsSkins(a: seq<Node>, skins: seq<Skin>, b: seq<UniformBlock>, xs: seq<nat>, i: nat)
    requires PoseOk(a, skins, |b|) && BlocksOk(b)
    requires forall k :: 0 <= k < |xs| ==> xs[k] < |a|
    requires i < |a|
    ensures var r := PoseF(a, skins, b, xs);
      r.0[i] == a[i].(skin := r.0[i].skin) &&
      r.0[i].skin == if i in xs && a[i].skinIndex > -1 then Some(a[i].skinIndex as nat) else a[i].skin
    decreases |xs|
  {
    if xs != [] {
      var x := xs[0];
      var a1 := AssignSkin(a, x);
      AssignSkinOk(a, skins, |b|, x);
      var b1 := if a1[x].mesh.Some? then WriteAll(a1, skins, b, PreOrder(a1, x)) else b;
      PoseAssignsSkins(a1, skins, b1, xs[1..], i);
      assert i in xs <==> i == x || i in xs[1..];
    }
  }

  /** With no mesh node in xs the pose writes no block. */
  lemma {:induction false} PoseWithoutMeshes(a: seq<Node>, skins: seq<Skin>, b: seq<UniformBlock>, xs: seq<nat>)
    requires PoseOk(a, skins, |b|) && BlocksOk(b)
    requires forall k :: 0 <= k < |xs| ==> xs[k] < |a| && a[xs[k]].mesh.None?
    ensures PoseF(a, skins, b, xs).1 == b
    decreases |xs|
  {
    if xs != [] {
      var a1 := AssignSkin(a, xs[0]);
      AssignSkinOk(a, skins, |b|, xs[0]);
      assert forall k :: 0 <= k < |xs[1..]| ==> a1[xs[1..][k]].mesh == a[xs[k + 1]].mesh;
      PoseWithoutMeshes(a1, skins, b, xs[1..]);
    }
  }

  /** The skins load_skins appends for ss, in order. */
  function SkinsFromDoc(a: seq<Node>, roots: seq<nat>, ss: seq<DocSkin>): (r: seq<Skin>)
    requires ValidArena(a) && Above(a, -1, roots)
    ensures |r| == |ss|
  {
    if ss == [] then [] else SkinsFromDoc(a, roots, ss[..|ss| - 1]) + [SkinFromDoc(a, roots, ss[|ss| - 1])]
  }

  /** One more glTF skin appends one more skin. */
  lemma SkinsFromDocSnoc(a: seq<Node>, roots: seq<nat>, ss: seq<DocSkin>, k: nat, pre: seq<Skin>)
    requires ValidArena(a) && Above(a, -1, roots) && k < |ss|
    ensures pre + SkinsFromDoc(a, roots, ss[..k + 1]) == pre + SkinsFromDoc(a, roots, ss[..k]) + [SkinFromDoc(a, roots, ss[k])]
  {
    assert ss[..k + 1][..k] == ss[..k];
  }

  /** The k-th skin appended is built from the k-th glTF skin. */
  lemma {:induction false} SkinsFromDocAt(a: seq<Node>, roots: seq<nat>, ss: seq<DocSkin>, k: nat)
    requires ValidArena(a) && Above(a, -1, roots) && k < |ss|
    ensures SkinsFromDoc(a, roots, ss)[k] == SkinFromDoc(a, roots, ss[k])
  {
    if k < |ss| - 1 {
      SkinsFromDocAt(a, roots, ss[..|ss| - 1], k);
    }
  }
}

=== FILE: staging.dfy ===
/**
 * The staging copy shared by compute_pbr_maps (05_pbr/pbr_maps.cpp) and
 * create_texture (02_model/main.cpp): an image of `h` rows of
 * `w * pixel` bytes is copied into a mapped buffer whose rows are padded to
 * the device's row alignment and whose size is padded to its image
 * alignment.
 */
module Staging {

  /** AC_ALIGN_UP: x rounded up to the next multiple of a. */
  function AlignUp(x: nat, a: nat): (r: nat)
    requires a > 0
    ensures r % a == 0 && x <= r < x + a
  {
    AlignUpOk(x, a);
    ((x + a - 1) / a) * a
  }

  lemma AlignUpOk(x: nat, a: nat)
    requires a > 0
    ensures var r := ((x + a - 1) / a) * a; r % a == 0 && x <= r < x + a
  {
    var n := x + a - 1;
    var q := n / a;
    assert q * a == n - n % a;
    MulMod(q, a);
  }

  lemma MulMod(q: nat, a: nat)
    requires a > 0
    ensures (q * a) % a == 0
  {
    var p, r := (q * a) / a, (q * a) % a;
    assert (q - p) * a == r;
    if q - p >= 1 {
      MulMonoInt(1, q - p, a);
    } else if q - p <= -1 {
      MulMonoInt(q - p, -1, a);
    }
  }

  lemma MulMonoInt(x: int, y: int, c: nat)
    requires x <= y
    ensures x * c <= y * c
  {
  }

  /** Row sizes and buffer size of a staged image. */
  datatype StagingLayout = StagingLayout(srcRow: nat, dstRow: nat, size: nat)

  /**
   * The source rows are tightly packed, `w * pixel` bytes; the buffer rows
   * are that rounded up to the row alignment, and the buffer is `h` such
   * rows rounded up to the image alignment.
   */
  function LayoutOf(w: nat, h: nat, pixel: nat, rowAlign: nat, imageAlign: nat): (l: StagingLayout)
    requires rowAlign > 0 && imageAlign > 0
    ensures l.srcRow == w * pixel
    ensures l.srcRow <= l.dstRow < l.srcRow + rowAlign && l.dstRow % rowAlign == 0
    ensures l.dstRow * h <= l.size < l.dstRow * h + imageAlign && l.size % imageAlign == 0
  {
    var srcRow := w * pixel;
    var dstRow := AlignUp(srcRow, rowAlign);
    StagingLayout(srcRow, dstRow, AlignUp(dstRow * h, imageAlign))
  }

  lemma MulMono(a: nat, b: nat, c: nat)
    requires a <= b
    ensures a * c <= b * c
  {
  }

  /** Offset k of a buffer with rows of d bytes lies in row k / d, at column k % d. */
  lemma RowOf(k: nat, i: nat, d: nat)
    requires d > 0 && i * d <= k < i * d + d
    ensures k / d == i && k % d == k - i * d
  {
    var q, r := k / d, k % d;
    assert k == q * d + r && 0 <= r < d;
    Distribute(q, d);
    Distribute(i, d);
    MulStrict(i, q + 1, d);
    MulStrict(q, i + 1, d);
  }

  /** Byte j of row i of a layout with rows of `row` bytes, for any of the first h rows. */
  lemma RowByteBelow(i: nat, j: nat, row: nat, h: nat)
    requires i < h && j < row
    ensures i * row + j < h * row
  {
    MulMono(i + 1, h, row);
  }

  /**
   * The byte the row loop leaves at buffer offset k after copying the first
   * h rows: byte k % dstRow of source row k / dstRow when that column is
   * inside the row's srcRow bytes, otherwise what the buffer held before.
   */
  function StagedByte(before: seq<bv8>, src: seq<bv8>, h: nat, srcRow: nat, dstRow: nat, k: nat): bv8
    requires srcRow <= dstRow && h * srcRow <= |src| && k < |before|
  {
    if dstRow > 0 && k / dstRow < h && k % dstRow < srcRow then
      RowByteBelow(k / dstRow, k % dstRow, srcRow, h);
      src[(k / dstRow) * srcRow + k % dstRow]
    else before[k]
  }

  /** The buffer after the first h rows are copied. */
  function Staged(before: seq<bv8>, src: seq<bv8>, h: nat, srcRow: nat, dstRow: nat): (r: seq<bv8>)
    requires srcRow <= dstRow && h * srcRow <= |src|
    ensures |r| == |before|
  {
    seq(|before|, k requires 0 <= k < |before| => StagedByte(before, src, h, srcRow, dstRow, k))
  }

  /** Row i lands at offset i * dstRow: its srcRow bytes are the source's row i. */
  lemma StagedRow(before: seq<bv8>, src: seq<bv8>, h: nat, srcRow: nat, dstRow: nat, i: nat, j: nat)
    requires srcRow <= dstRow && h * srcRow <= |src| && h * dstRow <= |before| && i < h && j < srcRow
    ensures i * dstRow + j < |before| && i * srcRow + j < |src|
    ensures Staged(before, src, h, srcRow, dstRow)[i * dstRow + j] == src[i * srcRow + j]
  {
    RowByteBelow(i, j, dstRow, h);
    RowByteBelow(i, j, srcRow, h);
    RowOf(i * dstRow + j, i, dstRow);
  }

  /**
   * Only source bytes are written: the padding at the end of each row and
   * everything past the last row keep the buffer's earlier contents.
   */
  lemma StagedPadding(before: seq<bv8>, src: seq<bv8>, h: nat, srcRow: nat, dstRow: nat, k: nat)
    requires srcRow <= dstRow && h * srcRow <= |src| && k < |before|
    requires k >= h * dstRow || (dstRow > 0 && k % dstRow >= srcRow)
    ensures Staged(before, src, h, srcRow, dstRow)[k] == before[k]
  {
    if dstRow > 0 && k >= h * dstRow {
      var q := k / dstRow;
      assert k == q * dstRow + k % dstRow;
      Distribute(q, dstRow);
      MulStrict(h, q + 1, dstRow);
    }
  }

  /** Multiplying by a positive number keeps a strict order in both directions. */
  lemma MulStrict(a: int, b: int, d: nat)
    requires d > 0
    ensures a * d < b * d ==> a < b
  {
  }

  /** (i + 1) rows of r bytes are i rows and one more. */
  lemma Distribute(i: nat, r: nat)
    ensures (i + 1) * r == i * r + r
  {
  }

  /** memcpy of n bytes from src[from..] to dst[at..]. */
  method Memcpy(dst: array<bv8>, at: nat, src: seq<bv8>, from: nat, n: nat)
    requires at + n <= dst.Length && from + n <= |src|
    modifies dst
    ensures dst[..] == old(dst[..at]) + src[from..from + n] + old(dst[at + n..])
  {
    for j := 0 to n
      invariant forall t :: 0 <= t < dst.Length ==>
        dst[t] == if at <= t < at + j then src[from + t - at] else old(dst[t])
    {
      dst[at + j] := src[from + j];
    }
    assert dst[..] == old(dst[..at]) + src[from..from + n] + old(dst[at + n..]);
  }

  /** Copying row i onto the buffer with i rows copied gives the buffer with i + 1 rows copied. */
  lemma StagedStep(before: seq<bv8>, cur: seq<bv8>, src: seq<bv8>, i: nat, d0: nat, s0: nat, srcRow: nat, dstRow: nat)
    requires d0 == i * dstRow && s0 == i * srcRow
    requires srcRow <= dstRow && s0 + srcRow <= |src| && d0 + dstRow <= |before|
    requires cur == Staged(before, src, i, srcRow, dstRow)
    ensures d0 + srcRow <= |cur|
    ensures cur[..d0] + src[s0..s0 + srcRow] + cur[d0 + srcRow..] == Staged(before, src, i + 1, srcRow, dstRow)
  {
    Distribute(i, srcRow);
    var next := cur[..d0] + src[s0..s0 + srcRow] + cur[d0 + srcRow..];
    var want := Staged(before, src, i + 1, srcRow, dstRow);
    forall k | 0 <= k < |before|
      ensures next[k] == want[k]
    {
      if d0 <= k < d0 + srcRow {
        StagedInRow(before, src, i, srcRow, dstRow, k);
      } else {
        StagedOffRow(before, src, i, srcRow, dstRow, k);
      }
    }
  }

  /** A byte of row i, once row i is copied, is the source's byte. */
  lemma StagedInRow(before: seq<bv8>, src: seq<bv8>, i: nat, srcRow: nat, dstRow: nat, k: nat)
    requires srcRow <= dstRow && (i + 1) * srcRow <= |src| && k < |before|
    requires i * dstRow <= k < i * dstRow + srcRow
    ensures i * srcRow + (k - i * dstRow) < |src|
    ensures StagedByte(before, src, i + 1, srcRow, dstRow, k) == src[i * srcRow + (k - i * dstRow)]
  {
    RowOf(k, i, dstRow);
    assert (i + 1) * srcRow == i * srcRow + srcRow;
  }

  /** A byte outside row i is the same with i rows copied as with i + 1. */
  lemma StagedOffRow(before: seq<bv8>, src: seq<bv8>, i: nat, srcRow: nat, dstRow: nat, k: nat)
    requires srcRow <= dstRow && (i + 1) * srcRow <= |src| && i * srcRow <= |src| && k < |before|
    requires k < i * dstRow || i * dstRow + srcRow <= k
    ensures StagedByte(before, src, i + 1, srcRow, dstRow, k) == StagedByte(before, src, i, srcRow, dstRow, k)
  {
    if dstRow > 0 {
      var q := k / dstRow;
      assert k == q * dstRow + k % dstRow;
      if q == i {
        assert k % dstRow >= srcRow;
      } else if q > i {
        MulMono(i + 1, q, dstRow);
      }
    }
  }

  /**
   * The row loop: h times, srcRow bytes are copied from the source cursor to
   * the buffer cursor, and the cursors advance by srcRow and dstRow.
   */
  method CopyRows(dst: array<bv8>, src: seq<bv8>, h: nat, srcRow: nat, dstRow: nat)
    requires srcRow <= dstRow && h * dstRow <= dst.Length && h * srcRow <= |src|
    modifies dst
    ensures dst[..] == Staged(old(dst[..]), src, h, srcRow, dstRow)
  {
    ghost var before := dst[..];
    var d, s := 0, 0;
    for i := 0 to h
      invariant d == i * dstRow && s == i * srcRow
      invariant i * srcRow <= |src| && i * dstRow <= dst.Length
      invariant dst[..] == Staged(before, src, i, srcRow, dstRow)
    {
      MulMono(i + 1, h, srcRow);
      MulMono(i + 1, h, dstRow);
      CopyRow(dst, before, src, i, d, s, srcRow, dstRow);
      d, s := d + dstRow, s + srcRow;
    }
  }

  /** One pass of the row loop: the memcpy of row i from offset s of the source to offset d of the buffer. */
  method CopyRow(dst: array<bv8>, ghost before: seq<bv8>, src: seq<bv8>, i: nat, d: nat, s: nat, srcRow: nat, dstRow: nat)
    requires d == i * dstRow && s == i * srcRow && |before| == dst.Length
    requires srcRow <= dstRow && (i + 1) * srcRow <= |src| && (i + 1) * dstRow <= dst.Length
    requires dst[..] == Staged(before, src, i, srcRow, dstRow)
    modifies dst
    ensures dst[..] == Staged(before, src, i + 1, srcRow, dstRow)
  {
    Distribute(i, srcRow);
    Distribute(i, dstRow);
    StagedStep(before, dst[..], src, i, d, s, srcRow, dstRow);
    Memcpy(dst, d, src, s, srcRow);
  }

  /**
   * The whole staging step: a buffer of the layout's size receives the h
   * source rows, each at its padded offset, and every write stays inside
   * the buffer.
   */
  method StageImage(dst: array<bv8>, src: seq<bv8>, w: nat, h: nat, pixel: nat, rowAlign: nat, imageAlign: nat)
    requires rowAlign > 0 && imageAlign > 0
    requires dst.Length == LayoutOf(w, h, pixel, rowAlign, imageAlign).size && h * (w * pixel) <= |src|
    modifies dst
    ensures var l := LayoutOf(w, h, pixel, rowAlign, imageAlign);
      dst[..] == Staged(old(dst[..]), src, h, l.srcRow, l.dstRow)
  {
    var l := LayoutOf(w, h, pixel, rowAlign, imageAlign);
    CopyRows(dst, src, h, l.srcRow, l.dstRow);
  }
}

=== FILE: textures.dfy ===
/**
 * Texture samplers and the CPU side of texture upload in model.cpp:
 * get_address_mode and get_ac_filter (glTF 2.0 section 3.8.4 sampler enums),
 * the sampler a texture gets, and the RGB to RGBA expansion of
 * Texture::from_gltf_image.
 */
module Textures {
  import opened Document

  datatype Filter = Nearest | Linear

  datatype AddressMode = Repeat | ClampToEdge | MirroredRepeat

  /** TextureSampler: filters and the three address modes. */
  datatype TextureSampler = TextureSampler(
    magFilter: Filter,
    minFilter: Filter,
    addressModeU: AddressMode,
    addressModeV: AddressMode,
    addressModeW: AddressMode)

  /** A loaded texture: the glTF image it was made from and its sampler. */
  datatype Texture = Texture(source: nat, sampler: TextureSampler)

  /** glTF wrap modes. */
  const REPEAT: int := 10497
  const CLAMP_TO_EDGE: int := 33071
  const MIRRORED_REPEAT: int := 33648

  /** Model::get_address_mode; -1 (absent) and unknown values give repeat. */
  function GetAddressMode(wrapMode: int): AddressMode {
    if wrapMode == CLAMP_TO_EDGE then ClampToEdge
    else if wrapMode == MIRRORED_REPEAT then MirroredRepeat
    else Repeat
  }

  /** The two non-repeat modes come from exactly their glTF constants; everything else repeats. */
  lemma GetAddressModeExact(wrapMode: int)
    ensures GetAddressMode(wrapMode) == ClampToEdge <==> wrapMode == 33071
    ensures GetAddressMode(wrapMode) == MirroredRepeat <==> wrapMode == 33648
    ensures GetAddressMode(wrapMode) == Repeat <==> wrapMode != 33071 && wrapMode != 33648
  {
  }

  /**
   * Model::get_ac_filter: LINEAR (9729), LINEAR_MIPMAP_NEAREST (9986) and
   * LINEAR_MIPMAP_LINEAR (9987) give linear; NEAREST (9728),
   * NEAREST_MIPMAP_NEAREST (9984), NEAREST_MIPMAP_LINEAR (9985), -1 and
   * unknown values give nearest.
   */
  function GetAcFilter(filter: int): Filter {
    if filter == 9729 || filter == 9986 || filter == 9987 then Linear else Nearest
  }

  lemma GetAcFilterExact(filter: int)
    ensures GetAcFilter(filter) == Linear <==> filter in {9729, 9986, 9987}
    ensures GetAcFilter(9985) == Nearest && GetAcFilter(9986) == Linear
    ensures GetAcFilter(-1) == Nearest
  {
  }

  /**
   * load_texture_samplers' loop body: filters through get_ac_filter, U from
   * wrapS, V from wrapT, and W copied from V.
   */
  function SamplerOf(s: DocSampler): TextureSampler {
    var v := GetAddressMode(s.wrapT);
    TextureSampler(GetAcFilter(s.magFilter), GetAcFilter(s.minFilter), GetAddressMode(s.wrapS), v, v)
  }

  lemma SamplerOfWrapW(s: DocSampler)
    ensures SamplerOf(s).addressModeW == SamplerOf(s).addressModeV == GetAddressMode(s.wrapT)
    ensures SamplerOf(s).addressModeU == GetAddressMode(s.wrapS)
    ensures SamplerOf(s).minFilter == GetAcFilter(s.minFilter) && SamplerOf(s).magFilter == GetAcFilter(s.magFilter)
  {
  }

  /** The sampler of a texture without one: linear filtering, repeat on every axis. */
  const DefaultSampler: TextureSampler := TextureSampler(Linear, Linear, Repeat, Repeat, Repeat)

  /** load_textures: sampler -1 means the default sampler, otherwise the loaded sampler at that position. */
  function SamplerFor(t: DocTexture, samplers: seq<TextureSampler>): TextureSampler
    requires t.sampler == -1 || 0 <= t.sampler < |samplers|
  {
    if t.sampler == -1 then DefaultSampler else samplers[t.sampler]
  }

  /**
   * A texture without a sampler filters linearly, although a sampler whose
   * filters are absent (-1) filters with nearest.
   */
  lemma DefaultSamplerIsNotAbsentFilters(t: DocTexture, samplers: seq<TextureSampler>)
    requires t.sampler == -1
    ensures SamplerFor(t, samplers).minFilter == Linear && SamplerFor(t, samplers).magFilter == Linear
    ensures SamplerOf(DocSampler(-1, -1, -1, -1)).minFilter == Nearest
    ensures SamplerFor(t, samplers).addressModeU == SamplerOf(DocSampler(-1, -1, -1, -1)).addressModeU
  {
  }

  /** Byte j of pixel i in a buffer of `stride` bytes per pixel. */
  function PixelByte(s: seq<bv8>, stride: nat, i: nat, j: nat): bv8
    requires stride * i + j < |s|
  {
    s[stride * i + j]
  }

  /** Byte k of the RGBA buffer: a colour byte of the RGB image, or the old alpha byte. */
  function Channel(rgb: seq<bv8>, uninit: seq<bv8>, pixels: nat, k: nat): bv8
    requires |rgb| >= 3 * pixels && |uninit| == 4 * pixels && k < 4 * pixels
  {
    if k % 4 < 3 then rgb[3 * (k / 4) + k % 4] else uninit[k]
  }

  lemma ChannelAt(rgb: seq<bv8>, uninit: seq<bv8>, pixels: nat, i: nat, j: nat)
    requires |rgb| >= 3 * pixels && |uninit| == 4 * pixels && i < pixels && j < 4
    ensures Channel(rgb, uninit, pixels, 4 * i + j) == if j < 3 then rgb[3 * i + j] else uninit[4 * i + j]
  {
    assert (4 * i + j) / 4 == i && (4 * i + j) % 4 == j;
  }

  /**
   * The RGBA buffer the expansion loop leaves: byte 4i+j is RGB byte 3i+j
   * for j < 3, and the alpha bytes keep whatever the fresh allocation held.
   */
  function ExpandedRgb(rgb: seq<bv8>, uninit: seq<bv8>, pixels: nat): (r: seq<bv8>)
    requires |rgb| >= 3 * pixels && |uninit| == 4 * pixels
    ensures |r| == 4 * pixels
  {
    seq(4 * pixels, k requires 0 <= k < 4 * pixels => Channel(rgb, uninit, pixels, k))
  }

  /**
   * For a 3-component image the upload buffer has 4 bytes per pixel: the
   * three colour bytes of each pixel in order, and an alpha byte the loop
   * never writes.
   */
  lemma ExpandedRgbBytes(rgb: seq<bv8>, uninit: seq<bv8>, pixels: nat)
    requires |rgb| >= 3 * pixels && |uninit| == 4 * pixels
    ensures forall i, j :: 0 <= i < pixels && 0 <= j < 3 ==>
      PixelByte(ExpandedRgb(rgb, uninit, pixels), 4, i, j) == PixelByte(rgb, 3, i, j)
    ensures forall i :: 0 <= i < pixels ==>
      PixelByte(ExpandedRgb(rgb, uninit, pixels), 4, i, 3) == PixelByte(uninit, 4, i, 3)
  {
    forall i, j | 0 <= i < pixels && 0 <= j < 4
      ensures PixelByte(ExpandedRgb(rgb, uninit, pixels), 4, i, j) ==
        if j < 3 then PixelByte(rgb, 3, i, j) else PixelByte(uninit, 4, i, j)
    {
      ChannelAt(rgb, uninit, pixels, i, j);
    }
  }

  /**
   * The expansion loop of Texture::from_gltf_image: for each pixel, copy its
   * three colour bytes and advance the RGBA cursor by 4 and the RGB cursor
   * by 3.
   */
  method ExpandRgb(rgb: seq<bv8>, rgba: array<bv8>, pixels: nat)
    requires |rgb| >= 3 * pixels && rgba.Length == 4 * pixels
    modifies rgba
    ensures rgba[..] == ExpandedRgb(rgb, old(rgba[..]), pixels)
  {
    ghost var uninit := rgba[..];
    var i, o, n := 0, 0, 0;
    while i < pixels
      invariant 0 <= i <= pixels && o == 4 * i && n == 3 * i
      invariant forall k :: 0 <= k < o ==> rgba[k] == Channel(rgb, uninit, pixels, k)
      invariant forall k :: o <= k < 4 * pixels ==> rgba[k] == uninit[k]
    {
      var j := 0;
      while j < 3
        invariant 0 <= j <= 3
        invariant forall k :: 0 <= k < o ==> rgba[k] == Channel(rgb, uninit, pixels, k)
        invariant forall k :: o <= k < o + j ==> rgba[k] == rgb[n + (k - o)]
        invariant forall k :: o + j <= k < 4 * pixels ==> rgba[k] == uninit[k]
      {
        rgba[o + j] := rgb[n + j];
        j := j + 1;
      }
      forall k | o <= k < o + 4
        ensures rgba[k] == Channel(rgb, uninit, pixels, k)
      {
        ChannelAt(rgb, uninit, pixels, i, k - o);
      }
      i, o, n := i + 1, o + 4, n + 3;
    }
  }

  /**
   * The CPU half of Texture::from_gltf_image. A 3-component image is copied
   * into a fresh buffer of width * height * 4 bytes; any other image is
   * passed on unchanged. `uninit` stands for the contents of the
   * uninitialised allocation. The mip level count is always 1.
   */
  method PrepareUpload(img: DocImage, uninit: seq<bv8>) returns (buffer: seq<bv8>, levels: nat)
    requires img.component == 3 ==>
      |img.data| >= 3 * (img.width * img.height) && |uninit| == 4 * (img.width * img.height)
    ensures levels == 1
    ensures img.component == 3 ==> buffer == ExpandedRgb(img.data, uninit, img.width * img.height)
    ensures img.component != 3 ==> buffer == img.data
  {
    if img.component == 3 {
      var pixels := img.width * img.height;
      var rgba := new bv8[4 * pixels](k requires 0 <= k < 4 * pixels => uninit[k]);
      assert rgba[..] == uninit;
      ExpandRgb(img.data, rgba, pixels);
      buffer := rgba[..];
    } else {
      buffer := img.data;
    }
    levels := 1;
  }

  /** The samplers load_texture_samplers appends for ss, in order. */
  function SamplersOf(ss: seq<DocSampler>): (r: seq<TextureSampler>)
    ensures |r| == |ss|
  {
    if ss == [] then [] else SamplersOf(ss[..|ss| - 1]) + [SamplerOf(ss[|ss| - 1])]
  }

  /** The k-th sampler appended is the one converted from the k-th glTF sampler. */
  lemma {:induction false} SamplersOfAt(ss: seq<DocSampler>, k: nat)
    requires k < |ss|
    ensures SamplersOf(ss)[k] == SamplerOf(ss[k])
  {
    if k < |ss| - 1 {
      SamplersOfAt(ss[..|ss| - 1], k);
    }
  }

  /** Every texture of ts names an image below ni and a sampler that exists (or none). */
  predicate TexturesRefsOk(ts: seq<DocTexture>, ni: nat, ns: nat) {
    forall k :: 0 <= k < |ts| ==> ts[k].source < ni && (ts[k].sampler == -1 || 0 <= ts[k].sampler < ns)
  }

  /** The textures load_textures appends for ts, in order: each with its image and its sampler. */
  function TexturesOf(ts: seq<DocTexture>, samplers: seq<TextureSampler>): (r: seq<Texture>)
    requires forall k :: 0 <= k < |ts| ==> ts[k].sampler == -1 || 0 <= ts[k].sampler < |samplers|
    ensures |r| == |ts|
  {
    if ts == [] then []
    else
      var t := ts[|ts| - 1];
      TexturesOf(ts[..|ts| - 1], samplers) + [Texture(t.source, SamplerFor(t, samplers))]
  }

  /** The k-th texture appended keeps the k-th glTF texture's image and resolves its sampler. */
  lemma {:induction false} TexturesOfAt(ts: seq<DocTexture>, samplers: seq<TextureSampler>, k: nat)
    requires forall j :: 0 <= j < |ts| ==> ts[j].sampler == -1 || 0 <= ts[j].sampler < |samplers|
    requires k < |ts|
    ensures TexturesOf(ts, samplers)[k].source == ts[k].source
    ensures TexturesOf(ts, samplers)[k].sampler == SamplerFor(ts[k], samplers)
  {
    if k < |ts| - 1 {
      TexturesOfAt(ts[..|ts| - 1], samplers, k);
    }
  }
}

=== FILE: wrappers.dfy ===
/** Option, the stand-in for a nullable pointer or an absent glTF field. */
module Wrappers {

  datatype Option<+T> = None | Some(value: T) {

    /** The contained value, or `default` when there is none. */
    function GetOr(default: T): T {
      match this
      case Some(v) => v
      case None => default
    }
  }
}
